=== FILE: README.md ===
# spreadsheet-tamer, modelled in Dafny

spreadsheet-tamer (with its older package `datagenius`) cleans messy
spreadsheet data. Under its pandas plumbing most of the logic is
deterministic work on strings, token lists and rows. This project models
that logic and proves what the code promises about it:

- column-label standardisation and the `Header` list kept in lock-step
  with its raw form;
- personal-name parsing (`Name`, both `Namestring` variants, `Nametoken`),
  a token-list rewriting pipeline over configurable word lists;
- small value utilities: whitespace cleaning, numeric-string
  classification, `ZeroNumeric`, Excel-style alpha keys, `tuplify`,
  `collect_by_keys`, `withinplus`, the `nullable` decorator;
- table operations on a frame of labels and rows: forward fill of clustered
  columns, header detection and purging, rejection of incomplete rows,
  reformatting and default filling, condition slicing and chunking for a
  join plan;
- guides, rules, schema columns and the pattern configuration.

Python's dynamic values are one datatype (`Values.Value`). A pandas frame is
a sequence of column labels plus a sequence of rows (`Frames.Frame`), with
row labels taken as positions. Raised exceptions are the `Err` side of a
`Result`. Configured word lists are parameters. So are the regular
expressions that come from configuration: a predicate
`(pattern, text) -> bool` stands for `re.match` being truthy. The regular
expressions fixed in the code are written out.

One module per source file. Modules shared by all of them: `Wrappers`
(Option, Result, the exception kinds), `Text` (characters and strings),
`Values` (the Python value model), `Seqs` (list operations such as
`list.remove`), `Frames` (tables).

## Model

| member | source | states |
|---|---|---|
| AltNames.FirstGroup | tamer/names/namestring.py:214-224 | the search for ` *\(.+\) *` finds nothing exactly when no position matches; otherwise the match starts at the leftmost matching position and ends after the first `)` and the spaces behind it (the lazy `.*?\) *` match), and the alternative name is that span with its parentheses deleted and whitespace stripped |
| AltNames.Leftmost | tamer/names/namestring.py:214-215 | the leftmost match of ` *\(.+\) *` starts at the beginning of the run of spaces in front of the first group that can match, and no earlier position matches |
| AltNames.ExtractLoop | tamer/names/namestring.py:218-230 | when the loop ends no group is left in the string; a string without a group comes back unchanged; a slot already filled is never overwritten; the first empty slot takes the current first group's content |
| AltNames.ExtractAltName | tamer/names/namestring.py:202-231 | no ` *\(.+\) *` match remains in the returned string; without a group the string comes back unchanged with (None, None); otherwise the first alternative is the first group's content and the second is the first group of what remains, and later groups are dropped |
| AltNames.OneGroup | tamer/names/namestring.py:225-229 | a string with exactly one group loses it, and its content becomes the first alternative with no second one |
| AltNames.WordsAround | tamer/names/namestring.py:229 | removing a group between two words leaves the two words joined by exactly one space |
| AltNames.SpacedAlt | tamer/names/namestring.py:223-224 | deleting the parentheses of ` (word) ` and stripping gives back the word |
| AltNames.NoGroup | tamer/names/namestring.py:214-215 | a string without `(` contains no group |
| AltNames.BobbyExample | tamer/names/namestring.py:214-231 | "Bob (Bobby) Smith" gives "Bob Smith" with the alternative "Bobby" and no second one |
| Clean.RejectIncompleteRows | datagenius/lib/clean.py:53-63 | a required label naming no column raises KeyError; otherwise the rejects are exactly the rows with a null in some required column and the kept rows exactly the others, both in their original order and together a permutation of the input, with the per-column non-null counts of the rejects as metadata |
| Clean.RejectPlacement | datagenius/lib/clean.py:54-61 | a row lands among the rejects exactly when it has a null in a required column, and among the kept rows exactly when it has none |
| Clean.RejectIdempotent | datagenius/lib/clean.py:54-62 | rejecting again from the kept rows rejects nothing and reports zero per column |
| Clean.RejectNothing | datagenius/lib/clean.py:54-62 | a frame without nulls in the required columns keeps every row |
| Decorators.Nullable | tamer/decorators.py:28-41 | with no positional argument the call raises IndexError; a first argument that is a collection or not null makes the result exactly the wrapped function's; a null scalar first argument returns `nan_return` |
| Decorators.NullableDefault | tamer/decorators.py:10-11 | used bare, a null scalar first argument gives NaN and any other call goes through |
| Decorators.NullSkipsCall | tamer/decorators.py:36-39 | for a null first argument the wrapped function is never consulted: any two functions give the same result, `nan_return` |
| Decorators.PassThroughIgnoresNanReturn | tamer/decorators.py:36-37 | when the call goes through, the configured `nan_return` does not affect the result |
| DgUtil.NonBlankCount | datagenius/util.py:3-14 | the count lies between 0 and the length, is 0 exactly when every entry is None or `''`, and equals the length exactly when none is |
| DgUtil.NonBlankCountAppend | datagenius/util.py:14 | the count of a concatenation is the sum of the counts |
| DgUtil.NonBlankCountFilter | datagenius/util.py:14 | the count equals the length of the list with None and `''` filtered out |
| Element.CheckRows | datagenius/element.py:32-36 | passes exactly when every row has the first row's length |
| Element.NewDataset | datagenius/element.py:27-46 | non-list data or a non-list first row raises ValueError, an empty list IndexError, rows of unequal length ValueError (TypeError for an unsized row); success exactly for a non-empty list of equal-length rows, giving header None, format 'lists' and the first row's length as `col_ct` |
| Element.NewDatasetRows | datagenius/element.py:29-39 | list rows of one common length always construct, and the dataset keeps them |
| Element.RowToDict | datagenius/element.py:118-120 | one row becomes an ordered dict whose keys are the header labels in first-appearance order; it fails exactly when the row cannot be indexed at some header position |
| Element.ToDicts | datagenius/element.py:111-124 | without a header raises AttributeError; on 'dicts' data it is the identity; on 'lists' data each row becomes its ordered dict, the format becomes 'dicts' and header and `col_ct` stay |
| Element.ToDictsIdempotent | datagenius/element.py:115-124 | converting to dicts twice is the same as once |
| Element.ToLists | datagenius/element.py:136-143 | on 'lists' data it is the identity; on 'dicts' data the header becomes the first row's keys and each row the list of its values, or IndexError when there is no first row |
| Element.DictsRoundTrip | datagenius/element.py:111-143 | with distinct header labels, one per column, converting to dicts and back restores the rows and the header |
| Element.Pop | datagenius/element.py:94-95 | `data.pop(k)` with Python's negative indexing: IndexError out of range, otherwise exactly that row is gone and everything else stays |
| Element.Remove | datagenius/element.py:94-100 | an int (or bool) key pops that index, a list key removes the first equal row or raises ValueError when absent, any other key raises ValueError; a success removes one row and changes nothing else |
| Element.RemoveAgree | datagenius/element.py:94-97 | removing by index and removing by the row at that index agree when no earlier row equals it |
| Element.Copy | datagenius/element.py:56-59 | the copy is a freshly constructed dataset on the same rows that takes over a non-empty header; a well-formed list dataset is copied exactly, and a dicts dataset fails construction with ValueError |
| Element.Apply | datagenius/element.py:227-231 | the result's target is the rule's `to`; its value is the argument unless it is None, which gives the default |
| Element.ApplyStable | datagenius/element.py:227-231 | applying a rule to its own output changes nothing, and the value is None exactly when the argument and the default both are |
| Element.GivenRules | datagenius/element.py:258-272 | fails with ValueError exactly when some key is outside the template or some value is neither a string nor a rule; otherwise every pair keeps its key, a string becomes a rule with that target and no default, and a rule is kept |
| Element.FillTemplate | datagenius/element.py:276-278 | the given rules come first unchanged, then one empty rule for each template key not yet present, in template order |
| Element.NewMapping | datagenius/element.py:251-278 | the construction fails with ValueError exactly when a rule is rejected; otherwise the given rules are kept, in order, and every remaining template key gets an empty rule |
| Element.GetRule | datagenius/element.py:280-290 | a lookup succeeds exactly for a key of the mapping and returns that key's rule; otherwise KeyError |
| Element.MappingCovers | datagenius/element.py:258-290 | every template key has a rule: the given one when the rules name it, the empty rule otherwise |
| GConfig.CategoryOf | datagenius/gconfig.py:170-173 | a keyword names at most one pattern category, and it finds the category whose attribute name it is |
| GConfig.PunctuationSpec | datagenius/gconfig.py:130 | `string.punctuation` has 32 characters, in increasing order, exactly the printable ASCII punctuation |
| GConfig.GetInvalidChars | datagenius/gconfig.py:130-133 | the removal of `& ' - .` leaves exactly the punctuation filtered by "not one of those four": 28 characters, each punctuation and none of the four, in increasing order |
| GConfig.FilterAllowed | datagenius/gconfig.py:131-132 | the four characters kept out of the invalid list are all punctuation, so the removals never raise |
| GConfig.NewPatterns | datagenius/gconfig.py:15-23 | every category except the invalid characters takes the loaded list under its name, or an empty list when the name is missing; the invalid characters are the 28 one-character strings of punctuation other than `& ' - .` |
| GConfig.MergeFiles | datagenius/gconfig.py:104-109 | the merged mapping holds exactly the keys of all files, and each key takes the list of the last file that has it |
| GConfig.Suffix | datagenius/gconfig.py:153 | `Path.suffix`: empty, or a dot followed by at least one dot-free character that ends the name, never the whole name |
| GConfig.LastDotSpec | datagenius/gconfig.py:153 | the last dot position is -1 exactly when there is no dot, and otherwise no dot follows it |
| GConfig.SuffixYaml | datagenius/gconfig.py:153 | ".yml" and ".yaml" names pass the suffix check whatever precedes the extension |
| GConfig.SuffixOther | datagenius/gconfig.py:153 | a ".csv" name fails the check, and so does a file named just ".yml", whose suffix is empty |
| GConfig.LoadCustomPattern | datagenius/gconfig.py:153-164 | a suffix other than .yml/.yaml raises ValueError; a loaded value that is not a mapping fails (AttributeError on `.values()`), a non-list value raises ValueError, and otherwise the mapping is returned as loaded |
| GConfig.UpdatePatterns | datagenius/gconfig.py:166-173 | the loop succeeds exactly when no keyword faults, and otherwise stops with the fault of the first faulting keyword; on success every category's list becomes its old list followed by the entries of every keyword reaching it (under its property name or the `_` name behind it), in keyword order, and a category no keyword reaches keeps its list |
| GConfig.GetAttrSpec | datagenius/gconfig.py:170 | `getattr` on a keyword finds the list of a category exactly for the property name and the `_` name of that category, private exactly when the keyword starts with `_`; the bound method exactly for `add_custom_pattern_file`; an unmodelled target exactly for the other `_` names |
| GConfig.PrivateKeyExtends | datagenius/gconfig.py:170-173 | a keyword `_c` extends the list of `c` exactly as the keyword `c` does (the in-place `+=` reaches the same list), appending the new entries; the keyword `add_custom_pattern_file` raises TypeError |
| GConfig.UpdateUnknown | datagenius/gconfig.py:169-173 | keywords that reach no list, and whose assignment shadows no method, change nothing |
| GConfig.Keywords | datagenius/gconfig.py:120 | the `**custom` call: a non-string key raises TypeError; otherwise the keywords are the loaded entries in order with their string lists |
| GConfig.AddCustomPatternFile | datagenius/gconfig.py:111-120 | a file that is not .yml/.yaml is rejected with ValueError; a success comes from a mapping of lists whose keywords update the patterns |
| GConfig.SetNameColumnLabels | datagenius/gconfig.py:205-220 | the setter succeeds exactly for a 5-tuple of strings and stores it; a value without a length raises TypeError, a length other than 5 raises ValueError before the type is looked at, a non-tuple or a non-string element raises ValueError; a rejected value leaves the configuration unchanged |
| GConfig.SetThenGet | datagenius/gconfig.py:196-216 | after storing a 5-tuple of strings the getter returns it and the patterns are untouched |
| GConfig.ConfigAddCustomPatternFile | datagenius/gconfig.py:222-232 | the configuration's method succeeds or fails exactly as the patterns' method does and changes only the patterns |
| TamerPatterns.Dedup | tamer/config/patterns.py:176 | `list(set(...))`: the same members, no repeats, never longer |
| TamerPatterns.DedupNoDup | tamer/config/patterns.py:176 | a list without repeats is kept as it is |
| TamerPatterns.UpdateOne | tamer/config/patterns.py:172-176 | a keyword touches only the list it finds, and only when that list is non-empty; the list then holds exactly its old entries and the new ones, without repeats when found under the property name, and extended in place with its repeats when found under the `_` name |
| TamerPatterns.TamerFault | tamer/config/patterns.py:172-174 | the `+=` faults with TypeError exactly for the public method's name and is unmodelled exactly for the other `_` names that find no list; every keyword finding a list or nothing is free of faults |
| TamerPatterns.UpdatePatterns | tamer/config/patterns.py:168-176 | the loop succeeds exactly when no keyword faults and otherwise stops with the first fault; on success an empty list stays empty, a list no keyword reaches is unchanged, a non-empty list holds exactly its old entries and everything the keywords reaching it add, and it has no repeats when the last keyword to touch it used the property name |
| TamerPatterns.KeyKinds | tamer/config/patterns.py:172-176 | on a non-empty list the property name extends and deduplicates while the `_` name extends in place keeping repeats; on an empty list both are skipped |
| TamerPatterns.OtherKeys | tamer/config/patterns.py:172-174 | `load_patterns` finds nothing and is skipped, where datagenius would shadow a method; `add_custom_pattern_file` raises TypeError |
| TamerPatterns.UpdateTwice | tamer/config/patterns.py:168-176 | a second update with keywords that succeeded once succeeds too, and gives every list the same members as the first |
| TamerPatterns.AddCustomPatternFile | tamer/config/patterns.py:113-122 | a file that is not .yml/.yaml is rejected with ValueError; a success comes from a mapping of lists whose keywords update the patterns |
| TamerPatterns.CustomFileCannotStartList | tamer/config/patterns.py:18-24 | a category missing from the pattern files starts empty and no custom file can fill it afterwards |
| Guides.DgTuplify | datagenius/lib/guides.py:30 | None stays None; any other value becomes a tuple by the `tuplify` rules |
| Guides.Lookup | datagenius/lib/guides.py:75-76 | a dict lookup is absent exactly when no entry has the key, and otherwise returns a value stored under it |
| Guides.Store | datagenius/lib/guides.py:30 | `data[k] = v`: an existing key keeps its place and takes the new value, a new key is appended, every other entry stays |
| Guides.StoreAll | datagenius/lib/guides.py:29-32 | storing a run of pairs keeps the keys distinct |
| Guides.StoreAllKeeps | datagenius/lib/guides.py:29-32 | every old key keeps its place, and each pair adds at most one entry |
| Guides.StoreLookup | datagenius/lib/guides.py:30 | after storing, the key reads the new value and every other key reads what it did before, with keys still distinct |
| Guides.StoreAllKeys | datagenius/lib/guides.py:29-32 | storing a run of pairs leaves the keys in first-insertion order: the old keys, then the new ones as they first appear |
| Guides.StoreAllLookup | datagenius/lib/guides.py:29-32 | after storing a run of pairs each key holds the value of its last assignment, or its old value when never assigned |
| Guides.NewCleaningGuide | datagenius/lib/guides.py:19-33 | the guide's keys are distinct, are the tuplified complex keys then the 1-tuples of the keyword names in first-insertion order, and are all tuples (or None for a None key) |
| Guides.Contains | datagenius/lib/guides.py:71 | `check in k` for a tuple key is membership under the given equality; a None key raises TypeError |
| Guides.Call | datagenius/lib/guides.py:58-73 | the result is the value of the first key, in insertion order, containing the argument; with no such key it is the argument itself; an error is a TypeError from a None key reached before any match |
| Guides.KeywordCall | datagenius/lib/guides.py:29-73 | a guide built from distinct keyword names maps each name to its value |
| Guides.DistinctFirstAppearances | datagenius/lib/guides.py:29-32 | distinct keys not seen before are all first appearances, in order |
| Guides.Convert | datagenius/lib/guides.py:47-56 | a guide is returned as it is; a dict with string keys becomes the guide of its keyword pairs (a non-string key raises TypeError in the `**` call); anything else raises ValueError |
| Guides.KeywordArgs | datagenius/lib/guides.py:50 | the `**` call passes one keyword per dict entry, in order, named by the entry's string key and carrying its value |
| Guides.ConvertThenCall | datagenius/lib/guides.py:47-73 | converting a dict with distinct string keys and calling the guide with one of them returns that key's value |
| Guides.GetItem | datagenius/lib/guides.py:75-76 | item lookup succeeds exactly for a stored key and returns its value; otherwise KeyError |
| Guides.NewSupplementGuide | datagenius/lib/guides.py:121-137 | conditions default to `{None: (None,)}` and every condition value is tuplified; an inexact guide without thresholds gets 0.9 per `on` column, and thresholds of another length raise ValueError; conditions that are not a dict fail with AttributeError; chunks start empty |
| Guides.TupleConditionsKept | datagenius/lib/guides.py:122-125 | conditions whose values are already tuples are kept as they are |
| Guides.InsertChunk | datagenius/lib/guides.py:139-140 | `list.insert` with Python's index clamping: the chunk lands at the clamped position, the others keep their order around it, and nothing else in the guide changes |
| Guides.GetChunk | datagenius/lib/guides.py:161-162 | reading a chunk follows Python's negative indexing and raises IndexError out of range |
| Guides.SetChunk | datagenius/lib/guides.py:164-165 | writing a chunk replaces only that position, raises IndexError out of range, and changes nothing else in the guide |
| Guides.DelChunk | datagenius/lib/guides.py:167-168 | deleting a chunk closes the gap, raises IndexError out of range, and changes nothing else in the guide |
| Guides.ChunkRoundTrips | datagenius/lib/guides.py:139-168 | reading a chunk just written returns it, and deleting a chunk just inserted restores the guide |
| Guides.Attribute | datagenius/lib/guides.py:158 | `getattr` on a guide: "on", "conditions" and "chunks" read those fields; a method name is not modelled; another name raises AttributeError |
| Guides.OutputAttrs | datagenius/lib/guides.py:155-159 | no arguments give `(on, conditions)`; one name gives that attribute bare; several give a tuple of them in order; a bad name fails |
| Guides.NewRedistributionGuide | datagenius/lib/guides.py:196-204 | construction succeeds exactly for the modes overwrite, append and fillna and keeps the patterns and destination; other modes raise ValueError |
| Guides.Redistribute | datagenius/lib/guides.py:216-219 | the argument comes back when some pattern is found in its text and NaN comes back when none is |
| Guides.RedistributeTwice | datagenius/lib/guides.py:216-219 | a value the guide keeps is kept again, and keeping a value other than NaN needs at least one pattern |
| Header.StandardizeLabel | tamer/header.py:114-118 | a cleaned label has no punctuation other than `_`, no space, no upper-case letter and no surrounding whitespace |
| Header.StandardizeLabelAsWritten | tamer/header.py:114-118 | the cleaning as written agrees with the intended one on every label without a backslash |
| Header.CleanAll | tamer/header.py:115-118 | every label is cleaned on its own, position by position |
| Header.CleanAllStandard | tamer/header.py:115-118 | each cleaned label is standard: no punctuation but `_`, no space, no upper-case letter, no surrounding whitespace |
| Header.CleanedIsStandard | tamer/header.py:116-118 | deleting punctuation, stripping, turning space runs into `_` and lower-casing yields a standard label |
| Header.StandardFixpoint | tamer/header.py:114-118 | a standard label is left exactly as it is |
| Header.StandardizeLabelIdempotent | tamer/header.py:114-118 | cleaning a cleaned label changes nothing |
| Header.BackslashSurvives | tamer/header.py:114-117 | as written, the character class keeps the backslash ("a\b" stays "a\b"), while the intended cleaning gives "ab" |
| Header.SuffixStandard | tamer/header.py:95 | appending `_n` to a standard label keeps it standard |
| Header.EnforceUniquesLoop | tamer/header.py:92-99 | the length is kept; a first occurrence is unchanged; the k-th repeat of `v` (k counted from 1) becomes `"v_k"` |
| Header.EnforceUniques | tamer/header.py:92-99 | the renamed list has the length of the input |
| Header.EnforceUniquesRenames | tamer/header.py:92-99 | a label changes exactly when an equal label comes before it, and a changed label still starts with the original |
| Header.EnforceUniquesDistinct | tamer/header.py:119-120 | a list without duplicates is returned unchanged |
| Header.EnforceUniquesPrefix | tamer/header.py:92-99 | the renaming of a prefix depends only on that prefix |
| Header.EnforceUniquesStandard | tamer/header.py:95 | renaming keeps every label standard |
| Header.Standardize | tamer/header.py:102-121 | the list length is kept and every label comes out standard; a label `str()` cannot render (outside the model) fails; the labels are cleaned with the corrected `StandardizeLabel` of "## Findings", which also removes the backslash |
| Header.StandardizeRenames | tamer/header.py:113-121 | standardising is cleaning every label and then renaming repeats |
| Header.Unpack | tamer/header.py:16-17 | a single argument is itself the label sequence; several arguments are the labels |
| Header.Init | tamer/header.py:7-19 | `original_form` is the unpacked labels and the header is their standardisation, so both have the same length; a non-iterable single argument raises TypeError; built on the corrected `StandardizeLabel` of "## Findings" |
| Header.Append | tamer/header.py:31-40 | the raw value is appended to `original_form` and the header is the standardisation of the old header plus the value; the lists stay in lock-step; built on the corrected `StandardizeLabel` of "## Findings" |
| Header.AppendKeepsLabels | tamer/header.py:38-40 | appending to a header of distinct standard labels keeps every existing label as it is and adds one |
| Header.DelItem | tamer/header.py:134-137 | the same position leaves both lists, with Python's negative indexing, and the removed standard label is returned; IndexError out of range |
| Header.Pop | tamer/header.py:42-58 | a key at or past the length raises IndexError; otherwise that position leaves both lists and its standard label is returned |
| Header.Remove | tamer/header.py:60-77 | the value's first position in the header is removed from both lists, else its first position in `original_form`, else ValueError; the other entries keep their order |
| Header.SetItem | tamer/header.py:129-132 | `original_form[k]` takes the raw item and the header is the standardisation of the header with the item at `k`; the lists stay in lock-step; IndexError out of range; built on the corrected `StandardizeLabel` of "## Findings" |
| Header.SetItemRenamesClash | tamer/header.py:129-132 | setting a label that cleans to an earlier existing label gives it the `_1` suffix |
| IterUtils.BroadcastAffix | tamer/iterutils.py:34-40 | the length is kept; position 0 prepends the affix to every string, position -1 appends it, and any other position leaves every string as it is |
| IterUtils.BroadcastPrefixInverse | tamer/iterutils.py:36-40 | cutting the affix off the front of each prefixed string gives back the original |
| IterUtils.BroadcastSuffixInverse | tamer/iterutils.py:37-40 | cutting the affix off the end of each suffixed string gives back the original |
| IterUtils.CollectByKeys | tamer/iterutils.py:94-98 | the result holds exactly the entries whose key is among the keys, with their values |
| IterUtils.CollectByKeysAppend | tamer/iterutils.py:95-97 | collection works entry by entry, so it keeps the entries' order |
| IterUtils.CollectAllKeys | tamer/iterutils.py:94-98 | when every key is requested the mapping comes back unchanged |
| IterUtils.Key | tamer/iterutils.py:115-120 | key i is one capital letter below 26 and two capital letters from 26 up to 701 |
| IterUtils.DecodeKeyInverse | tamer/iterutils.py:115-120 | every key decodes back to its position |
| IterUtils.DecodeKey | tamer/iterutils.py:115-120 | a name that decodes at all decodes to a position below 702 whose key is that very name |
| IterUtils.KeysDistinct | tamer/iterutils.py:115-120 | different positions have different keys |
| IterUtils.KeysOrder | tamer/iterutils.py:115-120 | the first 26 keys are "A".."Z"; from 26 on, the first letter counts the blocks of 26 and the second runs A..Z within a block ("AA","AB",…) |
| IterUtils.GenAlphaKeys | tamer/iterutils.py:101-121 | a negative count gives no keys; a count below 702 gives exactly that many keys, key i at position i; from 702 up the root letter runs out and IndexError is raised |
| IterUtils.GenAlphaKeysPrefix | tamer/iterutils.py:115-120 | the keys for n are a prefix of the keys for any larger m |
| IterUtils.GenAlphaKeysLoop | tamer/iterutils.py:113-121 | the nested loops compute exactly the keys described above |
| IterUtils.Tuplify | tamer/iterutils.py:124-144 | a tuple is returned as it is, a dict becomes the tuple of its (key, value) pairs in order, a list becomes the tuple of its elements, a string or non-iterable becomes a 1-tuple |
| IterUtils.TuplifyIdempotent | tamer/iterutils.py:135-144 | tuplifying twice is tuplifying once |
| IterUtils.TuplifyIterable | tamer/iterutils.py:147-170 | a dict keeps its keys and order and tuplifies each value; a list keeps its length and tuplifies each element; a non-empty string or tuple fails on item assignment and a non-iterable raises TypeError |
| IterUtils.TuplifyIterableIdempotent | tamer/iterutils.py:164-170 | applying it twice is applying it once |
| IterUtils.WithinPlus | tamer/iterutils.py:190-201 | no values give False; the result is True exactly when some value hits: a string value is searched for in the text of some element, any other value is an element |
| IterUtils.WithinPlusMembership | tamer/iterutils.py:197-200 | without string values the result is plain membership of some value |
| Names.StandardizeHyphen | datagenius/names/name.py:338-340 | the result is no longer than the input, a string without hyphens is unchanged, and only spaces are ever removed (the non-space characters stay in order) |
| Names.HyphenExample | datagenius/names/name.py:326-340 | "a - b" becomes "a-b": the second replacement catches the space the first one left |
| Names.StandardizeCaps | datagenius/names/name.py:319-323 | the first character is upper-cased, the rest is kept, and only letter case can change |
| Names.StandardizeCapsIdempotent | datagenius/names/name.py:319-323 | capitalising twice is capitalising once |
| Names.FormatCamelcase | datagenius/names/name.py:212-217 | a hump position past the end raises IndexError; otherwise the prefix is kept, the hump letter is upper-cased, the rest is kept, and at the end of the string nothing changes |
| Names.SearchAndSplit | datagenius/names/name.py:299-306 | without the separator the string is unchanged; with it, the pieces are each capitalised and rejoined, only letter case changes and the length is kept |
| Names.SearchAndSplitPieces | datagenius/names/name.py:299-306 | the result splits on the separator into exactly the capitalised pieces of the input, and the separators sit at the same positions |
| Names.FindHump | datagenius/names/name.py:235 | the position found is the first one at or after the start where the particle occurs followed by a lower-case letter, and None means no such position exists |
| Names.Camelcase | datagenius/names/name.py:234-237 | the particle loop keeps the length and changes only letter case |
| Names.ManageCases | datagenius/names/name.py:220-243 | the whole case management keeps the length, changes only letter case, and leaves the first character upper-case unless it is not a letter |
| Names.DeleteTwice | datagenius/names/name.py:168-170 | deleting one class of characters and then another is deleting their union in one pass |
| Names.ReplaceCharIsDelete | datagenius/names/name.py:169 | replacing a one-character string by "" deletes exactly that character |
| Names.CleanseInvalidChars | datagenius/names/name.py:153-170 | each configured entry, of any length, is replaced by "" in turn, so the text never grows; when every entry is one character, the loop deletes exactly the configured characters and keeps the others in order |
| Names.CleanseNothing | datagenius/names/name.py:168-170 | a text in which no configured entry occurs is returned unchanged |
| Names.MultiCharEntry | datagenius/names/name.py:168-170 | a two-character entry "--" removes the pair and leaves a single "-": "a--b-" becomes "ab-" |
| Names.CleanseInvalidWord | datagenius/names/name.py:187-197 | removing the invalid words one `remove` at a time leaves the valid words of the input, in order, joined by single spaces |
| Names.CleanseInvalidWordWords | datagenius/names/name.py:187-197 | when a word survives, the result splits back into exactly the valid words, so no invalid word remains |
| Names.CleanseInvalidWordAllInvalid | datagenius/names/name.py:194-197 | no word survives exactly when every word is invalid, and then the result is "" |
| Names.Apply | datagenius/names/name.py:114-118 | the operation keeps the number of tokens, and a token is None after it exactly when it was None before |
| Names.LoopNameList | datagenius/names/name.py:102-124 | the intended loop never grows the list, keeps no "" result, and keeps a list free of None free of None |
| Names.LoopAsWritten | datagenius/names/name.py:113-124 | as written: results are written back except "", then each dropped token is removed by value with `list.remove` (its first equal entry) |
| Names.PickKept | datagenius/names/name.py:119-122 | the written-back entries at the kept positions are exactly the kept results |
| Names.LoopAgrees | datagenius/names/name.py:113-124 | when no earlier kept entry equals a dropped token, the written loop gives the same slots and list as the intended one |
| Names.ApplyLift | datagenius/names/name.py:114-118 | an operation that only rewrites the token maps every token through it and leaves the slots alone |
| Names.ApplyOutputs | datagenius/names/name.py:114-118 | an operation whose output depends only on the token and its index produces, at each position, the output for that token and index |
| Names.LoopLift | datagenius/names/name.py:102-124 | for a slot-free operation the loop is "map every token, then drop the empty results" |
| Names.Validate | datagenius/names/name.py:126-151 | only `valid` changes; the name stays valid exactly when it was valid, has no digit in the `repr` of its token list, has at least two tokens and, in the final check, has `fname` and `lname` that are not both one character |
| Names.ReprDigitTable | datagenius/names/name.py:135 | among the characters up to U+00FF, the `repr` of a token shows a digit exactly for the ASCII digits, the control characters below U+0020 other than tab, newline and carriage return, and U+007F through U+00A0 |
| Names.NbspInvalidates | datagenius/names/name.py:135 | a non-breaking space inside a token, written `\xa0` by `repr`, makes the name invalid where a plain space would not |
| Names.DoOperations | datagenius/names/name.py:69-78 | an invalid name is returned untouched, validity is never regained, the original is kept, no None appears, and a name still valid after a non-empty run passed the first validation; each operation runs through the corrected token loop of "## Findings", which removes by position |
| Names.StopsWhenInvalid | datagenius/names/name.py:73-78 | a name with a digit or fewer than two tokens stops at the first validation, with its tokens unchanged |
| Names.Normalize | datagenius/names/name.py:90-91 | the normalised input has no upper-case letter and is no longer than the input |
| Names.IntakeItems | datagenius/names/name.py:93-100 | a list intake succeeds exactly when each item is null or a string; nulls become None and strings are normalised, position by position |
| Names.Intake | datagenius/names/name.py:80-100 | a string becomes normalised tokens with no space inside any of them; a list or tuple goes item by item; a non-iterable raises TypeError |
| Names.IntakeJoin | datagenius/names/name.py:89-91 | joining the tokens of a string with single spaces gives back the normalised string |
| Names.NewName | datagenius/names/name.py:13-58 | construction fails exactly when intake fails, keeps the original value, yields no None token for a string input, and a name still valid had digit-free intake tokens, at least two of them; built on the corrected token loop of "## Findings" |
| Names.BaseAllocate | datagenius/names/name.py:60-67 | fewer than three tokens raise IndexError; otherwise the first, second and third tokens fill `fname`, `mname` and `lname` and no other slot changes |
| Names.Components | datagenius/names/name.py:276-281 | the list has five or ten entries; ten exactly when both `fname2` and `lname2` are non-empty or the caller forces it; the first five are the first name's components and the last five the second's |
| Names.ComponentsReadBack | datagenius/names/name.py:276-281 | reading the list back by position recovers the first name's five components, and all of the second name's when they were listed; when they were not, the list carries no second first name to read back |
| Namestrings.OfferAll | datagenius/names/namestring.py:78-81 | an empty pair offered a list of strings ends up holding the first one, then the second; a full pair never changes |
| Namestrings.AssignAffix | datagenius/names/namestring.py:57-84 | a token matching a prefix or a suffix is removed (""), and otherwise kept; a prefix match is offered to (`prefix`, `prefix2`) and a suffix match to (`suffix`, `suffix2`); no other slot changes |
| Namestrings.AffixPrefixes | datagenius/names/namestring.py:73-84 | over the whole token list the prefix pair receives the prefix tokens in order, the first two filling `prefix` and `prefix2` |
| Namestrings.AffixTokensRemoved | datagenius/names/namestring.py:73-84 | a token is dropped exactly when it is "" or matches a prefix or a suffix; the rest stay in order |
| Namestrings.MiddleInitials | datagenius/names/namestring.py:114-143 | an initial after the first position is dropped and joins the chain (a bare letter gains "."); the next word with a letter closes the chain into `mname` (first cluster) or `mname2` (second) and counts the cluster; the first token and letter-free tokens change nothing |
| Namestrings.MiddleInitialsKeep | datagenius/names/namestring.py:127-143 | over a list without "" tokens, the intended loop keeps the first token and removes exactly the later initials |
| Namestrings.FilterMatches | datagenius/names/namestring.py:129-134 | dropping the "" results of the initials operation is filtering out the initials |
| Namestrings.InitialsIntended | datagenius/names/namestring.py:114-143 | the intended loop on "B. Smith B." removes the trailing initial, giving "B. Smith" |
| Namestrings.InitialsOutputs | datagenius/names/namestring.py:128-134 | on "B. Smith B." the operation keeps the first two tokens and empties the third |
| Namestrings.RemoveFirstInitial | datagenius/names/name.py:123-124 | `remove("B.")` on "B. Smith B." deletes the first "B." |
| Namestrings.InitialsAsWritten | datagenius/names/name.py:113-124 | as written, "B. Smith B." loses its first token instead of its last and comes out as "Smith B." |
| Namestrings.SplitPoint | datagenius/names/namestring.py:94-103 | the split point is the last ampersand after the first token, and there is none exactly when no ampersand follows the first token |
| Namestrings.AmpersandSplit | datagenius/names/namestring.py:86-112 | the halves are set exactly when a split point exists, and the list never grows |
| Namestrings.AmpersandsRemoved | datagenius/names/namestring.py:104-106 | every ampersand leaves the token list and every other token stays, in order |
| Namestrings.OneAmpersand | datagenius/names/namestring.py:86-112 | a single ampersand after the first token splits the name into the tokens before and after it; as the first token it is only removed |
| Namestrings.Merged | datagenius/names/namestring.py:152-159 | each token whose pair with the next is a compound first name becomes the pair, judged on the original tokens; the others stay |
| Namestrings.Absorbed | datagenius/names/namestring.py:153-159 | a position is absorbed exactly when it and the token before it form a compound |
| Namestrings.MergeFnames | datagenius/names/namestring.py:152-161 | when every removal succeeds, the list shrinks by exactly the number of absorbed tokens |
| Namestrings.PickPairs | datagenius/names/namestring.py:152-159 | without chains of compounds, the non-absorbed entries of the merged list are the intended left-to-right pairing |
| Namestrings.MultiFnamePairs | datagenius/names/namestring.py:145-161 | without chains, and when no earlier entry equals an absorbed token, each compound pair becomes one token and all else stays in order |
| Namestrings.MultiFname | datagenius/names/namestring.py:145-161 | `manage_multi_fname` fails only with the ValueError of a `remove`, and never lengthens the list |
| Namestrings.ChainedCompounds | datagenius/names/namestring.py:152-161 | a chain of two compounds overwrites the middle token before it is removed, so `remove` raises ValueError |
| Namestrings.Absorb | datagenius/names/namestring.py:175-180 | the inner loop adds the same tokens to the absorbed list and to the chain |
| Namestrings.Scan | datagenius/names/namestring.py:170-182 | the outer loop keeps the length of the list |
| Namestrings.ScanSkip | datagenius/names/namestring.py:172-173 | positions that start no last name leave the loop state alone |
| Namestrings.NoParticle | datagenius/names/namestring.py:163-184 | with no particle in the list, the list comes back unchanged |
| Namestrings.AbsorbRun | datagenius/names/namestring.py:175-180 | a run of distinct, not yet absorbed particles followed by a non-particle is absorbed in one go, up to and including that non-particle |
| Namestrings.RunAbsorb | datagenius/names/namestring.py:175-180 | after the first particle of a single run, the inner loop takes the rest of the run and the token after it |
| Namestrings.RunNoMoreStarts | datagenius/names/namestring.py:172-173 | after a single run, no later position starts another last name |
| Namestrings.RunScan | datagenius/names/namestring.py:170-182 | over a single run, the first particle gets the joined rest of the run and the token after it; those tokens are the absorbed ones |
| Namestrings.RunMarked | datagenius/names/namestring.py:183-184 | only the run is marked for removal, and no entry in front of a run token equals it |
| Namestrings.RunRemove | datagenius/names/namestring.py:183-184 | removing the absorbed tokens from the rewritten list cuts out exactly the run |
| Namestrings.ParticleRun | datagenius/names/namestring.py:163-184 | a single run of particles makes its first token the whole last name, up to and including the first non-particle, and the absorbed tokens leave the list |
| Namestrings.TwoParticlesScan | datagenius/names/namestring.py:170-182 | with two separate particles, the second chain still holds the first particle's token unless the chain is emptied at each particle |
| Namestrings.TwoParticles | datagenius/names/namestring.py:163-184 | as written the second last name also carries the first particle's token; with the chain emptied at each particle it does not |
| Namestrings.MultiLnameAsWritten | datagenius/names/namestring.py:163-184 | `manage_multi_lname` as written fails only with the ValueError of a `remove`, never lengthens the list, and returns a list without particles unchanged |
| Namestrings.MultiLname | datagenius/names/namestring.py:163-184 | with the chain emptied at each particle the same holds: failures are ValueError, the list never grows, and a list without particles is unchanged |
| Namestrings.ParticlesAsWritten | datagenius/names/namestring.py:170-184 | as written, "Ana De Sa Van Dyk" (particles "de" and "van") becomes "Ana", "De Sa", "Van Sa Dyk" |
| Namestrings.ParticlesIntended | datagenius/names/namestring.py:170-184 | with the chain emptied at each particle, the same name becomes "Ana", "De Sa", "Van Dyk" |
| Namestrings.From | datagenius/names/namestring.py:44 | Python's `xs[i:]`: the tail from i, or empty past the end |
| Namestrings.AllocateFrom | datagenius/names/namestring.py:28-55 | an empty first half or an empty second half raises IndexError; otherwise `fname` is the first token; with more than two tokens the second is `mname` unless one is set and the rest is `lname`; with two the second is `lname`; the second half fills the name2 slots the same way and stands in for a missing `lname`; no other slot changes |
| Namestrings.AllocateAsWritten | datagenius/names/namestring.py:28-55 | `_allocate` as written fails with IndexError exactly when the first half or a present second half is empty; with two or more tokens in the first half its last name is joined from the whole `name_list` past the first one or two tokens |
| Namestrings.Allocate | datagenius/names/namestring.py:28-55 | the intended allocation fails exactly as the written one does; `fname` is the first token of the first half, and with two or more tokens the last name is joined from that half alone, past its first one or two tokens |
| Namestrings.AllocateAgrees | datagenius/names/namestring.py:33-44 | without an ampersand split, the allocation as written and the intended one agree |
| Namestrings.AllocateCovers | datagenius/names/namestring.py:33-44 | with three or more tokens and no middle name set, first, middle and last name joined give the first half back |
| Namestrings.AllocateAsWrittenTwo | datagenius/names/namestring.py:41-44 | as written, a two-token first half takes its last name from the whole list; the intended allocation takes its second token |
| Namestrings.AllocateParr | datagenius/names/namestring.py:41-55 | "Bob Parr and Helen Parr": as written the first last name is "Parr Helen Parr"; intended it is "Parr", with "Helen" and "Parr" in the second name |
| Namestrings.Strings | datagenius/names/namestring.py:96-97 | the token values, position by position |
| Namestrings.Tokens | datagenius/names/name.py:135 | a list of strings as present tokens, position by position |
| Namestrings.Base | datagenius/names/namestring.py:17-20 | building from a string keeps the original and leaves no None token; built on the corrected token loop of "## Findings" |
| Namestrings.NewNamestring | datagenius/names/namestring.py:9-26 | the only failure is a ValueError from a `remove`; an invalid name keeps its tokens unsplit; a valid one has its compound first names and particles merged and its ampersands removed; built on the corrected token loop and the corrected particle chain of "## Findings" |
| Namestrings.NothingToMerge | datagenius/names/namestring.py:23-26 | a valid name without compound first names, particles or ampersands keeps its tokens, unsplit |
| Namestrings.ToList | datagenius/names/name.py:261-281 | `to_list` fails exactly when allocation does, with IndexError; the list is the allocated components, whose first name is the first token of the first half; validity also requires no digit, two tokens and both required names; allocates with the corrected `Allocate` of "## Findings" |
| NamestringsTamer.MergeCounted | tamer/names/namestring.py:161-172 | the only failure of the merging pass is a ValueError from a `remove` |
| NamestringsTamer.TamerMultiFname | tamer/names/namestring.py:154-172 | `manage_multi_fname` fails only with ValueError |
| NamestringsTamer.AbsorbedPick | tamer/names/namestring.py:166-170 | when no pair matches two patterns, the values absorbed from position k on are the second tokens of the compound pairs there |
| NamestringsTamer.SingleMatchesAgree | tamer/names/namestring.py:161-172 | when no pair matches more than one pattern, the pattern-loop version merges exactly as the single-test version does |
| NamestringsTamer.TamerFnamePairs | tamer/names/namestring.py:161-172 | without chains, with single matches and with unambiguous removals, each compound pair becomes one token and all else stays in order |
| NamestringsTamer.TwoPatternsOnePair | tamer/names/namestring.py:166-172 | a pair matched by two patterns is absorbed twice, and the second `remove` raises ValueError |
| NamestringsTamer.MergeParticles | tamer/names/namestring.py:182-199 | the only failure of the particle merge is a ValueError from a `remove` |
| NamestringsTamer.TamerMultiLnameAsWritten | tamer/names/namestring.py:174-199 | `manage_multi_lname` as written fails only with ValueError and returns a list no particle pattern matches unchanged |
| NamestringsTamer.TamerMultiLname | tamer/names/namestring.py:174-199 | with the start compared against None, failures are still ValueError and a list no particle pattern matches is still unchanged |
| NamestringsTamer.ScanQuiet | tamer/names/namestring.py:184-194 | tokens no pattern matches, before any start, leave the loop state alone |
| NamestringsTamer.ScanStarted | tamer/names/namestring.py:189-194 | once a start is recorded, every later token joins the chain |
| NamestringsTamer.NoParticleTokens | tamer/names/namestring.py:175-199 | with no token matching a particle pattern, the list comes back unchanged |
| NamestringsTamer.ScanFirst | tamer/names/namestring.py:184-194 | the loop records the first matching position and chains every token from it on |
| NamestringsTamer.FirstParticle | tamer/names/namestring.py:175-199 | with distinct tokens and the first match at a recorded start, everything from the match on is joined into one last-name token in its place |
| NamestringsTamer.LeadingParticle | tamer/names/namestring.py:191-198 | a particle only at index 0: as written the start 0 counts as unset, so the particle is removed and nothing is inserted; with the start compared with None the whole list is joined |
| NamestringsTamer.VanMorrison | tamer/names/namestring.py:182-199 | ["Van", "Morrison"]: as written the result is ["Morrison"]; corrected it is ["Van Morrison"] |
| NamestringsTamer.FillAlt | tamer/names/namestring.py:22-25 | an alternative name fills its slot, case-managed, exactly when it is non-empty and the slot is empty; nothing else changes |
| NamestringsTamer.FillAltOnce | tamer/names/namestring.py:22-25 | filling the alternative names a second time changes nothing |
| NamestringsTamer.TamerBase | tamer/names/namestring.py:17-21 | the name is built from the string with the alternative names taken out, by the base and whole-string operations; built on the corrected token loop of "## Findings" |
| NamestringsTamer.MergeHalf | tamer/names/namestring.py:31-36 | an empty or missing half is left alone; a present half stays present; failures are ValueError; merges with the corrected `TamerMultiLname` of "## Findings" |
| NamestringsTamer.NewNamestringTamer | tamer/names/namestring.py:9-36 | the only failure is ValueError; an invalid name keeps its tokens unsplit; a valid one has halves exactly when an ampersand follows the first token; built on the corrected token loop and the corrected `TamerMultiLname` of "## Findings" |
| NamestringsTamer.HalvesUnmerged | tamer/names/namestring.py:28-36 | with no particle match, the halves are the plain ampersand split while compound first names are merged in the full list only |
| NamestringsTamer.ParseTokens | tamer/names/namestring.py:28-36 | after the base operations: an invalid name keeps its tokens unsplit; a valid one has halves exactly when an ampersand follows the first token; failures are ValueError; merges with the corrected `TamerMultiLname` of "## Findings" |
| Nametokens.TrailingInitialAsWritten | datagenius/names/nametoken.py:84-93 | without a trailing initial on the first token the token and slots are unchanged |
| Nametokens.TrailingInitial | datagenius/names/nametoken.py:71-93 | on the first token with two or more words ending in an initial, the initial becomes `mname` and the token followed by a space and the initial rebuilds the original; otherwise nothing changes |
| Nametokens.TrailingInitialAgrees | datagenius/names/nametoken.py:87-92 | when the initial does not occur earlier in the token, the written `remove` and dropping the last word agree |
| Nametokens.RepeatedInitial | datagenius/names/nametoken.py:87-93 | "a b a": as written the leading "a" is removed and "b a" remains; corrected, "a b" remains; both put "a" in `mname` |
| Nametokens.FirstAmpersand | datagenius/names/nametoken.py:55-59 | the index found holds an ampersand word and no earlier word is one; None means no word is one |
| Nametokens.StoreName2 | datagenius/names/nametoken.py:63-68 | position 0 sets `fname2`, 1 `mname2`, any later one `lname2` |
| Nametokens.TokenAmpersand | datagenius/names/nametoken.py:38-69 | without an ampersand word the token is unchanged; otherwise the words before the first ampersand stay and the words after it go to the second-name slot the position selects |
| Nametokens.AmpersandRebuilds | datagenius/names/nametoken.py:54-69 | with words on both sides, the kept words, the ampersand and the second-name part rebuild the token |
| Nametokens.NewNametoken | datagenius/names/nametoken.py:8-21 | construction fails exactly when intake fails, keeps the original, and a valid result had digit-free intake tokens, at least two of them; built on the corrected `TrailingInitial` and token loop of "## Findings" |
| Nametokens.AllocateToken | datagenius/names/nametoken.py:23-36 | an empty list raises IndexError; `fname` is the first token; three tokens give `mname` (unless set) and `lname`, two give `lname`; a second first name without a last name takes the first's; nothing else changes |
| Nametokens.AllocateTokenAsBase | datagenius/names/nametoken.py:28-32 | with three tokens and no middle name or second name pending, the allocation is the base one: first, middle, last |
| Nametokens.TokenToList | datagenius/names/name.py:261-281 | `to_list` fails exactly on an empty list; the result is the allocated components, the first name being the first token; validity also needs no digit, two tokens and both required names |
| Preprocessor.CountTrueStr | tests/strings/util_test.py:19-28 | the count of non-empty string cells never exceeds the row's length |
| Preprocessor.CountTrueStrFull | tamer/resolvers/preprocessor.py:39 | the header test `count_true_str(x) == len(x)` holds exactly for rows made only of non-empty strings |
| Preprocessor.FirstHeaderRow | tamer/resolvers/preprocessor.py:39-40 | the position found is the first row passing the header test; None exactly when no row passes |
| Preprocessor.DetectHeader | tamer/resolvers/preprocessor.py:35-45 | a non-empty manual header replaces the labels (ValueError on a length mismatch); otherwise the first all-string row, standardised, becomes the labels and is removed, the other rows keeping their order, and its position is returned; the detected row is standardised with the corrected `StandardizeLabel` of "## Findings" |
| Preprocessor.PurgePreHeader | tamer/resolvers/preprocessor.py:64-74 | a missing or zero index returns the frame alone; a positive index splits off the rows above it as rejects with their per-column non-null counts; an index past the end raises KeyError; a negative one drops nothing |
| Preprocessor.DetectThenPurge | tamer/resolvers/preprocessor.py:35-72 | detecting then purging at the detected position leaves exactly the rows below the header row and rejects exactly the rows above it |
| Schema.OrEmpty | tamer/schema.py:32-35 | an omitted list argument becomes the empty list; a given one is kept |
| Schema.NewColumn | tamer/schema.py:12-35 | the column keeps its type, label and flags; valid values or patterns clear both invalid lists, so a column never has both kinds |
| Schema.SetLabel | tamer/schema.py:41-46 | the label setter accepts exactly strings, raising ValueError otherwise, and changes nothing but the label |
| Schema.AnyEqual | tamer/schema.py:57 | membership holds exactly when some element is equal |
| Schema.AnyMatch | tamer/schema.py:59-61 | some pattern is found in the text exactly when one of them matches |
| Schema.Evaluate | tamer/schema.py:52-74 | a required null and a value of the wrong type are rejected; an accepted value has the type and equals no invalid value |
| Schema.MoreInvalidValuesStricter | tamer/schema.py:57-58 | adding an invalid value can only turn an acceptance into a rejection |
| Schema.TypeOnly | tamer/schema.py:52-74 | a column with nothing but a type accepts exactly the instances of that type |
| Schema.NewSchema | tamer/schema.py:78-81 | every column of a schema takes its keyword as label, in keyword order |
| Schema.SchemaKeepsEvaluation | tamer/schema.py:78-81 | labelling a column does not change what it accepts |
| Reformat.Targets | datagenius/lib/reformat.py:33-38 | a string value names one column and any iterable names its elements; anything else raises TypeError |
| Reformat.TargetTexts | datagenius/lib/reformat.py:37-41 | the metadata text can be built exactly when every target is a string; otherwise TypeError |
| Reformat.Put | datagenius/lib/reformat.py:34 | assigning a column sets every column carrying that label and adds the label at the end when missing; other columns keep their source |
| Reformat.PutAll | datagenius/lib/reformat.py:38-39 | after the targets of one entry, the labels are the old ones followed by the targets' first appearances, and exactly the targeted columns take the entry's source |
| Reformat.MdSet | datagenius/lib/reformat.py:35 | setting a metadata cell sets every column of that label, or appends the label when it is missing |
| Reformat.InitialMd | datagenius/lib/reformat.py:31 | the initial metadata row has the frame's labels, each with its column's non-null count |
| Reformat.Step | datagenius/lib/reformat.py:32-41 | one mapping entry succeeds exactly when its source is a single column and its value a string or an iterable of strings; the errors are TypeError, KeyError or an unmodelled case |
| Reformat.Process | datagenius/lib/reformat.py:30-41 | the mapping loop succeeds exactly when every entry does, and its result agrees with the reference reading: each column takes the source of the last entry naming it |
| Reformat.StepReached | datagenius/lib/reformat.py:32-41 | one pass of the loop keeps the state in line with the reference reading |
| Reformat.FirstAppearancesAppend | datagenius/lib/reformat.py:34-39 | the labels added for a concatenation of targets are those of the first part, then those of the second not yet present |
| Reformat.ReformatDf | datagenius/lib/reformat.py:7-43 | the result has the standardised template labels followed by the new targets, as many rows as the source once anything is mapped, and each cell is the source cell of the last entry naming the column; the metadata keeps each source's count or its last mapping text; the original template is returned |
| Reformat.Rows | datagenius/lib/reformat.py:34-39 | once a column is assigned the frame has every source row, each cell read through its column's source or NaN |
| Reformat.SourceLast | datagenius/lib/reformat.py:32-39 | the last entry naming a column decides its source |
| Reformat.SourceNone | datagenius/lib/reformat.py:30-39 | a column no entry names has no source |
| Reformat.MappedColumnCopied | datagenius/lib/reformat.py:32-39 | a column named by an entry and no later one is a copy of the entry's source column |
| Reformat.UnmappedColumnNaN | datagenius/lib/reformat.py:30 | a template column no entry names holds NaN in every row |
| Reformat.TemplateColumns | datagenius/lib/reformat.py:30-39 | when every target is a template label, the columns are exactly the template's, in order |
| Reformat.LastTextOf | datagenius/lib/reformat.py:35-41 | the metadata cell of a source is the text of the last entry for it |
| Reformat.MetadataOfSource | datagenius/lib/reformat.py:31-41 | a mapped source's metadata is the text of its last entry; an unmapped source keeps its non-null count |
| Reformat.MetadataTexts | datagenius/lib/reformat.py:33-41 | a string target is its own text; a tuple or list of strings gives the strings joined by commas |
| Reformat.StrsInjective | datagenius/lib/reformat.py:37-41 | two lists of texts with the same string values are the same texts |
| Reformat.FillCheck | datagenius/lib/reformat.py:66 | `fillna` accepts exactly a scalar default: None, a tuple, a list or a dict is refused |
| Reformat.FillNulls | datagenius/lib/reformat.py:66 | each null cell takes the default and every other cell is kept |
| Reformat.NullCount | datagenius/lib/reformat.py:65 | the null count is 0 exactly when no cell is null |
| Reformat.FillAll | datagenius/lib/reformat.py:64-66 | the defaults loop succeeds exactly when every key selects one column and every default is accepted; the labels and row count are kept |
| Reformat.FillAllFilled | datagenius/lib/reformat.py:64-66 | after the loop the frame and metadata are the reference reading |
| Reformat.FillOne | datagenius/lib/reformat.py:65-66 | one pass records the column's null count and then fills the column |
| Reformat.FillStep | datagenius/lib/reformat.py:64-66 | one pass keeps the frame and metadata in line with the reference reading |
| Reformat.LookupSnoc | datagenius/lib/reformat.py:64 | a key found before one more entry keeps its value; a key not found takes the new entry's value when it matches |
| Reformat.FillDefaults | datagenius/lib/reformat.py:47-67 | it fails exactly when a key selects no single column or a default is refused; each listed column's nulls take the default, every other cell is kept, and the metadata holds each listed column's null count before filling and 0 elsewhere |
| Reformat.FillDefaultsNoNulls | datagenius/lib/reformat.py:64-66 | a listed column with a non-null default has no null left |
| Reformat.FillDefaultsIdempotent | datagenius/lib/reformat.py:47-67 | filling again with non-null defaults changes nothing and reports no nulls |
| Reformat.NothingToFill | datagenius/lib/reformat.py:47-67 | a frame whose listed columns hold no null is its own filling, with every count 0 |
| Resolutions.LastNonNull | tamer/resolutions.py:37 | the value carried is a non-null cell of the prefix; None exactly when every cell is null |
| Resolutions.LeadingNulls | tamer/resolutions.py:37 | the first non-null position: every cell before it is null and the cell there is not |
| Resolutions.FillSpec | tamer/resolutions.py:37 | each filled cell is the cell itself when not null, else the nearest non-null cell above, else the carried value |
| Resolutions.ForwardFillCell | tamer/resolutions.py:15-23 | a forward fill keeps non-null cells, gives a null cell the nearest non-null cell above it, and leaves leading nulls |
| Resolutions.FillCarriedCount | tamer/resolutions.py:37 | after a fill that carries a valid value no cell is null |
| Resolutions.ForwardFillCount | tamer/resolutions.py:36-38 | exactly the leading nulls survive a forward fill |
| Resolutions.FillCount | tamer/resolutions.py:36-39 | the count recorded is the number of nulls after the first non-null cell, and never negative |
| Resolutions.FillIdempotent | tamer/resolutions.py:37 | filling twice with the same valid or absent carried value changes nothing the second time |
| Resolutions.ForwardFillIdempotent | tamer/resolutions.py:37 | a second forward fill changes nothing and supplies no cell |
| Resolutions.LabelIndex | tamer/resolutions.py:36 | `df[c]` selects a single column exactly when one label equals `c`; no such label raises KeyError |
| Resolutions.Assign | tamer/resolutions.py:39 | a metadata assignment sets every column of that label and nothing else |
| Resolutions.CheckLabels | tamer/resolutions.py:35-36 | the loop fails exactly when some listed label selects no single column, with that label's error |
| Resolutions.Complete | tamer/resolutions.py:35-39 | the remaining passes of the loop fill every listed column and record the counts |
| Resolutions.StepFrame | tamer/resolutions.py:37 | filling one more listed column extends the set of filled columns by it |
| Resolutions.StepMetadata | tamer/resolutions.py:36-39 | the count recorded for a column is its fill count the first time and 0 afterwards |
| Resolutions.StepCount | tamer/resolutions.py:36-38 | a column already filled gains nothing from another fill |
| Resolutions.CompleteClusters | tamer/resolutions.py:11-40 | it fails exactly when a listed column cannot be selected; listed columns are forward-filled and the others kept; the metadata lists each column with the cells its fill supplied, or 0 for a column listed twice |
| Resolutions.CompleteClustersTwice | tamer/resolutions.py:11-40 | completing a completed frame changes nothing and reports 0 for every column |
| Resolutions.RefillSame | tamer/resolutions.py:35-39 | forward filling the same columns of a filled frame gives the filled frame back |
| Resolutions.FrameByColumns | tamer/resolutions.py:37 | frames with the same labels, row count and columns are equal |
| StringsUtil.CleanWhitespace | tamer/strings/util.py:5-22 | a string comes back stripped with no double space, flagged exactly when cleaning changed it; any other value comes back as it is, unflagged |
| StringsUtil.CleanIdempotent | tamer/strings/util.py:17-22 | cleaning a cleaned value changes nothing and reports no change |
| StringsUtil.CleanOnlyWhitespace | tamer/strings/util.py:20 | cleaning only touches whitespace: with all whitespace deleted, input and output agree |
| StringsUtil.CollapseFixpoint | tamer/strings/util.py:20 | collapsing space runs leaves a string with single spaces unchanged |
| Supplement.TuplePair | datagenius/lib/supplement.py:270-281 | scanning a tuple `on` succeeds exactly when every element is a dict, a string or a tuple; otherwise ValueError |
| Supplement.TuplePairLastDict | datagenius/lib/supplement.py:271-273 | the last dict of the tuple is the conditions |
| Supplement.TuplePairNoDict | datagenius/lib/supplement.py:270-273 | without a dict the conditions stay as they were |
| Supplement.TuplePairLastCols | datagenius/lib/supplement.py:274-275 | the last string or tuple, tuplified, is the columns |
| Supplement.TuplePairNoCols | datagenius/lib/supplement.py:270-275 | without a string or tuple the columns stay as they were |
| Supplement.TupleGuide | datagenius/lib/supplement.py:269-283 | a tuple `on` becomes a guide exactly when its scan succeeds and finds columns; a missing column part raises TypeError |
| Supplement.TupleGuideLast | datagenius/lib/supplement.py:269-283 | a valid tuple `on` becomes a guide on its last string or tuple with its last dict, or the default conditions, as conditions |
| Supplement.PairOrder | datagenius/lib/supplement.py:269-283 | in a two-element tuple `on` the order of the dict and the columns does not matter |
| Supplement.ItemGuide | datagenius/lib/supplement.py:265-283 | a guide element is kept as it is and a tuple element becomes its tuple guide |
| Supplement.SimpleOns | datagenius/lib/supplement.py:267-268 | the plain names are the string elements of `on`, in order |
| Supplement.Collect | datagenius/lib/supplement.py:262-283 | the loop succeeds exactly when every element can be planned; it yields the plain names and the complex elements' guides, each in order |
| Supplement.BuildPlan | datagenius/lib/supplement.py:248-286 | one guide per complex element in input order, then one guide for all plain names when there are any; errors are ValueError or TypeError |
| Supplement.SimplePlan | datagenius/lib/supplement.py:284-286 | a plan from plain names only is a single guide over all of them |
| Supplement.PrepOns | datagenius/lib/supplement.py:289-307 | a string becomes a 1-tuple, a list the tuple of its items, a tuple led by a tuple stays, anything else is wrapped; an empty tuple raises IndexError |
| Supplement.PrepOnsStable | datagenius/lib/supplement.py:303-304 | preparing prepared ons led by a tuple changes nothing more |
| Supplement.PrepThenPlan | datagenius/lib/supplement.py:248-307 | a single column name, prepared and planned, gives one guide on that column |
| Supplement.PrepSuffixes | datagenius/lib/supplement.py:310-332 | without suffixes, "_A", "_B", ... one per frame; given suffixes are tuplified; a count other than the frame count raises ValueError |
| Supplement.DefaultSuffixesDistinct | datagenius/lib/supplement.py:323-325 | the default suffixes are distinct |
| Supplement.CheckCondition | datagenius/lib/supplement.py:238-241 | a condition can be applied exactly when it is the None placeholder or names one column with list-like values |
| Supplement.SliceRows | datagenius/lib/supplement.py:238-241 | the slicing loop succeeds exactly when every condition can be applied, and keeps exactly the rows meeting all of them, in order |
| Supplement.SliceStep | datagenius/lib/supplement.py:238-241 | slicing by the first condition and then the rest is slicing by all of them |
| Supplement.SliceFrame | datagenius/lib/supplement.py:217-245 | the slice holds exactly the rows meeting every condition, and the flag holds exactly when a row remains or there was no real condition |
| Supplement.NoConditionsSlice | datagenius/lib/supplement.py:237-245 | without real conditions the slice is the whole frame, flagged |
| Supplement.FirstMatch | datagenius/lib/supplement.py:208-213 | the guide found is the first whose conditions the row meets; None when no guide's are met |
| Supplement.ChunkFrame | datagenius/lib/supplement.py:208-213 | for one frame each guide gains the rows whose first matching guide it is, and the frame keeps the rows no guide took |
| Supplement.DropSlice | datagenius/lib/supplement.py:212-213 | dropping only a successful slice still leaves exactly the rows the slice did not take |
| Supplement.ChunkFrameStep | datagenius/lib/supplement.py:208-213 | after the first guide, the rest of the plan sees exactly the rows the first guide left |
| Supplement.ChunkAll | datagenius/lib/supplement.py:207-213 | over all frames each guide gains its chunk of every frame in frame order, and each frame keeps what no guide took |
| Supplement.ChunkDframes | datagenius/lib/supplement.py:188-214 | no frame raises IndexError; otherwise each guide gains one chunk per frame and the first frame comes back with the rows no guide took |
| Supplement.RowPlacement | datagenius/lib/supplement.py:207-214 | a row lands in the chunk of its first matching guide, or in the leftover when no guide matches, and nowhere else |
| TypeHandling.IntTextMatches | tamer/type_handling.py:53-55 | minus signs followed by digits match the integer pattern and not the float one |
| TypeHandling.IntMatchShape | tamer/type_handling.py:53 | every match of the integer pattern is minus signs followed by digits, up to a final newline |
| TypeHandling.FloatTextMatches | tamer/type_handling.py:55 | minus signs, digits, dots and digits match the float pattern |
| TypeHandling.FloatHasDot | tamer/type_handling.py:55 | a match of the float pattern contains a dot |
| TypeHandling.MatchChars | tamer/type_handling.py:53-55 | a match of either pattern holds only signs, digits, dots and a final newline |
| TypeHandling.TextType | tamer/type_handling.py:53-55 | a non-empty string is classed as str, int, ZeroNumeric or float |
| TypeHandling.IsNumericPlus | tamer/type_handling.py:34-60 | numbers are numeric with their own type, other non-strings are not; the empty string raises IndexError; a string is numeric exactly when classed int, float or ZeroNumeric |
| TypeHandling.ClassifyInt | tamer/type_handling.py:53-56 | minus signs and digits are an int, unless a zero-led text other than "0" |
| TypeHandling.ClassifyZero | tamer/type_handling.py:54-56 | any dot-free text starting with 0, other than "0", is ZeroNumeric and numeric, even "0abc" |
| TypeHandling.ClassifyFloat | tamer/type_handling.py:55-56 | signs, digits, dots and digits are a float, overriding the other rules |
| TypeHandling.ClassifyWord | tamer/type_handling.py:52-56 | text holding a letter and not starting with 0 is not numeric |
| TypeHandling.IsNumericPlusAnswer | tamer/type_handling.py:57-60 | the bare flag is returned, or the pair when the type is asked for |
| TypeHandling.FirstDotRun | tamer/type_handling.py:27-28 | the first run of dots has length 0 exactly when there is no dot |
| TypeHandling.CollapseDots | tamer/type_handling.py:27-30 | a first run of one dot or none changes nothing; a longer one turns every run into one dot; nothing but dots changes |
| TypeHandling.ConvertPlus | tamer/type_handling.py:13-31 | a null gives NaN; anything other than a string bound for float is handed to the target type unchanged; a string bound for float differs only in its dots |
| TypeHandling.ConvertArgument | tamer/type_handling.py:26-31 | a value that is not a string bound for float is handed over as it is; a string bound for float succeeds exactly when the numeric test does, and is handed over as a string with the same non-dot characters |
| TypeHandling.ConvertPlusCollapses | tamer/type_handling.py:26-31 | a numeric string whose first dot run is long is handed to float with every run shortened to one dot |
| TypeHandling.ConvertPlusExample | tamer/type_handling.py:26-31 | "1..23" is handed to float as "1.23" |
| TypeHandling.TypePlus | tamer/type_handling.py:63-74 | a null gives the NaN marker; anything else its type |
| ZeroNumerics.SplitMatch | tamer/numerics/zero_numeric.py:89 | the match exists exactly when a nonzero digit follows the leading zeros, and then it is zeros then a run starting with that digit, at the start of the value |
| ZeroNumerics.SplitZeros | tamer/numerics/zero_numeric.py:76-91 | without a match IndexError; otherwise the zeros and a positive number whose text follows them in the value |
| ZeroNumerics.SplitZerosOf | tamer/numerics/zero_numeric.py:76-91 | zeros followed by the text of a positive number split back into the two |
| ZeroNumerics.FromText | tamer/numerics/zero_numeric.py:35-45 | the value is the text without apostrophes; the empty text raises IndexError; a non-numeric text exactly raises ValueError; the zeros and number rebuild the value's start |
| ZeroNumerics.FromValue | tamer/numerics/zero_numeric.py:28-45 | NaN and None raise ValueError; an int is kept with no zeros; anything else goes through its text |
| ZeroNumerics.FromBoolExactly | tamer/numerics/zero_numeric.py:31-34 | a constructed ZeroNumeric keeps a bool as its number exactly when it was built from a bool; its text is then the bool's name |
| ZeroNumerics.FromTextOf | tamer/numerics/zero_numeric.py:35-40 | apostrophes, zeros and a positive number construct the ZeroNumeric with exactly those zeros and that number |
| ZeroNumerics.CanonicalRoundTrip | tamer/numerics/zero_numeric.py:35-40 | a canonical ZeroNumeric is rebuilt unchanged from its text, with or without leading apostrophes |
| ZeroNumerics.StrOf | tamer/numerics/zero_numeric.py:215-219 | `str` is an apostrophe followed by the text |
| ZeroNumerics.StrRoundTrip | tamer/numerics/zero_numeric.py:28-45 | construction from `str` of a canonical ZeroNumeric, or from the ZeroNumeric itself, gives it back |
| ZeroNumerics.Pad | tamer/numerics/zero_numeric.py:59-73 | the padded value keeps the number, is the old text with zeros in front, and is as long as asked (or unchanged when already long enough) |
| ZeroNumerics.PadAsWritten | tamer/numerics/zero_numeric.py:59-73 | as written, padding a canonical value gives a canonical value whose text is `max(n - len, 0)` zeros followed by the decimal of the number; it keeps the number but drops the zeros already present, so it is shorter than the intended result by exactly those zeros; padding a value built from a bool rebuilds from "True" or "False" and raises ValueError without zeros and IndexError with them |
| ZeroNumerics.BoolPadFails | tamer/numerics/zero_numeric.py:72-73 | zeros followed by "True" or "False": ValueError without zeros, since the text is not numeric; IndexError with them, since `split_zeros` finds no digit after the zeros |
| ZeroNumerics.BoolPadExample | tamer/numerics/zero_numeric.py:72-73 | `ZeroNumeric(True).pad()` raises ValueError and `ZeroNumeric(True).pad(5)` raises IndexError |
| ZeroNumerics.PadAsWrittenShort | tamer/numerics/zero_numeric.py:72-73 | as written, padding a value with zeros comes out short by exactly the zeros it dropped |
| ZeroNumerics.PadAsWrittenExample | tamer/numerics/zero_numeric.py:72-73 | "00123" padded to 6: as written "0123", corrected "000123" |
| ZeroNumerics.Rebuild | tamer/numerics/zero_numeric.py:171-172 | a zero result is the plain int 0 |
| ZeroNumerics.RebuildPositive | tamer/numerics/zero_numeric.py:173-174 | a positive result keeps the zeros |
| ZeroNumerics.RebuildNegative | tamer/numerics/zero_numeric.py:173-174 | a negative result cannot be split and raises IndexError |
| ZeroNumerics.NegativeText | tamer/numerics/zero_numeric.py:36-40 | zeros, a minus sign and digits are numeric but raise IndexError when split |
| ZeroNumerics.PyMod | tamer/numerics/zero_numeric.py:200-201 | Python's remainder takes the sign of the divisor |
| ZeroNumerics.Arith | tamer/numerics/zero_numeric.py:142-204 | an int operand combines with the number and the result is rebuilt; `%` by zero raises ZeroDivisionError |
| ZeroNumerics.ArithResult | tamer/numerics/zero_numeric.py:160-177 | a zero result is the int 0, a positive one keeps the zeros, a negative one raises IndexError |
| ZeroNumerics.Eq | tamer/numerics/zero_numeric.py:179-183 | against a string the text is compared, against an int the number; nulls and containers are unequal |
| ZeroNumerics.Ne | tamer/numerics/zero_numeric.py:206-210 | `!=` is exactly the negation of `==` |
| ZeroNumerics.OperationsExample | tamer/numerics/zero_numeric.py:171-183 | "00124" equals 124 and "00124"; minus 124 gives 0; plus 1 keeps the zeros |
| ZeroNumerics.Compare | tamer/numerics/zero_numeric.py:185-199 | ordering compares the number with an int operand; against a string, None or a container it raises TypeError |
| ZeroNumerics.CompareConsistent | tamer/numerics/zero_numeric.py:185-199 | `>=` is `>` or `==`, `<=` is not `>`, and `<` is not `>=` |

## Left out

- File, sheet and database reading and writing, YAML parsing, filesystem walks and dynamic imports: they are I/O. A loaded YAML document is a `Values.Value` parameter; the checks and updates applied to it are modelled.
- `do_exact` and `do_inexact` (datagenius/lib/supplement.py:96-186): pandas merges and float Jaro-Winkler scoring in a foreign library.
- pandas itself: a frame is `Frames.Frame`, its row labels are positions (a RangeIndex), and `Rectangular` is a precondition wherever a frame is taken, since a DataFrame always is one.
- datagenius/lib/clean.py `complete_clusters` (lines 27-33) is the same loop as tamer/resolutions.py's `complete_clusters`; `Resolutions.CompleteClusters` models both.
- `standardize_header` and `gen_empty_md_df` of datagenius are not part of this model: `Reformat` takes the label standardiser as a parameter, and the empty metadata row is taken to start at 0 per column.
- `count_true_str` is not part of this model's source; `Preprocessor.CountTrueStr` follows its tests (non-empty strings in the row).
- datagenius `tuplify` is not part of this model's source; `Guides.DgTuplify` follows tamer's `tuplify`, except that None stays None, which the element tests show.
- tamer's `Name` base class is not part of this model's source; the tamer `Namestring` reuses the datagenius `Name` model.
- Regular expressions that come from configuration (affixes, particles, compound first names, ampersands, schema and redistribution patterns, `withinplus` strings) are predicates `(pattern, text) -> bool`. Matching itself is not modelled.
- Floating point: `ZeroNumeric.__truediv__`, `zn_float`, `zn_int`, `to_float`, `to_int`, float results of `split_zeros`, the `float()`/`int()` conversions of `convertplus`, and NaN comparisons. The model answers `Err(Unmodelled)` where the source would produce or compare a float.
- ZeroNumerics.Arith: an operand that is a string, a float or another ZeroNumeric gives `Err(Unmodelled)`; only int and bool operands are modelled.
- ZeroNumerics.Compare: a ZeroNumeric or float operand gives `Err(Unmodelled)`, since Python answers it through reflected operators or float comparison.
- ZeroNumerics.FromValue: floats and containers give `Err(Unmodelled)`.
- Header.Pop: requires `Valid()` (the two lists have equal length), the invariant every `Header` operation is proved to keep.
- Header.Remove: requires `Valid()`, as for `Pop`.
- Header.StrAll: a container label, whose `str()` Python would build from its elements, gives `Err(Unmodelled)`.
- Element.NewMapping: requires the rule keys to be distinct, as a dict's keys are; the distinctness is structural, not Python's hash and `==`, so `{1: r, True: s}` (one key in Python) is outside what the model describes, and the template check `k not in self.template` is structural as for `Element.GivenRules`.
- Element.RowItem: indexing a ZeroNumeric row gives `Err(Unmodelled)`.
- Guides.Call: requires every key to be a tuple or None, which is how `CleaningGuide` always stores them.
- Guides.Contains: a key of another kind gives `Err(Unmodelled)` instead of Python's `in` on it.
- Guides.Attribute: the guide's methods, reached through `getattr`, give `Err(Unmodelled)`.
- Guides.Redistribute: `str()` of a container argument gives `Err(Unmodelled)`.
- Reformat.FillAll: requires distinct keys in the defaults, as a dict has; a dict used as a fill value gives `Err(Unmodelled)`, since pandas then fills by row label.
- Reformat.FillDefaults: requires distinct keys in the defaults, as for `FillAll`.
- Resolutions.LabelIndex: a label that names several columns gives `Err(Unmodelled)`, since pandas then selects a sub-frame.
- Schema.Evaluate: a list value gives `Err(Unmodelled)`, because pandas' null test then works element-wise; a non-string value matched against patterns gives it too. `Schema.to_yaml` and `Schema.from_yaml` are I/O and are left out.
- Names.IntakeItems: an item that is itself a list gives `Err(Unmodelled)`, since pandas' null test on it works element-wise.
- GConfig.Keywords: a loaded list with non-string items gives `Err(Unmodelled)`.
- GConfig.UpdatePatterns: a keyword starting with `_` that names no pattern list (a private method, a dunder attribute, or an attribute an earlier keyword created) gives `Err(Unmodelled)`, and so does a keyword whose assignment `_k` would replace one of the class's private methods; the lists extended by the keywords before such a fault are not reported, since the model returns only the error.
- TamerPatterns.UpdatePatterns: a keyword starting with `_` that names no pattern list gives `Err(Unmodelled)`; the lists extended before a fault are not reported.
- Supplement.CheckCondition: a dict condition value gives `Err(Unmodelled)`.
- TamerPatterns.UpdatePatterns: `list(set(...))` has no specified order, so the model keeps first appearances and its contract speaks only about membership and the absence of repeats.
- `gen_alpha_keys` is documented for up to 676 keys, but the code produces up to 701; from 702 on its outer loop runs past `Z` and raises IndexError. `IterUtils.GenAlphaKeys` follows the code.
- `broadcast_affix` on a string `x` (which Python would rebuild character by character through `str(list)`) and on dicts is not modelled; a list of strings is.
- `Dataset.__eq__`/`__ne__` compare object identities through their reprs; `Header.__eq__`, `__iter__`/`__next__` and `__repr__` and the guides' `__repr__` are object protocol. None of them is modelled.
- Names.Camelcase: each camel-case particle pattern is matched as literal text followed by a lower-case letter, not as a regular expression.
- Text: letter case, whitespace and digits are ASCII. Python's `lower()`, `upper()`, `strip()` and the regular-expression class `\d` are Unicode-aware; the members below inherit the difference.
- Header.StandardizeLabel: "É" stays upper-case and a leading or trailing U+00A0 is not stripped, where `lower()` and `strip()` would change both.
- Names.StandardizeCaps: "élan" keeps its lower-case "é", and its length is always kept; Python's `upper()` gives "Élan", and "ßa" becomes the longer "SSa".
- Names.Normalize: non-ASCII capitals are kept ("JOSÉ" becomes "josÉ", not "josé").
- Names.Intake: non-ASCII capitals survive, as in `Normalize`.
- StringsUtil.CleanWhitespace: only ASCII whitespace is stripped; U+00A0, U+2003 and U+0085, which `strip()` removes, are kept.
- TypeHandling.TextType: only ASCII digits count for `\d`, so "٣" or "３" is text here and an int in the source.
- TypeHandling.IsNumericPlus: inherits the ASCII-only digit class of `TextType`.
- Names.Validate: characters above U+00FF are taken as printable, so their `repr` adds no digit; Python writes the non-printable ones (U+200B, U+2028, ...) as `\uXXXX`, usually with a digit.
- Header.Standardize: keeps no backslash in a label (the corrected cleaning of "## Findings"); the source keeps "a\b".
- Header.Init: "a\b" becomes the label "ab", through the corrected cleaning; the source keeps "a\b".
- Header.Append: an appended "a\b" becomes "ab", through the corrected cleaning.
- Header.SetItem: an item "a\b" becomes "ab", through the corrected cleaning.
- Preprocessor.DetectHeader: a detected label "a\b" becomes "ab", through the corrected cleaning.
- Names.DoOperations: tokens asking for removal go by position (the corrected loop of "## Findings"), so ["B.", "Smith", "B."] under the middle-initial step keeps ["B.", "Smith"] where the source keeps ["Smith", "B."].
- Names.NewName: runs the corrected loop, as `DoOperations` does.
- Namestrings.Base: runs the corrected loop, as `DoOperations` does.
- Namestrings.NewNamestring: runs the corrected loop and the corrected particle chain, so "Ana De Sa Van Dyk" gives "Van Dyk" where the source gives "Van Sa Dyk".
- Namestrings.ToList: uses the corrected `Allocate`, so "Bob Parr and Helen Parr" has `lname` "Parr" where the source has "Parr Helen Parr".
- NamestringsTamer.TamerBase: runs the corrected loop, as `DoOperations` does.
- NamestringsTamer.MergeHalf: uses the corrected `TamerMultiLname`, so the half ["Van", "Morrison"] gives ["Van Morrison"] where the source gives ["Morrison"].
- NamestringsTamer.NewNamestringTamer: uses the corrected loop and the corrected `TamerMultiLname`.
- NamestringsTamer.ParseTokens: uses the corrected `TamerMultiLname`.
- Nametokens.NewNametoken: uses the corrected `TrailingInitial` and loop, so "a b a" keeps "a b" where the source gives "b a".
- Header.Remove: finds the label with structural `Value` equality, not Python's `==`, under which `True == 1 == 1.0`; `remove(True)` finds a raw label 1 in the source and raises ValueError here.
- Element.Remove: finds the row with structural `Value` equality, so the key [1] does not remove the row [1.0] or [True] as `list.remove` would.
- IterUtils.WithinPlus: a non-string value is looked up with structural `Value` equality, so `withinplus([1.0], [1])` is true in the source and false here.
- IterUtils.WithinPlusMembership: its plain membership is structural, for the same reason as `WithinPlus`.
- Guides.Lookup: finds the key with structural `Value` equality, not Python's hash and `==`, under which `1 == 1.0 == True`; a float is compared by its text, so even `1.0` and `1.00` are different keys here.
- Guides.Store: `data[k] = v` adds a second entry for `(1.0,)` next to `(1,)`, where Python overwrites the one entry, because keys are compared structurally as for `Guides.Lookup`.
- Guides.StoreAll: inherits the structural key comparison of `Guides.Store`, so its keys are distinct only structurally.
- Guides.NewCleaningGuide: `CleaningGuide(((1,), 'a'), ((1.0,), 'b'))` keeps two keys here; Python keeps one key `(1,)` holding `'b'`.
- Guides.GetItem: `guide[(1,)]` on the guide above gives `'a'` here and `'b'` in Python, through the structural lookup of `Guides.Lookup`.
- IterUtils.CollectByKeys: `k in keys` is structural, so `collect_by_keys({1: 'x'}, True)` is empty here and `{1: 'x'}` in Python.
- Resolutions.LabelIndex: a column label is matched structurally, so `df[1.0]` raises KeyError here on a frame whose column is labelled 1, where pandas selects that column.
- Resolutions.CheckLabels: inherits the structural label match of `Resolutions.LabelIndex`.
- Resolutions.CompleteClusters: `complete_clusters(df, [1.0])` on a frame with a column labelled 1 raises KeyError here, where pandas fills that column, through `Resolutions.LabelIndex`.
- Reformat.Put: column assignment matches labels structurally, so assigning to 1.0 adds a new column next to a column labelled 1 instead of overwriting it.
- Reformat.MdSet: the metadata label is matched structurally, as for `Reformat.Put`.
- Reformat.Step: selects the source column through `Resolutions.LabelIndex` and writes through `Reformat.Put`, both structural in their label match.
- Reformat.ReformatDf: inherits the structural label match of `Reformat.Step`.
- Supplement.CheckCondition: the condition's column is selected through `Resolutions.LabelIndex`, with its structural label match.
- Element.RowToDict: the ordered dict merges header labels by structural `Value` equality, not Python's hash and `==`; the header `[1, True]` gives two keys here and the one key `1` in Python, and a list label, which Python rejects as unhashable (TypeError), is stored here.
- Element.ToDicts: builds each row through `Element.RowToDict`, with its structural key merge.
- Element.DictsRoundTrip: requires labels that are structurally distinct, not distinct under Python's `==`; for the header `[1, True]` the source keeps only the key `1`, so the round trip it states does not happen in the source.
- Element.GivenRules: `k not in self.template` and `self.m[k] = r` compare keys structurally, so the key 1.0 is outside a template holding 1 here and inside it in Python, and an unhashable key that the template holds is accepted instead of raising TypeError.
- Element.FillTemplate: `t not in self.m.keys()` is structural, so a template key 1 is not found among rules keyed `True` and gets an empty rule here, where Python finds it.
- Element.GetRule: `self.m[item]` is a structural lookup; the item 1.0 does not find the key 1, and an unhashable item gives KeyError here instead of TypeError.
- Element.MappingCovers: states coverage under the structural template membership of `Element.GivenRules` and `Element.FillTemplate`.

## Findings

| source | as written | input that shows it | evidently intended | confidence | as-written member | corrected member |
|---|---|---|---|---|---|---|
| tamer/header.py:114-117 | the punctuation class is built by pasting `string.punctuation` into `[...]`, where `\]` escapes the bracket, so the backslash is never removed | the label `a\b` stays `a\b` | every punctuation character but `_` removed: `ab` | not executed | Header.BackslashSurvives | Header.StandardizeLabel |
| datagenius/names/nametoken.py:84-93 | the trailing initial is taken out with `list.remove`, which deletes the first equal word | the first-name token `a b a` becomes `b a` | the last word dropped: `a b` | not executed | Nametokens.RepeatedInitial | Nametokens.TrailingInitial |
| datagenius/names/namestring.py:43-44 | with two or more tokens in the first half, `lname` is joined from the whole `name_list` instead of `name_list1` | "Bob Parr and Helen Parr" gives `lname` "Parr Helen Parr" | `lname` "Parr" | not executed | Namestrings.AllocateParr | Namestrings.Allocate |
| tamer/names/namestring.py:191-199 | `lname_start` is used as a truth value, so a particle at index 0 never counts as a start | ["Van", "Morrison"] becomes ["Morrison"] | ["Van Morrison"] | not executed | NamestringsTamer.VanMorrison | NamestringsTamer.TamerMultiLname |
| datagenius/names/name.py:113-124 | tokens whose result is "" are removed by value with `list.remove`, which deletes the first equal token | ["B.", "Smith", "B."] through the middle-initial step gives ["Smith", "B."] | the token at the position that asked for removal goes: ["B.", "Smith"] | not executed | Namestrings.InitialsAsWritten | Namestrings.InitialsIntended |
| tamer/numerics/zero_numeric.py:72-73 | the padded text is rebuilt from `str(self._numeric)`, dropping the leading zeros that `len(self)` counted | "00123" padded to 6 gives "0123" | "000123", six characters long | not executed | ZeroNumerics.PadAsWrittenExample | ZeroNumerics.Pad |
| datagenius/names/namestring.py:164-184 | `chain` is never emptied between particles, so a later particle joins the tokens absorbed by an earlier one | "Ana De Sa Van Dyk" with particles "de" and "van" gives "Van Sa Dyk" | "Van Dyk" | not executed | Namestrings.ParticlesAsWritten | Namestrings.ParticlesIntended |

=== FILE: alt_names.dfy ===
/** `Namestring.extract_alt_name` of the later whole-string name
    (tamer/names/namestring.py): the parenthesised alternative names are
    pulled out of the string before it is split into tokens. The two regular
    expressions involved are fixed in the code and are modelled here as
    scans: ` *\(.+\) *` (searched) and `.*?\) *` (matched). */
module AltNames {
  import opened Wrappers
  import opened Text


  /** No line break among `s[i..j]`. */
  predicate NoBreak(s: string, i: int, j: int) {
    forall k :: i <= k < j && 0 <= k < |s| ==> s[k] != '\n'
  }

  /** `s[q]` opens a group the pattern ` *\(.+\) *` can match: a `(`, at
      least one character, then a `)`, all on one line. */
  predicate GroupAt(s: string, q: int) {
    0 <= q && q + 1 < |s| && s[q] == '(' &&
    exists r :: q + 1 < r < |s| && s[r] == ')' && NoBreak(s, q + 1, r)
  }

  /** ` *\(.+\) *` matches at `p`: a run of spaces, then a group. */
  ghost predicate MatchesAt(s: string, p: int) {
    exists q :: 0 <= p <= q && GroupAt(s, q) && forall k :: p <= k < q ==> s[k] == ' '
  }

  /** The first `)` at or after `i`, provided no line break comes first. */
  function CloseFrom(s: string, i: nat): (r: Option<nat>)
    ensures r.Some? ==> i <= r.value < |s| && s[r.value] == ')' && NoBreak(s, i, r.value)
    ensures r.Some? ==> forall k :: i <= k < r.value ==> s[k] != ')'
    ensures r.None? ==> forall j :: i <= j < |s| && s[j] == ')' ==> !NoBreak(s, i, j)
    decreases |s| - i
  {
    if i >= |s| || s[i] == '\n' then None
    else if s[i] == ')' then Some(i)
    else CloseFrom(s, i + 1)
  }

  /** Whether `s[q]` opens a group, decided by scanning. */
  function IsGroupAt(s: string, q: nat): (b: bool)
    ensures b <==> GroupAt(s, q)
  {
    var b := q + 1 < |s| && s[q] == '(' && s[q + 1] != '\n' && CloseFrom(s, q + 2).Some?;
    assert b ==> GroupAt(s, q) by {
      if b {
        var r := CloseFrom(s, q + 2).value;
        assert q + 1 < r < |s| && s[r] == ')' && NoBreak(s, q + 1, r);
      }
    }
    assert GroupAt(s, q) ==> b by {
      if GroupAt(s, q) {
        var r :| q + 1 < r < |s| && s[r] == ')' && NoBreak(s, q + 1, r);
        assert s[q + 1] != '\n';
        assert NoBreak(s, q + 2, r);
      }
    }
    b
  }

  /** The first position at or after `q` that opens a group. */
  function FirstOpen(s: string, q: nat): (r: Option<nat>)
    ensures r.Some? ==> q <= r.value && GroupAt(s, r.value)
    ensures r.Some? ==> forall k :: q <= k < r.value ==> !GroupAt(s, k)
    ensures r.None? ==> forall k :: q <= k ==> !GroupAt(s, k)
    decreases |s| - q
  {
    if q >= |s| then None
    else if IsGroupAt(s, q) then Some(q)
    else FirstOpen(s, q + 1)
  }

  /** The start of the run of spaces that ends at `q`. */
  function RunStart(s: string, q: nat): (p: nat)
    requires q <= |s|
    ensures p <= q && (forall k :: p <= k < q ==> s[k] == ' ') && (p == 0 || s[p - 1] != ' ')
  {
    if q > 0 && s[q - 1] == ' ' then RunStart(s, q - 1) else q
  }

  /** The end of the run of spaces that starts at `i`. */
  function RunEnd(s: string, i: nat): (j: nat)
    requires i <= |s|
    ensures i <= j <= |s| && (forall k :: i <= k < j ==> s[k] == ' ') && (j == |s| || s[j] != ' ')
    decreases |s| - i
  {
    if i < |s| && s[i] == ' ' then RunEnd(s, i + 1) else i
  }

  /** `re.search` finds its match at the start of the space run in front of
      the first group, and nowhere earlier. */
  lemma Leftmost(s: string, q: nat)
    requires FirstOpen(s, 0) == Some(q)
    ensures MatchesAt(s, RunStart(s, q))
    ensures forall p :: 0 <= p < RunStart(s, q) ==> !MatchesAt(s, p)
  {
    var p := RunStart(s, q);
    forall p' | 0 <= p' < p
      ensures !MatchesAt(s, p')
    {
      assert s[p - 1] != ' ' && s[q] == '(';
      forall q' | p' <= q' && GroupAt(s, q')
        ensures exists k :: p' <= k < q' && s[k] != ' '
      {
        if q' == q {
          assert p' <= p - 1 < q' && s[p - 1] != ' ';
        } else {
          assert q' > q;
          assert p' <= q < q' && s[q] != ' ';
        }
      }
    }
  }

  /** The `.*?\) *` match from the start of the search match reaches a
      closing parenthesis beyond that start. */
  lemma CloseReach(s: string, p: nat, q: nat)
    requires p <= q && GroupAt(s, q) && forall k :: p <= k < q ==> s[k] == ' '
    ensures CloseFrom(s, p).Some? && p < CloseFrom(s, p).value
    decreases q - p
  {
    if p < q {
      CloseReach(s, p + 1, q);
    } else {
      assert IsGroupAt(s, q);
    }
  }

  /** A group found by `re.search`: where its match starts, where the
      `.*?\) *` match from there ends, and the text between with the
      parentheses removed and stripped. */
  datatype Group = Group(start: nat, end: nat, alt: string)

  predicate IsParen(c: char) { c == '(' || c == ')' }

  /** The first group of `s`, if any. */
  function FirstGroup(s: string): (g: Option<Group>)
    ensures g.None? <==> forall p :: !MatchesAt(s, p)
    ensures g.Some? ==> MatchesAt(s, g.value.start) && forall p :: 0 <= p < g.value.start ==> !MatchesAt(s, p)
    ensures g.Some? ==> g.value.start + 2 <= g.value.end <= |s|
    ensures g.Some? ==> exists r :: (g.value.start < r < g.value.end && s[r] == ')' &&
      (forall k :: g.value.start <= k < r ==> s[k] != ')') &&
      (forall k :: r < k < g.value.end ==> s[k] == ' ') && (g.value.end == |s| || s[g.value.end] != ' '))
    ensures g.Some? ==> g.value.alt == Strip(DeleteChars(s[g.value.start..g.value.end], IsParen))
  {
    match FirstOpen(s, 0)
    case None =>
      assert forall p :: !MatchesAt(s, p);
      None
    case Some(q) =>
      var p := RunStart(s, q);
      Leftmost(s, q);
      CloseReach(s, p, q);
      var r := CloseFrom(s, p).value;
      var e := RunEnd(s, r + 1);
      assert p < r < e && s[r] == ')';
      Some(Group(p, e, Strip(DeleteChars(s[p..e], IsParen))))
  }

  /** `f"{s[:start].strip()} {s[end:].strip()}"`. */
  function Remainder(s: string, g: Group): (t: string)
    requires g.start + 2 <= g.end <= |s|
    ensures |t| < |s|
  {
    Strip(s[..g.start]) + " " + Strip(s[g.end..])
  }

  /** The string with its groups pulled out, and the first two contents. */
  datatype Extracted = Extracted(rest: string, alt1: Option<string>, alt2: Option<string>)

  /** The `while match` loop, with the contents found so far. */
  function ExtractLoop(s: string, alt1: Option<string>, alt2: Option<string>): (r: Extracted)
    ensures forall p :: !MatchesAt(r.rest, p)
    ensures FirstGroup(s).None? ==> r == Extracted(s, alt1, alt2)
    ensures alt1.Some? ==> r.alt1 == alt1
    ensures alt2.Some? ==> r.alt2 == alt2
    ensures alt1.None? && FirstGroup(s).Some? ==> r.alt1 == Some(FirstGroup(s).value.alt)
    ensures alt1.Some? && alt2.None? && FirstGroup(s).Some? ==> r.alt2 == Some(FirstGroup(s).value.alt)
    decreases |s|
  {
    match FirstGroup(s)
    case None => Extracted(s, alt1, alt2)
    case Some(g) =>
      var a1 := if alt1.None? then Some(g.alt) else alt1;
      var a2 := if alt1.Some? && alt2.None? then Some(g.alt) else alt2;
      ExtractLoop(Remainder(s, g), a1, a2)
  }

  /** `extract_alt_name(s)`: no group is left in the returned string; a
      string without one comes back unchanged; the first content is the
      first group's and the second is the first group of what remains. */
  function ExtractAltName(s: string): (r: Extracted)
    ensures forall p :: !MatchesAt(r.rest, p)
    ensures FirstGroup(s).None? ==> r == Extracted(s, None, None)
    ensures FirstGroup(s).Some? ==>
      var g := FirstGroup(s).value;
      r.alt1 == Some(g.alt) &&
      r.alt2 == (match FirstGroup(Remainder(s, g)) case None => None case Some(g2) => Some(g2.alt))
  {
    ExtractLoop(s, None, None)
  }

  /** "Bob (Bobby) Smith" gives "Bob Smith" and the alternative "Bobby". */
  lemma BobbyExample(s: string)
    requires s == "Bob (Bobby) Smith"
    ensures ExtractAltName(s) == Extracted("Bob Smith", Some("Bobby"), None)
  {
    var g := Group(3, 12, "Bobby");
    BobbyGroup(s);
    BobbyRest(s);
    BobSmithPlain(Remainder(s, g));
    OneGroup(s);
  }

  /** A string with exactly one group loses it and keeps its content as the
      first alternative. */
  lemma OneGroup(s: string)
    requires FirstGroup(s).Some? && FirstGroup(Remainder(s, FirstGroup(s).value)).None?
    ensures var g := FirstGroup(s).value;
      ExtractAltName(s) == Extracted(Remainder(s, g), Some(g.alt), None)
  {
  }

  lemma BobSmithPlain(t: string)
    requires t == "Bob Smith"
    ensures FirstGroup(t).None?
  {
    assert forall k :: 0 <= k < |t| ==> t[k] != '(';
    NoGroup(t);
  }

  lemma BobbyClose(s: string)
    requires s == "Bob (Bobby) Smith"
    ensures CloseFrom(s, 3) == Some(10) && CloseFrom(s, 6) == Some(10)
  {
    assert s[10] == ')' && s[9] == 'y' && s[8] == 'b' && s[7] == 'b' && s[6] == 'o' && s[5] == 'B';
    assert CloseFrom(s, 10) == Some(10);
    assert CloseFrom(s, 8) == CloseFrom(s, 9) == Some(10);
    assert CloseFrom(s, 6) == CloseFrom(s, 7) == Some(10);
    assert CloseFrom(s, 3) == CloseFrom(s, 4) == CloseFrom(s, 5) == Some(10);
  }

  lemma BobbyOpen(s: string)
    requires s == "Bob (Bobby) Smith"
    ensures FirstOpen(s, 0) == Some(4) && CloseFrom(s, 3) == Some(10)
  {
    BobbyClose(s);
    assert IsGroupAt(s, 4);
    assert s[0] == 'B' && s[1] == 'o' && s[2] == 'b' && s[3] == ' ';
    assert !IsGroupAt(s, 0) && !IsGroupAt(s, 1) && !IsGroupAt(s, 2) && !IsGroupAt(s, 3);
  }


  /** A parenthesised word with one space on each side strips down to the
      word. */
  lemma SpacedAlt(b: string)
    requires |b| > 0 && !IsWhitespace(b[0]) && !IsWhitespace(b[|b| - 1])
    requires forall k :: 0 <= k < |b| ==> !IsParen(b[k])
    ensures Strip(DeleteChars(" (" + b + ") ", IsParen)) == b
  {
    SpacedDelete(b);
    SpacedStrip(b);
  }

  lemma SpacedDelete(b: string)
    requires forall k :: 0 <= k < |b| ==> !IsParen(b[k])
    ensures DeleteChars(" (" + b + ") ", IsParen) == " " + (b + " ")
  {
    var a, c := " (", ") ";
    assert " (" + b + ") " == a + (b + c);
    DeleteCharsAppend(a, b + c, IsParen);
    DeleteCharsAppend(b, c, IsParen);
    DeleteCharsNothing(b, IsParen);
    OpenDeleted(a);
    CloseDeleted(c);
  }

  lemma OpenDeleted(a: string)
    requires a == " ("
    ensures DeleteChars(a, IsParen) == " "
  {
    assert a[1..][1..] == [];
  }

  lemma CloseDeleted(c: string)
    requires c == ") "
    ensures DeleteChars(c, IsParen) == " "
  {
    assert c[1..][1..] == [];
  }

  lemma SpacedStrip(b: string)
    requires |b| > 0 && !IsWhitespace(b[0]) && !IsWhitespace(b[|b| - 1])
    ensures Strip(" " + (b + " ")) == b
  {
    var d := " " + (b + " ");
    assert d[1..] == b + " ";
    assert StripLeft(d) == b + " ";
    assert (b + " ")[..|b|] == b;
    assert StripRight(b + " ") == b;
  }

  lemma BobbyAlt(t: string)
    requires t == " (Bobby) "
    ensures Strip(DeleteChars(t, IsParen)) == "Bobby"
  {
    var b := "Bobby";
    assert t == " (" + b + ") ";
    SpacedAlt(b);
  }

  lemma BobbyGroup(s: string)
    requires s == "Bob (Bobby) Smith"
    ensures FirstGroup(s) == Some(Group(3, 12, "Bobby"))
  {
    BobbyOpen(s);
    assert s[3] == ' ' && s[2] != ' ';
    assert RunStart(s, 4) == 3;
    assert s[11] == ' ' && s[12] == 'S';
    assert RunEnd(s, 11) == 12;
    assert s[3..12] == " (Bobby) ";
    BobbyAlt(s[3..12]);
  }

  /** Pulling out a group between two words leaves the words and one
      space. */
  lemma WordsAround(s: string, g: Group, a: string, b: string)
    requires g.start + 2 <= g.end <= |s| && s[..g.start] == a && s[g.end..] == b
    requires |a| > 0 && !IsWhitespace(a[0]) && !IsWhitespace(a[|a| - 1])
    requires |b| > 0 && !IsWhitespace(b[0]) && !IsWhitespace(b[|b| - 1])
    ensures Remainder(s, g) == a + " " + b
  {
    StripIdentity(a);
    StripIdentity(b);
  }

  lemma BobbyRest(s: string)
    requires s == "Bob (Bobby) Smith"
    ensures Remainder(s, Group(3, 12, "Bobby")) == "Bob Smith"
  {
    BobbySlices(s, "Bob", "Smith");
    WordsAround(s, Group(3, 12, "Bobby"), "Bob", "Smith");
    BobSmith("Bob", "Smith");
  }

  lemma BobbySlices(s: string, a: string, b: string)
    requires s == "Bob (Bobby) Smith" && a == "Bob" && b == "Smith"
    ensures s[..3] == a && s[12..] == b
    ensures |a| > 0 && !IsWhitespace(a[0]) && !IsWhitespace(a[|a| - 1])
    ensures |b| > 0 && !IsWhitespace(b[0]) && !IsWhitespace(b[|b| - 1])
  {
  }

  lemma BobSmith(a: string, b: string)
    requires a == "Bob" && b == "Smith"
    ensures a + " " + b == "Bob Smith"
  {
  }

  /** A string without `(` has no group. */
  lemma NoGroup(t: string)
    requires forall k :: 0 <= k < |t| ==> t[k] != '('
    ensures FirstGroup(t).None?
  {
    assert forall q :: !GroupAt(t, q);
  }
}

=== FILE: clean.dfy ===
/** `datagenius/lib/clean.py`. Its `complete_clusters` runs the same loop as
    the later tamer version and is modelled by `Resolutions.CompleteClusters`;
    this module adds `reject_incomplete_rows`. */
module Clean {
  import opened Wrappers
  import opened Values
  import opened Seqs
  import opened Frames

  /** A row with a null in some column whose label is required. A label
      carried by several columns makes every one of them required, as
      `row[required_cols]` selects them all. */
  predicate Incomplete(labels: seq<Value>, required: seq<Value>, row: seq<Value>) {
    exists j :: 0 <= j < |labels| && j < |row| && labels[j] in required && IsNull(row[j])
  }

  function IncompleteP(labels: seq<Value>, required: seq<Value>): (p: seq<Value> -> bool)
    ensures forall row :: p(row) == Incomplete(labels, required, row)
  {
    row => Incomplete(labels, required, row)
  }

  /** What `reject_incomplete_rows` returns: the kept frame, and the
      `rejects` frame with its per-column non-null counts (`metadata`). */
  datatype Rejection = Rejection(kept: Frame, rejects: Frame, counts: seq<nat>)

  /** `reject_incomplete_rows(df, required_cols)`. A required label that
      names no column raises KeyError; otherwise every row with a null in a
      required column moves, in order, to the rejects, and the rest stay in
      order (renumbered from 0, which row positions already are). */
  function RejectIncompleteRows(f: Frame, required: seq<Value>): (r: Result<Rejection>)
    requires Rectangular(f)
    ensures r.Ok? <==> forall k :: 0 <= k < |required| ==> required[k] in f.labels
    ensures r.Err? ==> r.error == KeyError
    ensures r.Ok? ==>
      var p := IncompleteP(f.labels, required);
      var kept, rejects := r.value.kept, r.value.rejects;
      kept.labels == f.labels && rejects.labels == f.labels &&
      Rectangular(kept) && Rectangular(rejects) &&
      kept.rows == Filter(f.rows, Not(p)) && rejects.rows == Filter(f.rows, p) &&
      |kept.rows| + |rejects.rows| == |f.rows| &&
      multiset(kept.rows) + multiset(rejects.rows) == multiset(f.rows) &&
      (forall i :: 0 <= i < |kept.rows| ==> !Incomplete(f.labels, required, kept.rows[i])) &&
      (forall i :: 0 <= i < |rejects.rows| ==> Incomplete(f.labels, required, rejects.rows[i])) &&
      |r.value.counts| == |f.labels| &&
      forall j :: 0 <= j < |f.labels| ==> r.value.counts[j] == NonNullCount(Column(rejects, j))
  {
    if exists k :: 0 <= k < |required| && required[k] !in f.labels then Err(KeyError)
    else
      var p := IncompleteP(f.labels, required);
      var rejects := Frame(f.labels, Filter(f.rows, p));
      var kept := Frame(f.labels, Filter(f.rows, Not(p)));
      assert Rectangular(kept) && Rectangular(rejects) by {
        FilterRectangular(f, p);
        FilterRectangular(f, Not(p));
      }
      assert |kept.rows| + |rejects.rows| == |f.rows| &&
        multiset(kept.rows) + multiset(rejects.rows) == multiset(f.rows) by {
        FilterPartition(f.rows, p);
      }
      assert (forall i :: 0 <= i < |kept.rows| ==> !Incomplete(f.labels, required, kept.rows[i])) &&
        (forall i :: 0 <= i < |rejects.rows| ==> Incomplete(f.labels, required, rejects.rows[i])) by {
        FilterSides(f.rows, p);
      }
      Ok(Rejection(kept, rejects, NonNullCounts(rejects)))
  }

  /** The rows a filter keeps still fit the labels. */
  lemma FilterRectangular(f: Frame, p: seq<Value> -> bool)
    requires Rectangular(f)
    ensures Rectangular(Frame(f.labels, Filter(f.rows, p)))
  {
    var rows := Filter(f.rows, p);
    forall i | 0 <= i < |rows| ensures |rows[i]| == |f.labels| {
      assert rows[i] in rows;
      var k :| 0 <= k < |f.rows| && f.rows[k] == rows[i];
    }
  }

  /** Every element a filter keeps satisfies the predicate, and every one
      its complement keeps fails it. */
  lemma FilterSides(rows: seq<seq<Value>>, p: seq<Value> -> bool)
    ensures forall i :: 0 <= i < |Filter(rows, p)| ==> p(Filter(rows, p)[i])
    ensures forall i :: 0 <= i < |Filter(rows, Not(p))| ==> !p(Filter(rows, Not(p))[i])
  {
    var a, b := Filter(rows, p), Filter(rows, Not(p));
    assert forall i :: 0 <= i < |a| ==> a[i] in a;
    assert forall i :: 0 <= i < |b| ==> b[i] in b;
  }

  /** A row lands in the rejects exactly when it has a null in a required
      column, and in the kept frame exactly when it has none. */
  lemma RejectPlacement(f: Frame, required: seq<Value>, i: nat)
    requires Rectangular(f) && RejectIncompleteRows(f, required).Ok? && i < |f.rows|
    ensures var r := RejectIncompleteRows(f, required).value;
      (f.rows[i] in r.rejects.rows <==> Incomplete(f.labels, required, f.rows[i])) &&
      (f.rows[i] in r.kept.rows <==> !Incomplete(f.labels, required, f.rows[i]))
  {
    var p := IncompleteP(f.labels, required);
    if p(f.rows[i]) {
      InFilter(f.rows, p, i);
    } else {
      InFilter(f.rows, Not(p), i);
    }
  }

  /** Rejecting again from the kept rows rejects nothing: the frame comes
      back as it is, with an empty rejects frame and zero counts. */
  lemma RejectIdempotent(f: Frame, required: seq<Value>)
    requires Rectangular(f) && RejectIncompleteRows(f, required).Ok?
    ensures var kept := RejectIncompleteRows(f, required).value.kept;
      var again := RejectIncompleteRows(kept, required);
      again.Ok? && again.value.kept == kept && again.value.rejects.rows == [] &&
      forall j :: 0 <= j < |f.labels| ==> again.value.counts[j] == 0
  {
    var kept := RejectIncompleteRows(f, required).value.kept;
    var p := IncompleteP(f.labels, required);
    FilterAll(kept.rows, Not(p));
    FilterNone(kept.rows, p);
  }

  /** A frame with no null in any required column loses no row. */
  lemma RejectNothing(f: Frame, required: seq<Value>)
    requires Rectangular(f) && RejectIncompleteRows(f, required).Ok?
    requires forall i, j :: 0 <= i < |f.rows| && 0 <= j < |f.labels| && f.labels[j] in required ==>
      !IsNull(f.rows[i][j])
    ensures RejectIncompleteRows(f, required).value.kept == f
  {
    var p := IncompleteP(f.labels, required);
    FilterAll(f.rows, Not(p));
  }
}

=== FILE: decorators.dfy ===
/** The `nullable` decorator (tamer/decorators.py): a wrapped function is not
    called on a missing scalar first argument. */
module Decorators {
  import opened Wrappers
  import opened Values

  /** Whether `nullable` lets the call through: the first positional argument
      is a collection (pandas' null test cannot take list-likes) or is not
      null. */
  predicate PassesThrough(arg1: Value) {
    IsCollection(arg1) || !IsNull(arg1)
  }

  /** A call of `nullable(f, nan_return=nanReturn)` with positional arguments
      `args`. Keyword arguments are part of the closure `f`. Reading the first
      argument of an empty argument list raises IndexError. */
  function Nullable<T>(f: seq<Value> -> Result<T>, nanReturn: T, args: seq<Value>): (r: Result<T>)
    ensures |args| == 0 ==> r == Err(IndexError)
    ensures |args| > 0 && PassesThrough(args[0]) ==> r == f(args)
    ensures |args| > 0 && !PassesThrough(args[0]) ==> r == Ok(nanReturn)
  {
    if |args| == 0 then Err(IndexError)
    else if IsCollection(args[0]) || !IsNull(args[0]) then f(args)
    else Ok(nanReturn)
  }

  /** Bare `@nullable`: the missing-value result is NaN. */
  function NullableDefault(f: seq<Value> -> Result<Value>, args: seq<Value>): (r: Result<Value>)
    ensures |args| > 0 && !PassesThrough(args[0]) ==> r == Ok(Nan)
    ensures |args| > 0 && PassesThrough(args[0]) ==> r == f(args)
  {
    Nullable(f, Nan, args)
  }

  /** A missing scalar is answered without consulting the wrapped function:
      any two functions give the same result. */
  lemma NullSkipsCall<T>(f: seq<Value> -> Result<T>, g: seq<Value> -> Result<T>, n: T, args: seq<Value>)
    requires |args| > 0 && IsNull(args[0])
    ensures Nullable(f, n, args) == Nullable(g, n, args) == Ok(n)
  {
  }

  /** When the call goes through, the configured `nan_return` is irrelevant. */
  lemma PassThroughIgnoresNanReturn<T>(f: seq<Value> -> Result<T>, n1: T, n2: T, args: seq<Value>)
    requires |args| > 0 && PassesThrough(args[0])
    ensures Nullable(f, n1, args) == Nullable(f, n2, args) == f(args)
  {
  }
}

=== FILE: dg_util.dfy ===
/** `non_null_count` (datagenius/util.py). */
module DgUtil {
  import opened Values
  import Seqs

  /** An entry `non_null_count` treats as blank: `None` or the empty string.
      NaN is not blank here. */
  predicate Blank(v: Value) { v == NoneV || v == Str("") }

  /** `non_null_count(x)`: the number of entries that are neither `None` nor
      `''`. */
  function NonBlankCount(x: seq<Value>): (n: nat)
    ensures n <= |x|
    ensures n == 0 <==> forall i :: 0 <= i < |x| ==> Blank(x[i])
    ensures n == |x| <==> forall i :: 0 <= i < |x| ==> !Blank(x[i])
  {
    if |x| == 0 then 0
    else
      assert forall i :: 1 <= i < |x| ==> x[i] == x[1..][i - 1];
      (if Blank(x[0]) then 0 else 1) + NonBlankCount(x[1..])
  }

  /** The count of a concatenation is the sum of the counts. */
  lemma {:induction false} NonBlankCountAppend(a: seq<Value>, b: seq<Value>)
    ensures NonBlankCount(a + b) == NonBlankCount(a) + NonBlankCount(b)
    decreases |a|
  {
    if |a| > 0 {
      assert (a + b)[1..] == a[1..] + b;
      NonBlankCountAppend(a[1..], b);
    } else {
      assert a + b == b;
    }
  }

  /** The count is the length of the list with its blanks filtered out. */
  lemma {:induction false} NonBlankCountFilter(x: seq<Value>)
    ensures NonBlankCount(x) == |Seqs.Filter(x, NonBlankP())|
    decreases |x|
  {
    if |x| > 0 {
      NonBlankCountFilter(x[1..]);
    }
  }

  function NonBlankP(): (p: Value -> bool)
    ensures forall v :: p(v) == !Blank(v)
  {
    v => !Blank(v)
  }
}

=== FILE: element.dfy ===
/** datagenius/element.py: the `Dataset` wrapper around a list of rows,
    which switches between rows as lists and rows as ordered dicts keyed by
    the header, and the `MappingRule`/`Mapping` pair that says which
    column of a dataset feeds which column of a target template. */
module Element {
  import opened Wrappers
  import opened Values
  import opened IterUtils
  import opened Seqs
  import opened Guides

  // ---------------------------------------------------------------------
  // Dataset

  /** The two shapes a dataset's rows can take. */
  datatype Format = Lists | Dicts

  /** A dataset: its rows, its header (`None` until one is assigned), the
      shape of its rows and the row length fixed at construction. */
  datatype Dataset = Dataset(data: seq<Value>, header: Option<seq<Value>>, format: Format, colCt: nat)

  /** The row-length check of the constructor, row by row: the first row
      without a length raises TypeError, the first of another length
      ValueError. */
  function CheckRows(rows: seq<Value>, colCt: nat): (r: Result<()>)
    ensures r.Ok? <==> forall i :: 0 <= i < |rows| ==> Len(rows[i]) == Ok(colCt)
    ensures r.Err? ==> r.error == TypeError || r.error == ValueError
    decreases |rows|
  {
    if |rows| == 0 then Ok(())
    else
      assert forall i :: 1 <= i < |rows| ==> rows[i] == rows[1..][i - 1];
      var n :- Len(rows[0]);
      if n != colCt then Err(ValueError) else CheckRows(rows[1..], colCt)
  }

  /** `Dataset(data)`: the data must be a list whose first row is a list,
      and every row must have that row's length. An empty list has no
      first row and raises IndexError. */
  function NewDataset(data: Value): (r: Result<Dataset>)
    ensures !data.List? ==> r == Err(ValueError)
    ensures data.List? && |data.items| == 0 ==> r == Err(IndexError)
    ensures data.List? && |data.items| > 0 && !data.items[0].List? ==> r == Err(ValueError)
    ensures r.Ok? <==> (data.List? && |data.items| > 0 && data.items[0].List? &&
      forall i :: 0 <= i < |data.items| ==> Len(data.items[i]) == Ok(|data.items[0].items|))
    ensures r.Ok? ==> r.value == Dataset(data.items, None, Lists, |data.items[0].items|)
    ensures r.Err? ==> r.error in {ValueError, IndexError, TypeError}
  {
    if !data.List? then Err(ValueError)
    else if |data.items| == 0 then Err(IndexError)
    else if !data.items[0].List? then Err(ValueError)
    else
      var colCt := |data.items[0].items|;
      var _ :- CheckRows(data.items, colCt);
      Ok(Dataset(data.items, None, Lists, colCt))
  }

  /** A dataset made by the constructor from rows that are all lists. */
  predicate ListRows(ds: Dataset) {
    |ds.data| > 0 && ds.format == Lists &&
    forall i :: 0 <= i < |ds.data| ==> ds.data[i].List? && |ds.data[i].items| == ds.colCt
  }

  /** Constructing from list rows of one length succeeds and keeps them. */
  lemma NewDatasetRows(rows: seq<seq<Value>>, n: nat)
    requires |rows| > 0 && forall i :: 0 <= i < |rows| ==> |rows[i]| == n
    ensures var data := seq(|rows|, i requires 0 <= i < |rows| => List(rows[i]));
      NewDataset(List(data)) == Ok(Dataset(data, None, Lists, n)) &&
      ListRows(NewDataset(List(data)).value)
  {
  }

  /** `row[i]` for the index positions `to_dicts` reads. */
  function RowItem(row: Value, i: nat): (r: Result<Value>)
    ensures (row.List? || row.Tuple?) ==> (r.Ok? <==> i < |row.items|)
    ensures (row.List? || row.Tuple?) && i < |row.items| ==> r == Ok(row.items[i])
    ensures r.Err? ==> r.error in {IndexError, KeyError, TypeError, Unmodelled}
  {
    match row
    case List(items) => if i < |items| then Ok(items[i]) else Err(IndexError)
    case Tuple(items) => if i < |items| then Ok(items[i]) else Err(IndexError)
    case Str(s) => if i < |s| then Ok(Str([s[i]])) else Err(IndexError)
    case Dict(entries) =>
      (match Lookup(entries, Int(i))
       case Some(v) => Ok(v)
       case None => Err(KeyError))
    case Zn(_) => Err(Unmodelled)
    case _ => Err(TypeError)
  }

  /** The (label, cell) pairs `to_dicts` assigns for one row, in header
      order, up to the first cell that cannot be read. */
  function HeaderPairs(header: seq<Value>, row: Value, from: nat): (r: Result<Entries>)
    requires from <= |header|
    ensures r.Ok? <==> forall i :: from <= i < |header| ==> RowItem(row, i).Ok?
    ensures r.Ok? ==> (|r.value| == |header| - from &&
      forall i :: 0 <= i < |r.value| ==> r.value[i] == (header[from + i], RowItem(row, from + i).value))
    decreases |header| - from
  {
    if from == |header| then Ok([])
    else
      var v :- RowItem(row, from);
      var rest :- HeaderPairs(header, row, from + 1);
      Ok([(header[from], v)] + rest)
  }

  /** One row as an ordered dict: `d[h] = row[i]` for each header label in
      turn, so a repeated label keeps its first position and its last
      cell. */
  function RowToDict(header: seq<Value>, row: Value): (r: Result<Value>)
    ensures r.Ok? <==> forall i :: 0 <= i < |header| ==> RowItem(row, i).Ok?
    ensures r.Ok? ==> r.value.Dict? && DistinctKeys(r.value.entries)
    ensures r.Ok? ==> Keys(r.value.entries) == FirstAppearances(header, [])
  {
    var pairs :- HeaderPairs(header, row, 0);
    StoreAllKeys([], pairs);
    assert Keys(pairs) == header;
    Ok(Dict(StoreAll([], pairs)))
  }

  /** Every row converted, stopping at the first failure. */
  function RowsToDicts(header: seq<Value>, rows: seq<Value>): (r: Result<seq<Value>>)
    ensures r.Ok? <==> forall i :: 0 <= i < |rows| ==> RowToDict(header, rows[i]).Ok?
    ensures r.Ok? ==> (|r.value| == |rows| &&
      forall i :: 0 <= i < |rows| ==> r.value[i] == RowToDict(header, rows[i]).value)
    decreases |rows|
  {
    if |rows| == 0 then Ok([])
    else
      assert forall i :: 1 <= i < |rows| ==> rows[i] == rows[1..][i - 1];
      var d :- RowToDict(header, rows[0]);
      var rest :- RowsToDicts(header, rows[1..]);
      var r := [d] + rest;
      assert forall i :: 1 <= i < |r| ==> r[i] == rest[i - 1];
      Ok(r)
  }

  /** `to_dicts()`: without a header, AttributeError; rows already in dict
      form stay as they are; otherwise every row becomes an ordered dict
      keyed by the header. */
  function ToDicts(ds: Dataset): (r: Result<Dataset>)
    ensures ds.header.None? ==> r == Err(AttributeError)
    ensures ds.header.Some? && ds.format == Dicts ==> r == Ok(ds)
    ensures r.Ok? ==> r.value.format == Dicts && r.value.header == ds.header && r.value.colCt == ds.colCt
    ensures r.Ok? ==> |r.value.data| == |ds.data|
    ensures ds.header.Some? && ds.format == Lists ==>
      (r.Ok? <==> forall i :: 0 <= i < |ds.data| ==> RowToDict(ds.header.value, ds.data[i]).Ok?)
    ensures r.Ok? && ds.format == Lists ==> forall i :: 0 <= i < |ds.data| ==>
      r.value.data[i] == RowToDict(ds.header.value, ds.data[i]).value
  {
    if ds.header.None? then Err(AttributeError)
    else if ds.format == Dicts then Ok(ds)
    else
      var rows :- RowsToDicts(ds.header.value, ds.data);
      Ok(ds.(data := rows, format := Dicts))
  }

  /** Converting twice is converting once. */
  lemma ToDictsIdempotent(ds: Dataset)
    requires ToDicts(ds).Ok?
    ensures ToDicts(ToDicts(ds).value) == ToDicts(ds)
  {
  }

  /** The cells of a dict row, in key order. */
  function Cells(d: Entries): (r: seq<Value>)
    ensures |r| == |d| && forall i :: 0 <= i < |d| ==> r[i] == d[i].1
  {
    seq(|d|, i requires 0 <= i < |d| => d[i].1)
  }

  /** Every dict row back to a list of its values. */
  function DictsToRows(rows: seq<Value>): (r: Result<seq<Value>>)
    ensures r.Ok? <==> forall i :: 0 <= i < |rows| ==> rows[i].Dict?
    ensures r.Err? ==> r.error == AttributeError
    ensures r.Ok? ==> (|r.value| == |rows| &&
      forall i :: 0 <= i < |rows| ==> r.value[i] == List(Cells(rows[i].entries)))
    decreases |rows|
  {
    if |rows| == 0 then Ok([])
    else
      assert forall i :: 1 <= i < |rows| ==> rows[i] == rows[1..][i - 1];
      if !rows[0].Dict? then Err(AttributeError)
      else
        var rest :- DictsToRows(rows[1..]);
        Ok([List(Cells(rows[0].entries))] + rest)
  }

  /** `to_lists()`: dict rows become lists of their values and the header
      becomes the first row's keys; rows already in list form stay. A
      dataset in dict form with no rows has no first row: IndexError. */
  function ToLists(ds: Dataset): (r: Result<Dataset>)
    ensures ds.format == Lists ==> r == Ok(ds)
    ensures ds.format == Dicts && |ds.data| == 0 ==> r == Err(IndexError)
    ensures ds.format == Dicts && |ds.data| > 0 ==> (r.Ok? <==> forall i :: 0 <= i < |ds.data| ==> ds.data[i].Dict?)
    ensures r.Ok? ==> r.value.format == Lists && |r.value.data| == |ds.data| && r.value.colCt == ds.colCt
    ensures r.Ok? && ds.format == Dicts ==> r.value.header == Some(Keys(ds.data[0].entries))
    ensures r.Ok? && ds.format == Dicts ==> forall i :: 0 <= i < |ds.data| ==>
      r.value.data[i] == List(Cells(ds.data[i].entries))
  {
    if ds.format == Lists then Ok(ds)
    else if |ds.data| == 0 then Err(IndexError)
    else if !ds.data[0].Dict? then Err(AttributeError)
    else
      var rows :- DictsToRows(ds.data);
      Ok(ds.(data := rows, header := Some(Keys(ds.data[0].entries)), format := Lists))
  }

  /** The dict a list row becomes under a header of distinct labels that
      fits the row. */
  lemma RowToDictExact(header: seq<Value>, items: seq<Value>)
    requires |header| == |items|
    requires forall i, j :: 0 <= i < j < |header| ==> header[i] != header[j]
    ensures RowToDict(header, List(items)).Ok?
    ensures RowToDict(header, List(items)).value.entries ==
      seq(|header|, i requires 0 <= i < |header| => (header[i], items[i]))
  {
    var pairs := HeaderPairs(header, List(items), 0).value;
    assert Keys(pairs) == header;
    StoreAllNew([], pairs);
    assert [] + pairs == pairs;
  }

  /** `to_dicts` then `to_lists` gives back the dataset, when the header has
      one distinct label per column and the rows are lists. */
  lemma DictsRoundTrip(ds: Dataset)
    requires ListRows(ds) && ds.header.Some? && |ds.header.value| == ds.colCt
    requires forall i, j :: 0 <= i < j < |ds.header.value| ==> ds.header.value[i] != ds.header.value[j]
    ensures ToDicts(ds).Ok? && ToLists(ToDicts(ds).value) == Ok(ds)
  {
    var h := ds.header.value;
    forall i | 0 <= i < |ds.data| ensures RowToDict(h, ds.data[i]).Ok? {
      RowToDictExact(h, ds.data[i].items);
    }
    var dd := ToDicts(ds).value;
    forall i | 0 <= i < |ds.data|
      ensures dd.data[i].Dict? && List(Cells(dd.data[i].entries)) == ds.data[i]
    {
      RowToDictExact(h, ds.data[i].items);
    }
    RowToDictExact(h, ds.data[0].items);
    assert Keys(dd.data[0].entries) == h;
    var back := ToLists(dd).value;
    assert back.data == ds.data;
  }

  /** `data.pop(k)`: the position counts from the end when negative, and
      one out of range raises IndexError. */
  function Pop(ds: Dataset, k: int): (r: Result<Dataset>)
    ensures r.Ok? <==> PyIndex(k, |ds.data|).Some?
    ensures r.Err? ==> r.error == IndexError
    ensures r.Ok? ==> var i := PyIndex(k, |ds.data|).value;
      r.value == ds.(data := ds.data[..i] + ds.data[i + 1..])
  {
    match PyIndex(k, |ds.data|)
    case Some(i) => Ok(ds.(data := ds.data[..i] + ds.data[i + 1..]))
    case None => Err(IndexError)
  }

  /** `remove(key)`: an int (or bool, an int in Python) pops that position;
      a list deletes the first equal row and raises ValueError when there
      is none; any other key raises ValueError. The other rows keep their
      order. */
  function Remove(ds: Dataset, key: Value): (r: Result<Dataset>)
    ensures r.Ok? ==> r.value == ds.(data := r.value.data) && |r.value.data| == |ds.data| - 1
    ensures key.Int? ==> r == Pop(ds, key.i)
    ensures key.Bool? ==> r == Pop(ds, if key.b then 1 else 0)
    ensures key.List? ==> (r.Ok? <==> key in ds.data)
    ensures key.List? && r.Ok? ==> var k := Find(ds.data, key);
      r.value.data == ds.data[..k] + ds.data[k + 1..]
    ensures !key.Int? && !key.Bool? && !key.List? ==> r == Err(ValueError)
    ensures r.Err? ==> r.error == IndexError || r.error == ValueError
  {
    match key
    case Int(k) => Pop(ds, k)
    case Bool(b) => Pop(ds, if b then 1 else 0)
    case List(_) =>
      var rows :- Seqs.Remove(ds.data, key);
      Ok(ds.(data := rows))
    case _ => Err(ValueError)
  }

  /** Removing a row by its position and by its contents agree when no
      earlier row is equal to it. */
  lemma RemoveAgree(ds: Dataset, i: nat)
    requires i < |ds.data| && ds.data[i].List? && ds.data[i] !in ds.data[..i]
    ensures Remove(ds, Int(i)) == Remove(ds, ds.data[i])
  {
  }

  /** `copy()`: a new dataset built by the constructor from the rows, with
      the header carried over when it is a non-empty list. The constructor
      runs again, so the copy is in list form, and rows in dict form fail
      its check with ValueError. */
  function Copy(ds: Dataset): (r: Result<Dataset>)
    ensures r == (match NewDataset(List(ds.data))
                  case Ok(d) => Ok(d.(header := if ds.header.Some? && |ds.header.value| > 0 then ds.header else None))
                  case Err(e) => Err(e))
    ensures ds.format == Dicts && |ds.data| > 0 && ds.data[0].Dict? ==> r == Err(ValueError)
    ensures ListRows(ds) ==> r == Ok(ds.(header := if ds.header.Some? && |ds.header.value| > 0 then ds.header else None))
  {
    var d :- NewDataset(List(ds.data));
    Ok(d.(header := if ds.header.Some? && |ds.header.value| > 0 then ds.header else None))
  }

  // ---------------------------------------------------------------------
  // MappingRule, Mapping

  /** A mapping rule: the target column and the default for missing
      values. */
  datatype Rule = Rule(to: Value, default: Value)

  /** The rule `MappingRule()` makes: no target and no default. */
  const EmptyRule := Rule(NoneV, NoneV)

  /** Calling a rule: the target, and the value or, when it is None, the
      default. */
  function Apply(rule: Rule, value: Value): (r: (Value, Value))
    ensures r.0 == rule.to
    ensures !value.NoneV? ==> r.1 == value
    ensures value.NoneV? ==> r.1 == rule.default
  {
    (rule.to, if value.NoneV? then rule.default else value)
  }

  /** Applying a rule to its own output changes nothing, and the output is
      None only when both the value and the default are. */
  lemma ApplyStable(rule: Rule, value: Value)
    ensures Apply(rule, Apply(rule, value).1) == Apply(rule, value)
    ensures Apply(rule, value).1.NoneV? <==> value.NoneV? && rule.default.NoneV?
  {
  }

  /** A value of the rules dict: a ready rule or anything else. */
  datatype RuleArg = GivenRule(rule: Rule) | GivenValue(v: Value)

  /** The keys of a dict of rules. */
  function RuleKeys<V>(m: seq<(Value, V)>): (ks: seq<Value>)
    ensures |ks| == |m| && forall i :: 0 <= i < |m| ==> ks[i] == m[i].0
  {
    seq(|m|, i requires 0 <= i < |m| => m[i].0)
  }

  /** Whether a rules entry is accepted: its key is in the template and its
      value is a rule or a string. */
  predicate Accepted(template: seq<Value>, e: (Value, RuleArg)) {
    e.0 in template && (e.1.GivenRule? || e.1.v.Str?)
  }

  /** The rule a string or a ready rule stands for. */
  function AsRule(a: RuleArg): (r: Rule)
    requires a.GivenRule? || a.v.Str?
    ensures a.GivenRule? ==> r == a.rule
    ensures a.GivenValue? ==> r == Rule(a.v, NoneV)
  {
    if a.GivenRule? then a.rule else Rule(a.v, NoneV)
  }

  /** The first loop of `Mapping.__init__`: every given entry checked and
      turned into a rule. Since the entries come from a dict, each key is
      assigned once. */
  function GivenRules(template: seq<Value>, rules: seq<(Value, RuleArg)>): (r: Result<seq<(Value, Rule)>>)
    ensures r.Ok? <==> forall i :: 0 <= i < |rules| ==> Accepted(template, rules[i])
    ensures r.Err? ==> r.error == ValueError
    ensures r.Ok? ==> (|r.value| == |rules| &&
      forall i :: 0 <= i < |rules| ==> Accepted(template, rules[i]) && r.value[i] == (rules[i].0, AsRule(rules[i].1)))
    decreases |rules|
  {
    if |rules| == 0 then Ok([])
    else
      assert forall i :: 1 <= i < |rules| ==> rules[i] == rules[1..][i - 1];
      if !Accepted(template, rules[0]) then Err(ValueError)
      else
        var rest :- GivenRules(template, rules[1..]);
        Ok([(rules[0].0, AsRule(rules[0].1))] + rest)
  }

  /** The second loop: each template key not assigned yet gets an empty
      rule, in template order. */
  function FillTemplate(m: seq<(Value, Rule)>, ts: seq<Value>): (r: seq<(Value, Rule)>)
    ensures |r| >= |m| && r[..|m|] == m
    ensures forall i :: |m| <= i < |r| ==> r[i].1 == EmptyRule
    ensures RuleKeys(r) == RuleKeys(m) + FirstAppearances(ts, RuleKeys(m))
    decreases |ts|
  {
    if |ts| == 0 then
      assert m[..|m|] == m;
      m
    else
      var m' := if ts[0] in RuleKeys(m) then m else m + [(ts[0], EmptyRule)];
      assert RuleKeys(m') == if ts[0] in RuleKeys(m) then RuleKeys(m) else RuleKeys(m) + [ts[0]];
      var r := FillTemplate(m', ts[1..]);
      FirstAppearancesStep(RuleKeys(m), RuleKeys(m'), ts);
      assert r[..|m|] == r[..|m'|][..|m|];
      r
  }

  /** `Mapping(template, rules)`: the given rules first, in their order,
      strings wrapped as rules, then an empty rule for every other template
      key. A key outside the template or a value that is neither a string
      nor a rule raises ValueError. */
  function NewMapping(template: seq<Value>, rules: seq<(Value, RuleArg)>): (r: Result<seq<(Value, Rule)>>)
    requires forall i, j :: 0 <= i < j < |rules| ==> rules[i].0 != rules[j].0
    ensures r.Ok? <==> forall i :: 0 <= i < |rules| ==> Accepted(template, rules[i])
    ensures r.Err? ==> r.error == ValueError
    ensures r.Ok? ==> (|r.value| >= |rules| &&
      forall i :: 0 <= i < |rules| ==> Accepted(template, rules[i]) && r.value[i] == (rules[i].0, AsRule(rules[i].1)))
    ensures r.Ok? ==> forall i :: |rules| <= i < |r.value| ==> r.value[i].1 == EmptyRule
    ensures r.Ok? ==> RuleKeys(r.value) == RuleKeys(rules) + FirstAppearances(template, RuleKeys(rules))
  {
    var given :- GivenRules(template, rules);
    assert RuleKeys(given) == RuleKeys(rules);
    var r := FillTemplate(given, template);
    assert forall i :: 0 <= i < |rules| ==> r[i] == r[..|given|][i];
    Ok(r)
  }

  /** `mapping[item]`: the rule under a key, or KeyError. */
  function GetRule(m: seq<(Value, Rule)>, item: Value): (r: Result<Rule>)
    ensures r.Ok? <==> item in RuleKeys(m)
    ensures r.Err? ==> r.error == KeyError
    ensures r.Ok? ==> exists i :: 0 <= i < |m| && m[i] == (item, r.value)
    decreases |m|
  {
    if |m| == 0 then Err(KeyError)
    else if m[0].0 == item then Ok(m[0].1)
    else
      assert RuleKeys(m) == [m[0].0] + RuleKeys(m[1..]);
      var r :- GetRule(m[1..], item);
      assert exists i :: 0 <= i < |m| - 1 && m[1..][i] == (item, r);
      Ok(r)
  }

  /** Every template key has a rule in the mapping: the given one for a
      key among the rules, the empty rule for the rest. */
  lemma MappingCovers(template: seq<Value>, rules: seq<(Value, RuleArg)>, t: Value)
    requires forall i, j :: 0 <= i < j < |rules| ==> rules[i].0 != rules[j].0
    requires NewMapping(template, rules).Ok? && t in template
    ensures GetRule(NewMapping(template, rules).value, t).Ok?
    ensures forall i :: 0 <= i < |rules| && rules[i].0 == t ==>
      GetRule(NewMapping(template, rules).value, t) == Ok(AsRule(rules[i].1))
    ensures t !in RuleKeys(rules) ==> GetRule(NewMapping(template, rules).value, t) == Ok(EmptyRule)
  {
    var m := NewMapping(template, rules).value;
    FirstAppearancesCovers(template, RuleKeys(rules), t);
    assert t in RuleKeys(m);
    var g := GetRule(m, t).value;
    var k :| 0 <= k < |m| && m[k] == (t, g);
    forall i | 0 <= i < |rules| && rules[i].0 == t
      ensures g == AsRule(rules[i].1)
    {
    }
  }

  /** A key of `ks` is either already seen or among the first
      appearances. */
  lemma {:induction false} FirstAppearancesCovers(ks: seq<Value>, seen: seq<Value>, t: Value)
    requires t in ks
    ensures t in seen || t in FirstAppearances(ks, seen)
    decreases |ks|
  {
    if ks[0] != t {
      assert t in ks[1..];
      if ks[0] in seen {
        FirstAppearancesCovers(ks[1..], seen, t);
      } else {
        FirstAppearancesCovers(ks[1..], seen + [ks[0]], t);
      }
    }
  }
}

=== FILE: frames.dfy ===
/** A pandas DataFrame as the model sees it: a list of column labels and a
    list of rows, each row holding one cell per label. Row index labels are
    positions (a RangeIndex), so `reset_index(drop=True)` is implicit. */
module Frames {
  import opened Values

  datatype Frame = Frame(labels: seq<Value>, rows: seq<seq<Value>>)

  /** Every row has one cell per column, as in any DataFrame. */
  predicate Rectangular(f: Frame) {
    forall i :: 0 <= i < |f.rows| ==> |f.rows[i]| == |f.labels|
  }

  /** Column `j`, top to bottom. */
  function Column(f: Frame, j: nat): (col: seq<Value>)
    requires Rectangular(f) && j < |f.labels|
    ensures |col| == |f.rows|
    ensures forall i :: 0 <= i < |f.rows| ==> col[i] == f.rows[i][j]
  {
    seq(|f.rows|, i requires 0 <= i < |f.rows| && Rectangular(f) && j < |f.labels| => f.rows[i][j])
  }

  /** The frame with column `j` replaced by `col`. */
  function SetColumn(f: Frame, j: nat, col: seq<Value>): (g: Frame)
    requires Rectangular(f) && j < |f.labels| && |col| == |f.rows|
    ensures g.labels == f.labels && |g.rows| == |f.rows| && Rectangular(g)
    ensures forall i, k :: 0 <= i < |f.rows| && 0 <= k < |f.labels| ==>
      g.rows[i][k] == if k == j then col[i] else f.rows[i][k]
  {
    Frame(f.labels, seq(|f.rows|, i requires 0 <= i < |f.rows| => f.rows[i][j := col[i]]))
  }

  /** Reading back a column that was just written gives what was written;
      every other column is untouched. */
  lemma SetColumnRead(f: Frame, j: nat, col: seq<Value>, k: nat)
    requires Rectangular(f) && j < |f.labels| && |col| == |f.rows| && k < |f.labels|
    ensures Column(SetColumn(f, j, col), k) == if k == j then col else Column(f, k)
  {
  }

  /** `Series.count()`: the number of cells that are not None or NaN. */
  function NonNullCount(col: seq<Value>): (n: nat)
    ensures n <= |col|
  {
    if |col| == 0 then 0
    else (if IsNull(col[0]) then 0 else 1) + NonNullCount(col[1..])
  }

  lemma {:induction false} NonNullCountAppend(a: seq<Value>, b: seq<Value>)
    ensures NonNullCount(a + b) == NonNullCount(a) + NonNullCount(b)
    decreases |a|
  {
    if |a| > 0 {
      assert (a + b)[1..] == a[1..] + b;
      NonNullCountAppend(a[1..], b);
    } else {
      assert a + b == b;
    }
  }

  /** The count reaches the length exactly when no cell is null. */
  lemma {:induction false} NonNullCountFull(col: seq<Value>)
    ensures NonNullCount(col) == |col| <==> forall i :: 0 <= i < |col| ==> !IsNull(col[i])
    decreases |col|
  {
    if |col| > 0 {
      NonNullCountFull(col[1..]);
      assert forall i :: 1 <= i < |col| ==> col[i] == col[1..][i - 1];
    }
  }

  /** `DataFrame.count()`: the non-null count of every column, in column
      order. */
  function NonNullCounts(f: Frame): (r: seq<nat>)
    requires Rectangular(f)
    ensures |r| == |f.labels|
    ensures forall j :: 0 <= j < |f.labels| ==> r[j] == NonNullCount(Column(f, j))
  {
    seq(|f.labels|, j requires 0 <= j < |f.labels| && Rectangular(f) => NonNullCount(Column(f, j)))
  }
}

=== FILE: gconfig.dfy ===
/** The in-memory parts of datagenius/gconfig.py: the name-pattern lists of
    `Patterns` (their defaults, the invalid-character list, the custom
    pattern file checks and `_update_patterns`) and the
    `name_column_labels` setter of `GConfig`. */
module GConfig {
  import opened Wrappers
  import opened Values
  import opened Seqs
  import Header

  // ---------------------------------------------------------------------
  // Patterns

  /** The pattern lists `Patterns` exposes as properties. */
  datatype Category =
    | CompoundFnames | LnameParticles | Ampersands | CamelcaseParticles
    | Prefixes | Suffixes | InvalidWords | InvalidChars

  /** The property (and YAML key) naming a category. */
  function Name(c: Category): string {
    match c
    case CompoundFnames => "compound_fnames"
    case LnameParticles => "lname_particles"
    case Ampersands => "ampersands"
    case CamelcaseParticles => "camelcase_particles"
    case Prefixes => "prefixes"
    case Suffixes => "suffixes"
    case InvalidWords => "invalid_words"
    case InvalidChars => "invalid_chars"
  }

  /** The category a key names, if any. */
  function CategoryOf(k: string): (r: Option<Category>)
    ensures r.Some? ==> Name(r.value) == k
    ensures forall c :: Name(c) == k ==> r == Some(c)
  {
    if k == "compound_fnames" then Some(CompoundFnames)
    else if k == "lname_particles" then Some(LnameParticles)
    else if k == "ampersands" then Some(Ampersands)
    else if k == "camelcase_particles" then Some(CamelcaseParticles)
    else if k == "prefixes" then Some(Prefixes)
    else if k == "suffixes" then Some(Suffixes)
    else if k == "invalid_words" then Some(InvalidWords)
    else if k == "invalid_chars" then Some(InvalidChars)
    else None
  }

  datatype Patterns = Patterns(
    compoundFnames: seq<string>, lnameParticles: seq<string>, ampersands: seq<string>,
    camelcaseParticles: seq<string>, prefixes: seq<string>, suffixes: seq<string>,
    invalidWords: seq<string>, invalidChars: seq<string>)

  function Get(p: Patterns, c: Category): seq<string> {
    match c
    case CompoundFnames => p.compoundFnames
    case LnameParticles => p.lnameParticles
    case Ampersands => p.ampersands
    case CamelcaseParticles => p.camelcaseParticles
    case Prefixes => p.prefixes
    case Suffixes => p.suffixes
    case InvalidWords => p.invalidWords
    case InvalidChars => p.invalidChars
  }

  /** `setattr(self, "_" + name, v)` for a category. */
  function Put(p: Patterns, c: Category, v: seq<string>): (r: Patterns)
    ensures forall c' :: Get(r, c') == if c' == c then v else Get(p, c')
  {
    match c
    case CompoundFnames => p.(compoundFnames := v)
    case LnameParticles => p.(lnameParticles := v)
    case Ampersands => p.(ampersands := v)
    case CamelcaseParticles => p.(camelcaseParticles := v)
    case Prefixes => p.(prefixes := v)
    case Suffixes => p.(suffixes := v)
    case InvalidWords => p.(invalidWords := v)
    case InvalidChars => p.(invalidChars := v)
  }

  /** The characters from `lo` to `hi` in code order. */
  function Span(lo: char, hi: char): (s: string)
    requires lo <= hi && hi as int < 128
    ensures |s| == hi as int - lo as int + 1 && s[0] == lo && s[|s| - 1] == hi
    ensures forall c :: c in s <==> lo <= c <= hi
    ensures Increasing(s)
  {
    var n := hi as int - lo as int + 1;
    var s := seq(n, i requires 0 <= i < n => (lo as int + i) as char);
    assert forall c :: lo <= c <= hi ==> c in s by {
      forall c | lo <= c <= hi ensures c in s {
        assert s[c as int - lo as int] == c;
      }
    }
    s
  }

  lemma IncreasingAppend(a: string, b: string)
    requires Increasing(a) && Increasing(b)
    requires |a| == 0 || |b| == 0 || a[|a| - 1] < b[0]
    ensures Increasing(a + b)
  {
    forall i, j | 0 <= i < j < |a + b| ensures (a + b)[i] < (a + b)[j] {
      if i < |a| && j >= |a| {
        assert a[i] <= a[|a| - 1];
        assert b[0] <= b[j - |a|];
      }
    }
  }

  /** Python's `string.punctuation`: the ASCII punctuation characters in
      code order. */
  const Punctuation: string := Span('!', '/') + Span(':', '@') + Span('[', '`') + Span('{', '~')

  /** `string.punctuation` holds each punctuation character once. */
  lemma PunctuationSpec()
    ensures |Punctuation| == 32
    ensures forall c :: c in Punctuation <==> Header.IsPunctuation(c)
    ensures Increasing(Punctuation)
  {
    var a, b, c, d := Span('!', '/'), Span(':', '@'), Span('[', '`'), Span('{', '~');
    IncreasingAppend(a, b);
    IncreasingAppend(a + b, c);
    IncreasingAppend(a + b + c, d);
  }

  /** The characters names keep although they are punctuation. */
  const Allowed: string := "&'-."

  /** Membership in `Allowed`, as a predicate to filter with. */
  function AllowedP(): (p: char -> bool)
    ensures forall c :: p(c) == (c in Allowed)
  {
    c => c in Allowed
  }

  /** Characters in strictly increasing order (so each appears once). */
  predicate Increasing(s: string) {
    forall i, j :: 0 <= i < j < |s| ==> s[i] < s[j]
  }

  lemma {:induction false} FilterIncreasing(s: string, p: char -> bool)
    requires Increasing(s)
    ensures Increasing(Filter(s, p))
    decreases |s|
  {
    if |s| > 0 {
      FilterIncreasing(s[1..], p);
      var rest := Filter(s[1..], p);
      forall y | y in rest ensures s[0] < y {
        var k :| 0 <= k < |s[1..]| && s[1..][k] == y;
      }
      if p(s[0]) {
        assert Filter(s, p) == [s[0]] + rest;
        forall j | 0 < j < |Filter(s, p)| ensures s[0] < Filter(s, p)[j] {
          assert Filter(s, p)[j] == rest[j - 1] && rest[j - 1] in rest;
        }
      } else {
        assert Filter(s, p) == rest;
      }
    }
  }

  lemma FilterMembers(s: string, p: char -> bool)
    ensures forall c :: c in Filter(s, p) <==> c in s && p(c)
  {
    forall c | c in s && p(c) ensures c in Filter(s, p) {
      var i :| 0 <= i < |s| && s[i] == c;
      InFilter(s, p, i);
    }
  }

  /** Two increasing strings with the same characters are equal. */
  lemma {:induction false} IncreasingUnique(a: string, b: string)
    requires Increasing(a) && Increasing(b)
    requires forall c :: c in a <==> c in b
    ensures a == b
    decreases |a|
  {
    if |a| > 0 {
      assert a[0] in a;
    }
    if |b| > 0 {
      assert b[0] in b;
    }
    if |a| > 0 && |b| > 0 {
      var m :| 0 <= m < |b| && b[m] == a[0];
      var k :| 0 <= k < |a| && a[k] == b[0];
      assert a[0] == b[0];
      forall c ensures c in a[1..] <==> c in b[1..] {
        if c in a[1..] {
          var i :| 0 <= i < |a[1..]| && a[1..][i] == c;
          assert c in b && c != b[0];
          var j :| 0 <= j < |b| && b[j] == c;
          assert b[1..][j - 1] == c;
        }
        if c in b[1..] {
          var j :| 0 <= j < |b[1..]| && b[1..][j] == c;
          assert c in a && c != a[0];
          var i :| 0 <= i < |a| && a[i] == c;
          assert a[1..][i - 1] == c;
        }
      }
      IncreasingUnique(a[1..], b[1..]);
      assert a == [a[0]] + a[1..] && b == [b[0]] + b[1..];
    }
  }

  lemma AllowedSpec()
    ensures Increasing(Allowed)
    ensures forall c :: c in Allowed ==> Header.IsPunctuation(c)
  {
  }

  /** `string.punctuation` holds `&`, `'`, `-` and `.` in that order, so
      picking them out of it gives `Allowed` back. */
  lemma FilterAllowed()
    ensures Filter(Punctuation, AllowedP()) == Allowed
  {
    PunctuationSpec();
    FilterIncreasing(Punctuation, AllowedP());
    FilterMembers(Punctuation, AllowedP());
    AllowedSpec();
    IncreasingUnique(Filter(Punctuation, AllowedP()), Allowed);
  }

  /** `_get_invalid_chars()`: the punctuation list with `&`, `'`, `-` and
      `.` removed one `list.remove` at a time (each one-character string is
      a character here). No removal fails, and what is left is the rest of
      the punctuation, each character once, in its original order. */
  function GetInvalidChars(): (r: Result<string>)
    ensures r == Ok(Filter(Punctuation, Not(AllowedP())))
    ensures |r.value| == 28
    ensures forall c :: c in r.value <==> Header.IsPunctuation(c) && c !in Allowed
    ensures Increasing(r.value)
  {
    FilterAllowed();
    RemoveFiltered(Punctuation, AllowedP());
    PunctuationSpec();
    FilterIncreasing(Punctuation, Not(AllowedP()));
    FilterMembers(Punctuation, Not(AllowedP()));
    RemoveEach(Punctuation, Allowed)
  }

  /** Each character as a one-character string. */
  function OneCharStrings(s: string): (r: seq<string>)
    ensures |r| == |s| && forall i :: 0 <= i < |s| ==> r[i] == [s[i]]
    ensures forall c :: [c] in r <==> c in s
  {
    var r := seq(|s|, i requires 0 <= i < |s| => [s[i]]);
    assert forall c :: c in s ==> [c] in r by {
      forall c | c in s ensures [c] in r {
        var i :| 0 <= i < |s| && s[i] == c;
        assert r[i] == [c];
      }
    }
    r
  }

  /** `Patterns()` given the merged pattern files: each category takes its
      list, a category the files leave out starts empty, and the invalid
      characters are the 28 punctuation characters other than `&`, `'`,
      `-` and `.`. */
  function NewPatterns(raw: map<string, seq<string>>): (p: Patterns)
    ensures forall c :: c != InvalidChars ==> Get(p, c) == RawGet(raw, Name(c))
    ensures |p.invalidChars| == 28
    ensures forall c :: [c] in p.invalidChars <==> Header.IsPunctuation(c) && c !in Allowed
  {
    var invalid := OneCharStrings(GetInvalidChars().value);
    var p := Patterns(
      RawGet(raw, "compound_fnames"), RawGet(raw, "lname_particles"), RawGet(raw, "ampersands"),
      RawGet(raw, "camelcase_particles"), RawGet(raw, "prefixes"), RawGet(raw, "suffixes"),
      RawGet(raw, "invalid_words"), invalid);
    FromRaw(p, raw);
    p
  }

  lemma FromRaw(p: Patterns, raw: map<string, seq<string>>)
    requires p.compoundFnames == RawGet(raw, "compound_fnames") && p.lnameParticles == RawGet(raw, "lname_particles")
    requires p.ampersands == RawGet(raw, "ampersands") && p.camelcaseParticles == RawGet(raw, "camelcase_particles")
    requires p.prefixes == RawGet(raw, "prefixes") && p.suffixes == RawGet(raw, "suffixes")
    requires p.invalidWords == RawGet(raw, "invalid_words")
    ensures forall c :: c != InvalidChars ==> Get(p, c) == RawGet(raw, Name(c))
  {
    forall c | c != InvalidChars ensures Get(p, c) == RawGet(raw, Name(c)) {
      match c
      case CompoundFnames =>
      case LnameParticles =>
      case Ampersands =>
      case CamelcaseParticles =>
      case Prefixes =>
      case Suffixes =>
      case InvalidWords =>
    }
  }

  /** File `i` is the last of `files` to hold key `k`. */
  predicate LastHolder(files: seq<map<string, seq<string>>>, k: string, i: int) {
    0 <= i < |files| && k in files[i] && forall j :: i < j < |files| ==> k !in files[j]
  }

  /** `_load_patterns()` once each pattern file is read: the files'
      mappings merged in listing order, a later file's list replacing an
      earlier one's under the same key. */
  function MergeFiles(files: seq<map<string, seq<string>>>): (r: map<string, seq<string>>)
    ensures forall k :: k in r <==> exists i :: 0 <= i < |files| && k in files[i]
    ensures forall k, i :: LastHolder(files, k, i) ==> k in r && r[k] == files[i][k]
    decreases |files|
  {
    if |files| == 0 then map[]
    else
      var n := |files| - 1;
      var m := MergeFiles(files[..n]);
      MergeStep(files, files[..n], m, m + files[n]);
      m + files[n]
  }

  lemma MergeStep(files: seq<map<string, seq<string>>>, init: seq<map<string, seq<string>>>, m: map<string, seq<string>>,
                  r: map<string, seq<string>>)
    requires |files| > 0 && init == files[..|files| - 1] && r == m + files[|files| - 1]
    requires forall k :: k in m <==> exists i :: 0 <= i < |init| && k in init[i]
    requires forall k, i :: LastHolder(init, k, i) ==> k in m && m[k] == init[i][k]
    ensures forall k :: k in r <==> exists i :: 0 <= i < |files| && k in files[i]
    ensures forall k, i :: LastHolder(files, k, i) ==> k in r && r[k] == files[i][k]
  {
    var n := |files| - 1;
    assert forall i :: 0 <= i < n ==> init[i] == files[i];
    forall k, i | LastHolder(files, k, i)
      ensures k in m + files[n] && (m + files[n])[k] == files[i][k]
    {
      if i < n {
        assert LastHolder(init, k, i);
      }
    }
    forall k | exists i :: 0 <= i < |files| && k in files[i]
      ensures k in m + files[n]
    {
      var i :| 0 <= i < |files| && k in files[i];
      if i < n {
        assert k in init[i];
      }
    }
  }

  /** `raw.get(k, [])`. */
  function RawGet(raw: map<string, seq<string>>, k: string): seq<string> {
    if k in raw then raw[k] else []
  }

  /** `Path(p).suffix`: the final component's text from its last dot, when
      that dot is neither the first nor the last character; otherwise
      empty. */
  function Suffix(name: string): (s: string)
    ensures s == "" || (s[0] == '.' && '.' !in s[1..] && |s| >= 2 && |s| < |name| && s == name[|name| - |s|..])
  {
    LastDotSpec(name);
    var i := LastDot(name);
    if 0 < i < |name| - 1 then name[i..] else ""
  }

  /** `name.rfind(".")`, with -1 for none. */
  function LastDot(name: string): (i: int)
    ensures -1 <= i < |name|
    decreases |name|
  {
    if |name| == 0 then -1
    else if name[|name| - 1] == '.' then |name| - 1
    else LastDot(name[..|name| - 1])
  }

  lemma {:induction false} LastDotSpec(name: string)
    ensures LastDot(name) == -1 <==> '.' !in name
    ensures LastDot(name) >= 0 ==> name[LastDot(name)] == '.' && '.' !in name[LastDot(name) + 1..]
    decreases |name|
  {
    if |name| > 0 && name[|name| - 1] != '.' {
      var init := name[..|name| - 1];
      LastDotSpec(init);
      assert name == init + [name[|name| - 1]];
      var i := LastDot(init);
      if i >= 0 {
        assert name[i + 1..] == init[i + 1..] + [name[|name| - 1]];
      }
    }
  }

  /** The last dot is the one nothing after it repeats. */
  lemma LastDotAt(name: string, i: nat)
    requires i < |name| && name[i] == '.' && '.' !in name[i + 1..]
    ensures LastDot(name) == i
  {
    LastDotSpec(name);
  }

  /** A file name the custom pattern loader accepts. */
  predicate YamlName(name: string) { Suffix(name) == ".yml" || Suffix(name) == ".yaml" }

  /** The suffix is what follows the last dot, so `.yml` and `.yaml` files
      pass whatever precedes the extension. */
  lemma SuffixYaml()
    ensures Suffix("custom_pattern.yml") == ".yml" && YamlName("custom_pattern.yml")
    ensures Suffix("patterns.old.yaml") == ".yaml" && YamlName("patterns.old.yaml")
  {
    LastDotAt("custom_pattern.yml", 14);
    LastDotAt("patterns.old.yaml", 12);
  }

  /** Other extensions fail, and a name that is only a dotted extension
      (a hidden file), ends in a dot or has no dot has no suffix at all. */
  lemma SuffixOther()
    ensures Suffix("custom_pattern.csv") == ".csv" && !YamlName("custom_pattern.csv")
    ensures Suffix(".yml") == "" && !YamlName(".yml")
    ensures Suffix("patterns.") == "" && Suffix("patterns") == ""
  {
    LastDotAt("custom_pattern.csv", 14);
    LastDotAt(".yml", 0);
    LastDotAt("patterns.", 8);
    LastDotSpec("patterns");
  }

  /** `_load_custom_pattern(p)` once the YAML is loaded as `y`: a file name
      without a .yml or .yaml suffix raises ValueError before anything is
      read; a document that is not a mapping has no `values()`
      (AttributeError); a value that is not a list raises ValueError;
      otherwise the mapping comes back as it is. */
  function LoadCustomPattern(name: string, y: Value): (r: Result<Value>)
    ensures !YamlName(name) ==> r == Err(ValueError)
    ensures r.Ok? <==> YamlName(name) && y.Dict? && forall i :: 0 <= i < |y.entries| ==> y.entries[i].1.List?
    ensures r.Ok? ==> r.value == y
    ensures r.Err? ==> r.error in {ValueError, AttributeError}
  {
    if !YamlName(name) then Err(ValueError)
    else if !y.Dict? then Err(AttributeError)
    else if exists i :: 0 <= i < |y.entries| && !y.entries[i].1.List? then Err(ValueError)
    else Ok(y)
  }

  /** What `getattr(self, k, ...)` finds on a `Patterns` object for a
      keyword `k` of `_update_patterns`. A category's property (`prefixes`)
      and the attribute behind it (`_prefixes`) are the same list object.
      `add_custom_pattern_file` is a bound method. Any other name starting
      with `_` may reach a private method, a dunder attribute or an
      attribute an earlier update set: what it holds is not modelled. Every
      other name finds nothing. */
  datatype Found = AList(c: Category, private: bool) | AMethod | Nothing | Unknown

  /** Whether keyword `k` names the list of category `c`: its property or
      the attribute behind it. */
  predicate Reaches(k: string, c: Category) {
    k == Name(c) || k == "_" + Name(c)
  }

  /** No property name starts with `_`. */
  lemma NameShape(c: Category)
    ensures |Name(c)| > 0 && Name(c)[0] != '_'
  {
  }

  function GetAttr(k: string): Found {
    if k == "add_custom_pattern_file" then AMethod
    else if |k| > 0 && k[0] == '_' then
      match CategoryOf(k[1..])
      case Some(c) => AList(c, true)
      case None => Unknown
    else
      match CategoryOf(k)
      case Some(c) => AList(c, false)
      case None => Nothing
  }

  /** `getattr` finds the list of `c` for exactly the two names of `c`; the
      bound method for exactly its own name; and nothing modelled for the
      other names starting with `_`. */
  lemma GetAttrSpec(k: string)
    ensures GetAttr(k).AList? <==> exists c :: Reaches(k, c)
    ensures GetAttr(k).AList? ==> Reaches(k, GetAttr(k).c) && GetAttr(k).private == (k[0] == '_')
    ensures forall c :: Reaches(k, c) ==> GetAttr(k) == AList(c, k[0] == '_')
    ensures GetAttr(k) == AMethod <==> k == "add_custom_pattern_file"
    ensures GetAttr(k) == Unknown <==> |k| > 0 && k[0] == '_' && !exists c :: Reaches(k, c)
  {
    forall c ensures Reaches(k, c) <==> if |k| > 0 && k[0] == '_' then k[1..] == Name(c) else k == Name(c) {
      NameShape(c);
      if k == "_" + Name(c) { assert k[1..] == Name(c); }
      if |k| > 0 && k[0] == '_' && k[1..] == Name(c) { assert k == [k[0]] + k[1..]; }
    }
  }

  /** Whether what `getattr` found is the list of `c`. */
  predicate Hits(f: Found, c: Category) {
    f.AList? && f.c == c
  }

  /** Keywords whose update assigns `"_" + k` over one of the class's
      private methods; the methods a later `add_custom_pattern_file` calls
      would then be lists. */
  predicate ShadowsMethod(k: string) {
    k in ["load_patterns", "get_invalid_chars", "load_custom_pattern", "update_patterns"]
  }

  /** The exception a keyword runs into in the datagenius loop: `+=` on
      the bound method raises TypeError; unknown targets and method
      shadowing are not modelled. */
  function KeyFault(k: string): Option<Error> {
    match GetAttr(k)
    case AMethod => Some(TypeError)
    case Unknown => Some(Unmodelled)
    case AList(_, _) => None
    case Nothing => if ShadowsMethod(k) then Some(Unmodelled) else None
  }

  /** The lists the keywords that find the list of `c` add, in order. */
  function Additions(kw: seq<(string, seq<string>)>, c: Category): seq<string>
    decreases |kw|
  {
    if |kw| == 0 then []
    else (if Hits(GetAttr(kw[0].0), c) then kw[0].1 else []) + Additions(kw[1..], c)
  }

  /** One keyword of `_update_patterns`: `prop = getattr(self, k, [])`,
      `prop += v` (in place, so a list reached as `prefixes` or as
      `_prefixes` is extended alike), `setattr(self, "_" + k, prop)`. A key
      reaching no list only sets an attribute the pattern lists do not
      include. */
  function UpdateOne(p: Patterns, k: string, v: seq<string>): (r: Patterns)
    ensures forall c :: Get(r, c) == if Hits(GetAttr(k), c) then Get(p, c) + v else Get(p, c)
  {
    match GetAttr(k)
    case AList(c, _) => Put(p, c, Get(p, c) + v)
    case _ => p
  }

  /** `_update_patterns(**pattern_lists)`. The loop stops at the first
      keyword with a fault (TypeError for the public method; the not
      modelled targets give Err(Unmodelled)). Without one, each category
      gains, after its current entries, the entries of every keyword
      reaching it, in order; the other categories are unchanged. */
  function UpdatePatterns(p: Patterns, kw: seq<(string, seq<string>)>): (r: Result<Patterns>)
    ensures r.Ok? <==> NoFault(kw, KeyFault)
    ensures r.Err? ==> FirstFault(kw, KeyFault, r.error)
    ensures r.Ok? ==> forall c :: Get(r.value, c) == Get(p, c) + Additions(kw, c)
    decreases |kw|
  {
    if |kw| == 0 then Ok(p)
    else
      FaultCons(kw, KeyFault);
      match KeyFault(kw[0].0)
      case Some(e) => Err(e)
      case None =>
        var q := UpdateOne(p, kw[0].0, kw[0].1);
        var r := UpdatePatterns(q, kw[1..]);
        assert r.Ok? ==> forall c :: Get(r.value, c) == Get(p, c) + Additions(kw, c) by {
          if r.Ok? {
            forall c ensures Get(r.value, c) == Get(p, c) + Additions(kw, c) {
              var head := if Hits(GetAttr(kw[0].0), c) then kw[0].1 else [];
              AdditionsCons(kw, c);
              UpdateStep(Get(p, c), head, Additions(kw[1..], c), Additions(kw, c), Get(r.value, c));
            }
          }
        }
        r
  }

  /** No keyword of the list runs into a fault. */
  predicate NoFault(kw: seq<(string, seq<string>)>, fault: string -> Option<Error>) {
    forall i :: 0 <= i < |kw| ==> fault(kw[i].0).None?
  }

  /** The first keyword of the list that runs into a fault runs into `e`. */
  predicate FirstFault(kw: seq<(string, seq<string>)>, fault: string -> Option<Error>, e: Error) {
    exists i :: 0 <= i < |kw| && fault(kw[i].0) == Some(e) && forall j :: 0 <= j < i ==> fault(kw[j].0).None?
  }

  /** Faults of a keyword list, by its first keyword and the rest. */
  lemma FaultCons(kw: seq<(string, seq<string>)>, fault: string -> Option<Error>)
    requires |kw| > 0
    ensures NoFault(kw, fault) <==> fault(kw[0].0).None? && NoFault(kw[1..], fault)
    ensures fault(kw[0].0).Some? ==> FirstFault(kw, fault, fault(kw[0].0).value)
    ensures forall e :: fault(kw[0].0).None? && FirstFault(kw[1..], fault, e) ==> FirstFault(kw, fault, e)
  {
    assert forall i :: 1 <= i < |kw| ==> kw[i] == kw[1..][i - 1];
    forall e | fault(kw[0].0).None? && FirstFault(kw[1..], fault, e) ensures FirstFault(kw, fault, e) {
      var i :| 0 <= i < |kw[1..]| && fault(kw[1..][i].0) == Some(e) && forall j :: 0 <= j < i ==> fault(kw[1..][j].0).None?;
      assert fault(kw[i + 1].0) == Some(e);
    }
  }

  /** One keyword's contribution, then the rest: the concatenations regroup. */
  lemma UpdateStep(base: seq<string>, head: seq<string>, rest: seq<string>, adds: seq<string>, last: seq<string>)
    requires adds == head + rest
    requires last == (base + head) + rest
    ensures last == base + adds
  {
    Seqs.AppendAssoc(base, head, rest);
  }

  /** Additions unfolds by its first keyword. */
  lemma AdditionsCons(kw: seq<(string, seq<string>)>, c: Category)
    requires |kw| > 0
    ensures Additions(kw, c) == (if Hits(GetAttr(kw[0].0), c) then kw[0].1 else []) + Additions(kw[1..], c)
  {
  }

  /** Keywords that reach no list and raise nothing change nothing. */
  lemma UpdateUnknown(p: Patterns, kw: seq<(string, seq<string>)>)
    requires forall i :: 0 <= i < |kw| ==> GetAttr(kw[i].0) == Nothing && !ShadowsMethod(kw[i].0)
    ensures UpdatePatterns(p, kw) == Ok(p)
  {
    var r := UpdatePatterns(p, kw);
    assert r.Ok?;
    forall c ensures Get(r.value, c) == Get(p, c) {
      AdditionsNone(kw, c);
    }
    PatternsByGet(r.value, p);
  }

  /** A keyword naming the attribute behind a property extends the same
      list as the property's name does; the public method's name raises
      TypeError. */
  lemma PrivateKeyExtends(p: Patterns, c: Category, v: seq<string>)
    ensures UpdatePatterns(p, [("_" + Name(c), v)]) == UpdatePatterns(p, [(Name(c), v)])
    ensures UpdatePatterns(p, [(Name(c), v)]) == Ok(Put(p, c, Get(p, c) + v))
    ensures UpdatePatterns(p, [("add_custom_pattern_file", v)]) == Err(TypeError)
  {
    GetAttrSpec("_" + Name(c));
    GetAttrSpec(Name(c));
    NameShape(c);
    assert GetAttr("_" + Name(c)) == AList(c, true) by {
      assert ("_" + Name(c))[0] == '_' && Reaches("_" + Name(c), c);
    }
    assert GetAttr(Name(c)) == AList(c, false) by {
      assert Reaches(Name(c), c);
    }
    var a := UpdatePatterns(p, [("_" + Name(c), v)]);
    var b := UpdatePatterns(p, [(Name(c), v)]);
    var want := Put(p, c, Get(p, c) + v);
    forall d ensures Get(a.value, d) == Get(want, d) && Get(b.value, d) == Get(want, d) {
      assert Additions([("_" + Name(c), v)], d) == (if d == c then v else []) + [];
      assert Additions([(Name(c), v)], d) == (if d == c then v else []) + [];
    }
    PatternsByGet(a.value, want);
    PatternsByGet(b.value, want);
  }

  lemma {:induction false} AdditionsNone(kw: seq<(string, seq<string>)>, c: Category)
    requires forall i :: 0 <= i < |kw| ==> !Hits(GetAttr(kw[i].0), c)
    ensures Additions(kw, c) == []
    decreases |kw|
  {
    if |kw| > 0 {
      AdditionsNone(kw[1..], c);
    }
  }

  /** Pattern records with the same lists are equal. */
  lemma PatternsByGet(a: Patterns, b: Patterns)
    requires forall c :: Get(a, c) == Get(b, c)
    ensures a == b
  {
    assert Get(a, CompoundFnames) == Get(b, CompoundFnames);
    assert Get(a, LnameParticles) == Get(b, LnameParticles);
    assert Get(a, Ampersands) == Get(b, Ampersands);
    assert Get(a, CamelcaseParticles) == Get(b, CamelcaseParticles);
    assert Get(a, Prefixes) == Get(b, Prefixes);
    assert Get(a, Suffixes) == Get(b, Suffixes);
    assert Get(a, InvalidWords) == Get(b, InvalidWords);
    assert Get(a, InvalidChars) == Get(b, InvalidChars);
  }

  /** `pattern_lists` from a loaded custom file: the keys must be strings
      to pass as keywords (TypeError otherwise); lists of anything but
      strings are not followed. */
  function Keywords(entries: seq<(Value, Value)>): (r: Result<seq<(string, seq<string>)>>)
    requires forall i :: 0 <= i < |entries| ==> entries[i].1.List?
    ensures r.Ok? ==> |r.value| == |entries|
    ensures r.Ok? ==> forall i :: 0 <= i < |entries| ==> Str(r.value[i].0) == entries[i].0
    ensures r.Ok? ==> forall i :: 0 <= i < |entries| ==> Strs(r.value[i].1) == entries[i].1.items
    ensures r.Err? <==> exists i :: 0 <= i < |entries| && (!entries[i].0.Str? || exists k :: 0 <= k < |entries[i].1.items| && !entries[i].1.items[k].Str?)
    decreases |entries|
  {
    if |entries| == 0 then Ok([])
    else
      var (k, v) := entries[0];
      if !k.Str? then Err(TypeError)
      else if exists i :: 0 <= i < |v.items| && !v.items[i].Str? then Err(Unmodelled)
      else
        var texts := seq(|v.items|, i requires 0 <= i < |v.items| && v.items[i].Str? => v.items[i].s);
        var rest :- Keywords(entries[1..]);
        assert forall i :: 1 <= i < |entries| ==> entries[i] == entries[1..][i - 1];
        Ok([(k.s, texts)] + rest)
  }

  /** `add_custom_pattern_file(p)`: load, check, then update. */
  function AddCustomPatternFile(p: Patterns, name: string, y: Value): (r: Result<Patterns>)
    ensures !YamlName(name) ==> r == Err(ValueError)
    ensures r.Ok? ==> y.Dict? && (forall i :: 0 <= i < |y.entries| ==> y.entries[i].1.List?) && exists kw :: Keywords(y.entries) == Ok(kw) && UpdatePatterns(p, kw) == r
  {
    var loaded :- LoadCustomPattern(name, y);
    var kw :- Keywords(loaded.entries);
    UpdatePatterns(p, kw)
  }

  // ---------------------------------------------------------------------
  // GConfig.name_column_labels

  datatype Config = Config(patterns: Patterns, nameColumns: seq<Value>)

  /** The five strings a valid `name_column_labels` value holds. */
  predicate NameLabels(v: Value) {
    v.Tuple? && |v.items| == 5 && forall i :: 0 <= i < 5 ==> v.items[i].Str?
  }

  /** The `name_column_labels` setter. It checks the length first (a value
      without one raises TypeError from `len`, a length other than 5
      ValueError), then that the value is a tuple, then that every element
      is a string; only a value passing all three is stored, and a rejected
      value leaves the configuration as it was. */
  function SetNameColumnLabels(cfg: Config, value: Value): (r: (Config, Result<()>))
    ensures r.1.Ok? <==> NameLabels(value)
    ensures r.1.Ok? ==> r.0 == cfg.(nameColumns := value.items)
    ensures r.1.Err? ==> r.0 == cfg
    ensures Len(value).Err? ==> r.1 == Err(TypeError)
    ensures Len(value).Ok? && Len(value).value != 5 ==> r.1 == Err(ValueError)
    ensures Len(value) == Ok(5) && !NameLabels(value) ==> r.1 == Err(ValueError)
  {
    match Len(value)
    case Err(e) => (cfg, Err(e))
    case Ok(n) =>
      if n != 5 then (cfg, Err(ValueError))
      else if !value.Tuple? then (cfg, Err(ValueError))
      else if exists i :: 0 <= i < |value.items| && !value.items[i].Str? then (cfg, Err(ValueError))
      else (cfg.(nameColumns := value.items), Ok(()))
  }

  /** Storing a valid tuple and reading the property back gives the tuple;
      the patterns are untouched. */
  lemma SetThenGet(cfg: Config, labels: seq<string>)
    requires |labels| == 5
    ensures var r := SetNameColumnLabels(cfg, Tuple(Strs(labels)));
      r.1.Ok? && r.0.nameColumns == Strs(labels) && r.0.patterns == cfg.patterns
  {
  }

  /** `GConfig.add_custom_pattern_file(p)`: the patterns take the custom
      file; the name columns are untouched, and so is everything when the
      file is rejected. */
  function ConfigAddCustomPatternFile(cfg: Config, name: string, y: Value): (r: Result<Config>)
    ensures r.Ok? <==> AddCustomPatternFile(cfg.patterns, name, y).Ok?
    ensures r.Ok? ==> r.value == cfg.(patterns := AddCustomPatternFile(cfg.patterns, name, y).value)
    ensures r.Err? ==> r.error == AddCustomPatternFile(cfg.patterns, name, y).error
  {
    var p :- AddCustomPatternFile(cfg.patterns, name, y);
    Ok(cfg.(patterns := p))
  }
}

=== FILE: guides.dfy ===
/** The guide objects of datagenius/lib/guides.py: `CleaningGuide`, a lookup
    table from tuples of typos to their corrections; `SupplementGuide`, the
    join instructions of one chunk plus the chunks of rows it collects; and
    `RedistributionGuide`, the patterns that pick the values to move to
    another column. Python's `==` between dynamic values and `re.search`
    are parameters: `eq(a, b)` is `a == b` and `search(pattern, text)` is
    `re.search(pattern, text) is not None`. */
module Guides {
  import opened Wrappers
  import opened Values
  import opened IterUtils
  import opened Seqs
  import opened Frames

  /** `tuplify` as the datagenius package uses it. Its own definition is
      not part of this model; it is taken to be tamer's `tuplify` except
      that None stays None, which is what the `thresholds is None` test
      after tuplifying relies on. */
  function DgTuplify(v: Value): (r: Value)
    ensures v.NoneV? ==> r == NoneV
    ensures !v.NoneV? ==> r.Tuple? && r == Tuplify(v)
  {
    if v.NoneV? then NoneV else Tuplify(v)
  }

  // ---------------------------------------------------------------------
  // dicts: entries in insertion order, keys compared structurally

  predicate DistinctKeys(d: Entries) {
    forall i, j :: 0 <= i < j < |d| ==> d[i].0 != d[j].0
  }

  /** `d[k]` when present. */
  function Lookup(d: Entries, k: Value): (r: Option<Value>)
    ensures r.None? <==> forall i :: 0 <= i < |d| ==> d[i].0 != k
    ensures r.Some? ==> exists i :: 0 <= i < |d| && d[i] == (k, r.value)
  {
    if |d| == 0 then None
    else if d[0].0 == k then Some(d[0].1)
    else
      var r := Lookup(d[1..], k);
      assert forall i :: 1 <= i < |d| ==> d[i] == d[1..][i - 1];
      r
  }

  /** `d[k] = v`: a present key keeps its place and takes the new value, a
      new key goes last. */
  function Store(d: Entries, k: Value, v: Value): (r: Entries)
    requires DistinctKeys(d)
    ensures |r| == if HasKey(d, k) then |d| else |d| + 1
    ensures forall i :: 0 <= i < |d| ==> r[i].0 == d[i].0
    ensures forall i :: 0 <= i < |d| ==> r[i] == if d[i].0 == k then (k, v) else d[i]
    ensures !HasKey(d, k) ==> r[|d|] == (k, v)
    decreases |d|
  {
    if |d| == 0 then [(k, v)]
    else if d[0].0 == k then [(k, v)] + d[1..]
    else
      var rest := Store(d[1..], k, v);
      assert HasKey(d, k) <==> HasKey(d[1..], k) by {
        assert forall i :: 1 <= i < |d| ==> d[i] == d[1..][i - 1];
      }
      [d[0]] + rest
  }

  /** Whether `k` is a key of `d`. */
  predicate HasKey(d: Entries, k: Value) {
    exists i :: 0 <= i < |d| && d[i].0 == k
  }

  /** In a dict with distinct keys, each key reads its own entry. */
  lemma LookupAt(d: Entries, i: nat)
    requires DistinctKeys(d) && i < |d|
    ensures Lookup(d, d[i].0) == Some(d[i].1)
  {
    var r := Lookup(d, d[i].0);
    var m :| 0 <= m < |d| && d[m] == (d[i].0, r.value);
    assert m == i;
  }

  /** Storing keeps the keys distinct. */
  lemma StoreDistinct(d: Entries, k: Value, v: Value)
    requires DistinctKeys(d)
    ensures DistinctKeys(Store(d, k, v))
  {
    var r := Store(d, k, v);
    forall a, b | 0 <= a < b < |r| ensures r[a].0 != r[b].0 {
      if b < |d| {
        assert d[a].0 != d[b].0;
      } else {
        assert r[b].0 == k && !HasKey(d, k);
        assert r[a].0 == d[a].0;
      }
    }
  }

  /** Reading back a stored key gives the stored value; every other key
      reads as before. */
  lemma StoreLookup(d: Entries, k: Value, v: Value, j: Value)
    requires DistinctKeys(d)
    ensures DistinctKeys(Store(d, k, v))
    ensures Lookup(Store(d, k, v), j) == if j == k then Some(v) else Lookup(d, j)
  {
    StoreDistinct(d, k, v);
    if HasKey(d, j) {
      var i :| 0 <= i < |d| && d[i].0 == j;
      StoreLookupAt(d, k, v, i);
      LookupAt(d, i);
    } else if j == k {
      LookupAt(Store(d, k, v), |d|);
    } else {
      StoreLookupAbsent(d, k, v, j);
    }
  }

  lemma StoreLookupAt(d: Entries, k: Value, v: Value, i: nat)
    requires DistinctKeys(d) && i < |d|
    ensures Lookup(Store(d, k, v), d[i].0) == if d[i].0 == k then Some(v) else Some(d[i].1)
  {
    StoreDistinct(d, k, v);
    LookupAt(Store(d, k, v), i);
  }

  lemma StoreLookupAbsent(d: Entries, k: Value, v: Value, j: Value)
    requires DistinctKeys(d) && !HasKey(d, j) && j != k
    ensures Lookup(Store(d, k, v), j) == None && Lookup(d, j) == None
  {
    var r := Store(d, k, v);
    forall i | 0 <= i < |r| ensures r[i].0 != j {
      if i < |d| {
        assert r[i].0 == d[i].0;
        assert !(d[i].0 == j);
      }
    }
  }

  /** Storing a new key appends its entry. */
  lemma StoreNew(d: Entries, k: Value, v: Value)
    requires DistinctKeys(d) && !HasKey(d, k)
    ensures Store(d, k, v) == d + [(k, v)]
  {
    var r := Store(d, k, v);
    assert forall i :: 0 <= i < |d| ==> r[i] == d[i];
  }

  /** `for k, v in ps: d[k] = v`. */
  function StoreAll(d: Entries, ps: Entries): (r: Entries)
    requires DistinctKeys(d)
    ensures DistinctKeys(r)
    decreases |ps|
  {
    if |ps| == 0 then d
    else
      StoreDistinct(d, ps[0].0, ps[0].1);
      StoreAll(Store(d, ps[0].0, ps[0].1), ps[1..])
  }

  /** Storing a run of pairs keeps every old key at its place and adds at
      most one entry per pair. */
  lemma {:induction false} StoreAllKeeps(d: Entries, ps: Entries)
    requires DistinctKeys(d)
    ensures |d| <= |StoreAll(d, ps)| <= |d| + |ps|
    ensures forall i :: 0 <= i < |d| ==> StoreAll(d, ps)[i].0 == d[i].0
    decreases |ps|
  {
    if |ps| > 0 {
      StoreDistinct(d, ps[0].0, ps[0].1);
      StoreAllKeeps(Store(d, ps[0].0, ps[0].1), ps[1..]);
    }
  }

  /** Assigning keys that are new and distinct just appends the entries. */
  lemma {:induction false} StoreAllNew(d: Entries, ps: Entries)
    requires DistinctKeys(d) && DistinctKeys(ps)
    requires forall i :: 0 <= i < |ps| ==> !HasKey(d, ps[i].0)
    ensures StoreAll(d, ps) == d + ps
    decreases |ps|
  {
    if |ps| > 0 {
      StoreNew(d, ps[0].0, ps[0].1);
      var d' := d + [ps[0]];
      forall i | 0 <= i < |ps| - 1 ensures !HasKey(d', ps[1..][i].0) {
        assert ps[1..][i] == ps[i + 1];
        assert ps[0].0 != ps[i + 1].0;
        if HasKey(d', ps[i + 1].0) {
          var m :| 0 <= m < |d'| && d'[m].0 == ps[i + 1].0;
          if m < |d| {
            assert HasKey(d, ps[i + 1].0);
          }
        }
      }
      StoreAllNew(d', ps[1..]);
      assert d' + ps[1..] == d + ps;
    }
  }

  /** The keys of `ks` not in `seen`, each once, in order of first
      appearance. */
  function FirstAppearances(ks: seq<Value>, seen: seq<Value>): (r: seq<Value>)
    ensures forall x :: x in r ==> x in ks && x !in seen
    decreases |ks|
  {
    if |ks| == 0 then []
    else if ks[0] in seen then FirstAppearances(ks[1..], seen)
    else [ks[0]] + FirstAppearances(ks[1..], seen + [ks[0]])
  }

  /** The keys of `d` name exactly its entries. */
  lemma KeysHas(d: Entries, k: Value)
    ensures HasKey(d, k) <==> k in Keys(d)
  {
    if k in Keys(d) {
      var i :| 0 <= i < |d| && Keys(d)[i] == k;
      assert d[i].0 == k;
    }
  }

  /** Storing a present key keeps the keys; storing a new one appends it. */
  lemma StoreKeys(d: Entries, k: Value, v: Value)
    requires DistinctKeys(d)
    ensures Keys(Store(d, k, v)) == if k in Keys(d) then Keys(d) else Keys(d) + [k]
  {
    KeysHas(d, k);
    var r := Store(d, k, v);
    var e := if HasKey(d, k) then Keys(d) else Keys(d) + [k];
    assert |Keys(r)| == |e|;
    forall i | 0 <= i < |r| ensures Keys(r)[i] == e[i] {
      if i < |d| {
        assert r[i].0 == d[i].0;
      }
    }
  }

  /** One step of `FirstAppearances`, on the keys seen so far. */
  lemma FirstAppearancesStep(seen: seq<Value>, seen': seq<Value>, ks: seq<Value>)
    requires |ks| > 0
    requires seen' == if ks[0] in seen then seen else seen + [ks[0]]
    ensures seen' + FirstAppearances(ks[1..], seen') == seen + FirstAppearances(ks, seen)
  {
    if ks[0] !in seen {
      assert (seen + [ks[0]]) + FirstAppearances(ks[1..], seen') ==
        seen + ([ks[0]] + FirstAppearances(ks[1..], seen'));
    }
  }

  /** Filling a dict keeps its keys in front and appends the new keys in
      the order they first appear. */
  lemma {:induction false} StoreAllKeys(d: Entries, ps: Entries)
    requires DistinctKeys(d)
    ensures Keys(StoreAll(d, ps)) == Keys(d) + FirstAppearances(Keys(ps), Keys(d))
    decreases |ps|
  {
    if |ps| > 0 {
      var d' := Store(d, ps[0].0, ps[0].1);
      StoreDistinct(d, ps[0].0, ps[0].1);
      assert StoreAll(d, ps) == StoreAll(d', ps[1..]);
      StoreAllKeys(d', ps[1..]);
      StoreAllKeysStep(d, d', ps);
    } else {
      assert FirstAppearances(Keys(ps), Keys(d)) == [];
    }
  }

  lemma StoreAllKeysStep(d: Entries, d': Entries, ps: Entries)
    requires DistinctKeys(d) && |ps| > 0 && d' == Store(d, ps[0].0, ps[0].1)
    ensures Keys(d') + FirstAppearances(Keys(ps[1..]), Keys(d')) == Keys(d) + FirstAppearances(Keys(ps), Keys(d))
  {
    StoreKeys(d, ps[0].0, ps[0].1);
    var kps := Keys(ps);
    assert kps[0] == ps[0].0;
    assert kps[1..] == Keys(ps[1..]);
    FirstAppearancesStep(Keys(d), Keys(d'), kps);
  }

  /** `ps[i]` is the last assignment of key `k` in `ps`. */
  predicate LastAssignment(ps: Entries, k: Value, i: int) {
    0 <= i < |ps| && ps[i].0 == k && forall j :: i < j < |ps| ==> ps[j].0 != k
  }

  /** After `for k, v in ps: d[k] = v`, a key holds the value of its last
      assignment, or its old value if `ps` never assigns it. */
  lemma {:induction false} StoreAllLookup(d: Entries, ps: Entries, k: Value)
    requires DistinctKeys(d)
    ensures DistinctKeys(StoreAll(d, ps))
    ensures (forall i :: 0 <= i < |ps| ==> ps[i].0 != k) ==> Lookup(StoreAll(d, ps), k) == Lookup(d, k)
    ensures forall i :: LastAssignment(ps, k, i) ==> Lookup(StoreAll(d, ps), k) == Some(ps[i].1)
    decreases |ps|
  {
    if |ps| > 0 {
      var d' := Store(d, ps[0].0, ps[0].1);
      StoreLookup(d, ps[0].0, ps[0].1, k);
      assert StoreAll(d, ps) == StoreAll(d', ps[1..]);
      StoreAllLookup(d', ps[1..], k);
      LastAssignmentTail(ps, k);
    }
  }

  /** How the last assignment of a key in `ps` relates to its tail. */
  lemma LastAssignmentTail(ps: Entries, k: Value)
    requires |ps| > 0
    ensures forall i :: LastAssignment(ps, k, i) && i > 0 ==> LastAssignment(ps[1..], k, i - 1)
    ensures LastAssignment(ps, k, 0) ==> forall j :: 0 <= j < |ps[1..]| ==> ps[1..][j].0 != k
    ensures (forall i :: 0 <= i < |ps| ==> ps[i].0 != k) ==> ps[0].0 != k && forall j :: 0 <= j < |ps[1..]| ==> ps[1..][j].0 != k
  {
    assert forall j :: 0 <= j < |ps| - 1 ==> ps[1..][j] == ps[j + 1];
  }

  // ---------------------------------------------------------------------
  // CleaningGuide

  datatype CleaningGuide = CleaningGuide(data: Entries)

  /** The complex maps with their keys tuplified. */
  function ComplexPairs(complex: Entries): (r: Entries)
    ensures |r| == |complex|
    ensures forall i :: 0 <= i < |complex| ==> r[i] == (DgTuplify(complex[i].0), complex[i].1)
  {
    seq(|complex|, i requires 0 <= i < |complex| => (DgTuplify(complex[i].0), complex[i].1))
  }

  /** The keyword maps with each name as a 1-tuple. */
  function KeywordPairs(simple: seq<(string, Value)>): (r: Entries)
    ensures |r| == |simple|
    ensures forall i :: 0 <= i < |simple| ==> r[i] == (Tuple([Str(simple[i].0)]), simple[i].1)
  {
    seq(|simple|, i requires 0 <= i < |simple| => (Tuple([Str(simple[i].0)]), simple[i].1))
  }

  /** `CleaningGuide(*complex_maps, **simple_maps)`: every complex map's
      first item (tuplified) and every keyword (as a 1-tuple) becomes a
      key; a key assigned twice keeps its first place and its last value. */
  function NewCleaningGuide(complex: Entries, simple: seq<(string, Value)>): (g: CleaningGuide)
    ensures DistinctKeys(g.data)
    ensures Keys(g.data) == FirstAppearances(Keys(ComplexPairs(complex) + KeywordPairs(simple)), [])
    ensures forall i :: 0 <= i < |g.data| ==> g.data[i].0.Tuple? || g.data[i].0.NoneV?
  {
    var ps := ComplexPairs(complex) + KeywordPairs(simple);
    var g := CleaningGuide(StoreAll([], ps));
    StoreAllKeys([], ps);
    forall i | 0 <= i < |g.data| ensures g.data[i].0.Tuple? || g.data[i].0.NoneV? {
      assert g.data[i].0 == Keys(g.data)[i];
      assert Keys(g.data)[i] in Keys(ps);
    }
    g
  }

  /** `check in k`: a tuple key contains a value equal to `check`; `in`
      on a None key raises TypeError. */
  function Contains(k: Value, check: Value, eq: (Value, Value) -> bool): (r: Result<bool>)
    ensures k.Tuple? ==> r == Ok(exists i :: 0 <= i < |k.items| && eq(k.items[i], check))
    ensures k.NoneV? ==> r == Err(TypeError)
  {
    if k.Tuple? then Ok(exists i :: 0 <= i < |k.items| && eq(k.items[i], check))
    else if k.NoneV? then Err(TypeError)
    else Err(Unmodelled)
  }

  /** Whether key `k` is a tuple holding a value equal to `check`. */
  predicate Holds(k: Value, check: Value, eq: (Value, Value) -> bool) {
    k.Tuple? && exists i :: 0 <= i < |k.items| && eq(k.items[i], check)
  }

  /** Calling the guide: the value of the first key, in insertion order,
      that contains `check`, or `check` itself when none does. Reaching a
      None key raises TypeError. */
  function Call(g: CleaningGuide, check: Value, eq: (Value, Value) -> bool): (r: Result<Value>)
    requires forall i :: 0 <= i < |g.data| ==> g.data[i].0.Tuple? || g.data[i].0.NoneV?
    ensures r.Ok? && (forall i :: 0 <= i < |g.data| ==> g.data[i].0.Tuple?) ==>
      (r.value == check || exists i :: 0 <= i < |g.data| && Holds(g.data[i].0, check, eq) && r.value == g.data[i].1)
    ensures forall i :: (0 <= i < |g.data| && Holds(g.data[i].0, check, eq) &&
      (forall j :: 0 <= j < i ==> g.data[j].0.Tuple? && !Holds(g.data[j].0, check, eq))) ==> r == Ok(g.data[i].1)
    ensures (forall i :: 0 <= i < |g.data| ==> g.data[i].0.Tuple? && !Holds(g.data[i].0, check, eq)) ==> r == Ok(check)
    ensures r.Err? ==> (r.error == TypeError &&
      exists i :: 0 <= i < |g.data| && g.data[i].0.NoneV? && forall j :: 0 <= j < i ==> !Holds(g.data[j].0, check, eq))
    decreases |g.data|
  {
    if |g.data| == 0 then Ok(check)
    else
      var rest := CleaningGuide(g.data[1..]);
      assert forall i :: 1 <= i < |g.data| ==> g.data[i] == rest.data[i - 1];
      var hit :- Contains(g.data[0].0, check, eq);
      if hit then Ok(g.data[0].1) else Call(rest, check, eq)
  }

  /** A guide built from keyword maps with distinct names maps each name to
      its value, provided `==` on strings is string equality. */
  lemma KeywordCall(simple: seq<(string, Value)>, n: nat, eq: (Value, Value) -> bool)
    requires n < |simple|
    requires forall i, j :: 0 <= i < j < |simple| ==> simple[i].0 != simple[j].0
    requires forall a: string, b: string :: eq(Str(a), Str(b)) <==> a == b
    ensures Call(NewCleaningGuide([], simple), Str(simple[n].0), eq) == Ok(simple[n].1)
  {
    var ps := KeywordPairs(simple);
    KeywordData(simple);
    var check := Str(simple[n].0);
    assert Holds(ps[n].0, check, eq) by {
      assert eq(ps[n].0.items[0], check);
    }
    forall j | 0 <= j < n ensures ps[j].0.Tuple? && !Holds(ps[j].0, check, eq) {
      assert ps[j].0.items == [Str(simple[j].0)];
      assert !eq(Str(simple[j].0), check);
    }
  }

  /** With distinct names, the guide's entries are the keyword pairs in
      order. */
  lemma KeywordData(simple: seq<(string, Value)>)
    requires forall i, j :: 0 <= i < j < |simple| ==> simple[i].0 != simple[j].0
    ensures NewCleaningGuide([], simple).data == KeywordPairs(simple)
  {
    var ps := KeywordPairs(simple);
    assert ComplexPairs([]) + ps == ps;
    StoreAllNew([], ps);
  }

  /** Keys that are already distinct and new appear once each, in place. */
  lemma {:induction false} DistinctFirstAppearances(ks: seq<Value>, seen: seq<Value>)
    requires forall i, j :: 0 <= i < j < |ks| ==> ks[i] != ks[j]
    requires forall i :: 0 <= i < |ks| ==> ks[i] !in seen
    ensures FirstAppearances(ks, seen) == ks
    decreases |ks|
  {
    if |ks| > 0 {
      forall i | 0 <= i < |ks| - 1 ensures ks[1..][i] !in seen + [ks[0]] {
        assert ks[1..][i] == ks[i + 1];
      }
      DistinctFirstAppearances(ks[1..], seen + [ks[0]]);
    }
  }

  /** The argument of `CleaningGuide.convert`. */
  datatype Incoming = AGuide(guide: CleaningGuide) | AValue(v: Value)

  /** The keyword names of a dict whose keys are all strings. */
  function KeywordArgs(entries: Entries): (r: seq<(string, Value)>)
    requires forall i :: 0 <= i < |entries| ==> entries[i].0.Str?
    ensures |r| == |entries|
    ensures forall i :: 0 <= i < |entries| ==> r[i] == (entries[i].0.s, entries[i].1)
  {
    seq(|entries|, i requires 0 <= i < |entries| && entries[i].0.Str? => (entries[i].0.s, entries[i].1))
  }

  /** `CleaningGuide.convert(incoming)`: a guide as it is, a dict as the
      keyword maps of a new guide (a non-string key cannot be a keyword and
      raises TypeError), anything else ValueError. */
  function Convert(incoming: Incoming): (r: Result<CleaningGuide>)
    ensures incoming.AGuide? ==> r == Ok(incoming.guide)
    ensures incoming.AValue? && !incoming.v.Dict? ==> r == Err(ValueError)
    ensures incoming.AValue? && incoming.v.Dict? ==>
      (r.Ok? <==> forall i :: 0 <= i < |incoming.v.entries| ==> incoming.v.entries[i].0.Str?)
    ensures incoming.AValue? && incoming.v.Dict? && r.Ok? ==>
      r.value == NewCleaningGuide([], KeywordArgs(incoming.v.entries))
    ensures r.Err? ==> r.error == ValueError || r.error == TypeError
  {
    match incoming
    case AGuide(g) => Ok(g)
    case AValue(v) =>
      if !v.Dict? then Err(ValueError)
      else if forall i :: 0 <= i < |v.entries| ==> v.entries[i].0.Str? then
        Ok(NewCleaningGuide([], KeywordArgs(v.entries)))
      else Err(TypeError)
  }

  /** Converting a dict of distinct string keys and calling the guide on a
      key gives that key's value. */
  lemma ConvertThenCall(entries: Entries, n: nat, eq: (Value, Value) -> bool)
    requires n < |entries| && forall i :: 0 <= i < |entries| ==> entries[i].0.Str?
    requires DistinctKeys(entries)
    requires forall a: string, b: string :: eq(Str(a), Str(b)) <==> a == b
    ensures Convert(AValue(Dict(entries))).Ok?
    ensures Call(Convert(AValue(Dict(entries))).value, entries[n].0, eq) == Ok(entries[n].1)
  {
    var simple := KeywordArgs(entries);
    forall i, j | 0 <= i < j < |simple| ensures simple[i].0 != simple[j].0 {
      assert entries[i].0 == Str(simple[i].0) && entries[j].0 == Str(simple[j].0);
    }
    KeywordCall(simple, n, eq);
  }

  /** `guide[item]`. */
  function GetItem(g: CleaningGuide, item: Value): (r: Result<Value>)
    ensures r.Ok? <==> HasKey(g.data, item)
    ensures r.Err? ==> r.error == KeyError
    ensures r.Ok? ==> (item, r.value) in g.data
  {
    match Lookup(g.data, item)
    case Some(v) => Ok(v)
    case None => Err(KeyError)
  }

  // ---------------------------------------------------------------------
  // SupplementGuide

  /** A `SupplementGuide`: `on` the column names, `conditions` a dict from
      column label (None for "no condition") to the tuple of qualifying
      values, and `chunks` the frames collected so far. */
  datatype SupplementGuide = SupplementGuide(
    on: seq<Value>,
    conditions: Entries,
    thresholds: Value,
    block: Value,
    inexact: bool,
    chunks: seq<Frame>)

  /** The default inexact threshold, `0.9`. */
  const DefaultThreshold: Value := Float("0.9")

  /** The `conditions` dict with every value tuplified. */
  function TuplifyValues(c: Entries): (r: Entries)
    ensures |r| == |c| && Keys(r) == Keys(c)
    ensures forall i :: 0 <= i < |c| ==> r[i] == (c[i].0, DgTuplify(c[i].1))
  {
    seq(|c|, i requires 0 <= i < |c| => (c[i].0, DgTuplify(c[i].1)))
  }

  /** `SupplementGuide(*on, conditions=..., thresholds=..., block=...,
      inexact=...)`. Conditions default to `{None: (None,)}`; a conditions
      argument without `.items()` raises AttributeError. An inexact guide
      without thresholds gets 0.9 per column of `on`, and one whose
      thresholds do not match `on` in length raises ValueError. */
  function NewSupplementGuide(on: seq<Value>, conditions: Value, thresholds: Value, block: Value, inexact: bool)
    : (r: Result<SupplementGuide>)
    ensures r.Ok? <==> ((conditions.NoneV? || conditions.Dict?) &&
      (inexact && thresholds != NoneV ==> |Tuplify(thresholds).items| == |on|))
    ensures r.Err? ==> (r.error == AttributeError <==> !(conditions.NoneV? || conditions.Dict?))
    ensures r.Err? ==> r.error == AttributeError || r.error == ValueError
    ensures r.Ok? ==> r.value.on == on && r.value.inexact == inexact && r.value.chunks == []
    ensures r.Ok? ==> r.value.block == DgTuplify(block)
    ensures r.Ok? && conditions.NoneV? ==> r.value.conditions == [(NoneV, Tuple([NoneV]))]
    ensures r.Ok? && conditions.Dict? ==> r.value.conditions == TuplifyValues(conditions.entries)
    ensures r.Ok? && !inexact ==> r.value.thresholds == DgTuplify(thresholds)
    ensures r.Ok? && inexact && thresholds.NoneV? ==> r.value.thresholds == Tuple(Copies(DefaultThreshold, |on|))
    ensures r.Ok? && inexact ==> r.value.thresholds.Tuple? && |r.value.thresholds.items| == |on|
  {
    if !(conditions.NoneV? || conditions.Dict?) then Err(AttributeError)
    else
      var c := if conditions.NoneV? then [(NoneV, Tuple([NoneV]))] else TuplifyValues(conditions.entries);
      var t := DgTuplify(thresholds);
      if inexact && t.NoneV? then
        Ok(SupplementGuide(on, c, Tuple(Copies(DefaultThreshold, |on|)), DgTuplify(block), inexact, []))
      else if inexact && |t.items| != |on| then Err(ValueError)
      else Ok(SupplementGuide(on, c, t, DgTuplify(block), inexact, []))
  }

  /** Conditions given as a dict of tuples are kept as they are. */
  lemma TupleConditionsKept(on: seq<Value>, c: Entries)
    requires forall i :: 0 <= i < |c| ==> c[i].1.Tuple?
    ensures NewSupplementGuide(on, Dict(c), NoneV, NoneV, false) == Ok(SupplementGuide(on, c, NoneV, NoneV, false, []))
  {
    assert TuplifyValues(c) == c;
  }

  /** Python's position for `list.insert(index, x)` in a list of length `n`:
      negative positions count from the end, and out-of-range positions
      clamp to the ends. */
  function InsertPosition(index: int, n: nat): (k: nat)
    ensures k <= n
    ensures 0 <= index <= n ==> k == index
    ensures -(n as int) <= index < 0 ==> k == n + index
  {
    if index >= n then n
    else if index >= 0 then index
    else if n + index >= 0 then n + index
    else 0
  }

  /** `guide.insert(index, x)`: only the chunks change. */
  function InsertChunk(g: SupplementGuide, index: int, x: Frame): (r: SupplementGuide)
    ensures r.(chunks := g.chunks) == g
    ensures |r.chunks| == |g.chunks| + 1
    ensures r.chunks[InsertPosition(index, |g.chunks|)] == x
    ensures forall j :: 0 <= j < |g.chunks| ==>
      r.chunks[if j < InsertPosition(index, |g.chunks|) then j else j + 1] == g.chunks[j]
  {
    g.(chunks := Insert(g.chunks, InsertPosition(index, |g.chunks|), x))
  }

  /** `guide.append(x)`, which the mutable-sequence mixin turns into
      `insert(len(guide), x)`. */
  function AppendChunk(g: SupplementGuide, x: Frame): (r: SupplementGuide)
    ensures r == g.(chunks := g.chunks + [x])
  {
    var r := InsertChunk(g, |g.chunks|, x);
    assert r.chunks == g.chunks + [x];
    r
  }

  /** `guide[k]`. */
  function GetChunk(g: SupplementGuide, k: int): (r: Result<Frame>)
    ensures r.Ok? <==> PyIndex(k, |g.chunks|).Some?
    ensures r.Err? ==> r.error == IndexError
    ensures r.Ok? ==> r.value == g.chunks[PyIndex(k, |g.chunks|).value]
  {
    match PyIndex(k, |g.chunks|)
    case Some(i) => Ok(g.chunks[i])
    case None => Err(IndexError)
  }

  /** `guide[k] = x`. */
  function SetChunk(g: SupplementGuide, k: int, x: Frame): (r: Result<SupplementGuide>)
    ensures r.Ok? <==> PyIndex(k, |g.chunks|).Some?
    ensures r.Err? ==> r.error == IndexError
    ensures r.Ok? ==> r.value.(chunks := g.chunks) == g && |r.value.chunks| == |g.chunks|
    ensures r.Ok? ==> forall j :: 0 <= j < |g.chunks| && j != PyIndex(k, |g.chunks|).value ==>
      r.value.chunks[j] == g.chunks[j]
  {
    match PyIndex(k, |g.chunks|)
    case Some(i) => Ok(g.(chunks := g.chunks[i := x]))
    case None => Err(IndexError)
  }

  /** `del guide[k]`. */
  function DelChunk(g: SupplementGuide, k: int): (r: Result<SupplementGuide>)
    ensures r.Ok? <==> PyIndex(k, |g.chunks|).Some?
    ensures r.Err? ==> r.error == IndexError
    ensures r.Ok? ==> r.value.(chunks := g.chunks) == g && |r.value.chunks| == |g.chunks| - 1
    ensures r.Ok? ==> var i := PyIndex(k, |g.chunks|).value;
      forall j :: 0 <= j < |g.chunks| - 1 ==> r.value.chunks[j] == g.chunks[if j < i then j else j + 1]
  {
    match PyIndex(k, |g.chunks|)
    case Some(i) => Ok(g.(chunks := g.chunks[..i] + g.chunks[i + 1..]))
    case None => Err(IndexError)
  }

  /** Writing a chunk and reading it back gives what was written; deleting
      the chunk just inserted restores the guide. */
  lemma ChunkRoundTrips(g: SupplementGuide, k: int, x: Frame)
    ensures SetChunk(g, k, x).Ok? ==> GetChunk(SetChunk(g, k, x).value, k) == Ok(x)
    ensures 0 <= k <= |g.chunks| ==> DelChunk(InsertChunk(g, k, x), k) == Ok(g)
  {
    if 0 <= k <= |g.chunks| {
      var r := InsertChunk(g, k, x);
      var d := DelChunk(r, k).value;
      assert d.chunks == g.chunks by {
        forall j | 0 <= j < |g.chunks| ensures d.chunks[j] == g.chunks[j] {
          assert r.chunks[if j < k then j else j + 1] == g.chunks[j];
        }
      }
    }
  }

  /** The value of one attribute that `output` can collect. */
  datatype Attr = AttrValue(v: Value) | AttrChunks(frames: seq<Frame>)

  /** What `output` returns: a bare attribute or a tuple of them. */
  datatype Output = Single(attr: Attr) | Several(attrs: seq<Attr>)

  /** The names of the methods a `SupplementGuide` has: `getattr` on them
      yields a bound method, which the model does not represent. */
  predicate IsMethodName(name: string) {
    name in ["insert", "output", "append", "extend", "pop", "remove", "reverse", "index", "count", "clear"] ||
    (|name| >= 2 && name[..2] == "__")
  }

  /** `getattr(guide, name)`. */
  function Attribute(g: SupplementGuide, name: string): (r: Result<Attr>)
    ensures name == "on" ==> r == Ok(AttrValue(Tuple(g.on)))
    ensures name == "conditions" ==> r == Ok(AttrValue(Dict(g.conditions)))
    ensures name == "chunks" ==> r == Ok(AttrChunks(g.chunks))
    ensures r.Err? ==> r.error == (if IsMethodName(name) then Unmodelled else AttributeError)
  {
    if name == "on" then Ok(AttrValue(Tuple(g.on)))
    else if name == "conditions" then Ok(AttrValue(Dict(g.conditions)))
    else if name == "thresholds" then Ok(AttrValue(g.thresholds))
    else if name == "block" then Ok(AttrValue(g.block))
    else if name == "inexact" then Ok(AttrValue(Bool(g.inexact)))
    else if name == "chunks" then Ok(AttrChunks(g.chunks))
    else if IsMethodName(name) then Err(Unmodelled)
    else Err(AttributeError)
  }

  /** `getattr` on every name, stopping at the first failure. */
  function Attributes(g: SupplementGuide, names: seq<string>): (r: Result<seq<Attr>>)
    ensures r.Ok? <==> forall i :: 0 <= i < |names| ==> Attribute(g, names[i]).Ok?
    ensures r.Ok? ==> (|r.value| == |names| &&
      forall i :: 0 <= i < |names| ==> r.value[i] == Attribute(g, names[i]).value)
  {
    if |names| == 0 then Ok([])
    else
      var a :- Attribute(g, names[0]);
      var rest :- Attributes(g, names[1..]);
      assert forall i :: 1 <= i < |names| ==> names[i] == names[1..][i - 1];
      Ok([a] + rest)
  }

  /** `guide.output(*attrs)`: `(on, conditions)` with no names, the bare
      attribute for one name and a tuple for several. */
  function OutputAttrs(g: SupplementGuide, attrs: seq<string>): (r: Result<Output>)
    ensures attrs == [] ==> r == Ok(Several([AttrValue(Tuple(g.on)), AttrValue(Dict(g.conditions))]))
    ensures |attrs| == 1 ==> (r.Ok? <==> Attribute(g, attrs[0]).Ok?)
    ensures |attrs| == 1 && r.Ok? ==> r.value == Single(Attribute(g, attrs[0]).value)
    ensures |attrs| >= 2 ==> (r.Ok? <==> forall i :: 0 <= i < |attrs| ==> Attribute(g, attrs[i]).Ok?)
    ensures |attrs| >= 2 && r.Ok? ==> (r.value.Several? && |r.value.attrs| == |attrs| &&
      forall i :: 0 <= i < |attrs| ==> r.value.attrs[i] == Attribute(g, attrs[i]).value)
  {
    if |attrs| == 0 then Ok(Several([AttrValue(Tuple(g.on)), AttrValue(Dict(g.conditions))]))
    else
      var results :- Attributes(g, attrs);
      if |results| == 1 then Ok(Single(results[0])) else Ok(Several(results))
  }

  // ---------------------------------------------------------------------
  // RedistributionGuide

  datatype RedistributionGuide = RedistributionGuide(patterns: seq<string>, destination: string, mode: string)

  const ValidModes: seq<string> := ["overwrite", "append", "fillna"]

  /** `RedistributionGuide(*patterns, destination=..., mode=...)`: the mode
      must be one of overwrite, append and fillna. */
  function NewRedistributionGuide(patterns: seq<string>, destination: string, mode: string)
    : (r: Result<RedistributionGuide>)
    ensures r.Ok? <==> mode == "overwrite" || mode == "append" || mode == "fillna"
    ensures r.Err? ==> r.error == ValueError
    ensures r.Ok? ==> r.value == RedistributionGuide(patterns, destination, mode)
  {
    if mode in ValidModes then Ok(RedistributionGuide(patterns, destination, mode))
    else Err(ValueError)
  }

  /** Whether some pattern is found in the text. */
  predicate AnyFound(patterns: seq<string>, text: string, search: (string, string) -> bool) {
    exists i :: 0 <= i < |patterns| && search(patterns[i], text)
  }

  /** `guide(check)`: `check` itself when some pattern is found in
      `str(check)`, NaN otherwise. The text of a container is not
      modelled. */
  function Redistribute(g: RedistributionGuide, check: Value, search: (string, string) -> bool): (r: Result<Value>)
    ensures r.Err? <==> PyStr(check).None?
    ensures r.Err? ==> r.error == Unmodelled
    ensures r.Ok? ==> (r.value == check <==> AnyFound(g.patterns, PyStr(check).value, search)) || check.Nan?
    ensures r.Ok? ==> (r.value == check || r.value == Nan)
    ensures r.Ok? && !AnyFound(g.patterns, PyStr(check).value, search) ==> r.value == Nan
  {
    match PyStr(check)
    case None => Err(Unmodelled)
    case Some(text) => Ok(FirstFound(g.patterns, text, check, search))
  }

  /** The loop over the patterns. */
  function FirstFound(patterns: seq<string>, text: string, check: Value, search: (string, string) -> bool): (r: Value)
    ensures AnyFound(patterns, text, search) ==> r == check
    ensures !AnyFound(patterns, text, search) ==> r == Nan
  {
    if |patterns| == 0 then Nan
    else if search(patterns[0], text) then check
    else
      assert forall i :: 1 <= i < |patterns| ==> patterns[i] == patterns[1..][i - 1];
      FirstFound(patterns[1..], text, check, search)
  }

  /** A value the guide keeps is kept again: redistribution is idempotent
      on its hits, and a guide without patterns keeps nothing. */
  lemma RedistributeTwice(g: RedistributionGuide, check: Value, search: (string, string) -> bool)
    requires Redistribute(g, check, search) == Ok(check)
    ensures Redistribute(g, Redistribute(g, check, search).value, search) == Ok(check)
    ensures !check.Nan? ==> g.patterns != []
  {
  }
}

=== FILE: header.dfy ===
/** Column-label standardisation (tamer/header.py).

    A `Header` keeps the labels as they were given (`original`) beside their
    standardised form (`labels`): lower case, punctuation other than `_`
    removed, trimmed, runs of spaces turned into `_`, and repeats renamed
    `v_1`, `v_2`, ... */
module Header {
  import opened Wrappers
  import opened Text
  import opened Values

  /** Python's `string.punctuation`: the 32 ASCII punctuation characters. */
  predicate IsPunctuation(c: char) {
    ('!' <= c <= '/') || (':' <= c <= '@') || ('[' <= c <= '`') || ('{' <= c <= '~')
  }

  /** The characters the label cleaner is meant to delete: all punctuation but `_`. */
  predicate Removed(c: char) { IsPunctuation(c) && c != '_' }

  /** The characters the character class of tamer/header.py:117 really
      deletes. The class is spelled from `string.punctuation`, where the
      backslash stands right before `]` and so escapes it: the backslash is
      not in the class. */
  predicate RemovedAsWritten(c: char) { Removed(c) && c != '\\' }

  /** The cleaning pipeline of one label, for a given set of deleted characters. */
  function CleanLabel(h: string, removed: char -> bool): string {
    LowerStr(SubRuns(' ', Strip(DeleteChars(h, removed)), "_"))
  }

  /** A label the standardisation leaves alone. */
  predicate IsStandard(s: string) {
    (forall i :: 0 <= i < |s| ==> !Removed(s[i]) && s[i] != ' ' && !IsUpper(s[i]))
    && (|s| > 0 ==> !IsWhitespace(s[0]) && !IsWhitespace(s[|s| - 1]))
  }

  /** One label as the code as written cleans it. */
  function StandardizeLabelAsWritten(h: string): (r: string)
    ensures '\\' !in h ==> r == StandardizeLabel(h)
  {
    DeleteCharsAgree(h, RemovedAsWritten, Removed);
    CleanLabel(h, RemovedAsWritten)
  }

  /** One label as intended: the result is standard, so it contains no space
      and no punctuation but `_`. */
  function StandardizeLabel(h: string): (r: string)
    ensures IsStandard(r)
  {
    CleanedIsStandard(h);
    CleanLabel(h, Removed)
  }

  lemma CleanedIsStandard(h: string)
    ensures IsStandard(CleanLabel(h, Removed))
  {
    var a := DeleteChars(h, Removed);
    var b := Strip(a);
    var c := SubRuns(' ', b, "_");
    StripChars(a);
    assert forall x :: x in b ==> !Removed(x);
    SubRunsChars(' ', b, "_");
    SubRunsLast(' ', b, "_");
    CharsClean(c, b);
    LowerClean(c);
  }

  lemma CharsClean(c: string, b: string)
    requires forall x :: x in b ==> !Removed(x)
    requires forall x :: x in c ==> (x in b && x != ' ') || x in "_"
    ensures forall k :: 0 <= k < |c| ==> !Removed(c[k]) && c[k] != ' '
  {
    forall k | 0 <= k < |c| ensures !Removed(c[k]) && c[k] != ' ' {
      assert c[k] in c;
    }
  }

  lemma LowerClean(c: string)
    requires forall k :: 0 <= k < |c| ==> !Removed(c[k]) && c[k] != ' '
    requires |c| > 0 ==> !IsWhitespace(c[0]) && !IsWhitespace(c[|c| - 1])
    ensures IsStandard(LowerStr(c))
  {
    var r := LowerStr(c);
    forall k | 0 <= k < |r| ensures !Removed(r[k]) && r[k] != ' ' && !IsUpper(r[k]) {
      LowerCharClean(c[k]);
    }
    if |c| > 0 {
      LowerCharClean(c[0]);
      LowerCharClean(c[|c| - 1]);
    }
  }

  lemma LowerCharClean(x: char)
    ensures !Removed(x) ==> !Removed(Lower(x))
    ensures x != ' ' ==> Lower(x) != ' '
    ensures !IsUpper(Lower(x))
    ensures !IsWhitespace(x) ==> !IsWhitespace(Lower(x))
  {
  }

  lemma StripChars(s: string)
    ensures forall c :: c in Strip(s) ==> c in s
  {
    var l := StripLeft(s);
    var r := StripRight(l);
    assert Strip(s) == r;
    forall c | c in r ensures c in s {
      var k :| 0 <= k < |r| && r[k] == c;
      assert l[k] == c;
      assert s[|s| - |l| + k] == c;
    }
  }



  /** The backslash survives the code as written and is removed by the
      intended cleaner. */
  lemma BackslashSurvives()
    ensures StandardizeLabelAsWritten("a\\b") == "a\\b"
    ensures StandardizeLabel("a\\b") == "ab"
  {
    BackslashDeleted("a\\b");
    CleanUnchanged("a\\b", RemovedAsWritten);
    PlainUnchanged("ab");
  }

  lemma PlainUnchanged(s: string)
    requires s == "ab"
    ensures DeleteChars(s, Removed) == s
    ensures CleanLabel(s, Removed) == s
  {
    assert DeleteChars(s[2..], Removed) == "";
    assert DeleteChars(s[1..], Removed) == "b";
    CleanUnchanged(s, Removed);
  }

  /** A label with nothing to delete, no space, no capital and no outer
      whitespace is left as it is. */
  lemma CleanUnchanged(s: string, removed: char -> bool)
    requires DeleteChars(s, removed) == s
    requires forall i :: 0 <= i < |s| ==> s[i] != ' ' && !IsUpper(s[i])
    requires |s| > 0 ==> !IsWhitespace(s[0]) && !IsWhitespace(s[|s| - 1])
    ensures CleanLabel(s, removed) == s
  {
    StripIdentity(s);
    assert Strip(DeleteChars(s, removed)) == s;
    SubRunsAbsent(' ', s, "_");
    LowerStrIdentity(s);
  }

  lemma BackslashDeleted(s: string)
    requires s == "a\\b"
    ensures DeleteChars(s, RemovedAsWritten) == s
    ensures DeleteChars(s, Removed) == "ab"
  {
    assert !RemovedAsWritten(s[2]) && !RemovedAsWritten(s[1]) && !RemovedAsWritten(s[0]);
    assert DeleteChars(s[3..], RemovedAsWritten) == [];
    assert DeleteChars(s[2..], RemovedAsWritten) == s[2..];
    assert DeleteChars(s[1..], RemovedAsWritten) == s[1..];
    assert Removed(s[1]) && !Removed(s[2]) && !Removed(s[0]);
    assert DeleteChars(s[3..], Removed) == [];
    assert DeleteChars(s[2..], Removed) == "b";
    assert DeleteChars(s[1..], Removed) == "b";
  }

  /** Standard labels are fixed points of the cleaner, so cleaning is idempotent. */
  lemma {:induction false} StandardFixpoint(s: string)
    requires IsStandard(s)
    ensures StandardizeLabel(s) == s
  {
    DeleteCharsNothing(s, Removed);
    StripIdentity(s);
    SubRunsAbsent(' ', s, "_");
  }

  lemma StandardizeLabelIdempotent(h: string)
    ensures StandardizeLabel(StandardizeLabel(h)) == StandardizeLabel(h)
  {
    StandardFixpoint(StandardizeLabel(h));
  }

  /** Renaming a standard label with a `_k` suffix keeps it standard. */
  lemma SuffixStandard(s: string, k: nat)
    requires IsStandard(s)
    ensures IsStandard(s + "_" + NatToString(k))
  {
    var t := s + "_" + NatToString(k);
    assert forall i :: |s| + 1 <= i < |t| ==> IsDigit(t[i]);
  }

  /** The label at position `i` after renaming repeats: the first occurrence
      of a value is kept, its k-th repeat becomes `v_k`. */
  function Renamed(x: seq<string>, i: nat): string
    requires i < |x|
  {
    var k := Occurrences(x[..i], x[i]);
    if k == 0 then x[i] else x[i] + "_" + NatToString(k)
  }

  /** `_enforce_uniques` as a function of the whole list. */
  function EnforceUniques(x: seq<string>): (r: seq<string>)
    ensures |r| == |x|
  {
    seq(|x|, i requires 0 <= i < |x| => Renamed(x, i))
  }

  /** A label is changed exactly when an equal label comes before it, and a
      changed label still starts with the original. */
  lemma EnforceUniquesRenames(x: seq<string>, i: nat)
    requires i < |x|
    ensures EnforceUniques(x)[i] == x[i] <==> x[i] !in x[..i]
    ensures |EnforceUniques(x)[i]| >= |x[i]| && EnforceUniques(x)[i][..|x[i]|] == x[i]
  {
  }

  /** `_enforce_uniques` as the code computes it: one pass with a dict of
      counts per value. */
  method EnforceUniquesLoop(x: seq<string>) returns (r: seq<string>)
    ensures |r| == |x|
    ensures forall i :: 0 <= i < |x| && x[i] !in x[..i] ==> r[i] == x[i]
    ensures forall i :: 0 <= i < |x| && x[i] in x[..i] ==>
      r[i] == x[i] + "_" + NatToString(Occurrences(x[..i], x[i]))
    ensures r == EnforceUniques(x)
  {
    var values: map<string, nat> := map[];
    r := x;
    var i := 0;
    while i < |x|
      invariant 0 <= i <= |x|
      invariant |r| == |x|
      invariant forall j :: 0 <= j < i ==> r[j] == Renamed(x, j)
      invariant forall j :: i <= j < |x| ==> r[j] == x[j]
      invariant forall v :: v in values <==> v in x[..i]
      invariant forall v :: v in values ==> values[v] == Occurrences(x[..i], v)
    {
      var val := x[i];
      CountsStep(x, i, values);
      if val in values {
        r := r[i := val + "_" + NatToString(values[val])];
        values := values[val := values[val] + 1];
      } else {
        r := r[i := val];
        values := values[val := 1];
      }
      i := i + 1;
    }
  }

  /** One step of the counting loop: the dict of counts of `x[..i]` updated
      with `x[i]` is the dict of counts of `x[..i + 1]`. */
  lemma CountsStep(x: seq<string>, i: nat, m: map<string, nat>)
    requires i < |x|
    requires forall v :: v in m <==> v in x[..i]
    requires forall v :: v in m ==> m[v] == Occurrences(x[..i], v)
    ensures x[i] in m ==> m[x[i]] == Occurrences(x[..i], x[i]) > 0
    ensures x[i] !in m ==> Occurrences(x[..i], x[i]) == 0
    ensures var m' := m[x[i] := Occurrences(x[..i], x[i]) + 1];
      (forall v :: v in m' <==> v in x[..i + 1])
      && (forall v :: v in m' ==> m'[v] == Occurrences(x[..i + 1], v))
  {
    var val := x[i];
    assert x[..i + 1] == x[..i] + [val];
    forall v ensures Occurrences(x[..i + 1], v) == Occurrences(x[..i], v) + (if v == val then 1 else 0) {
      OccurrencesAppend(x[..i], [val], v);
    }
  }

  lemma EnforceUniquesDistinct(x: seq<string>)
    requires forall i, j :: 0 <= i < j < |x| ==> x[i] != x[j]
    ensures EnforceUniques(x) == x
  {
    forall i | 0 <= i < |x| ensures Renamed(x, i) == x[i] {
      assert x[i] !in x[..i];
    }
  }

  /** Renaming looks only backwards, so it commutes with extending the list. */
  lemma EnforceUniquesPrefix(x: seq<string>, y: seq<string>)
    ensures EnforceUniques(x + y)[..|x|] == EnforceUniques(x)
  {
    forall i | 0 <= i < |x| ensures Renamed(x + y, i) == Renamed(x, i) {
      assert (x + y)[..i] == x[..i];
    }
  }

  lemma EnforceUniquesStandard(x: seq<string>)
    requires forall i :: 0 <= i < |x| ==> IsStandard(x[i])
    ensures forall i :: 0 <= i < |x| ==> IsStandard(EnforceUniques(x)[i])
  {
    forall i | 0 <= i < |x| ensures IsStandard(EnforceUniques(x)[i]) {
      SuffixStandard(x[i], Occurrences(x[..i], x[i]));
    }
  }

  predicate HasDuplicates(x: seq<string>) {
    exists i, j :: 0 <= i < j < |x| && x[i] == x[j]
  }

  /** `str()` of every label; a container label is outside the model. */
  function StrAll(xs: seq<Value>): (r: Result<seq<string>>)
    ensures r.Ok? <==> forall i :: 0 <= i < |xs| ==> PyStr(xs[i]).Some?
    ensures r.Ok? ==> |r.value| == |xs| && forall i :: 0 <= i < |xs| ==> Some(r.value[i]) == PyStr(xs[i])
  {
    if |xs| == 0 then Ok([])
    else
      match PyStr(xs[0])
      case None => Err(Unmodelled)
      case Some(s) =>
        var rest :- StrAll(xs[1..]);
        assert forall i :: 1 <= i < |xs| ==> xs[i] == xs[1..][i - 1];
        Ok([s] + rest)
  }

  /** Every label cleaned. */
  function CleanAll(strs: seq<string>): (r: seq<string>)
    ensures |r| == |strs|
    ensures forall i :: 0 <= i < |strs| ==> r[i] == StandardizeLabel(strs[i])
  {
    seq(|strs|, i requires 0 <= i < |strs| => StandardizeLabel(strs[i]))
  }

  /** Every cleaned label is standard. */
  lemma CleanAllStandard(strs: seq<string>, i: nat)
    requires i < |strs|
    ensures IsStandard(CleanAll(strs)[i])
  {
  }

  /** `_standardize`: every label cleaned, then repeats renamed if there are any. */
  function Standardize(header: seq<Value>): (r: Result<seq<string>>)
    ensures r.Ok? <==> forall i :: 0 <= i < |header| ==> PyStr(header[i]).Some?
    ensures r.Ok? ==> |r.value| == |header|
    ensures r.Ok? ==> forall i :: 0 <= i < |r.value| ==> IsStandard(r.value[i])
  {
    var strs :- StrAll(header);
    var cleaned := CleanAll(strs);
    EnforceUniquesStandard(cleaned);
    Ok(if HasDuplicates(cleaned) then EnforceUniques(cleaned) else cleaned)
  }

  /** Renaming is only applied when repeats exist, but it is the identity
      otherwise, so the standardisation always equals label cleaning followed
      by renaming. */
  lemma StandardizeRenames(header: seq<Value>)
    requires Standardize(header).Ok?
    ensures var strs := StrAll(header).value;
      Standardize(header).value
        == EnforceUniques(CleanAll(strs))
  {
    var strs := StrAll(header).value;
    var cleaned := CleanAll(strs);
    if !HasDuplicates(cleaned) {
      EnforceUniquesDistinct(cleaned);
    }
  }

  /** The header object: the raw labels and their standardised form. */
  datatype Header = Header(original: seq<Value>, labels: seq<string>) {
    /** The two lists stay in lock step. */
    predicate Valid() { |original| == |labels| }
  }

  /** The labels the constructor receives: a single argument is itself the
      sequence of labels (and must be iterable), several arguments are the
      labels. */
  function Unpack(args: seq<Value>): (r: Result<seq<Value>>)
    ensures |args| != 1 ==> r == Ok(args)
    ensures |args| == 1 ==> r == Iterate(args[0])
  {
    if |args| == 1 then Iterate(args[0]) else Ok(args)
  }

  /** `Header(*labels)`. */
  function Init(args: seq<Value>): (r: Result<Header>)
    ensures r.Ok? ==> r.value.Valid()
    ensures r.Ok? ==> Unpack(args) == Ok(r.value.original)
    ensures r.Ok? ==> Standardize(r.value.original) == Ok(r.value.labels)
    ensures Unpack(args).Err? ==> r == Err(TypeError)
    ensures Unpack(args).Ok? ==> (r.Ok? <==> Standardize(Unpack(args).value).Ok?)
  {
    var labels :- Unpack(args);
    var std :- Standardize(labels);
    Ok(Header(labels, std))
  }

  /** `append(value)`: the raw value joins `original`, and the standardised
      labels plus the value are standardised again. */
  function Append(h: Header, value: Value): (r: Result<Header>)
    ensures r.Ok? <==> PyStr(value).Some?
    ensures r.Ok? ==> r.value.original == h.original + [value]
    ensures r.Ok? ==> Standardize(Strs(h.labels) + [value]) == Ok(r.value.labels)
    ensures h.Valid() && r.Ok? ==> r.value.Valid()
  {
    var xs := Strs(h.labels) + [value];
    assert forall i :: 0 <= i < |h.labels| ==> xs[i] == Str(h.labels[i]);
    assert xs[|h.labels|] == value;
    var std :- Standardize(xs);
    Ok(Header(h.original + [value], std))
  }

  /** Appending to a header of distinct standard labels keeps them all in
      place: only the new label can be renamed. */
  lemma AppendKeepsLabels(h: Header, value: Value)
    requires forall i :: 0 <= i < |h.labels| ==> IsStandard(h.labels[i])
    requires forall i, j :: 0 <= i < j < |h.labels| ==> h.labels[i] != h.labels[j]
    requires PyStr(value).Some?
    ensures var r := Append(h, value);
      r.Ok? && |r.value.labels| == |h.labels| + 1 && r.value.labels[..|h.labels|] == h.labels
  {
    var n := |h.labels|;
    var xs := Strs(h.labels) + [value];
    var r := Append(h, value);
    assert Standardize(xs) == Ok(r.value.labels);
    StandardizeRenames(xs);
    var strs := StrAll(xs).value;
    var cleaned := CleanAll(strs);
    assert r.value.labels == EnforceUniques(cleaned);
    CleanedPrefix(h.labels, n, xs, strs, cleaned);
    DistinctPrefixKept(h.labels, cleaned);
  }

  lemma DistinctPrefixKept(labels: seq<string>, x: seq<string>)
    requires |x| == |labels| + 1 && x[..|labels|] == labels[..|labels|]
    requires forall i, j :: 0 <= i < j < |labels| ==> labels[i] != labels[j]
    ensures EnforceUniques(x)[..|labels|] == labels
  {
    var n := |labels|;
    assert x == labels + [x[n]];
    EnforceUniquesPrefix(labels, [x[n]]);
    EnforceUniquesDistinct(labels);
  }

  /** Removes position `i` of a sequence. */
  function Without<T>(xs: seq<T>, i: nat): (r: seq<T>)
    requires i < |xs|
    ensures |r| == |xs| - 1
    ensures forall j :: 0 <= j < i ==> r[j] == xs[j]
    ensures forall j :: i <= j < |r| ==> r[j] == xs[j + 1]
  {
    xs[..i] + xs[i + 1..]
  }

  /** `__delitem__(key)`: pops the key from both lists (Python indexing, so
      negative keys count from the end) and returns the standardised label. */
  function DelItem(h: Header, key: int): (r: Result<(Header, string)>)
    ensures r.Ok? <==> PyIndex(key, |h.labels|).Some? && PyIndex(key, |h.original|).Some?
    ensures r.Ok? ==> var i := PyIndex(key, |h.labels|).value;
      r.value.1 == h.labels[i] && r.value.0.labels == Without(h.labels, i)
    ensures r.Ok? ==>
      r.value.0.original == Without(h.original, PyIndex(key, |h.original|).value)
    ensures h.Valid() && r.Ok? ==> r.value.0.Valid()
    ensures r.Err? ==> r.error == IndexError
  {
    match (PyIndex(key, |h.labels|), PyIndex(key, |h.original|))
    case (Some(i), Some(j)) =>
      Ok((Header(Without(h.original, j), Without(h.labels, i)), h.labels[i]))
    case _ => Err(IndexError)
  }

  /** `pop(key)`: a key at or beyond the length is an IndexError; otherwise
      the key is deleted from both lists. */
  function Pop(h: Header, key: int): (r: Result<(Header, string)>)
    requires h.Valid()
    ensures key >= |h.labels| ==> r == Err(IndexError)
    ensures 0 <= key < |h.labels| ==> r.Ok? && r.value.1 == h.labels[key]
    ensures 0 <= key < |h.labels| ==> r.Ok? && r.value.0.labels == Without(h.labels, key)
    ensures 0 <= key < |h.labels| ==> r.Ok? && r.value.0.original == Without(h.original, key)
    ensures key < -|h.labels| ==> r == Err(IndexError)
    ensures r.Ok? ==> r.value.0.Valid()
  {
    if key >= |h.labels| then Err(IndexError) else DelItem(h, key)
  }

  /** The first position of `x` in `xs`. */
  function IndexIn<T(==)>(xs: seq<T>, x: T): (i: nat)
    requires x in xs
    ensures i < |xs| && xs[i] == x && x !in xs[..i]
  {
    if xs[0] == x then 0 else 1 + IndexIn(xs[1..], x)
  }

  /** `remove(value)`: the first standardised label equal to the value goes,
      else the first raw label equal to it, else ValueError. */
  function Remove(h: Header, value: Value): (r: Result<Header>)
    requires h.Valid()
    ensures r.Err? <==> value !in Strs(h.labels) && value !in h.original
    ensures r.Err? ==> r.error == ValueError
    ensures value in Strs(h.labels) ==> var i := IndexIn(Strs(h.labels), value);
      r == Ok(Header(Without(h.original, i), Without(h.labels, i)))
    ensures value !in Strs(h.labels) && value in h.original ==> var i := IndexIn(h.original, value);
      r == Ok(Header(Without(h.original, i), Without(h.labels, i)))
    ensures r.Ok? ==> r.value.Valid()
  {
    var idx :=
      if value in Strs(h.labels) then Some(IndexIn(Strs(h.labels), value))
      else if value in h.original then Some(IndexIn(h.original, value))
      else None;
    match idx
    case None => Err(ValueError)
    case Some(i) => Ok(Header(Without(h.original, i), Without(h.labels, i)))
  }

  /** `h[key] = item`: the raw item is stored in both lists and the labels are
      standardised again. */
  function SetItem(h: Header, key: int, item: Value): (r: Result<Header>)
    ensures PyIndex(key, |h.labels|).None? || PyIndex(key, |h.original|).None? ==> r == Err(IndexError)
    ensures r.Ok? ==> var j := PyIndex(key, |h.original|).value;
      r.value.original == h.original[j := item]
    ensures r.Ok? ==> var i := PyIndex(key, |h.labels|).value;
      Standardize(Strs(h.labels)[i := item]) == Ok(r.value.labels)
    ensures h.Valid() && r.Ok? ==> r.value.Valid()
    ensures h.Valid() && PyIndex(key, |h.labels|).Some? ==> (r.Ok? <==> PyStr(item).Some?)
  {
    match (PyIndex(key, |h.labels|), PyIndex(key, |h.original|))
    case (Some(i), Some(j)) =>
      var xs := Strs(h.labels)[i := item];
      assert forall k :: 0 <= k < |xs| && k != i ==> xs[k] == Str(h.labels[k]);
      assert xs[i] == item;
      var std :- Standardize(xs);
      Ok(Header(h.original[j := item], std))
    case _ => Err(IndexError)
  }

  /** Assigning a label equal to another one after cleaning renames it. */
  lemma SetItemRenamesClash(h: Header, key: nat, other: nat, s: string)
    requires h.Valid() && other < key < |h.labels|
    requires forall i :: 0 <= i < |h.labels| ==> IsStandard(h.labels[i])
    requires forall i, j :: 0 <= i < j < |h.labels| ==> h.labels[i] != h.labels[j]
    requires StandardizeLabel(s) == h.labels[other]
    ensures var r := SetItem(h, key, Str(s));
      r.Ok? && r.value.labels[key] == h.labels[other] + "_1"
  {
    var xs := Strs(h.labels)[key := Str(s)];
    var r := SetItem(h, key, Str(s));
    assert Standardize(xs) == Ok(r.value.labels);
    StandardizeRenames(xs);
    RenamedAt(h.labels, key, other, s);
  }

  /** The cleaned list of the updated labels renames the clashing entry. */
  lemma RenamedAt(labels: seq<string>, key: nat, other: nat, s: string)
    requires other < key < |labels|
    requires forall i :: 0 <= i < |labels| ==> IsStandard(labels[i])
    requires forall i, j :: 0 <= i < j < |labels| ==> labels[i] != labels[j]
    requires StandardizeLabel(s) == labels[other]
    ensures var xs := Strs(labels)[key := Str(s)];
      StrAll(xs).Ok? && EnforceUniques(CleanAll(StrAll(xs).value))[key] == labels[other] + "_1"
  {
    var xs := Strs(labels)[key := Str(s)];
    var strs := ReplacedStrs(labels, key, s);
    var cleaned := CleanAll(strs);
    assert cleaned[..key] == labels[..key] by {
      CleanedPrefix(labels, key, xs, strs, cleaned);
    }
    assert cleaned[key] == labels[other];
    assert Occurrences(cleaned[..key], labels[other]) == 1 by {
      PrefixOccursOnce(labels, key, other);
    }
    RenamedOnce(cleaned, key, labels[other]);
  }

  /** `str()` of the labels with one replaced by a string. */
  lemma ReplacedStrs(labels: seq<string>, key: nat, s: string) returns (strs: seq<string>)
    requires key < |labels|
    ensures var xs := Strs(labels)[key := Str(s)];
      StrAll(xs).Ok? && strs == StrAll(xs).value && |strs| == |xs|
      && (forall i :: 0 <= i < |xs| ==> Some(strs[i]) == PyStr(xs[i]))
      && (forall i :: 0 <= i < key ==> xs[i] == Str(labels[i]))
      && strs[key] == s
  {
    var xs := Strs(labels)[key := Str(s)];
    assert forall i :: 0 <= i < |xs| ==> xs[i] == if i == key then Str(s) else Str(labels[i]);
    strs := StrAll(xs).value;
  }

  lemma PrefixOccursOnce(labels: seq<string>, key: nat, other: nat)
    requires other < key <= |labels|
    requires forall i, j :: 0 <= i < j < |labels| ==> labels[i] != labels[j]
    ensures Occurrences(labels[..key], labels[other]) == 1
  {
    OccurrencesDistinct(labels[..key], labels[other], other);
  }

  lemma RenamedOnce(x: seq<string>, i: nat, v: string)
    requires i < |x| && x[i] == v && Occurrences(x[..i], v) == 1
    ensures EnforceUniques(x)[i] == v + "_1"
  {
    assert NatToString(1) == "1";
  }

  lemma CleanedPrefix(labels: seq<string>, key: nat, xs: seq<Value>, strs: seq<string>, cleaned: seq<string>)
    requires key <= |labels| && key <= |xs| == |strs| == |cleaned|
    requires forall i :: 0 <= i < |labels| ==> IsStandard(labels[i])
    requires forall i :: 0 <= i < key ==> xs[i] == Str(labels[i])
    requires forall i :: 0 <= i < |xs| ==> Some(strs[i]) == PyStr(xs[i])
    requires cleaned == CleanAll(strs)
    ensures cleaned[..key] == labels[..key]
  {
    forall i | 0 <= i < key ensures cleaned[i] == labels[i] {
      StandardFixpoint(labels[i]);
    }
  }

  lemma OccurrencesDistinct(xs: seq<string>, x: string, k: nat)
    requires k < |xs| && xs[k] == x
    requires forall i, j :: 0 <= i < j < |xs| ==> xs[i] != xs[j]
    ensures Occurrences(xs, x) == 1
  {
    var tail := xs[k + 1..];
    assert xs == xs[..k] + [x] + tail;
    OccurrencesAppend(xs[..k] + [x], tail, x);
    OccurrencesAppend(xs[..k], [x], x);
    assert x !in xs[..k];
    assert x !in tail by {
      forall j | k + 1 <= j < |xs| ensures xs[j] != x {
      }
    }
  }
}

=== FILE: iterutils.dfy ===
/** Generic iterable helpers (tamer/iterutils.py). */
module IterUtils {
  import opened Wrappers
  import opened Text
  import opened Values

  // ---------------------------------------------------------------------
  // broadcast_affix

  /** `broadcast_affix(x, affix, pos)` on a list of strings: position 0
      prefixes, position -1 suffixes, any other position changes nothing. */
  function BroadcastAffix(x: seq<string>, affix: string, pos: int): (r: seq<string>)
    ensures |r| == |x|
    ensures pos == 0 ==> forall i :: 0 <= i < |x| ==> r[i] == affix + x[i]
    ensures pos == -1 ==> forall i :: 0 <= i < |x| ==> r[i] == x[i] + affix
    ensures pos != 0 && pos != -1 ==> r == x
  {
    var prefix := if pos == 0 then affix else "";
    var suffix := if pos == -1 then affix else "";
    var r := seq(|x|, i requires 0 <= i < |x| => prefix + x[i] + suffix);
    assert forall i :: 0 <= i < |x| ==> r[i] == prefix + x[i] + suffix;
    assert forall s: string :: "" + s == s && s + "" == s;
    r
  }

  /** A prefixed list gives the original back once the affix is cut off again. */
  lemma BroadcastPrefixInverse(x: seq<string>, affix: string)
    ensures var r := BroadcastAffix(x, affix, 0);
      forall i :: 0 <= i < |x| ==> r[i][..|affix|] == affix && r[i][|affix|..] == x[i]
  {
    var r := BroadcastAffix(x, affix, 0);
    forall i | 0 <= i < |x| ensures r[i][..|affix|] == affix && r[i][|affix|..] == x[i] {
      assert r[i] == affix + x[i];
    }
  }

  lemma BroadcastSuffixInverse(x: seq<string>, affix: string)
    ensures var r := BroadcastAffix(x, affix, -1);
      forall i :: 0 <= i < |x| ==>
        r[i][|r[i]| - |affix|..] == affix && r[i][..|r[i]| - |affix|] == x[i]
  {
    var r := BroadcastAffix(x, affix, -1);
    forall i | 0 <= i < |x|
      ensures r[i][|r[i]| - |affix|..] == affix && r[i][..|r[i]| - |affix|] == x[i]
    {
      assert r[i] == x[i] + affix;
    }
  }

  // ---------------------------------------------------------------------
  // collect_by_keys

  /** A dict as its entries in insertion order. */
  type Entries = seq<(Value, Value)>

  /** `collect_by_keys(x, *keys)`: the entries of `x` whose key is one of `keys`. */
  function CollectByKeys(x: Entries, keys: seq<Value>): (r: Entries)
    ensures |r| <= |x|
    ensures forall e :: e in r <==> e in x && e.0 in keys
  {
    if |x| == 0 then []
    else
      var rest := CollectByKeys(x[1..], keys);
      assert forall e :: e in x <==> e == x[0] || e in x[1..];
      if x[0].0 in keys then [x[0]] + rest else rest
  }

  /** Collection keeps the order of `x`: it distributes over concatenation. */
  lemma {:induction false} CollectByKeysAppend(x: Entries, y: Entries, keys: seq<Value>)
    ensures CollectByKeys(x + y, keys) == CollectByKeys(x, keys) + CollectByKeys(y, keys)
  {
    if |x| == 0 {
      assert x + y == y;
    } else {
      assert (x + y)[0] == x[0];
      assert (x + y)[1..] == x[1..] + y;
      CollectByKeysAppend(x[1..], y, keys);
    }
  }

  /** Asking for every key present returns the dict unchanged. */
  lemma {:induction false} CollectAllKeys(x: Entries, keys: seq<Value>)
    requires forall i :: 0 <= i < |x| ==> x[i].0 in keys
    ensures CollectByKeys(x, keys) == x
  {
    if |x| > 0 {
      CollectAllKeys(x[1..], keys);
    }
  }

  // ---------------------------------------------------------------------
  // gen_alpha_keys

  function Letter(i: nat): (c: char)
    requires i < 26
    ensures IsUpper(c)
  {
    ('A' as int + i) as char
  }

  /** The spreadsheet column name of position `i`: A..Z, then AA..ZZ. */
  function Key(i: nat): (s: string)
    requires i < 702
    ensures |s| == (if i < 26 then 1 else 2)
    ensures forall k :: 0 <= k < |s| ==> IsUpper(s[k])
  {
    if i < 26 then [Letter(i)] else [Letter(i / 26 - 1), Letter(i % 26)]
  }

  /** Reads a column name back into its position. */
  function DecodeKey(s: string): (r: Option<nat>)
    ensures r.Some? ==> r.value < 702 && Key(r.value) == s
  {
    if |s| == 1 && IsUpper(s[0]) then Some(s[0] as int - 'A' as int)
    else if |s| == 2 && IsUpper(s[0]) && IsUpper(s[1]) then
      Some((s[0] as int - 'A' as int + 1) * 26 + (s[1] as int - 'A' as int))
    else None
  }

  lemma DecodeKeyInverse(i: nat)
    requires i < 702
    ensures DecodeKey(Key(i)) == Some(i)
  {
  }

  lemma KeysDistinct(i: nat, j: nat)
    requires i < 702 && j < 702 && i != j
    ensures Key(i) != Key(j)
  {
    DecodeKeyInverse(i);
    DecodeKeyInverse(j);
  }

  /** The 26 single letters come first, in alphabetical order, then the pairs. */
  lemma KeysOrder(i: nat)
    requires i < 702
    ensures i < 26 ==> Key(i) == [('A' as int + i) as char]
    ensures 26 <= i ==> Key(i)[0] == ('A' as int + (i - 26) / 26) as char
    ensures 26 <= i ==> Key(i)[1] == ('A' as int + (i - 26) % 26) as char
  {
  }

  /** `gen_alpha_keys(num)` as a closed form: negative counts give no keys,
      and from 702 on the outer loop reaches past `Z` and raises IndexError. */
  function GenAlphaKeys(num: int): (r: Result<seq<string>>)
    ensures num < 0 ==> r == Ok([])
    ensures num >= 702 ==> r == Err(IndexError)
    ensures 0 <= num < 702 ==> r.Ok? && |r.value| == num
    ensures 0 <= num < 702 ==> forall i :: 0 <= i < num ==> r.value[i] == Key(i)
  {
    if num < 0 then Ok([])
    else if num >= 702 then Err(IndexError)
    else Ok(seq(num, i requires 0 <= i < num => Key(i)))
  }

  /** The keys of a shorter run are a prefix of the keys of a longer one. */
  lemma GenAlphaKeysPrefix(n: nat, m: nat)
    requires n <= m < 702
    ensures GenAlphaKeys(n).value == GenAlphaKeys(m).value[..n]
  {
  }

  /** The loop of tamer/iterutils.py:113-121: `num // 26 + 1` rounds, round
      `i` offering the 26 keys with root letter `i - 1` (none in round 0),
      each appended only while fewer than `num` keys exist. */
  method GenAlphaKeysLoop(num: int) returns (r: Result<seq<string>>)
    ensures r == GenAlphaKeys(num)
  {
    var result: seq<string> := [];
    var x := FloorDiv(num, 26);
    var i := 0;
    while i < x + 1
      invariant 0 <= i && (x + 1 >= 0 ==> i <= x + 1)
      invariant i <= 27
      invariant |result| == Min(26 * i, Max(num, 0))
      invariant forall k :: 0 <= k < |result| ==> result[k] == Key(k)
    {
      if i > 26 {
        return Err(IndexError);
      }
      var j := 0;
      while j < 26
        invariant 0 <= j <= 26
        invariant |result| == Min(26 * i + j, Max(num, 0))
        invariant forall k :: 0 <= k < |result| ==> result[k] == Key(k)
      {
        if |result| < num {
          var k := if i > 0 then [Letter(i - 1), Letter(j)] else [Letter(j)];
          assert k == Key(26 * i + j);
          result := result + [k];
        }
        j := j + 1;
      }
      i := i + 1;
    }
    assert |result| == Max(num, 0) < 702;
    assert result == GenAlphaKeys(num).value;
    return Ok(result);
  }

  /** Python's `//`: rounds toward negative infinity. */
  function FloorDiv(a: int, b: int): (q: int)
    requires b > 0
    ensures q * b <= a < q * b + b
  {
    a / b
  }

  function Min(a: int, b: int): int { if a <= b then a else b }
  function Max(a: int, b: int): int { if a >= b then a else b }

  // ---------------------------------------------------------------------
  // tuplify, tuplify_iterable

  /** `tuplify(value)`: a tuple stays as it is, a dict becomes its (key,
      value) pairs, a string or non-iterable becomes a 1-tuple and any other
      iterable becomes the tuple of its elements. */
  function Tuplify(v: Value): (r: Value)
    ensures r.Tuple?
    ensures v.Tuple? ==> r == v
    ensures v.Dict? ==> |r.items| == |v.entries|
    ensures v.Dict? ==>
      forall i :: 0 <= i < |v.entries| ==> r.items[i] == Tuple([v.entries[i].0, v.entries[i].1])
    ensures v.List? ==> r.items == v.items
    ensures !IsCollection(v) || v.Str? ==> r == Tuple([v])
  {
    match v
    case Tuple(_) => v
    case Dict(entries) =>
      Tuple(seq(|entries|, i requires 0 <= i < |entries| => Tuple([entries[i].0, entries[i].1])))
    case List(items) => Tuple(items)
    case _ => Tuple([v])
  }

  lemma TuplifyIdempotent(v: Value)
    ensures Tuplify(Tuplify(v)) == Tuplify(v)
  {
  }

  /** `tuplify_iterable(value)`: every dict value or list element is
      tuplified in place. Item assignment on a non-empty string or tuple
      raises TypeError, as does enumerating a non-iterable. */
  function TuplifyIterable(v: Value): (r: Result<Value>)
    ensures v.Dict? ==> r.Ok? && r.value.Dict? && |r.value.entries| == |v.entries|
    ensures v.Dict? ==> forall i :: 0 <= i < |v.entries| ==>
      r.value.entries[i] == (v.entries[i].0, Tuplify(v.entries[i].1))
    ensures v.List? ==> r.Ok? && r.value.List? && |r.value.items| == |v.items|
    ensures v.List? ==> forall i :: 0 <= i < |v.items| ==> r.value.items[i] == Tuplify(v.items[i])
    ensures v.Str? ==> (r.Ok? <==> v.s == "") && (r.Ok? ==> r.value == v)
    ensures v.Tuple? ==> (r.Ok? <==> v.items == []) && (r.Ok? ==> r.value == v)
    ensures !IsCollection(v) ==> r == Err(TypeError)
  {
    match v
    case Dict(entries) =>
      Ok(Dict(seq(|entries|, i requires 0 <= i < |entries| => (entries[i].0, Tuplify(entries[i].1)))))
    case List(items) =>
      Ok(List(seq(|items|, i requires 0 <= i < |items| => Tuplify(items[i]))))
    case Str(s) => if s == "" then Ok(v) else Err(TypeError)
    case Tuple(items) => if items == [] then Ok(v) else Err(TypeError)
    case _ => Err(TypeError)
  }

  /** Running it twice changes nothing more, since tuplify is idempotent. */
  lemma TuplifyIterableIdempotent(v: Value)
    requires TuplifyIterable(v).Ok?
    ensures TuplifyIterable(TuplifyIterable(v).value) == TuplifyIterable(v)
  {
    var r := TuplifyIterable(v).value;
    if v.Dict? {
      var r2 := TuplifyIterable(r).value;
      forall i | 0 <= i < |r.entries| ensures r2.entries[i] == r.entries[i] {
        TuplifyIdempotent(v.entries[i].1);
      }
      assert r2.entries == r.entries;
    } else if v.List? {
      var r2 := TuplifyIterable(r).value;
      forall i | 0 <= i < |r.items| ensures r2.items[i] == r.items[i] {
        TuplifyIdempotent(v.items[i]);
      }
      assert r2.items == r.items;
    }
  }

  // ---------------------------------------------------------------------
  // withinplus

  /** `withinplus(within, *values)`: some string value, read as a regular
      expression, is found by `search` in the text of some element, or some
      other value is an element of `within`. `search(pattern, w)` stands for
      `re.search(pattern, str(w)) is not None`. */
  function WithinPlus(within: seq<Value>, values: seq<Value>, search: (string, Value) -> bool): (r: bool)
    ensures values == [] ==> !r
    ensures r <==> exists i :: 0 <= i < |values| && Hit(within, values[i], search)
  {
    if |values| == 0 then false
    else
      var rest := WithinPlus(within, values[1..], search);
      assert forall i :: 1 <= i < |values| ==> values[i] == values[1..][i - 1];
      Hit(within, values[0], search) || rest
  }

  /** Whether one value is found. */
  predicate Hit(within: seq<Value>, v: Value, search: (string, Value) -> bool) {
    if v.Str? then exists w :: w in within && search(v.s, w) else v in within
  }

  /** Without string values, `withinplus` is plain membership of some value. */
  lemma WithinPlusMembership(within: seq<Value>, values: seq<Value>, search: (string, Value) -> bool)
    requires forall i :: 0 <= i < |values| ==> !values[i].Str?
    ensures WithinPlus(within, values, search) <==> exists v :: v in values && v in within
  {
    if WithinPlus(within, values, search) {
      var i :| 0 <= i < |values| && Hit(within, values[i], search);
      assert values[i] in values;
    }
  }
}

=== FILE: names.dfy ===
/** The shared part of personal-name parsing (datagenius/names/name.py).

    A name is a list of lower-cased tokens (None where a column was empty)
    that a fixed sequence of operations rewrites one token at a time; an
    operation that maps a token to "" asks for that token to be removed.
    The component slots (`prefix`, `fname`, ... and their `2` variants) are
    filled by the subclasses. The configured word lists are parameters. */
module Names {
  import opened Wrappers
  import opened Text
  import opened Values
  import opened Seqs

  // ---------------------------------------------------------------------
  // Single-string operations
  // ---------------------------------------------------------------------

  /** The only characters `standardize_hyphen` may delete. */
  predicate IsSpace(c: char) { c == ' ' }

  /** `standardize_hyphen`: "- " and then " -" become "-", so "X - Y",
      "X- Y" and "X -Y" all become "X-Y". */
  function StandardizeHyphen(s: string): (r: string)
    ensures |r| <= |s|
    ensures '-' !in s ==> r == s
    ensures DeleteChars(r, IsSpace) == DeleteChars(s, IsSpace)
  {
    var t := ReplaceAll(s, "- ", "-");
    var r := ReplaceAll(t, " -", "-");
    ReplaceAllShorter(s, "- ", "-");
    ReplaceAllShorter(t, " -", "-");
    assert DeleteChars("- ", IsSpace) == DeleteChars("-", IsSpace) by {
      assert "- " == "-" + " ";
      DeleteCharsAppend("-", " ", IsSpace);
    }
    assert DeleteChars(" -", IsSpace) == DeleteChars("-", IsSpace) by {
      assert " -" == " " + "-";
      DeleteCharsAppend(" ", "-", IsSpace);
    }
    ReplaceKeepsOthers(s, "- ", "-", IsSpace);
    ReplaceKeepsOthers(t, " -", "-", IsSpace);
    assert '-' !in s ==> t == s && r == s by {
      if '-' !in s {
        forall i ensures !OccursAt(s, "- ", i) && !OccursAt(s, " -", i) {
          if 0 <= i <= |s| - 2 {
            assert s[i] in s && s[i + 1] in s;
            assert s[i..i + 2][0] == s[i] && s[i..i + 2][1] == s[i + 1];
          }
        }
        ReplaceAbsent(s, "- ", "-");
        ReplaceAbsent(s, " -", "-");
      }
    }
    r
  }

  /** "a - b": the first pass leaves "a -b" and the second "a-b". */
  lemma HyphenExample()
    ensures StandardizeHyphen("a - b") == "a-b"
  {
    assert ReplaceAll("b", "- ", "-") == "b";
    assert ReplaceAll("- b", "- ", "-") == "-b" by {
      assert "- b"[..2] == "- " && "- b"[2..] == "b";
    }
    assert ReplaceAll(" - b", "- ", "-") == " -b" by {
      assert " - b"[..2] != "- " && " - b"[1..] == "- b";
    }
    assert ReplaceAll("a - b", "- ", "-") == "a -b" by {
      assert "a - b"[..2] != "- " && "a - b"[1..] == " - b";
    }
    assert ReplaceAll("b", " -", "-") == "b";
    assert ReplaceAll(" -b", " -", "-") == "-b" by {
      assert " -b"[..2] == " -" && " -b"[2..] == "b";
    }
    assert ReplaceAll("a -b", " -", "-") == "a-b" by {
      assert "a -b"[..2] != " -" && "a -b"[1..] == " -b";
    }
  }

  /** The two strings differ at most in letter case. */
  predicate SameUpToCase(a: string, b: string) { LowerStr(a) == LowerStr(b) }

  lemma LowerUpper(c: char)
    ensures Lower(Upper(c)) == Lower(c)
  {
  }

  /** `standardize_caps`: the first character uppercased, the rest kept. */
  function StandardizeCaps(s: string): (r: string)
    ensures |r| == |s|
    ensures |s| > 0 ==> r[0] == Upper(s[0]) && r[1..] == s[1..]
    ensures SameUpToCase(r, s)
  {
    var r := if |s| < 2 then UpperStr(s) else [Upper(s[0])] + s[1..];
    assert forall i :: 0 <= i < |s| ==> Lower(r[i]) == Lower(s[i]) by {
      forall i | 0 <= i < |s| ensures Lower(r[i]) == Lower(s[i]) {
        LowerUpper(s[i]);
      }
    }
    r
  }

  /** Capitalising twice is capitalising once. */
  lemma StandardizeCapsIdempotent(s: string)
    ensures StandardizeCaps(StandardizeCaps(s)) == StandardizeCaps(s)
  {
    if |s| > 0 {
      var r := StandardizeCaps(s);
      assert r == [r[0]] + r[1..];
      assert StandardizeCaps(r) == [Upper(r[0])] + r[1..];
    }
  }

  /** `format_camelcase(name, k)`: the character at `k` (the start of the
      "hump", as in McElroy) is uppercased; `k` equal to the length leaves the
      name alone and a larger `k` raises IndexError. */
  function FormatCamelcase(name: string, k: nat): (r: Result<string>)
    ensures r.Err? <==> k > |name|
    ensures r.Err? ==> r.error == IndexError
    ensures r.Ok? ==> |r.value| == |name| && r.value[..k] == name[..k] && SameUpToCase(r.value, name)
    ensures r.Ok? && k < |name| ==> r.value[k] == Upper(name[k]) && r.value[k + 1..] == name[k + 1..]
    ensures k == |name| ==> r == Ok(name)
  {
    if k > |name| then Err(IndexError)
    else if k == |name| then Ok(name)
    else
      var r := name[..k] + [Upper(name[k])] + name[k + 1..];
      assert forall i :: 0 <= i < |name| ==> Lower(r[i]) == Lower(name[i]) by {
        forall i | 0 <= i < |name| ensures Lower(r[i]) == Lower(name[i]) {
          LowerUpper(name[i]);
        }
      }
      Ok(r)
  }

  /** Capitalises every piece of a split string. */
  function CapsAll(parts: seq<string>): (r: seq<string>)
    ensures |r| == |parts|
    ensures forall k :: 0 <= k < |parts| ==> r[k] == StandardizeCaps(parts[k])
  {
    seq(|parts|, k requires 0 <= k < |parts| => StandardizeCaps(parts[k]))
  }

  /** Joining pieces that agree up to case gives strings that agree up to
      case. */
  lemma {:induction false} JoinSameUpToCase(ps: seq<string>, qs: seq<string>, sep: string)
    requires |ps| == |qs|
    requires forall k :: 0 <= k < |ps| ==> SameUpToCase(ps[k], qs[k])
    ensures SameUpToCase(Join(ps, sep), Join(qs, sep))
    decreases |ps|
  {
    if |ps| > 1 {
      JoinSameUpToCase(ps[1..], qs[1..], sep);
      var a := ps[0] + sep + Join(ps[1..], sep);
      var b := qs[0] + sep + Join(qs[1..], sep);
      assert |a| == |b| by {
        assert |LowerStr(ps[0])| == |LowerStr(qs[0])|;
        assert |LowerStr(Join(ps[1..], sep))| == |LowerStr(Join(qs[1..], sep))|;
      }
      forall i | 0 <= i < |a| ensures Lower(a[i]) == Lower(b[i]) {
        if i < |ps[0]| {
          assert LowerStr(ps[0])[i] == LowerStr(qs[0])[i];
        } else if i >= |ps[0]| + |sep| {
          var j := i - |ps[0]| - |sep|;
          assert LowerStr(Join(ps[1..], sep))[j] == LowerStr(Join(qs[1..], sep))[j];
        }
      }
    }
  }

  /** Two strings that agree up to case have the separator (not a letter) at
      the same positions. */
  lemma SameUpToCaseSeparators(a: string, b: string, sep: char)
    requires SameUpToCase(a, b) && !IsLetter(sep)
    ensures |a| == |b| && forall i :: 0 <= i < |a| ==> (a[i] == sep <==> b[i] == sep)
  {
    assert |LowerStr(a)| == |LowerStr(b)|;
    forall i | 0 <= i < |a| ensures a[i] == sep <==> b[i] == sep {
      assert LowerStr(a)[i] == LowerStr(b)[i];
    }
  }

  /** `search_and_split(s, sep)`: when the separator occurs, every piece
      between separators is capitalised. */
  function SearchAndSplit(s: string, sep: char): (r: string)
    ensures sep !in s ==> r == s
    ensures SameUpToCase(r, s) && |r| == |s|
    ensures sep in s ==> r == Join(CapsAll(Split(s, sep)), [sep])
  {
    if sep !in s then s
    else
      var parts := Split(s, sep);
      var r := Join(CapsAll(parts), [sep]);
      JoinSameUpToCase(CapsAll(parts), parts, [sep]);
      SplitJoin(s, sep);
      assert |LowerStr(r)| == |LowerStr(s)|;
      r
  }

  /** The pieces of the result are the capitalised pieces of the input, and
      the separators stay where they were. */
  lemma SearchAndSplitPieces(s: string, sep: char)
    requires !IsLetter(sep)
    ensures sep in s ==> Split(SearchAndSplit(s, sep), sep) == CapsAll(Split(s, sep))
    ensures forall i :: 0 <= i < |s| ==> (SearchAndSplit(s, sep)[i] == sep <==> s[i] == sep)
  {
    var parts := Split(s, sep);
    SameUpToCaseSeparators(SearchAndSplit(s, sep), s, sep);
    if sep in s {
      forall k | 0 <= k < |parts| ensures sep !in CapsAll(parts)[k] {
        var p := parts[k];
        SameUpToCaseSeparators(StandardizeCaps(p), p, sep);
        assert sep !in p;
        forall i | 0 <= i < |p| ensures StandardizeCaps(p)[i] != sep {
          assert p[i] in p;
        }
      }
      JoinSplit(CapsAll(parts), sep);
    }
  }

  /** The first "hump" after an occurrence of the particle `p` at or after
      `from`: the position just past the particle, holding a lower-case
      letter (the match end minus one of `re.search(p + "[a-z]", s)`). */
  function FindHump(s: string, p: string, from: nat): (h: Option<nat>)
    ensures h.Some? ==> var i := h.value - |p|;
      from <= i && OccursAt(s, p, i) && h.value < |s| && IsLower(s[h.value])
    ensures h.Some? ==> forall i :: from <= i < h.value - |p| ==>
      !(OccursAt(s, p, i) && i + |p| < |s| && IsLower(s[i + |p|]))
    ensures h.None? ==> forall i :: from <= i ==>
      !(OccursAt(s, p, i) && i + |p| < |s| && IsLower(s[i + |p|]))
    decreases |s| - from
  {
    if from + |p| >= |s| then None
    else if OccursAt(s, p, from) && IsLower(s[from + |p|]) then Some(from + |p|)
    else FindHump(s, p, from + 1)
  }

  /** The particle loop of `manage_cases`: each particle that is followed by
      a lower-case letter capitalises that letter. */
  function Camelcase(s: string, particles: seq<string>): (r: string)
    ensures |r| == |s| && SameUpToCase(r, s)
    decreases |particles|
  {
    if |particles| == 0 then s
    else
      var h := FindHump(s, particles[0], 0);
      var t := if h.Some? then FormatCamelcase(s, h.value).value else s;
      Camelcase(t, particles[1..])
  }

  /** `manage_cases`: camel-casing after the configured particles, then the
      space- and hyphen-separated pieces capitalised, then the first
      character. Only letter case changes. */
  function ManageCases(s: string, particles: seq<string>): (r: string)
    ensures |r| == |s| && SameUpToCase(r, s)
    ensures |s| > 0 ==> IsUpper(r[0]) || (!IsLetter(r[0]) && r[0] == s[0])
  {
    var a := Camelcase(s, particles);
    var b := SearchAndSplit(a, ' ');
    var c := SearchAndSplit(b, '-');
    var r := StandardizeCaps(c);
    assert |s| > 0 ==> IsUpper(r[0]) || (!IsLetter(r[0]) && r[0] == s[0]) by {
     if |s| > 0 {
      assert Lower(r[0]) == Lower(s[0]) by {
        assert LowerStr(r)[0] == LowerStr(s)[0];
      }
      assert !IsLower(r[0]);
      if !IsUpper(r[0]) {
        assert !IsLetter(r[0]);
        assert Lower(s[0]) == r[0];
        assert !IsUpper(s[0]);
      }
     }
    }
    r
  }


  /** One character. */
  function IsChar(x: char): char -> bool {
    c => c == x
  }

  /** Deleting in two passes is deleting what either pass deletes. */
  lemma {:induction false} DeleteTwice(s: string, p: char -> bool, q: char -> bool, pq: char -> bool)
    requires forall c :: pq(c) == (p(c) || q(c))
    ensures DeleteChars(DeleteChars(s, p), q) == DeleteChars(s, pq)
    decreases |s|
  {
    if |s| > 0 {
      assert s == [s[0]] + s[1..];
      DeleteCharsAppend([s[0]], s[1..], p);
      DeleteCharsAppend([s[0]], s[1..], pq);
      DeleteCharsAppend(DeleteChars([s[0]], p), DeleteChars(s[1..], p), q);
      DeleteTwice(s[1..], p, q, pq);
    }
  }

  /** `s.replace(c, "")` deletes the character `c`. */
  lemma {:induction false} ReplaceCharIsDelete(s: string, x: char)
    ensures ReplaceAll(s, [x], "") == DeleteChars(s, IsChar(x))
    decreases |s|
  {
    if |s| > 0 {
      ReplaceCharIsDelete(s[1..], x);
      assert s == [s[0]] + s[1..];
      DeleteCharsAppend([s[0]], s[1..], IsChar(x));
    }
  }

  /** The characters named by one-character entries of `strs`. */
  function InStrs(strs: seq<string>): char -> bool {
    c => [c] in strs
  }

  /** Python's `s.replace(pat, "")`; an empty pattern leaves `s` alone. */
  function RemoveAll(s: string, pat: string): (r: string)
    ensures |r| <= |s|
  {
    if pat == "" then s
    else
      ReplaceAllShorter(s, pat, "");
      ReplaceAll(s, pat, "")
  }

  /** `cleanse_invalid_chars`: `s.replace(entry, "")` for each configured
      entry in turn. An entry may be any string (a pattern file can extend
      the list); when every entry is one character, the loop deletes exactly
      the configured characters. */
  function CleanseInvalidChars(s: string, invalid: seq<string>): (r: string)
    ensures |r| <= |s|
    ensures (forall i :: 0 <= i < |invalid| ==> |invalid[i]| == 1) ==>
      r == DeleteChars(s, InStrs(invalid))
    decreases |invalid|
  {
    if |invalid| == 0 then
      DeleteCharsNothing(s, InStrs(invalid));
      s
    else
      var t := RemoveAll(s, invalid[0]);
      var r := CleanseInvalidChars(t, invalid[1..]);
      if forall i :: 0 <= i < |invalid| ==> |invalid[i]| == 1 then
        SingleCharStep(s, invalid);
        r
      else r
  }

  /** One step of the loop over one-character entries: removing the first
      entry and then the rest's characters deletes all their characters. */
  lemma SingleCharStep(s: string, invalid: seq<string>)
    requires |invalid| > 0 && forall i :: 0 <= i < |invalid| ==> |invalid[i]| == 1
    ensures forall i :: 0 <= i < |invalid[1..]| ==> |invalid[1..][i]| == 1
    ensures DeleteChars(RemoveAll(s, invalid[0]), InStrs(invalid[1..])) == DeleteChars(s, InStrs(invalid))
  {
    var x := invalid[0][0];
    assert invalid[0] == [x];
    ReplaceCharIsDelete(s, x);
    forall i | 0 <= i < |invalid[1..]| ensures |invalid[1..][i]| == 1 {
      assert invalid[1..][i] == invalid[i + 1];
    }
    assert forall c :: InStrs(invalid)(c) == (IsChar(x)(c) || InStrs(invalid[1..])(c)) by {
      assert invalid == [invalid[0]] + invalid[1..];
    }
    DeleteTwice(s, IsChar(x), InStrs(invalid[1..]), InStrs(invalid));
  }

  /** A string in which no entry occurs is left as it is. */
  lemma {:induction false} CleanseNothing(s: string, invalid: seq<string>)
    requires forall i, j :: 0 <= i < |invalid| && invalid[i] != "" ==> !OccursAt(s, invalid[i], j)
    ensures CleanseInvalidChars(s, invalid) == s
    decreases |invalid|
  {
    if |invalid| > 0 {
      if invalid[0] != "" {
        assert forall j :: !OccursAt(s, invalid[0], j);
        ReplaceAbsent(s, invalid[0], "");
      }
      assert forall i, j :: 0 <= i < |invalid[1..]| && invalid[1..][i] != "" ==> !OccursAt(s, invalid[1..][i], j) by {
        forall i, j | 0 <= i < |invalid[1..]| && invalid[1..][i] != "" ensures !OccursAt(s, invalid[1..][i], j) {
          assert invalid[1..][i] == invalid[i + 1];
        }
      }
      CleanseNothing(s, invalid[1..]);
    }
  }

  /** A two-character entry removes the pair, not its characters one by
      one: with the entry "--", "a--b-" becomes "ab-". */
  lemma MultiCharEntry()
    ensures CleanseInvalidChars("a--b-", ["--"]) == "ab-"
  {
    var pat := "--";
    assert ReplaceAll("-", pat, "") == "-";
    assert "b-"[..2] != pat by { assert "b-"[..2][0] == 'b'; }
    assert ReplaceAll("b-", pat, "") == "b-";
    assert "--b-"[..2] == pat && "--b-"[2..] == "b-";
    assert ReplaceAll("--b-", pat, "") == "b-";
    assert "a--b-"[..2] != pat by { assert "a--b-"[..2][0] == 'a'; }
    assert "a--b-"[1..] == "--b-";
    assert RemoveAll("a--b-", pat) == "ab-";
    assert CleanseInvalidChars("a--b-", [pat]) == CleanseInvalidChars("ab-", []);
  }

  /** A word whose lower-case form is one of the configured invalid words. */
  function IsInvalidWord(words: seq<string>): string -> bool {
    w => LowerStr(w) in words
  }

  /** `cleanse_invalid_word`: the space-separated words whose lower-case
      form is invalid are collected and then removed one `remove` at a time;
      the survivors are joined back, or "" when none survive. */
  function CleanseInvalidWord(s: string, invalidWords: seq<string>): (r: string)
    ensures r == Join(Filter(Split(s, ' '), Not(IsInvalidWord(invalidWords))), " ")
  {
    var words := Split(s, ' ');
    var kept := RemoveEach(words, Filter(words, IsInvalidWord(invalidWords)));
    RemoveFiltered(words, IsInvalidWord(invalidWords));
    if |kept.value| > 0 then Join(kept.value, " ") else ""
  }

  /** When some word survives, the result splits back into exactly the
      valid words of the input, in order, so no invalid word is left. */
  lemma CleanseInvalidWordWords(s: string, invalidWords: seq<string>)
    ensures var kept := Filter(Split(s, ' '), Not(IsInvalidWord(invalidWords)));
      kept != [] ==> Split(CleanseInvalidWord(s, invalidWords), ' ') == kept
    ensures var kept := Filter(Split(s, ' '), Not(IsInvalidWord(invalidWords)));
      kept != [] ==> forall w :: w in Split(CleanseInvalidWord(s, invalidWords), ' ') ==> LowerStr(w) !in invalidWords
  {
    var words := Split(s, ' ');
    var kept := Filter(words, Not(IsInvalidWord(invalidWords)));
    if kept != [] {
      forall k | 0 <= k < |kept| ensures ' ' !in kept[k] {
        assert kept[k] in kept;
      }
      JoinSplit(kept, ' ');
    }
  }

  /** Every word is invalid exactly when none survives, and then the result
      is "". */
  lemma CleanseInvalidWordAllInvalid(s: string, invalidWords: seq<string>)
    ensures var kept := Filter(Split(s, ' '), Not(IsInvalidWord(invalidWords)));
      kept == [] <==> forall w :: w in Split(s, ' ') ==> LowerStr(w) in invalidWords
    ensures (forall w :: w in Split(s, ' ') ==> LowerStr(w) in invalidWords) ==> CleanseInvalidWord(s, invalidWords) == ""
  {
    var words := Split(s, ' ');
    var p := Not(IsInvalidWord(invalidWords));
    if forall w :: w in words ==> LowerStr(w) in invalidWords {
      FilterNone(words, p);
    } else {
      var w :| w in words && LowerStr(w) !in invalidWords;
      var i :| 0 <= i < |words| && words[i] == w;
      InFilter(words, p, i);
    }
  }

  // ---------------------------------------------------------------------
  // The token list and the operation loop
  // ---------------------------------------------------------------------

  /** The component slots of a name, plus the scratch attributes that the
      whole-string parser keeps for middle-initial clusters. */
  datatype Slots = Slots(
    prefix: Option<string>, fname: Option<string>, mname: Option<string>,
    lname: Option<string>, suffix: Option<string>, altName: Option<string>,
    prefix2: Option<string>, fname2: Option<string>, mname2: Option<string>,
    lname2: Option<string>, suffix2: Option<string>, altName2: Option<string>,
    chain: seq<string>, clusters: nat)

  /** Every slot empty. */
  function EmptySlots(chain: seq<string>, clusters: nat): (sl: Slots)
    ensures sl.fname.None? && sl.lname.None? && sl.fname2.None? && sl.lname2.None?
    ensures sl.chain == chain && sl.clusters == clusters
  {
    Slots(None, None, None, None, None, None, None, None, None, None, None, None, chain, clusters)
  }

  /** A name operation: the token and its position in, the rewritten token
      out; it may also fill slots. */
  type Operation = (Slots, string, nat) -> (Slots, string)

  /** A name under construction: the value it was built from, its tokens,
      its slots, and whether it is still valid. */
  datatype Name = Name(original: Value, tokens: seq<Option<string>>, slots: Slots, valid: bool)

  /** Runs the operation over the tokens from left to right (skipping None),
      threading the slots; `at` is the position of the first token. */
  function Apply(op: Operation, sl: Slots, tokens: seq<Option<string>>, at: nat): (r: (Slots, seq<Option<string>>))
    ensures |r.1| == |tokens|
    ensures forall k :: 0 <= k < |tokens| ==> (r.1[k].None? <==> tokens[k].None?)
    decreases |tokens|
  {
    if |tokens| == 0 then (sl, [])
    else
      var head := if tokens[0].Some? then var x := op(sl, tokens[0].value, at); (x.0, Some(x.1)) else (sl, None);
      var rest := Apply(op, head.0, tokens[1..], at + 1);
      (rest.0, [head.1] + rest.1)
  }

  /** An operation result that is kept (anything but ""). */
  predicate Kept(x: Option<string>) { x != Some("") }

  /** `_loop_name_list` as it is meant to work: every token is replaced by
      the operation's result, and the tokens mapped to "" are dropped. */
  function LoopNameList(op: Operation, sl: Slots, tokens: seq<Option<string>>): (r: (Slots, seq<Option<string>>))
    ensures |r.1| <= |tokens|
    ensures forall x :: x in r.1 ==> Kept(x)
    ensures (forall k :: 0 <= k < |tokens| ==> tokens[k].Some?) ==> forall x :: x in r.1 ==> x.Some?
  {
    var a := Apply(op, sl, tokens, 0);
    assert forall x :: x in a.1 && (forall k :: 0 <= k < |tokens| ==> tokens[k].Some?) ==> x.Some?;
    (a.0, Filter(a.1, Kept))
  }

  /** `_loop_name_list` as written: the results are written back except
      where they are "", and afterwards each original token whose result was
      "" is removed with `list.remove`, which deletes the FIRST equal
      element, not necessarily the one at that position. */
  function LoopAsWritten(op: Operation, sl: Slots, tokens: seq<Option<string>>): (r: (Slots, Result<seq<Option<string>>>))
    ensures r.0 == Apply(op, sl, tokens, 0).0
    ensures var a := Apply(op, sl, tokens, 0).1;
      r.1 == RemoveEach(WriteBack(tokens, a), Pick(WriteBack(tokens, a), Dropped(a)))
  {
    var a := Apply(op, sl, tokens, 0);
    var updated := WriteBack(tokens, a.1);
    (a.0, RemoveEach(updated, Pick(updated, Dropped(a.1))))
  }

  /** The positions whose result is "". */
  function Dropped(results: seq<Option<string>>): (m: seq<bool>)
    ensures |m| == |results| && forall k :: 0 <= k < |results| ==> (m[k] <==> !Kept(results[k]))
  {
    seq(|results|, k requires 0 <= k < |results| => !Kept(results[k]))
  }

  /** The list after the first loop: results written back, except "". */
  function WriteBack(tokens: seq<Option<string>>, results: seq<Option<string>>): (u: seq<Option<string>>)
    requires |results| == |tokens|
    ensures |u| == |tokens|
    ensures forall k :: 0 <= k < |tokens| ==> u[k] == if Kept(results[k]) then results[k] else tokens[k]
  {
    seq(|tokens|, k requires 0 <= k < |tokens| => if Kept(results[k]) then results[k] else tokens[k])
  }

  /** The kept written-back entries are exactly the kept results. */
  lemma {:induction false} PickKept(tokens: seq<Option<string>>, results: seq<Option<string>>)
    requires |results| == |tokens|
    ensures Pick(WriteBack(tokens, results), Flip(Dropped(results))) == Filter(results, Kept)
    decreases |tokens|
  {
    if |tokens| > 0 {
      PickKept(tokens[1..], results[1..]);
      assert WriteBack(tokens, results)[1..] == WriteBack(tokens[1..], results[1..]);
      assert Flip(Dropped(results))[1..] == Flip(Dropped(results[1..]));
    }
  }

  /** Every written-back entry that equals a token whose result is "" and
      stands in front of it also had "" as its result, so each `remove`
      deletes an entry that was meant to go. */
  predicate RemovalsUnambiguous(tokens: seq<Option<string>>, results: seq<Option<string>>)
    requires |results| == |tokens|
  {
    EarlierMarked(WriteBack(tokens, results), Dropped(results))
  }

  /** The written loop agrees with the intended one whenever the removals
      are unambiguous. */
  lemma LoopAgrees(op: Operation, sl: Slots, tokens: seq<Option<string>>)
    requires RemovalsUnambiguous(tokens, Apply(op, sl, tokens, 0).1)
    ensures LoopAsWritten(op, sl, tokens) == (LoopNameList(op, sl, tokens).0, Ok(LoopNameList(op, sl, tokens).1))
  {
    var a := Apply(op, sl, tokens, 0).1;
    RemoveMarked(WriteBack(tokens, a), Dropped(a));
    PickKept(tokens, a);
  }

  /** An operation that only rewrites the token, whatever the slots and the
      position. */
  function Lift(f: string -> string): Operation {
    (sl: Slots, s: string, i: nat) => (sl, f(s))
  }

  /** Every token passed through `f`, None left alone. */
  function MapTokens(f: string -> string, tokens: seq<Option<string>>): (r: seq<Option<string>>)
    ensures |r| == |tokens|
    ensures forall k :: 0 <= k < |tokens| ==> r[k] == if tokens[k].Some? then Some(f(tokens[k].value)) else None
  {
    seq(|tokens|, k requires 0 <= k < |tokens| => if tokens[k].Some? then Some(f(tokens[k].value)) else None)
  }

  /** For a slot-free operation the loop maps each token through it and
      then drops the empty results; None entries stay None. */
  lemma {:induction false} ApplyLift(f: string -> string, sl: Slots, tokens: seq<Option<string>>, at: nat)
    ensures Apply(Lift(f), sl, tokens, at) == (sl, MapTokens(f, tokens))
    decreases |tokens|
  {
    if |tokens| > 0 {
      ApplyLift(f, sl, tokens[1..], at + 1);
      assert MapTokens(f, tokens) == [MapTokens(f, tokens)[0]] + MapTokens(f, tokens[1..]);
    }
  }

  /** The outputs of an operation whose output depends only on the token
      and its position: each token is mapped on its own. */
  lemma {:induction false} ApplyOutputs(op: Operation, g: (string, nat) -> string, sl: Slots,
                                        tokens: seq<Option<string>>, at: nat)
    requires forall a: Slots, s: string, i: nat :: op(a, s, i).1 == g(s, i)
    ensures |Apply(op, sl, tokens, at).1| == |tokens|
    ensures forall k :: 0 <= k < |tokens| ==>
      Apply(op, sl, tokens, at).1[k] == if tokens[k].Some? then Some(g(tokens[k].value, at + k)) else None
    decreases |tokens|
  {
    if |tokens| > 0 {
      var head := if tokens[0].Some? then var x := op(sl, tokens[0].value, at); (x.0, Some(x.1)) else (sl, None);
      ApplyOutputs(op, g, head.0, tokens[1..], at + 1);
      var r := Apply(op, sl, tokens, at).1;
      var rest := Apply(op, head.0, tokens[1..], at + 1).1;
      assert r == [head.1] + rest;
      forall k | 0 < k < |tokens|
        ensures r[k] == if tokens[k].Some? then Some(g(tokens[k].value, at + k)) else None
      {
        assert r[k] == rest[k - 1] && tokens[1..][k - 1] == tokens[k];
      }
    }
  }

  lemma LoopLift(f: string -> string, sl: Slots, tokens: seq<Option<string>>)
    ensures LoopNameList(Lift(f), sl, tokens) == (sl, Filter(MapTokens(f, tokens), Kept))
  {
    ApplyLift(f, sl, tokens, 0);
  }

  /** Printable in `repr` among the characters up to U+00FF: the ASCII
      graphic characters and space, and Latin-1 from U+00A1 except the
      soft hyphen U+00AD. */
  predicate Latin1Printable(c: char) {
    (0x20 <= c as int < 0x7f) || (0xa1 <= c as int <= 0xff && c as int != 0xad)
  }

  /** The text `repr` writes for `c` holds an ASCII digit: `c` is one, or
      `c` is a non-printable character up to U+00FF other than tab, newline
      and carriage return (which `repr` writes as `\t`, `\n`, `\r`), written
      `\xhh` with a decimal digit among its two hexadecimal digits. */
  predicate ReprDigit(c: char) {
    || IsDigit(c)
    || (c as int < 0x100 && !Latin1Printable(c) && c != '\t' && c != '\n' && c != '\r'
        && (c as int / 16 < 10 || c as int % 16 < 10))
  }

  /** The tokens' `repr` contains a digit; `re.search("[0-9]",
      str(name_list))`. Quotes, commas, brackets, `None` and the `\\` of a
      backslash add none. */
  predicate AnyDigit(tokens: seq<Option<string>>) {
    exists k, i :: 0 <= k < |tokens| && tokens[k].Some? && 0 <= i < |tokens[k].value| && ReprDigit(tokens[k].value[i])
  }

  /** Which characters up to U+00FF put a digit into the `repr`: the ASCII
      digits, the C0 controls except tab, newline and carriage return, and
      U+007F through U+00A0; the soft hyphen, written `\xad`, does not. */
  lemma ReprDigitTable(c: char)
    requires c as int < 0x100
    ensures ReprDigit(c) <==> IsDigit(c) || (c as int < 0x20 && c != '\t' && c != '\n' && c != '\r') || (0x7f <= c as int <= 0xa0)
  {
  }

  /** A non-breaking space between two words makes the name invalid, a
      plain space does not. */
  lemma NbspInvalidates(n: Name, m: Name, bob: string, jr: string)
    requires bob == "bob" && jr == "jr"
    requires n.tokens == [Some(bob + [0xa0 as char] + jr), Some(bob)]
    requires m.valid && m.tokens == [Some(bob + " " + jr), Some(bob)]
    ensures !Validate(n, false).valid
    ensures Validate(m, false).valid
  {
    assert n.tokens[0].value[3] == 0xa0 as char;
  }

  /** The final-check condition: both `fname` and `lname` present and not
      both a single character. */
  predicate RequiredPresent(sl: Slots) {
    sl.fname.Some? && sl.lname.Some? && !(|sl.fname.value| == 1 && |sl.lname.value| == 1)
  }

  /** `_validate(final)`: a digit anywhere, fewer than two tokens, or (in
      the final check) missing or one-character `fname` and `lname` make the
      name invalid. Nothing makes it valid again. */
  function Validate(n: Name, final: bool): (r: Name)
    ensures r.(valid := n.valid) == n
    ensures r.valid <==> n.valid && !AnyDigit(n.tokens) && |n.tokens| >= 2 && (final ==> RequiredPresent(n.slots))
  {
    n.(valid := n.valid && !AnyDigit(n.tokens) && |n.tokens| >= 2 && (!final || RequiredPresent(n.slots)))
  }

  /** One operation over the whole token list. */
  function Step(n: Name, op: Operation): (r: Name)
    ensures r.original == n.original && r.valid == n.valid
  {
    var x := LoopNameList(op, n.slots, n.tokens);
    n.(slots := x.0, tokens := x.1)
  }

  /** No token is None. */
  predicate AllSome(tokens: seq<Option<string>>) {
    forall k :: 0 <= k < |tokens| ==> tokens[k].Some?
  }

  /** `_do_operations`: before each operation the name is validated, and
      the first failed validation stops the run. */
  function DoOperations(n: Name, ops: seq<Operation>): (r: Name)
    ensures r.valid ==> n.valid
    ensures !n.valid ==> r == n
    ensures r.original == n.original
    ensures AllSome(n.tokens) ==> AllSome(r.tokens)
    ensures r.valid && |ops| > 0 ==> !AnyDigit(n.tokens) && |n.tokens| >= 2
    decreases |ops|
  {
    if |ops| == 0 then n
    else
      var v := Validate(n, false);
      if v.valid then
        var s := Step(v, ops[0]);
        assert AllSome(v.tokens) ==> AllSome(s.tokens) by {
          if AllSome(v.tokens) {
            forall k | 0 <= k < |s.tokens| ensures s.tokens[k].Some? {
              assert s.tokens[k] in s.tokens;
            }
          }
        }
        DoOperations(s, ops[1..])
      else v
  }

  /** Once a validation fails the remaining operations do not run: the
      tokens are those the failed validation saw. */
  lemma {:induction false} StopsWhenInvalid(n: Name, ops: seq<Operation>)
    requires |ops| > 0 && (AnyDigit(n.tokens) || |n.tokens| < 2)
    ensures DoOperations(n, ops) == n.(valid := false)
  {
  }

  /** The input normalisation of one string: hyphens tightened, then lower
      case. */
  function Normalize(s: string): (r: string)
    ensures forall i :: 0 <= i < |r| ==> !IsUpper(r[i])
    ensures |r| <= |s|
  {
    LowerStr(StandardizeHyphen(s))
  }

  /** Each token of a list input: null becomes None, a string is
      normalised, anything else has no `replace` method. */
  function IntakeItems(items: seq<Value>): (r: Result<seq<Option<string>>>)
    ensures r.Ok? ==> (|r.value| == |items| &&
      forall k :: 0 <= k < |items| ==>
        (IsNull(items[k]) ==> r.value[k].None?) &&
        (items[k].Str? ==> r.value[k] == Some(Normalize(items[k].s))))
    ensures r.Ok? <==> forall k :: 0 <= k < |items| ==> IsNull(items[k]) || items[k].Str?
    ensures r.Err? ==> r.error == AttributeError || r.error == Unmodelled
  {
    if |items| == 0 then Ok([])
    else
      assert forall k :: 1 <= k < |items| ==> items[k] == items[1..][k - 1];
      var t :- IntakeItem(items[0]);
      var rest :- IntakeItems(items[1..]);
      var r := [t] + rest;
      assert forall k :: 1 <= k < |r| ==> r[k] == rest[k - 1];
      Ok(r)
  }

  /** One item of a list input. */
  function IntakeItem(v: Value): (r: Result<Option<string>>)
    ensures r.Ok? <==> IsNull(v) || v.Str?
    ensures IsNull(v) ==> r == Ok(None)
    ensures v.Str? ==> r == Ok(Some(Normalize(v.s)))
    ensures r.Err? ==> r.error == AttributeError || r.error == Unmodelled
  {
    match v
    case NoneV => Ok(None)
    case Nan => Ok(None)
    case Str(s) => Ok(Some(Normalize(s)))
    case List(_) => Err(Unmodelled)
    case _ => Err(AttributeError)
  }

  /** `_intake`: a string is normalised and split on single spaces; any
      other iterable is taken item by item. */
  function Intake(name: Value): (r: Result<seq<Option<string>>>)
    ensures name.Str? ==> (r.Ok? && AllSome(r.value) &&
      forall k :: 0 <= k < |r.value| ==> ' ' !in r.value[k].value)
    ensures !IsCollection(name) ==> r == Err(TypeError)
    ensures (name.Tuple? || name.List?) ==> r == IntakeItems(name.items)
  {
    match name
    case Str(s) =>
      var words := Split(Normalize(s), ' ');
      Ok(seq(|words|, k requires 0 <= k < |words| => Some(words[k])))
    case _ =>
      match Iterate(name)
      case Err(e) => Err(e)
      case Ok(items) => IntakeItems(items)
  }

  /** Splitting a string input loses nothing: the tokens joined with single
      spaces give back the normalised string. */
  lemma IntakeJoin(s: string)
    ensures var t := Intake(Str(s)).value;
      Join(seq(|t|, k requires 0 <= k < |t| && AllSome(t) => t[k].value), " ") == Normalize(s)
  {
    var words := Split(Normalize(s), ' ');
    var t := Intake(Str(s)).value;
    assert seq(|t|, k requires 0 <= k < |t| && AllSome(t) => t[k].value) == words;
    SplitJoin(Normalize(s), ' ');
  }

  /** The configuration the base operations read. */
  datatype NameConfig = NameConfig(invalidChars: seq<string>, invalidWords: seq<string>, camelcaseParticles: seq<string>)

  /** The three base operations, in their order. */
  function BaseOperations(cfg: NameConfig): (ops: seq<Operation>)
    ensures |ops| == 3
  {
    [Lift(s => CleanseInvalidChars(s, cfg.invalidChars)),
     Lift(s => CleanseInvalidWord(s, cfg.invalidWords)),
     Lift(s => ManageCases(s, cfg.camelcaseParticles))]
  }

  /** `Name(name, operation_list)`: intake, every slot empty, valid, then
      the base operations followed by the extra ones. */
  function NewName(name: Value, cfg: NameConfig, extra: seq<Operation>, chain: seq<string>, clusters: nat): (r: Result<Name>)
    ensures r.Ok? <==> Intake(name).Ok?
    ensures r.Ok? ==> r.value.original == name
    ensures r.Ok? && name.Str? ==> AllSome(r.value.tokens)
    ensures r.Ok? && r.value.valid ==> !AnyDigit(Intake(name).value) && |Intake(name).value| >= 2
  {
    var tokens :- Intake(name);
    Ok(DoOperations(Name(name, tokens, EmptySlots(chain, clusters), true), BaseOperations(cfg) + extra))
  }

  /** The base `_allocate`: the first three tokens in order. */
  function BaseAllocate(n: Name): (r: Result<Slots>)
    ensures r.Err? <==> |n.tokens| < 3
    ensures r.Ok? ==> r.value == n.slots.(fname := n.tokens[0], mname := n.tokens[1], lname := n.tokens[2])
  {
    if |n.tokens| < 3 then Err(IndexError)
    else Ok(n.slots.(fname := n.tokens[0], mname := n.tokens[1], lname := n.tokens[2]))
  }

  /** A slot that holds a non-empty string. */
  predicate Filled(x: Option<string>) { x.Some? && x.value != "" }

  /** The list `to_list` builds from allocated slots: the five components
      of the first name, followed by those of the second when its first and
      last names are filled or when forced. */
  function Components(sl: Slots, forceName2: bool): (r: seq<Option<string>>)
    ensures |r| == 5 || |r| == 10
    ensures |r| == 10 <==> (Filled(sl.fname2) && Filled(sl.lname2)) || forceName2
    ensures r[..5] == [sl.prefix, sl.fname, sl.mname, sl.lname, sl.suffix]
    ensures |r| == 10 ==> r[5..] == [sl.prefix2, sl.fname2, sl.mname2, sl.lname2, sl.suffix2]
  {
    var name1 := [sl.prefix, sl.fname, sl.mname, sl.lname, sl.suffix];
    if (Filled(sl.fname2) && Filled(sl.lname2)) || forceName2 then
      name1 + [sl.prefix2, sl.fname2, sl.mname2, sl.lname2, sl.suffix2]
    else name1
  }

  /** Reads a `to_list` list back into slots: the first five entries are
      the first name's components, the next five, if present, the second
      name's; every other field comes from `base`. */
  function ReadComponents(r: seq<Option<string>>, base: Slots): Slots
    requires |r| == 5 || |r| == 10
  {
    var first := base.(prefix := r[0], fname := r[1], mname := r[2], lname := r[3], suffix := r[4]);
    if |r| == 10 then first.(prefix2 := r[5], fname2 := r[6], mname2 := r[7], lname2 := r[8], suffix2 := r[9])
    else first
  }

  /** No component is lost or moved: reading the list back gives the first
      name's components, and the second name's whenever they were listed. */
  lemma ComponentsReadBack(sl: Slots, forceName2: bool, base: Slots)
    ensures var back := ReadComponents(Components(sl, forceName2), base);
      back.prefix == sl.prefix && back.fname == sl.fname && back.mname == sl.mname &&
      back.lname == sl.lname && back.suffix == sl.suffix
    ensures (Filled(sl.fname2) && Filled(sl.lname2)) || forceName2 ==>
      ReadComponents(Components(sl, forceName2), sl) == sl
    ensures !((Filled(sl.fname2) && Filled(sl.lname2)) || forceName2) ==>
      ReadComponents(Components(sl, forceName2), base).fname2 == base.fname2
  {
  }
}

=== FILE: namestring.dfy ===
/** Whole-string name parsing (datagenius/names/namestring.py): a name
    given as one string is split into tokens, the base operations of
    `Names` run, then middle initials and affixes are picked out, compound
    first names and last-name particles are merged, an ampersand splits the
    name in two, and the tokens are allocated to the component slots.

    The configured word lists are parameters; prefix and suffix patterns are
    regular expressions, matched through `reMatch(regex, text)`, which stands
    for `re.match(regex, text)` being truthy. */
module Namestrings {
  import opened Wrappers
  import opened Text
  import opened Values
  import opened Seqs
  import opened Names

  /** The pattern configuration the whole-string parser reads. */
  datatype Patterns = Patterns(
    base: NameConfig, prefixes: seq<string>, suffixes: seq<string>,
    ampersands: seq<string>, compoundFnames: seq<string>, lnameParticles: seq<string>)

  // ---------------------------------------------------------------------
  // assign_affix
  // ---------------------------------------------------------------------

  /** `filter(re.compile(s.lower()).match, patterns)` is not empty: the
      lower-cased token, used as a regular expression, matches one of the
      configured affixes. */
  predicate AnyAffix(token: string, affixes: seq<string>, reMatch: (string, string) -> bool) {
    exists k :: 0 <= k < |affixes| && reMatch(LowerStr(token), affixes[k])
  }

  /** A slot pair (`prefix`, `prefix2`) after offering it `s`: the first
      free slot takes it, and a full pair ignores it. */
  function Offer(pair: (Option<string>, Option<string>), s: string): (Option<string>, Option<string>) {
    if pair.0.None? then (Some(s), pair.1)
    else if pair.1.None? then (pair.0, Some(s))
    else pair
  }

  /** A pair after offering it every string of `xs` in order: it ends up
      holding the first two (when it starts empty). */
  function OfferAll(pair: (Option<string>, Option<string>), xs: seq<string>): (r: (Option<string>, Option<string>))
    ensures pair == (None, None) && |xs| >= 2 ==> r == (Some(xs[0]), Some(xs[1]))
    ensures pair == (None, None) && |xs| == 1 ==> r == (Some(xs[0]), None)
    ensures pair.0.Some? && pair.1.Some? ==> r == pair
    decreases |xs|
  {
    if |xs| == 0 then pair else OfferAll(Offer(pair, xs[0]), xs[1..])
  }

  /** `assign_affix`: a token matching a prefix is offered to
      (`prefix`, `prefix2`), one matching a suffix to (`suffix`,
      `suffix2`), and any match removes the token (returns ""). */
  function AssignAffix(pats: Patterns, reMatch: (string, string) -> bool, sl: Slots, s: string): (r: (Slots, string))
    ensures r.1 == if AnyAffix(s, pats.prefixes, reMatch) || AnyAffix(s, pats.suffixes, reMatch) then "" else s
    ensures (r.0.prefix, r.0.prefix2) ==
      if AnyAffix(s, pats.prefixes, reMatch) then Offer((sl.prefix, sl.prefix2), s) else (sl.prefix, sl.prefix2)
    ensures (r.0.suffix, r.0.suffix2) ==
      if AnyAffix(s, pats.suffixes, reMatch) then Offer((sl.suffix, sl.suffix2), s) else (sl.suffix, sl.suffix2)
    ensures r.0.(prefix := sl.prefix, prefix2 := sl.prefix2, suffix := sl.suffix, suffix2 := sl.suffix2) == sl
  {
    var isPrefix := AnyAffix(s, pats.prefixes, reMatch);
    var isSuffix := AnyAffix(s, pats.suffixes, reMatch);
    var p := if isPrefix then Offer((sl.prefix, sl.prefix2), s) else (sl.prefix, sl.prefix2);
    var q := if isSuffix then Offer((sl.suffix, sl.suffix2), s) else (sl.suffix, sl.suffix2);
    (sl.(prefix := p.0, prefix2 := p.1, suffix := q.0, suffix2 := q.1), if isPrefix || isSuffix then "" else s)
  }

  function AffixOp(pats: Patterns, reMatch: (string, string) -> bool): Operation {
    (sl: Slots, s: string, i: nat) => AssignAffix(pats, reMatch, sl, s)
  }

  /** The tokens that match a prefix, in order. */
  function PrefixTokens(tokens: seq<Option<string>>, pats: Patterns, reMatch: (string, string) -> bool): (r: seq<string>)
    ensures |r| <= |tokens|
  {
    if |tokens| == 0 then []
    else
      (if tokens[0].Some? && AnyAffix(tokens[0].value, pats.prefixes, reMatch) then [tokens[0].value] else [])
      + PrefixTokens(tokens[1..], pats, reMatch)
  }

  /** Over a whole token list, the prefix pair is offered every prefix token
      in order: with both slots empty, the first prefix lands in `prefix`,
      the second in `prefix2`, and later ones are dropped. */
  lemma {:induction false} AffixPrefixes(pats: Patterns, reMatch: (string, string) -> bool, sl: Slots,
                                         tokens: seq<Option<string>>, at: nat)
    ensures var r := Apply(AffixOp(pats, reMatch), sl, tokens, at).0;
      (r.prefix, r.prefix2) == OfferAll((sl.prefix, sl.prefix2), PrefixTokens(tokens, pats, reMatch))
    decreases |tokens|
  {
    if |tokens| > 0 {
      var op := AffixOp(pats, reMatch);
      var head := if tokens[0].Some? then var x := op(sl, tokens[0].value, at); (x.0, Some(x.1)) else (sl, None);
      AffixPrefixes(pats, reMatch, head.0, tokens[1..], at + 1);
    }
  }

  /** Every matched token leaves the list; the others stay, in order. */
  lemma AffixTokensRemoved(pats: Patterns, reMatch: (string, string) -> bool, sl: Slots, tokens: seq<Option<string>>)
    ensures var g := (s: string, i: nat) => AssignAffix(pats, reMatch, sl, s).1;
      LoopNameList(AffixOp(pats, reMatch), sl, tokens).1 == Filter(Apply(AffixOp(pats, reMatch), sl, tokens, 0).1, Kept)
    ensures forall k :: 0 <= k < |tokens| && tokens[k].Some? ==>
      (Apply(AffixOp(pats, reMatch), sl, tokens, 0).1[k] == Some("") <==>
        tokens[k].value == "" || AnyAffix(tokens[k].value, pats.prefixes, reMatch) || AnyAffix(tokens[k].value, pats.suffixes, reMatch))
  {
    var g := (s: string, i: nat) => if AnyAffix(s, pats.prefixes, reMatch) || AnyAffix(s, pats.suffixes, reMatch) then "" else s;
    ApplyOutputs(AffixOp(pats, reMatch), g, sl, tokens, 0);
  }

  // ---------------------------------------------------------------------
  // assign_middle_initials
  // ---------------------------------------------------------------------

  /** A single letter, or a letter followed by ".". */
  predicate IsInitial(s: string) {
    HasLetter(s) && (|s| == 1 || (|s| == 2 && s[1] == '.'))
  }

  /** `assign_middle_initials`: an initial after the first position joins
      the current cluster (a bare letter gains a "."), and is removed; the
      next token with a letter that is not an initial closes the cluster,
      which becomes `mname` (first cluster) or `mname2` (second). A third
      cluster goes to an attribute nothing reads. */
  function MiddleInitials(sl: Slots, s: string, index: nat): (r: (Slots, string))
    ensures r.1 == if index > 0 && IsInitial(s) then "" else s
    ensures index == 0 || !HasLetter(s) ==> r.0 == sl
    ensures index > 0 && IsInitial(s) ==> r.0 == sl.(chain := sl.chain + [if |s| == 1 then s + "." else s])
    ensures index > 0 && HasLetter(s) && !IsInitial(s) && |sl.chain| > 0 ==>
      r.0.chain == [] && r.0.clusters == sl.clusters + 1 &&
      r.0.mname == (if sl.clusters == 1 then Some(Join(sl.chain, "")) else sl.mname) &&
      r.0.mname2 == (if sl.clusters == 2 then Some(Join(sl.chain, "")) else sl.mname2)
    ensures r.0.(mname := sl.mname, mname2 := sl.mname2, chain := sl.chain, clusters := sl.clusters) == sl
  {
    if HasLetter(s) && index > 0 then
      if |s| == 1 || (|s| == 2 && s[1] == '.') then
        (sl.(chain := sl.chain + [if |s| == 1 then s + "." else s]), "")
      else if |sl.chain| > 0 then
        var joined := Join(sl.chain, "");
        var named :=
          if sl.clusters == 1 then sl.(mname := Some(joined))
          else if sl.clusters == 2 then sl.(mname2 := Some(joined))
          else sl;
        (named.(chain := [], clusters := sl.clusters + 1), s)
      else (sl, s)
    else (sl, s)
  }

  function MiddleOp(): Operation {
    (sl: Slots, s: string, i: nat) => MiddleInitials(sl, s, i)
  }

  /** Not an initial (None counts as not an initial). */
  predicate NotInitial(x: Option<string>) { !(x.Some? && IsInitial(x.value)) }

  /** Over a token list without empty tokens, the first token always stays
      and the later initials are exactly the tokens removed. */
  lemma MiddleInitialsKeep(sl: Slots, tokens: seq<Option<string>>)
    requires forall k :: 0 <= k < |tokens| ==> tokens[k] != Some("")
    ensures |tokens| > 0 ==> LoopNameList(MiddleOp(), sl, tokens).1 == [tokens[0]] + Filter(tokens[1..], NotInitial)
  {
    var g := (s: string, i: nat) => if i > 0 && IsInitial(s) then "" else s;
    ApplyOutputs(MiddleOp(), g, sl, tokens, 0);
    if |tokens| > 0 {
      var out := Apply(MiddleOp(), sl, tokens, 0).1;
      assert out == [out[0]] + out[1..];
      assert out[0] == tokens[0];
      FilterMatches(tokens[1..], out[1..]);
    }
  }

  /** Removing "" results after the first position is filtering out the
      initials. */
  lemma {:induction false} FilterMatches(ts: seq<Option<string>>, out: seq<Option<string>>)
    requires |out| == |ts|
    requires forall k :: 0 <= k < |ts| ==> ts[k] != Some("")
    requires forall k :: 0 <= k < |ts| ==> out[k] == if ts[k].Some? && IsInitial(ts[k].value) then Some("") else ts[k]
    ensures Filter(out, Kept) == Filter(ts, NotInitial)
    decreases |ts|
  {
    if |ts| > 0 {
      FilterMatches(ts[1..], out[1..]);
    }
  }

  /** The intended loop on "B. Smith B.": the trailing initial is removed. */
  lemma InitialsIntended()
    ensures LoopNameList(MiddleOp(), EmptySlots([], 1), [Some("B."), Some("Smith"), Some("B.")]).1
      == [Some("B."), Some("Smith")]
  {
    var tokens := [Some("B."), Some("Smith"), Some("B.")];
    assert NotInitial(Some("Smith")) && !NotInitial(Some("B.")) by {
      assert IsInitial("B.") by { assert IsLetter("B."[0]); }
      assert !IsInitial("Smith");
    }
    assert Filter(tokens[1..], NotInitial) == [Some("Smith")] by {
      assert tokens[1..] == [Some("Smith")] + [Some("B.")];
      FilterAppend([Some("Smith")], [Some("B.")], NotInitial);
    }
    assert LoopNameList(MiddleOp(), EmptySlots([], 1), tokens).1 == [tokens[0]] + Filter(tokens[1..], NotInitial) by {
      MiddleInitialsKeep(EmptySlots([], 1), tokens);
    }
  }

  /** The results of the middle-initial operation on "B. Smith B.". */
  lemma InitialsOutputs()
    ensures Apply(MiddleOp(), EmptySlots([], 1), [Some("B."), Some("Smith"), Some("B.")], 0).1
      == [Some("B."), Some("Smith"), Some("")]
  {
    var tokens := [Some("B."), Some("Smith"), Some("B.")];
    assert IsInitial("B.") by { assert IsLetter("B."[0]); }
    assert !IsInitial("Smith");
    var g := (s: string, i: nat) => if i > 0 && IsInitial(s) then "" else s;
    ApplyOutputs(MiddleOp(), g, EmptySlots([], 1), tokens, 0);
  }

  /** `remove("B.")` on ["B.", "Smith", "B."] takes the first one. */
  lemma RemoveFirstInitial()
    ensures var u := [Some("B."), Some("Smith"), Some("B.")];
      RemoveEach(u, Pick(u, [false, false, true])) == Ok([Some("Smith"), Some("B.")])
  {
    var u := [Some("B."), Some("Smith"), Some("B.")];
    var m := [false, false, true];
    assert Pick(u, m) == [Some("B.")] by {
      assert u[2..] == [Some("B.")] && m[2..] == [true];
      assert Pick(u[2..], m[2..]) == [Some("B.")] by {
        assert u[2..][1..] == [] && m[2..][1..] == [];
      }
      assert u[1..][1..] == u[2..] && m[1..][1..] == m[2..];
      assert Pick(u[1..], m[1..]) == Pick(u[2..], m[2..]);
    }
    assert Remove(u, Some("B.")) == Ok([Some("Smith"), Some("B.")]) by {
      assert Find(u, Some("B.")) == 0;
      assert u[..0] + u[1..] == [Some("Smith"), Some("B.")];
    }
    assert RemoveEach(u, [Some("B.")]) == RemoveEach([Some("Smith"), Some("B.")], []);
  }

  /** The loop as written on "B. Smith B.": the initial at position 2 asks
      for removal, and `list.remove("B.")` deletes the first token instead. */
  lemma InitialsAsWritten()
    ensures LoopAsWritten(MiddleOp(), EmptySlots([], 1), [Some("B."), Some("Smith"), Some("B.")]).1
      == Ok([Some("Smith"), Some("B.")])
  {
    var tokens := [Some("B."), Some("Smith"), Some("B.")];
    InitialsOutputs();
    var out := [Some("B."), Some("Smith"), Some("")];
    assert WriteBack(tokens, out) == tokens;
    assert Dropped(out) == [false, false, true];
    RemoveFirstInitial();
  }

  // ---------------------------------------------------------------------
  // assign_ampersand_split
  // ---------------------------------------------------------------------

  /** A token that is, lower-cased, one of the configured ampersand words. */
  function IsAmpersand(amps: seq<string>): string -> bool {
    s => LowerStr(s) in amps
  }

  /** Where the name is split: the last ampersand after the first token
      (each ampersand found overwrites the split made by the one before). */
  function SplitPoint(list: seq<string>, amps: seq<string>): (r: Option<nat>)
    ensures r.Some? ==> (0 < r.value < |list| && IsAmpersand(amps)(list[r.value]) &&
      forall k :: r.value < k < |list| ==> !IsAmpersand(amps)(list[k]))
    ensures r.None? <==> forall k :: 0 < k < |list| ==> !IsAmpersand(amps)(list[k])
    decreases |list|
  {
    if |list| <= 1 then None
    else if IsAmpersand(amps)(list[|list| - 1]) then Some(|list| - 1)
    else SplitPoint(list[..|list| - 1], amps)
  }

  /** The token list with the two halves of a split name (`name_list1` and
      `name_list2`, None when the name was not split). */
  datatype Halves = Halves(list: seq<string>, list1: Option<seq<string>>, list2: Option<seq<string>>)

  /** `assign_ampersand_split`: the halves are the tokens before and after
      the split point, taken before anything is removed; then every
      ampersand value found is removed (when present) from the list and
      from each half. */
  function AmpersandSplit(list: seq<string>, amps: seq<string>): (r: Halves)
    ensures r.list1.Some? <==> SplitPoint(list, amps).Some?
    ensures r.list2.Some? <==> r.list1.Some?
    ensures |r.list| <= |list|
  {
    var found := Filter(list, IsAmpersand(amps));
    DiscardEachShorter(list, found);
    match SplitPoint(list, amps)
    case None => Halves(DiscardEach(list, found), None, None)
    case Some(i) =>
      Halves(DiscardEach(list, found), Some(DiscardEach(list[..i], found)), Some(DiscardEach(list[i + 1..], found)))
  }

  /** Every ampersand leaves the token list, and nothing else does. */
  lemma AmpersandsRemoved(list: seq<string>, amps: seq<string>)
    ensures AmpersandSplit(list, amps).list == Filter(list, Not(IsAmpersand(amps)))
  {
    RemoveFiltered(list, IsAmpersand(amps));
    DiscardEachAgrees(list, Filter(list, IsAmpersand(amps)));
  }

  /** A single ampersand at position i: after the first token it splits the
      name into the tokens before and after it; as the first token it is
      only removed. */
  lemma OneAmpersand(list: seq<string>, amps: seq<string>, i: nat)
    requires i < |list| && IsAmpersand(amps)(list[i])
    requires forall k :: 0 <= k < |list| && k != i ==> !IsAmpersand(amps)(list[k])
    ensures AmpersandSplit(list, amps) ==
      if i > 0 then Halves(list[..i] + list[i + 1..], Some(list[..i]), Some(list[i + 1..]))
      else Halves(list[1..], None, None)
  {
    var p := IsAmpersand(amps);
    FilterOne(list, p, i);
    FilterAllBut(list, Not(p), i);
    AmpersandsRemoved(list, amps);
    var found := Filter(list, p);
    assert list[i] !in list[..i] && list[i] !in list[i + 1..];
    DiscardEachAbsent(list[..i], found);
    DiscardEachAbsent(list[i + 1..], found);
  }

  // ---------------------------------------------------------------------
  // manage_multi_fname
  // ---------------------------------------------------------------------

  /** The pair, joined with a space and lower-cased, is a configured compound
      first name. */
  function IsCompound(compounds: seq<string>): (string, string) -> bool {
    (a: string, b: string) => LowerStr(a + " " + b) in compounds
  }

  /** The list after the merging pass: a token whose pair with the next one
      is compound becomes the pair. The pass reads each token before it is
      overwritten, so the tests see the original tokens. */
  function Merged(list: seq<string>, compound: (string, string) -> bool): (r: seq<string>)
    ensures |r| == |list|
    ensures forall k :: 0 <= k < |list| ==>
      r[k] == if k + 1 < |list| && compound(list[k], list[k + 1]) then list[k] + " " + list[k + 1] else list[k]
  {
    seq(|list|, k requires 0 <= k < |list| =>
      if k + 1 < |list| && compound(list[k], list[k + 1]) then list[k] + " " + list[k + 1] else list[k])
  }

  /** The positions absorbed into the token in front of them. */
  function Absorbed(list: seq<string>, compound: (string, string) -> bool): (m: seq<bool>)
    ensures |m| == |list|
    ensures forall k :: 0 <= k < |list| ==> (m[k] <==> k > 0 && compound(list[k - 1], list[k]))
  {
    seq(|list|, k requires 0 <= k < |list| => k > 0 && compound(list[k - 1], list[k]))
  }

  /** The merging pass followed by `list.remove` of each absorbed token, in
      order, which raises ValueError when the value is no longer there. */
  function MergeFnames(list: seq<string>, compound: (string, string) -> bool): (r: Result<seq<string>>)
    ensures r.Ok? ==> |r.value| == |list| - |Pick(list, Absorbed(list, compound))|
  {
    RemoveEach(Merged(list, compound), Pick(list, Absorbed(list, compound)))
  }

  /** `manage_multi_fname`. */
  function MultiFname(list: seq<string>, compounds: seq<string>): (r: Result<seq<string>>)
    ensures r == MergeFnames(list, IsCompound(compounds))
    ensures r.Err? ==> r.error == ValueError
    ensures r.Ok? ==> |r.value| <= |list|
  {
    MergeFnames(list, IsCompound(compounds))
  }

  /** The pairing the pass is meant to perform, read left to right. */
  function PairUp(list: seq<string>, compound: (string, string) -> bool): (r: seq<string>)
    ensures |r| <= |list|
    decreases |list|
  {
    if |list| < 2 then list
    else if compound(list[0], list[1]) then [list[0] + " " + list[1]] + PairUp(list[2..], compound)
    else [list[0]] + PairUp(list[1..], compound)
  }

  /** No token is both absorbed and absorbing. */
  predicate NoChains(list: seq<string>, compound: (string, string) -> bool) {
    forall k :: 0 < k < |list| - 1 ==> !(compound(list[k - 1], list[k]) && compound(list[k], list[k + 1]))
  }

  lemma MergedTail(list: seq<string>, compound: (string, string) -> bool, j: nat)
    requires j <= |list|
    ensures Merged(list, compound)[j..] == Merged(list[j..], compound)
  {
  }

  lemma AbsorbedTail(list: seq<string>, compound: (string, string) -> bool, j: nat)
    requires 0 < j <= |list|
    requires j < |list| ==> !compound(list[j - 1], list[j])
    ensures Flip(Absorbed(list, compound))[j..] == Flip(Absorbed(list[j..], compound))
  {
  }

  lemma NoChainsTail(list: seq<string>, compound: (string, string) -> bool, j: nat)
    requires j <= |list| && NoChains(list, compound)
    ensures NoChains(list[j..], compound)
  {
    forall k | 0 < k < |list| - j - 1
      ensures !(compound(list[j..][k - 1], list[j..][k]) && compound(list[j..][k], list[j..][k + 1]))
    {
      assert list[j..][k - 1] == list[j + k - 1] && list[j..][k] == list[j + k] && list[j..][k + 1] == list[j + k + 1];
    }
  }

  /** The first pair is compound: it becomes one token. */
  lemma PickPairsJoined(list: seq<string>, compound: (string, string) -> bool)
    requires |list| >= 2 && compound(list[0], list[1]) && NoChains(list, compound)
    requires Pick(Merged(list[2..], compound), Flip(Absorbed(list[2..], compound))) == PairUp(list[2..], compound)
    ensures Pick(Merged(list, compound), Flip(Absorbed(list, compound))) == PairUp(list, compound)
  {
    var m, f := Merged(list, compound), Flip(Absorbed(list, compound));
    assert |list| > 2 ==> !compound(list[1], list[2]);
    MergedTail(list, compound, 2);
    AbsorbedTail(list, compound, 2);
    PickTwo(m, f);
  }

  /** The first pair is not compound: the first token stays as it is. */
  lemma PickPairsKept(list: seq<string>, compound: (string, string) -> bool)
    requires |list| >= 2 && !compound(list[0], list[1])
    requires Pick(Merged(list[1..], compound), Flip(Absorbed(list[1..], compound))) == PairUp(list[1..], compound)
    ensures Pick(Merged(list, compound), Flip(Absorbed(list, compound))) == PairUp(list, compound)
  {
    MergedTail(list, compound, 1);
    AbsorbedTail(list, compound, 1);
  }

  /** Keeping the tokens that were not absorbed yields the intended pairing. */
  lemma {:induction false} PickPairs(list: seq<string>, compound: (string, string) -> bool)
    requires NoChains(list, compound)
    ensures Pick(Merged(list, compound), Flip(Absorbed(list, compound))) == PairUp(list, compound)
    decreases |list|
  {
    if |list| == 1 {
      assert Merged(list, compound) == list && Flip(Absorbed(list, compound)) == [true];
    } else if |list| >= 2 {
      if compound(list[0], list[1]) {
        NoChainsTail(list, compound, 2);
        PickPairs(list[2..], compound);
        PickPairsJoined(list, compound);
      } else {
        NoChainsTail(list, compound, 1);
        PickPairs(list[1..], compound);
        PickPairsKept(list, compound);
      }
    }
  }

  /** Without chains of compounds, and when every earlier token equal to an
      absorbed one is itself absorbed, the pass merges each compound pair
      into one token and keeps everything else in order. */
  lemma MultiFnamePairs(list: seq<string>, compound: (string, string) -> bool)
    requires NoChains(list, compound)
    requires EarlierMarked(Merged(list, compound), Absorbed(list, compound))
    ensures MergeFnames(list, compound) == Ok(PairUp(list, compound))
  {
    var m, a := Merged(list, compound), Absorbed(list, compound);
    PickSame(list, m, a);
    RemoveMarked(m, a);
    PickPairs(list, compound);
  }

  /** A chain of two compounds: the middle token has been merged away before
      it is removed, so `remove` raises ValueError. */
  lemma ChainedCompounds(x: string, y: string, z: string, compound: (string, string) -> bool)
    requires compound(x, y) && compound(y, z) && y != z
    ensures MergeFnames([x, y, z], compound) == Err(ValueError)
  {
    var m := Merged([x, y, z], compound);
    assert m == [x + " " + y, y + " " + z, z];
    assert |x + " " + y| > |y| && |y + " " + z| > |y|;
    assert y !in m;
    assert Pick([x, y, z], Absorbed([x, y, z], compound))[0] == y by {
      var l := [x, y, z];
      var a := Absorbed(l, compound);
      assert !a[0] && a[1];
      PickTwo(l, a);
      assert Pick(l, a) == [y] + Pick(l[2..], a[2..]);
    }
  }

  // ---------------------------------------------------------------------
  // manage_multi_lname
  // ---------------------------------------------------------------------

  /** The token is, lower-cased, a configured last-name particle. */
  predicate IsParticle(particles: seq<string>, s: string) {
    LowerStr(s) in particles
  }

  /** The inner loop over the tokens after a particle: each one not yet
      absorbed joins the chain and is absorbed, up to and including the
      first that is not a particle. Returns the absorbed values and the
      chain. */
  function Absorb(rest: seq<string>, particles: seq<string>, absorbed: seq<string>, chain: seq<string>): (r: (seq<string>, seq<string>))
    ensures |r.0| - |absorbed| == |r.1| - |chain| >= 0
    decreases |rest|
  {
    if |rest| == 0 then (absorbed, chain)
    else if rest[0] in absorbed then Absorb(rest[1..], particles, absorbed, chain)
    else if !IsParticle(particles, rest[0]) then (absorbed + [rest[0]], chain + [rest[0]])
    else Absorb(rest[1..], particles, absorbed + [rest[0]], chain + [rest[0]])
  }

  /** Position k starts a last name: a particle, not absorbed already, and
      not the last token. */
  predicate Starts(list: seq<string>, particles: seq<string>, k: nat, absorbed: seq<string>)
    requires k < |list|
  {
    IsParticle(particles, list[k]) && list[k] !in absorbed && k < |list| - 1
  }

  /** The outer loop from position i: at each start, the particle token gets
      " " and the joined chain appended. The loop reads the original tokens
      (only the current position is ever rewritten). With `reset` false the
      chain carries over from one particle to the next, as the code has it;
      with `reset` true each particle starts a fresh chain. Returns the
      rewritten list and the absorbed values. */
  function Scan(list: seq<string>, particles: seq<string>, i: nat, cur: seq<string>,
                absorbed: seq<string>, chain: seq<string>, reset: bool): (r: (seq<string>, seq<string>))
    requires i <= |list| && |cur| == |list|
    ensures |r.0| == |list|
    decreases |list| - i
  {
    if i == |list| then (cur, absorbed)
    else if Starts(list, particles, i, absorbed) then
      var x := Absorb(list[i + 1..], particles, absorbed, if reset then [] else chain);
      Scan(list, particles, i + 1, cur[i := cur[i] + " " + Join(x.1, " ")], x.0, x.1, reset)
    else Scan(list, particles, i + 1, cur, absorbed, chain, reset)
  }

  /** The loop followed by `list.remove` of every absorbed value. */
  function MultiLnameWith(list: seq<string>, particles: seq<string>, reset: bool): (r: Result<seq<string>>)
  {
    var x := Scan(list, particles, 0, list, [], [], reset);
    RemoveEach(x.0, x.1)
  }

  /** `manage_multi_lname` as written: one chain for the whole list. */
  function MultiLnameAsWritten(list: seq<string>, particles: seq<string>): (r: Result<seq<string>>)
    ensures r == MultiLnameWith(list, particles, false)
    ensures r.Err? ==> r.error == ValueError
    ensures r.Ok? ==> |r.value| <= |list|
    ensures (forall k :: 0 <= k < |list| ==> !IsParticle(particles, list[k])) ==> r == Ok(list)
  {
    if forall k :: 0 <= k < |list| ==> !IsParticle(particles, list[k]) then
      NoParticle(list, particles, false);
      MultiLnameWith(list, particles, false)
    else MultiLnameWith(list, particles, false)
  }

  /** `manage_multi_lname` with the chain emptied at each particle. */
  function MultiLname(list: seq<string>, particles: seq<string>): (r: Result<seq<string>>)
    ensures r == MultiLnameWith(list, particles, true)
    ensures r.Err? ==> r.error == ValueError
    ensures r.Ok? ==> |r.value| <= |list|
    ensures (forall k :: 0 <= k < |list| ==> !IsParticle(particles, list[k])) ==> r == Ok(list)
  {
    if forall k :: 0 <= k < |list| ==> !IsParticle(particles, list[k]) then
      NoParticle(list, particles, true);
      MultiLnameWith(list, particles, true)
    else MultiLnameWith(list, particles, true)
  }

  /** Positions without a start leave the loop's state alone. */
  lemma {:induction false} ScanSkip(list: seq<string>, particles: seq<string>, i: nat, j: nat, cur: seq<string>,
                                    absorbed: seq<string>, chain: seq<string>, reset: bool)
    requires i <= j <= |list| && |cur| == |list|
    requires forall k :: i <= k < j ==> !Starts(list, particles, k, absorbed)
    ensures Scan(list, particles, i, cur, absorbed, chain, reset) == Scan(list, particles, j, cur, absorbed, chain, reset)
    decreases j - i
  {
    if i < j {
      ScanSkip(list, particles, i + 1, j, cur, absorbed, chain, reset);
    }
  }

  /** With no particle at all, the list comes back unchanged. */
  lemma NoParticle(list: seq<string>, particles: seq<string>, reset: bool)
    requires forall k :: 0 <= k < |list| ==> !IsParticle(particles, list[k])
    ensures MultiLnameWith(list, particles, reset) == Ok(list)
  {
    ScanSkip(list, particles, 0, |list|, list, [], [], reset);
  }

  /** A run of particles followed by a non-particle is absorbed in one go. */
  lemma {:induction false} AbsorbRun(rest: seq<string>, particles: seq<string>, absorbed: seq<string>, chain: seq<string>, n: nat)
    requires n < |rest|
    requires forall k :: 0 <= k < n ==> IsParticle(particles, rest[k])
    requires !IsParticle(particles, rest[n])
    requires forall k :: 0 <= k <= n ==> rest[k] !in absorbed
    requires forall a, b :: 0 <= a < b <= n ==> rest[a] != rest[b]
    ensures Absorb(rest, particles, absorbed, chain) == (absorbed + rest[..n + 1], chain + rest[..n + 1])
    decreases n
  {
    var x := rest[0];
    assert x !in absorbed;
    if n == 0 {
      assert rest[..1] == [x];
    } else {
      var tail := rest[1..];
      assert IsParticle(particles, x);
      forall k | 0 <= k <= n - 1 ensures tail[k] !in absorbed + [x] {
        assert tail[k] == rest[k + 1];
      }
      forall k | 0 <= k < n - 1 ensures IsParticle(particles, tail[k]) {
        assert tail[k] == rest[k + 1];
      }
      forall a, b | 0 <= a < b <= n - 1 ensures tail[a] != tail[b] {
        assert tail[a] == rest[a + 1] && tail[b] == rest[b + 1];
      }
      assert !IsParticle(particles, tail[n - 1]);
      AbsorbRun(tail, particles, absorbed + [x], chain + [x], n - 1);
      assert Absorb(rest, particles, absorbed, chain) == Absorb(tail, particles, absorbed + [x], chain + [x]);
      assert rest[..n + 1] == [x] + tail[..n];
      assert absorbed + [x] + tail[..n] == absorbed + rest[..n + 1];
      assert chain + [x] + tail[..n] == chain + rest[..n + 1];
    }
  }

  /** Distinct tokens without spaces. */
  predicate Plain(list: seq<string>) {
    (forall a, b :: 0 <= a < b < |list| ==> list[a] != list[b]) &&
    (forall k :: 0 <= k < |list| ==> ' ' !in list[k])
  }

  /** Exactly the tokens at positions i up to j (exclusive) are particles,
      and a token follows them. */
  predicate OneRun(list: seq<string>, particles: seq<string>, i: nat, j: nat) {
    i < j < |list| && forall k :: 0 <= k < |list| ==> (IsParticle(particles, list[k]) <==> i <= k < j)
  }

  /** The particle token with the chain appended. */
  function RunJoined(list: seq<string>, i: nat, j: nat): string
    requires i < j < |list|
  {
    list[i] + " " + Join(list[i + 1..j + 1], " ")
  }

  /** The inner loop over the tokens after a run's first particle takes
      the rest of the run and the token after it. */
  lemma RunAbsorb(list: seq<string>, particles: seq<string>, i: nat, j: nat)
    requires OneRun(list, particles, i, j) && Plain(list)
    ensures Absorb(list[i + 1..], particles, [], []) == (list[i + 1..j + 1], list[i + 1..j + 1])
  {
    var rest := list[i + 1..];
    forall a, b | 0 <= a < b <= j - i - 1 ensures rest[a] != rest[b] {
      assert rest[a] == list[i + 1 + a] && rest[b] == list[i + 1 + b];
    }
    forall k | 0 <= k < j - i - 1 ensures IsParticle(particles, rest[k]) {
      assert rest[k] == list[i + 1 + k];
    }
    assert rest[j - i - 1] == list[j];
    AbsorbRun(rest, particles, [], [], j - i - 1);
    assert rest[..j - i] == list[i + 1..j + 1];
    assert [] + list[i + 1..j + 1] == list[i + 1..j + 1];
  }

  /** After a run nothing starts another last name: the tokens of the run
      are absorbed and no later token is a particle. */
  lemma RunNoMoreStarts(list: seq<string>, particles: seq<string>, i: nat, j: nat, run: seq<string>)
    requires OneRun(list, particles, i, j) && run == list[i + 1..j + 1]
    ensures forall k :: i + 1 <= k < |list| ==> !Starts(list, particles, k, run)
  {
    forall k | i + 1 <= k < |list| ensures !Starts(list, particles, k, run) {
      if k < j {
        assert list[k] == run[k - i - 1];
      }
    }
  }

  /** The loop over a single run: the particle token absorbs the rest of the
      run and the token after it. */
  lemma RunScan(list: seq<string>, particles: seq<string>, i: nat, j: nat, reset: bool)
    requires OneRun(list, particles, i, j) && Plain(list)
    ensures Scan(list, particles, 0, list, [], [], reset) == (list[i := RunJoined(list, i, j)], list[i + 1..j + 1])
  {
    ScanSkip(list, particles, 0, i, list, [], [], reset);
    RunAbsorb(list, particles, i, j);
    var run := list[i + 1..j + 1];
    var cur := list[i := RunJoined(list, i, j)];
    assert Starts(list, particles, i, []);
    assert Scan(list, particles, i, list, [], [], reset) == Scan(list, particles, i + 1, cur, run, run, reset);
    RunNoMoreStarts(list, particles, i, j, run);
    ScanSkip(list, particles, i + 1, |list|, cur, run, run, reset);
  }

  /** Only the run is marked for removal, and no entry in front of a run
      token equals it. */
  lemma RunMarked(list: seq<string>, i: nat, j: nat)
    requires i < j < |list| && Plain(list)
    ensures EarlierMarked(list[i := RunJoined(list, i, j)], Block(|list|, i + 1, j + 1))
  {
    var joined := RunJoined(list, i, j);
    var cur := list[i := joined];
    var m := Block(|list|, i + 1, j + 1);
    assert joined[|list[i]|] == ' ';
    forall a, b | 0 <= a < b < |cur| && m[b] ensures cur[a] != cur[b] {
      assert cur[b] == list[b];
      if a == i {
        assert ' ' in cur[a];
      } else {
        assert cur[a] == list[a];
      }
    }
  }

  /** Rewriting position i leaves the block behind it alone, and cutting
      that block out keeps the rewritten token. */
  lemma UpdateCut<T>(xs: seq<T>, i: nat, j: nat, v: T, ys: seq<T>)
    requires i < j < |xs| && ys == xs[i := v]
    ensures ys[i + 1..j + 1] == xs[i + 1..j + 1]
    ensures ys[..i + 1] + ys[j + 1..] == xs[..i] + [v] + xs[j + 1..]
  {
    assert ys[..i + 1] == xs[..i] + [v];
    assert ys[j + 1..] == xs[j + 1..];
  }

  /** Removing the block behind a rewritten position, when only the block
      is marked, cuts the block out. */
  lemma RemoveBehind<T>(xs: seq<T>, i: nat, j: nat, v: T)
    requires i < j < |xs|
    requires EarlierMarked(xs[i := v], Block(|xs|, i + 1, j + 1))
    ensures RemoveEach(xs[i := v], xs[i + 1..j + 1]) == Ok(xs[..i] + [v] + xs[j + 1..])
  {
    var ys := xs[i := v];
    assert RemoveEach(ys, ys[i + 1..j + 1]) == Ok(ys[..i + 1] + ys[j + 1..]) by {
      RemoveBlock(ys, i + 1, j + 1);
    }
    UpdateCut(xs, i, j, v, ys);
  }

  /** Removing the absorbed run from the rewritten list cuts it out. */
  lemma RunRemove(list: seq<string>, i: nat, j: nat)
    requires i < j < |list| && Plain(list)
    ensures var cur := list[i := RunJoined(list, i, j)];
      RemoveEach(cur, list[i + 1..j + 1]) == Ok(list[..i] + [RunJoined(list, i, j)] + list[j + 1..])
  {
    RunMarked(list, i, j);
    RemoveBehind(list, i, j, RunJoined(list, i, j));
  }

  /** A single run of particles: the first particle token becomes the whole
      last name, up to and including the first non-particle after it, and
      the absorbed tokens leave the list. */
  lemma ParticleRun(list: seq<string>, particles: seq<string>, i: nat, j: nat, reset: bool)
    requires OneRun(list, particles, i, j) && Plain(list)
    ensures MultiLnameWith(list, particles, reset) ==
      Ok(list[..i] + [list[i] + " " + Join(list[i + 1..j + 1], " ")] + list[j + 1..])
  {
    RunScan(list, particles, i, j, reset);
    RunRemove(list, i, j);
  }

  /** The inner loop stops at a plain token it has not absorbed yet. */
  lemma AbsorbStop(rest: seq<string>, particles: seq<string>, absorbed: seq<string>, chain: seq<string>)
    requires |rest| > 0 && rest[0] !in absorbed && !IsParticle(particles, rest[0])
    ensures Absorb(rest, particles, absorbed, chain) == (absorbed + [rest[0]], chain + [rest[0]])
  {
  }

  /** The facts `Plain` gives about a list of five. */
  lemma PlainFive(a: string, p: string, x: string, q: string, y: string)
    requires Plain([a, p, x, q, y])
    ensures a != x && a != y && x != y && q != x
    ensures ' ' !in x && ' ' !in y
  {
    var l := [a, p, x, q, y];
    assert l[0] == a && l[1] == p && l[2] == x && l[3] == q && l[4] == y;
    assert l[0] != l[2] && l[0] != l[4] && l[2] != l[4] && l[2] != l[3];
    assert ' ' !in l[2] && ' ' !in l[4];
  }

  /** The loop over two separate particles, each followed by one plain token:
      the second particle's chain still holds the first one's token unless
      the chain is emptied. */
  lemma TwoParticlesScan(a: string, p: string, x: string, q: string, y: string, particles: seq<string>, reset: bool)
    requires IsParticle(particles, p) && IsParticle(particles, q)
    requires !IsParticle(particles, a) && !IsParticle(particles, x) && !IsParticle(particles, y)
    requires Plain([a, p, x, q, y])
    ensures var list := [a, p, x, q, y];
      Scan(list, particles, 0, list, [], [], reset) ==
        ([a, p + " " + x, x, q + " " + (if reset then y else x + " " + y), y], [x, y])
  {
    PlainFive(a, p, x, q, y);
    var list := [a, p, x, q, y];
    assert list[2..] == [x, q, y] && list[4..] == [y];
    AbsorbStop([x, q, y], particles, [], []);
    assert [] + [x] == [x];
    var cur1 := list[1 := p + " " + Join([x], " ")];
    assert !Starts(list, particles, 0, []);
    assert Scan(list, particles, 0, list, [], [], reset) == Scan(list, particles, 1, list, [], [], reset);
    assert Starts(list, particles, 1, []);
    assert Scan(list, particles, 1, list, [], [], reset) == Scan(list, particles, 2, cur1, [x], [x], reset);
    assert !Starts(list, particles, 2, [x]);
    assert Scan(list, particles, 2, cur1, [x], [x], reset) == Scan(list, particles, 3, cur1, [x], [x], reset);
    assert Starts(list, particles, 3, [x]);
    var chain := if reset then [] else [x];
    AbsorbStop([y], particles, [x], chain);
    var joined := Join(chain + [y], " ");
    assert joined == if reset then y else x + " " + y by {
      if !reset {
        assert ([x] + [y])[1..] == [y];
      }
    }
    var cur2 := cur1[3 := q + " " + joined];
    assert Scan(list, particles, 3, cur1, [x], [x], reset) == Scan(list, particles, 4, cur2, [x] + [y], chain + [y], reset);
    assert [x] + [y] == [x, y];
    assert !Starts(list, particles, 4, [x, y]);
    assert Scan(list, particles, 4, cur2, [x, y], chain + [y], reset) == (cur2, [x, y]);
    assert cur2 == [a, p + " " + x, x, q + " " + (if reset then y else x + " " + y), y];
  }

  /** `remove` of each value in turn: the first removal, then the rest. */
  lemma RemoveEachStep<T>(xs: seq<T>, w: T, ws: seq<T>, ys: seq<T>)
    requires Remove(xs, w) == Ok(ys)
    ensures RemoveEach(xs, [w] + ws) == RemoveEach(ys, ws)
  {
    assert ([w] + ws)[0] == w && ([w] + ws)[1..] == ws;
  }

  /** The first absorbed token is removed from the middle. */
  lemma RemoveThird<T>(a: T, px: T, x: T, qj: T, y: T)
    requires a != x && px != x
    ensures Remove([a, px, x, qj, y], x) == Ok([a, px, qj, y])
  {
    var l := [a, px, x, qj, y];
    assert x !in l[..2] by {
      assert l[..2] == [a, px];
    }
    RemoveAt(l, x, 2);
    assert l[..2] + l[3..] == [a, px, qj, y];
  }

  /** The second absorbed token is removed from the end. */
  lemma RemoveFourth<T>(a: T, px: T, qj: T, y: T)
    requires a != y && px != y && qj != y
    ensures Remove([a, px, qj, y], y) == Ok([a, px, qj])
  {
    var m := [a, px, qj, y];
    assert y !in m[..3] by {
      assert m[..3] == [a, px, qj];
    }
    RemoveAt(m, y, 3);
    assert m[..3] + m[4..] == [a, px, qj];
  }

  /** Removing the two absorbed tokens takes them from behind the rewritten
      particles. */
  lemma TwoParticlesRemove<T>(a: T, px: T, x: T, qj: T, y: T)
    requires a != x && a != y && x != y && px != x && px != y && qj != y
    ensures RemoveEach([a, px, x, qj, y], [x, y]) == Ok([a, px, qj])
  {
    RemoveThird(a, px, x, qj, y);
    RemoveFourth(a, px, qj, y);
    RemoveEachStep([a, px, x, qj, y], x, [y], [a, px, qj, y]);
    RemoveEachStep([a, px, qj, y], y, [], [a, px, qj]);
    assert [x] + [y] == [x, y] && [y] + [] == [y];
  }

  /** Two particles, each followed by a plain token: as written, the second
      last name also carries the first particle's token; with the chain
      emptied it does not. */
  lemma TwoParticles(a: string, p: string, x: string, q: string, y: string, particles: seq<string>, reset: bool)
    requires IsParticle(particles, p) && IsParticle(particles, q)
    requires !IsParticle(particles, a) && !IsParticle(particles, x) && !IsParticle(particles, y)
    requires Plain([a, p, x, q, y])
    ensures MultiLnameWith([a, p, x, q, y], particles, reset) ==
      Ok([a, p + " " + x, q + " " + (if reset then y else x + " " + y)])
  {
    TwoParticlesScan(a, p, x, q, y, particles, reset);
    PlainFive(a, p, x, q, y);
    var px := p + " " + x;
    var qj := q + " " + (if reset then y else x + " " + y);
    assert px[|p|] == ' ' && qj[|q|] == ' ';
    assert ' ' in px && ' ' in qj;
    TwoParticlesRemove(a, px, x, qj, y);
  }

  /** "Ana De Sa Van Dyk" with the particles "de" and "van": as written,
      "Van" absorbs "Sa" a second time. */
  lemma ParticlesAsWritten(list: seq<string>, particles: seq<string>)
    requires list == ["Ana", "De", "Sa", "Van", "Dyk"] && particles == ["de", "van"]
    ensures MultiLnameAsWritten(list, particles) == Ok(["Ana", "De Sa", "Van Sa Dyk"])
  {
    ParticleFacts();
    TwoParticles("Ana", "De", "Sa", "Van", "Dyk", particles, false);
    ParticleStrings();
  }

  /** The same name with the chain emptied at each particle. */
  lemma ParticlesIntended(list: seq<string>, particles: seq<string>)
    requires list == ["Ana", "De", "Sa", "Van", "Dyk"] && particles == ["de", "van"]
    ensures MultiLname(list, particles) == Ok(["Ana", "De Sa", "Van Dyk"])
  {
    ParticleFacts();
    TwoParticles("Ana", "De", "Sa", "Van", "Dyk", particles, true);
    ParticleStrings();
  }

  /** The joined last names of "Ana De Sa Van Dyk". */
  lemma ParticleStrings()
    ensures "De" + " " + "Sa" == "De Sa"
    ensures "Van" + " " + "Dyk" == "Van Dyk"
    ensures "Van" + " " + ("Sa" + " " + "Dyk") == "Van Sa Dyk"
  {
    assert "Sa" + " " + "Dyk" == "Sa Dyk";
  }

  /** Which tokens of "Ana De Sa Van Dyk" are particles. */
  lemma ParticleFacts()
    ensures IsParticle(["de", "van"], "De") && IsParticle(["de", "van"], "Van")
    ensures !IsParticle(["de", "van"], "Ana") && !IsParticle(["de", "van"], "Sa") && !IsParticle(["de", "van"], "Dyk")
    ensures Plain(["Ana", "De", "Sa", "Van", "Dyk"])
  {
    assert LowerStr("De") == "de";
    assert LowerStr("Van") == "van";
    assert LowerStr("Ana")[0] == 'a';
    assert |LowerStr("Sa")| == 2;
    assert |LowerStr("Dyk")| == 3 && LowerStr("Dyk")[0] == 'd';
    var l := ["Ana", "De", "Sa", "Van", "Dyk"];
    forall a, b | 0 <= a < b < |l| ensures l[a] != l[b] {
      assert l[a][0] != l[b][0] || |l[a]| != |l[b]|;
    }
  }

  // ---------------------------------------------------------------------
  // The parsed name, _allocate and to_list
  // ---------------------------------------------------------------------

  /** A whole-string name after parsing: the name's state plus the token
      list and the two halves of a split. */
  datatype Parsed = Parsed(name: Name, list: seq<string>, list1: Option<seq<string>>, list2: Option<seq<string>>)

  /** Python's `xs[i:]`: empty past the end. */
  function From(xs: seq<string>, i: nat): (r: seq<string>)
    ensures i <= |xs| ==> r == xs[i..]
    ensures i > |xs| ==> r == []
  {
    if i <= |xs| then xs[i..] else []
  }

  /** `_allocate`, with the last name joined from `lnameFrom`: first name
      from the first token of `list1`; with more than two tokens the second
      is the middle name (unless one is set) and the rest the last name; with
      two the second is the last name. The second half fills the name2 slots
      the same way, and the last name falls back to the second one. An empty
      half raises IndexError. */
  function AllocateFrom(sl: Slots, list1: seq<string>, list2: Option<seq<string>>, lnameFrom: seq<string>): (r: Result<Slots>)
    ensures r.Err? <==> |list1| == 0 || list2 == Some([])
    ensures r.Err? ==> r.error == IndexError
    ensures r.Ok? ==> r.value.fname == Some(list1[0])
    ensures r.Ok? && |list1| > 2 ==>
      r.value.mname == (if sl.mname.None? then Some(list1[1]) else sl.mname) &&
      r.value.lname == Some(Join(From(lnameFrom, 2), " "))
    ensures r.Ok? && |list1| == 2 ==> r.value.mname == sl.mname && r.value.lname == Some(Join(From(lnameFrom, 1), " "))
    ensures r.Ok? && |list1| == 1 && list2.None? ==> r.value.lname == sl.lname
    ensures r.Ok? && list2.Some? ==>
      var l2 := list2.value;
      r.value.fname2 == Some(l2[0]) &&
      r.value.mname2 == (if |l2| > 2 && sl.mname2.None? then Some(l2[1]) else sl.mname2) &&
      r.value.lname2 == Some(Join(From(l2, if |l2| > 2 then 2 else 1), " ")) &&
      (|list1| == 1 && sl.lname.None? ==> r.value.lname == r.value.lname2)
    ensures r.Ok? ==> r.value.(fname := sl.fname, mname := sl.mname, lname := sl.lname,
                                fname2 := sl.fname2, mname2 := sl.mname2, lname2 := sl.lname2) == sl
  {
    if |list1| == 0 then Err(IndexError)
    else
      var first :=
        if |list1| > 2 then
          sl.(fname := Some(list1[0]), mname := if sl.mname.None? then Some(list1[1]) else sl.mname,
              lname := Some(Join(From(lnameFrom, 2), " ")))
        else if |list1| == 2 then sl.(fname := Some(list1[0]), lname := Some(Join(From(lnameFrom, 1), " ")))
        else sl.(fname := Some(list1[0]));
      match list2
      case None => Ok(first)
      case Some(l2) =>
        if |l2| == 0 then Err(IndexError)
        else
          var lname2 := Join(From(l2, if |l2| > 2 then 2 else 1), " ");
          var second := first.(fname2 := Some(l2[0]),
                               mname2 := if |l2| > 2 && sl.mname2.None? then Some(l2[1]) else sl.mname2,
                               lname2 := Some(lname2));
          Ok(if second.lname.None? then second.(lname := Some(lname2)) else second)
  }

  /** `_allocate` as written: the last name is joined from `name_list`, not
      from the first half. */
  function AllocateAsWritten(p: Parsed): (r: Result<Slots>)
    ensures r.Err? <==> |p.list1.GetOr(p.list)| == 0 || p.list2 == Some([])
    ensures r.Ok? && |p.list1.GetOr(p.list)| >= 2 ==>
      r.value.lname == Some(Join(From(p.list, if |p.list1.GetOr(p.list)| > 2 then 2 else 1), " "))
  {
    AllocateFrom(p.name.slots, p.list1.GetOr(p.list), p.list2, p.list)
  }

  /** `_allocate` with the last name joined from the first half. */
  function Allocate(p: Parsed): (r: Result<Slots>)
    ensures r.Err? <==> |p.list1.GetOr(p.list)| == 0 || p.list2 == Some([])
    ensures r.Ok? ==> r.value.fname == Some(p.list1.GetOr(p.list)[0])
    ensures r.Ok? && |p.list1.GetOr(p.list)| >= 2 ==>
      var half := p.list1.GetOr(p.list);
      r.value.lname == Some(Join(From(half, if |half| > 2 then 2 else 1), " "))
  {
    var list1 := p.list1.GetOr(p.list);
    AllocateFrom(p.name.slots, list1, p.list2, list1)
  }

  /** Without a split the two agree. */
  lemma AllocateAgrees(p: Parsed)
    requires p.list1.None?
    ensures AllocateAsWritten(p) == Allocate(p)
  {
  }

  /** Allocation loses no token of the first half: with three or more and
      no middle name set, first, middle and last name joined give the half
      back. */
  lemma AllocateCovers(p: Parsed)
    requires |p.list1.GetOr(p.list)| > 2 && p.name.slots.mname.None? && p.list2 != Some([])
    ensures Allocate(p).Ok?
    ensures var sl := Allocate(p).value;
      Join([sl.fname.value, sl.mname.value, sl.lname.value], " ") == Join(p.list1.GetOr(p.list), " ")
  {
    var l := p.list1.GetOr(p.list);
    assert l[1..][1..] == l[2..];
    assert [l[0], l[1], Join(l[2..], " ")][1..] == [l[1], Join(l[2..], " ")];
    assert [l[1], Join(l[2..], " ")][1..] == [Join(l[2..], " ")];
  }

  /** As written, a first half of two tokens takes its last name from the
      whole list: everything after the first token. */
  lemma AllocateAsWrittenTwo(p: Parsed)
    requires p.list1.Some? && |p.list1.value| == 2 && |p.list| >= 1 && p.list2 != Some([])
    ensures AllocateAsWritten(p).Ok? && AllocateAsWritten(p).value.lname == Some(Join(p.list[1..], " "))
    ensures Allocate(p).Ok? && Allocate(p).value.lname == Some(p.list1.value[1])
  {
    assert p.list1.value[1..] == [p.list1.value[1]];
  }

  /** "Bob Parr and Helen Parr": the halves are "Bob Parr" and "Helen
      Parr"; as written the first last name becomes "Parr Helen Parr". */
  lemma AllocateParr(p: Parsed)
    requires p.list == ["Bob", "Parr", "Helen", "Parr"]
    requires p.list1 == Some(["Bob", "Parr"]) && p.list2 == Some(["Helen", "Parr"])
    ensures AllocateAsWritten(p).Ok? && AllocateAsWritten(p).value.lname == Some("Parr Helen Parr")
    ensures Allocate(p).Ok? && Allocate(p).value.lname == Some("Parr")
    ensures Allocate(p).value.lname2 == Some("Parr") && Allocate(p).value.fname2 == Some("Helen")
  {
    AllocateAsWrittenTwo(p);
    var rest := p.list[1..];
    assert rest == ["Parr", "Helen", "Parr"] && rest[1..] == ["Helen", "Parr"] && rest[1..][1..] == ["Parr"];
    assert Join(rest, " ") == "Parr" + " " + ("Helen" + " " + "Parr");
    JoinParr();
    assert ["Helen", "Parr"][1..] == ["Parr"];
  }

  lemma JoinParr()
    ensures "Parr" + " " + ("Helen" + " " + "Parr") == "Parr Helen Parr"
  {
    assert "Helen" + " " + "Parr" == "Helen Parr";
  }

  // ---------------------------------------------------------------------
  // Construction
  // ---------------------------------------------------------------------

  /** The token values (a missing token reads as ""; a name built from a
      string has none missing). */
  function Strings(tokens: seq<Option<string>>): (r: seq<string>)
    ensures |r| == |tokens|
    ensures forall k :: 0 <= k < |tokens| ==> (tokens[k].Some? ==> r[k] == tokens[k].value)
  {
    seq(|tokens|, k requires 0 <= k < |tokens| => tokens[k].GetOr(""))
  }

  /** A token list as present tokens. */
  function Tokens(list: seq<string>): (r: seq<Option<string>>)
    ensures |r| == |list| && AllSome(r)
    ensures forall k :: 0 <= k < |list| ==> r[k] == Some(list[k])
  {
    seq(|list|, k requires 0 <= k < |list| => Some(list[k]))
  }

  /** The operations a whole-string name adds to the base ones. */
  function NamestringOperations(pats: Patterns, reMatch: (string, string) -> bool): (ops: seq<Operation>)
    ensures |ops| == 2
  {
    [MiddleOp(), AffixOp(pats, reMatch)]
  }

  /** The name after the base and whole-string operations, with an empty
      middle-initial chain and the cluster count at 1. */
  function Base(s: string, pats: Patterns, reMatch: (string, string) -> bool): (r: Result<Name>)
    ensures r.Ok? && r.value.original == Str(s) && AllSome(r.value.tokens)
  {
    NewName(Str(s), pats.base, NamestringOperations(pats, reMatch), [], 1)
  }

  /** `Namestring(name_string)`: the operations run, and only a name that is
      still valid then has its compound first names and particles merged and
      is split at an ampersand. ValueError comes from a `remove` that does
      not find its value. */
  function NewNamestring(s: string, pats: Patterns, reMatch: (string, string) -> bool): (r: Result<Parsed>)
    ensures r.Err? ==> r.error == ValueError
    ensures r.Ok? ==> r.value.name == Base(s, pats, reMatch).value
    ensures r.Ok? && !r.value.name.valid ==>
      r.value.list == Strings(r.value.name.tokens) && r.value.list1.None? && r.value.list2.None?
    ensures r.Ok? && r.value.name.valid ==>
      MultiFname(Strings(r.value.name.tokens), pats.compoundFnames).Ok? &&
      var f := MultiFname(Strings(r.value.name.tokens), pats.compoundFnames).value;
      MultiLname(f, pats.lnameParticles).Ok? &&
      r.value.list == Filter(MultiLname(f, pats.lnameParticles).value, Not(IsAmpersand(pats.ampersands)))
  {
    var n := Base(s, pats, reMatch).value;
    var list := Strings(n.tokens);
    if !n.valid then Ok(Parsed(n, list, None, None))
    else
      var f :- MultiFname(list, pats.compoundFnames);
      var l :- MultiLname(f, pats.lnameParticles);
      var h := AmpersandSplit(l, pats.ampersands);
      AmpersandsRemoved(l, pats.ampersands);
      Ok(Parsed(n, h.list, h.list1, h.list2))
  }

  /** A valid name with no compound first name, no particle and no
      ampersand keeps the tokens the operations left, unsplit. */
  lemma NothingToMerge(s: string, pats: Patterns, reMatch: (string, string) -> bool)
    requires var list := Strings(Base(s, pats, reMatch).value.tokens);
      (forall k :: 0 <= k < |list| - 1 ==> !IsCompound(pats.compoundFnames)(list[k], list[k + 1])) &&
      (forall k :: 0 <= k < |list| ==> !IsParticle(pats.lnameParticles, list[k]) && !IsAmpersand(pats.ampersands)(list[k]))
    ensures NewNamestring(s, pats, reMatch).Ok?
    ensures var p := NewNamestring(s, pats, reMatch).value;
      p.list == Strings(p.name.tokens) && p.list1.None? && p.list2.None?
  {
    var list := Strings(Base(s, pats, reMatch).value.tokens);
    var c := IsCompound(pats.compoundFnames);
    assert MultiFname(list, pats.compoundFnames) == Ok(list) by {
      assert Merged(list, c) == list;
      PickNone(list, Absorbed(list, c));
    }
    assert MultiLname(list, pats.lnameParticles) == Ok(list) by {
      NoParticle(list, pats.lnameParticles, true);
    }
    assert AmpersandSplit(list, pats.ampersands) == Halves(list, None, None) by {
      FilterNone(list, IsAmpersand(pats.ampersands));
      assert DiscardEach(list, []) == list;
    }
  }

  /** `to_list(force_name2)`: allocation, the final validation (whose
      outcome is returned alongside), and the components. */
  function ToList(p: Parsed, force: bool): (r: Result<(seq<Option<string>>, bool)>)
    ensures r.Err? <==> Allocate(p).Err?
    ensures r.Err? ==> r.error == IndexError
    ensures r.Ok? ==> r.value.0 == Components(Allocate(p).value, force)
    ensures r.Ok? ==> r.value.0[1] == Some(p.list1.GetOr(p.list)[0])
    ensures r.Ok? ==> (r.value.1 <==>
      p.name.valid && !AnyDigit(Tokens(p.list)) && |p.list| >= 2 && RequiredPresent(Allocate(p).value))
  {
    var sl :- Allocate(p);
    var checked := Validate(Name(p.name.original, Tokens(p.list), sl, p.name.valid), true);
    Ok((Components(sl, force), checked.valid))
  }
}

=== FILE: namestring_tamer.dfy ===
/** The later whole-string name (tamer/names/namestring.py). Parenthesised
    alternative names are pulled out of the string first; the ampersand
    split runs before the compound-name steps; compound first names and
    last-name particles are configured as regular expressions; and particle
    merging is a function of one token list. Affixes, middle initials and
    allocation are the same as in the older variant and are reused from
    there. `reMatch(pattern, text)` stands for `re.match(pattern, text)`
    being truthy. */
module NamestringsTamer {
  import opened Wrappers
  import opened Text
  import opened Values
  import opened Seqs
  import opened Names
  import opened Namestrings
  import opened AltNames

  // ---------------------------------------------------------------------
  // manage_multi_fname
  // ---------------------------------------------------------------------

  /** How many configured patterns match the pair, joined with a space and
      lower-cased. */
  function PatternCount(compounds: seq<string>, reMatch: (string, string) -> bool): (string, string) -> nat {
    (a: string, b: string) => |Filter(compounds, (c: string) => reMatch(c, LowerStr(a + " " + b)))|
  }

  /** The pair is merged when some pattern matches it. */
  function Positive(count: (string, string) -> nat): (string, string) -> bool {
    (a: string, b: string) => count(a, b) > 0
  }

  /** The values to remove from position `k` on: a token once for every
      pattern its pair with the token in front of it matches. */
  function AbsorbedFrom(list: seq<string>, count: (string, string) -> nat, k: nat): (r: seq<string>)
    requires k <= |list|
    decreases |list| - k
  {
    if k == |list| then []
    else (if k > 0 then Copies(list[k], count(list[k - 1], list[k])) else []) + AbsorbedFrom(list, count, k + 1)
  }

  /** The merging pass, then `list.remove` of every absorbed value. */
  function MergeCounted(list: seq<string>, count: (string, string) -> nat): (r: Result<seq<string>>)
    ensures r.Err? ==> r.error == ValueError
  {
    RemoveEach(Merged(list, Positive(count)), AbsorbedFrom(list, count, 0))
  }

  /** `manage_multi_fname`: the pattern loop sits inside the token loop, so
      a pair that several patterns match is absorbed once per pattern. */
  function TamerMultiFname(list: seq<string>, compounds: seq<string>, reMatch: (string, string) -> bool): (r: Result<seq<string>>)
    ensures r.Err? ==> r.error == ValueError
  {
    MergeCounted(list, PatternCount(compounds, reMatch))
  }

  lemma {:induction false} AbsorbedPick(list: seq<string>, count: (string, string) -> nat, k: nat)
    requires k <= |list|
    requires forall j :: 0 < j < |list| ==> count(list[j - 1], list[j]) <= 1
    ensures AbsorbedFrom(list, count, k) == Pick(list[k..], Absorbed(list, Positive(count))[k..])
    decreases |list| - k
  {
    if k < |list| {
      AbsorbedPick(list, count, k + 1);
      var m := Absorbed(list, Positive(count));
      assert list[k..][1..] == list[k + 1..];
      assert m[k..][1..] == m[k + 1..];
      assert m[k..][0] == m[k];
      if k > 0 {
        assert Copies(list[k], count(list[k - 1], list[k])) == if m[k] then [list[k]] else [];
      }
    }
  }

  /** When no pair matches more than one pattern, the counted pass is the
      older one with the patterns as the compound test. */
  lemma SingleMatchesAgree(list: seq<string>, count: (string, string) -> nat)
    requires forall j :: 0 < j < |list| ==> count(list[j - 1], list[j]) <= 1
    ensures MergeCounted(list, count) == MergeFnames(list, Positive(count))
  {
    AbsorbedPick(list, count, 0);
  }

  /** Without chains of compounds and with unambiguous removals, adjacent
      compound pairs are merged (for `count` the number of matching
      patterns, as in `PatternCount`). */
  lemma TamerFnamePairs(list: seq<string>, count: (string, string) -> nat)
    requires forall j :: 0 < j < |list| ==> count(list[j - 1], list[j]) <= 1
    requires NoChains(list, Positive(count))
    requires EarlierMarked(Merged(list, Positive(count)), Absorbed(list, Positive(count)))
    ensures MergeCounted(list, count) == Ok(PairUp(list, Positive(count)))
  {
    SingleMatchesAgree(list, count);
    MultiFnamePairs(list, Positive(count));
  }

  /** A pair that two patterns match is absorbed twice, and the second
      `remove` fails. */
  lemma TwoPatternsOnePair(list: seq<string>, count: (string, string) -> nat)
    requires |list| == 2 && count(list[0], list[1]) >= 2
    ensures MergeCounted(list, count) == Err(ValueError)
  {
    var a, b := list[0], list[1];
    var n := count(a, b);
    var m := Merged(list, Positive(count));
    assert m == [a + " " + b, b];
    assert list[2..] == [];
    assert AbsorbedFrom(list, count, 2) == [];
    assert AbsorbedFrom(list, count, 0) == Copies(b, n);
    assert |a + " " + b| > |b|;
    RemoveAt(m, b, 1);
    assert m[..1] + m[2..] == [a + " " + b];
    var ws := Copies(b, n);
    assert ws[0] == b && ws[1..][0] == b;
    assert Remove([a + " " + b], b) == Err(ValueError);
    assert RemoveEach([a + " " + b], ws[1..]) == Err(ValueError);
  }

  // ---------------------------------------------------------------------
  // manage_multi_lname
  // ---------------------------------------------------------------------

  /** Some pattern matches the lower-cased token. */
  predicate AnyPattern(patterns: seq<string>, reMatch: (string, string) -> bool, s: string) {
    exists j :: 0 <= j < |patterns| && reMatch(patterns[j], LowerStr(s))
  }

  /** Whether a merge start has been recorded. As written the test is the
      truthiness of `lname_start`, so a start at index 0 reads as none; the
      corrected test is `is not None`. */
  predicate Started(start: Option<nat>, corrected: bool) {
    start.Some? && (corrected || start.value != 0)
  }

  /** The loop over the tokens from `i`: once a start is recorded every
      token joins the chain; before that a token joins when some pattern
      matches it. Returns the start and the chain. */
  function LnameScan(list: seq<string>, particles: seq<string>, reMatch: (string, string) -> bool,
                     corrected: bool, i: nat, start: Option<nat>, chain: seq<string>): (r: (Option<nat>, seq<string>))
    requires i <= |list|
    decreases |list| - i
  {
    if i == |list| then (start, chain)
    else if |particles| > 0 && (Started(start, corrected) || AnyPattern(particles, reMatch, list[i])) then
      LnameScan(list, particles, reMatch, corrected, i + 1,
        if Started(start, corrected) then start else Some(i), chain + [list[i]])
    else LnameScan(list, particles, reMatch, corrected, i + 1, start, chain)
  }

  /** The scan, `list.remove` of every chain value, and the chain joined
      back in at the start. */
  function MergeParticles(list: seq<string>, particles: seq<string>, reMatch: (string, string) -> bool,
                          corrected: bool): (r: Result<seq<string>>)
    ensures r.Err? ==> r.error == ValueError
  {
    var sc := LnameScan(list, particles, reMatch, corrected, 0, None, []);
    var rest :- RemoveEach(list, sc.1);
    if Started(sc.0, corrected) then Ok(Insert(rest, sc.0.value, Join(sc.1, " "))) else Ok(rest)
  }

  /** `manage_multi_lname` as written. */
  function TamerMultiLnameAsWritten(list: seq<string>, particles: seq<string>, reMatch: (string, string) -> bool): (r: Result<seq<string>>)
    ensures r.Err? ==> r.error == ValueError
    ensures (forall k :: 0 <= k < |list| ==> !AnyPattern(particles, reMatch, list[k])) ==> r == Ok(list)
  {
    if forall k :: 0 <= k < |list| ==> !AnyPattern(particles, reMatch, list[k]) then
      NoParticleTokens(list, particles, reMatch, false);
      MergeParticles(list, particles, reMatch, false)
    else MergeParticles(list, particles, reMatch, false)
  }

  /** `manage_multi_lname` with the start compared with None. */
  function TamerMultiLname(list: seq<string>, particles: seq<string>, reMatch: (string, string) -> bool): (r: Result<seq<string>>)
    ensures r.Err? ==> r.error == ValueError
    ensures (forall k :: 0 <= k < |list| ==> !AnyPattern(particles, reMatch, list[k])) ==> r == Ok(list)
  {
    if forall k :: 0 <= k < |list| ==> !AnyPattern(particles, reMatch, list[k]) then
      NoParticleTokens(list, particles, reMatch, true);
      MergeParticles(list, particles, reMatch, true)
    else MergeParticles(list, particles, reMatch, true)
  }

  /** Tokens no pattern matches, scanned before any start, leave the scan
      as it is. */
  lemma {:induction false} ScanQuiet(list: seq<string>, particles: seq<string>, reMatch: (string, string) -> bool,
                                     corrected: bool, i: nat, j: nat, start: Option<nat>, chain: seq<string>)
    requires i <= j <= |list| && !Started(start, corrected)
    requires forall k :: i <= k < j ==> !AnyPattern(particles, reMatch, list[k])
    ensures LnameScan(list, particles, reMatch, corrected, i, start, chain) ==
            LnameScan(list, particles, reMatch, corrected, j, start, chain)
    decreases j - i
  {
    if i < j {
      ScanQuiet(list, particles, reMatch, corrected, i + 1, j, start, chain);
    }
  }

  /** After a start, the rest of the tokens join the chain. */
  lemma {:induction false} ScanStarted(list: seq<string>, particles: seq<string>, reMatch: (string, string) -> bool,
                                       corrected: bool, i: nat, start: Option<nat>, chain: seq<string>)
    requires i <= |list| && |particles| > 0 && Started(start, corrected)
    ensures LnameScan(list, particles, reMatch, corrected, i, start, chain) == (start, chain + list[i..])
    decreases |list| - i
  {
    if i < |list| {
      ScanStarted(list, particles, reMatch, corrected, i + 1, start, chain + [list[i]]);
      assert chain + [list[i]] + list[i + 1..] == chain + list[i..];
    } else {
      assert chain + list[i..] == chain;
    }
  }

  /** With no token matching a particle pattern the list is unchanged. */
  lemma NoParticleTokens(list: seq<string>, particles: seq<string>, reMatch: (string, string) -> bool, corrected: bool)
    requires forall k :: 0 <= k < |list| ==> !AnyPattern(particles, reMatch, list[k])
    ensures MergeParticles(list, particles, reMatch, corrected) == Ok(list)
  {
    ScanQuiet(list, particles, reMatch, corrected, 0, |list|, None, []);
  }

  /** The scan records the first match and chains everything from it. */
  lemma ScanFirst(list: seq<string>, particles: seq<string>, reMatch: (string, string) -> bool, corrected: bool, i: nat)
    requires i < |list| && AnyPattern(particles, reMatch, list[i])
    requires forall k :: 0 <= k < i ==> !AnyPattern(particles, reMatch, list[k])
    requires corrected || i > 0
    ensures LnameScan(list, particles, reMatch, corrected, 0, None, []) == (Some(i), list[i..])
  {
    ScanQuiet(list, particles, reMatch, corrected, 0, i, None, []);
    assert |particles| > 0 && !Started(None, corrected);
    var empty: seq<string> := [];
    assert empty + [list[i]] == [list[i]];
    assert LnameScan(list, particles, reMatch, corrected, i, None, []) ==
           LnameScan(list, particles, reMatch, corrected, i + 1, Some(i), [list[i]]);
    ScanStarted(list, particles, reMatch, corrected, i + 1, Some(i), [list[i]]);
    assert [list[i]] + list[i + 1..] == list[i..];
  }

  /** With distinct tokens and the first match at `i` (at `i > 0` for the
      code as written), everything from `i` on is joined into one token. */
  lemma FirstParticle(list: seq<string>, particles: seq<string>, reMatch: (string, string) -> bool, corrected: bool, i: nat)
    requires i < |list| && AnyPattern(particles, reMatch, list[i])
    requires forall k :: 0 <= k < i ==> !AnyPattern(particles, reMatch, list[k])
    requires corrected || i > 0
    requires forall j, k :: 0 <= j < k < |list| ==> list[j] != list[k]
    ensures MergeParticles(list, particles, reMatch, corrected) == Ok(list[..i] + [Join(list[i..], " ")])
  {
    ScanFirst(list, particles, reMatch, corrected, i);
    assert EarlierMarked(list, Block(|list|, i, |list|));
    RemoveBlock(list, i, |list|);
    assert list[..i] + list[|list|..] == list[..i];
    assert list[i..|list|] == list[i..];
    assert Started(Some(i), corrected);
    var sc := LnameScan(list, particles, reMatch, corrected, 0, None, []);
    assert sc.0 == Some(i) && sc.1 == list[i..];
    assert RemoveEach(list, sc.1) == Ok(list[..i]);
    assert MergeParticles(list, particles, reMatch, corrected) == Ok(Insert(list[..i], i, Join(sc.1, " ")));
    assert Insert(list[..i], i, Join(list[i..], " ")) == list[..i] + [Join(list[i..], " ")];
  }

  /** A particle at index 0 that starts the only match: the code as written
      never records the start, so the particle is removed and nothing is
      joined; the corrected test joins the whole list. */
  lemma LeadingParticle(list: seq<string>, particles: seq<string>, reMatch: (string, string) -> bool)
    requires |list| > 0 && AnyPattern(particles, reMatch, list[0])
    requires forall k :: 0 < k < |list| ==> !AnyPattern(particles, reMatch, list[k])
    requires forall j, k :: 0 <= j < k < |list| ==> list[j] != list[k]
    ensures TamerMultiLnameAsWritten(list, particles, reMatch) == Ok(list[1..])
    ensures TamerMultiLname(list, particles, reMatch) == Ok([Join(list, " ")])
  {
    LeadingAsWritten(list, particles, reMatch);
    FirstParticle(list, particles, reMatch, true, 0);
    assert list[..0] + [Join(list[0..], " ")] == [Join(list, " ")];
  }

  lemma LeadingAsWritten(list: seq<string>, particles: seq<string>, reMatch: (string, string) -> bool)
    requires |list| > 0 && AnyPattern(particles, reMatch, list[0])
    requires forall k :: 0 < k < |list| ==> !AnyPattern(particles, reMatch, list[k])
    ensures LnameScan(list, particles, reMatch, false, 0, None, []) == (Some(0), [list[0]])
    ensures TamerMultiLnameAsWritten(list, particles, reMatch) == Ok(list[1..])
  {
    assert |particles| > 0 && !Started(None, false);
    var empty: seq<string> := [];
    assert empty + [list[0]] == [list[0]];
    assert LnameScan(list, particles, reMatch, false, 0, None, []) ==
           LnameScan(list, particles, reMatch, false, 1, Some(0), [list[0]]);
    ScanQuiet(list, particles, reMatch, false, 1, |list|, Some(0), [list[0]]);
    RemoveAt(list, list[0], 0);
    assert list[..0] + list[1..] == list[1..];
    assert [list[0]][1..] == [];
    assert RemoveEach(list, [list[0]]) == Ok(list[1..]);
  }

  /** ["Van", "Morrison"] with the particle pattern "van". */
  lemma VanMorrison(list: seq<string>, particles: seq<string>, reMatch: (string, string) -> bool)
    requires list == ["Van", "Morrison"] && particles == ["van"]
    requires reMatch("van", "van") && !reMatch("van", "morrison")
    ensures TamerMultiLnameAsWritten(list, particles, reMatch) == Ok(["Morrison"])
    ensures TamerMultiLname(list, particles, reMatch) == Ok(["Van Morrison"])
  {
    VanMorrisonLower(list[0], list[1]);
    assert reMatch(particles[0], LowerStr(list[0]));
    assert AnyPattern(particles, reMatch, list[0]);
    assert list[1..] == ["Morrison"];
    LeadingParticle(list, particles, reMatch);
    VanMorrisonJoin(list);
  }

  lemma VanMorrisonLower(a: string, b: string)
    requires a == "Van" && b == "Morrison"
    ensures LowerStr(a) == "van" && LowerStr(b) == "morrison"
  {
  }

  lemma VanMorrisonJoin(list: seq<string>)
    requires list == ["Van", "Morrison"]
    ensures Join(list, " ") == "Van Morrison"
  {
    assert list[1..] == ["Morrison"];
  }

  // ---------------------------------------------------------------------
  // Construction
  // ---------------------------------------------------------------------

  /** Python truthiness of an optional string or list. */
  predicate Truthy<T>(o: Option<seq<T>>) {
    o.Some? && |o.value| > 0
  }

  /** An alternative name fills its slot, after case management, only when
      it is non-empty and the slot is still empty. */
  function FillAlt(sl: Slots, alt1: Option<string>, alt2: Option<string>, particles: seq<string>): (r: Slots)
    ensures Truthy(sl.altName) || !Truthy(alt1) ==> r.altName == sl.altName
    ensures !Truthy(sl.altName) && Truthy(alt1) ==> r.altName == Some(ManageCases(alt1.value, particles))
    ensures Truthy(sl.altName2) || !Truthy(alt2) ==> r.altName2 == sl.altName2
    ensures !Truthy(sl.altName2) && Truthy(alt2) ==> r.altName2 == Some(ManageCases(alt2.value, particles))
    ensures r.(altName := sl.altName, altName2 := sl.altName2) == sl
  {
    var a1 := if Truthy(alt1) && !Truthy(sl.altName) then Some(ManageCases(alt1.value, particles)) else sl.altName;
    var a2 := if Truthy(alt2) && !Truthy(sl.altName2) then Some(ManageCases(alt2.value, particles)) else sl.altName2;
    sl.(altName := a1, altName2 := a2)
  }

  /** Filling a second time changes nothing. */
  lemma FillAltOnce(sl: Slots, alt1: Option<string>, alt2: Option<string>, particles: seq<string>)
    ensures var once := FillAlt(sl, alt1, alt2, particles);
      FillAlt(once, alt1, alt2, particles) == once
  {
  }

  /** The name after the alternative names are pulled out, the base and
      whole-string operations have run, and the alternatives are filled in. */
  function TamerBase(s: string, pats: Patterns, reMatch: (string, string) -> bool): (n: Name)
    ensures n.original == Str(ExtractAltName(s).rest)
    ensures n.tokens == Base(ExtractAltName(s).rest, pats, reMatch).value.tokens
    ensures n.valid == Base(ExtractAltName(s).rest, pats, reMatch).value.valid
  {
    var e := ExtractAltName(s);
    var n := Base(e.rest, pats, reMatch).value;
    n.(slots := FillAlt(n.slots, e.alt1, e.alt2, pats.base.camelcaseParticles))
  }

  /** Particle merging of one half, when the half is non-empty. */
  function MergeHalf(half: Option<seq<string>>, pats: Patterns, reMatch: (string, string) -> bool): (r: Result<Option<seq<string>>>)
    ensures r.Err? ==> r.error == ValueError
    ensures !Truthy(half) ==> r == Ok(half)
    ensures r.Ok? ==> (r.value.Some? <==> half.Some?)
  {
    if Truthy(half) then
      var merged :- TamerMultiLname(half.value, pats.lnameParticles, reMatch);
      Ok(Some(merged))
    else Ok(half)
  }

  /** `Namestring(name_string)`: for a name still valid after the
      operations, the ampersand split runs first, on the tokens as the
      operations left them; compound first names are merged in the full
      list only; particles are merged in the first half when it is
      non-empty and otherwise in the full list, and in the second half when
      that is non-empty. */
  function NewNamestringTamer(s: string, pats: Patterns, reMatch: (string, string) -> bool): (r: Result<Parsed>)
    ensures r.Err? ==> r.error == ValueError
    ensures r.Ok? ==> r.value.name == TamerBase(s, pats, reMatch)
    ensures r.Ok? && !r.value.name.valid ==>
      r.value.list == Strings(r.value.name.tokens) && r.value.list1.None? && r.value.list2.None?
    ensures r.Ok? && r.value.name.valid ==>
      (r.value.list1.Some? <==> SplitPoint(Strings(r.value.name.tokens), pats.ampersands).Some?) &&
      (r.value.list2.Some? <==> r.value.list1.Some?)
  {
    ParseTokens(TamerBase(s, pats, reMatch), pats, reMatch)
  }

  /** The part of `__init__` after the base operations (tamer/names/namestring.py:28-36). */
  function ParseTokens(n: Name, pats: Patterns, reMatch: (string, string) -> bool): (r: Result<Parsed>)
    ensures r.Err? ==> r.error == ValueError
    ensures r.Ok? ==> r.value.name == n
    ensures r.Ok? && !n.valid ==>
      r.value.list == Strings(n.tokens) && r.value.list1.None? && r.value.list2.None?
    ensures r.Ok? && n.valid ==>
      (r.value.list1.Some? <==> SplitPoint(Strings(n.tokens), pats.ampersands).Some?) &&
      (r.value.list2.Some? <==> r.value.list1.Some?)
  {
    var list := Strings(n.tokens);
    if !n.valid then Ok(Parsed(n, list, None, None))
    else
      var h := AmpersandSplit(list, pats.ampersands);
      var f :- TamerMultiFname(h.list, pats.compoundFnames, reMatch);
      var l1 :- MergeHalf(h.list1, pats, reMatch);
      var l :- if Truthy(h.list1) then Ok(f) else TamerMultiLname(f, pats.lnameParticles, reMatch);
      var l2 :- MergeHalf(h.list2, pats, reMatch);
      Ok(Parsed(n, l, l1, l2))
  }

  /** With no particle pattern matching any token, the halves are exactly
      the split of the tokens: compound first names merged in the full list
      do not reach them. */
  lemma HalvesUnmerged(s: string, pats: Patterns, reMatch: (string, string) -> bool)
    requires TamerBase(s, pats, reMatch).valid
    requires forall t :: !AnyPattern(pats.lnameParticles, reMatch, t)
    ensures var h := AmpersandSplit(Strings(TamerBase(s, pats, reMatch).tokens), pats.ampersands);
      var f := TamerMultiFname(h.list, pats.compoundFnames, reMatch);
      var r := NewNamestringTamer(s, pats, reMatch);
      (r.Ok? <==> f.Ok?) &&
      (r.Ok? ==> r.value.list == f.value && r.value.list1 == h.list1 && r.value.list2 == h.list2)
  {
    ParseUnmerged(TamerBase(s, pats, reMatch), pats, reMatch);
  }

  /** `HalvesUnmerged` for the tokens the base operations left. */
  lemma ParseUnmerged(n: Name, pats: Patterns, reMatch: (string, string) -> bool)
    requires n.valid
    requires forall t :: !AnyPattern(pats.lnameParticles, reMatch, t)
    ensures var h := AmpersandSplit(Strings(n.tokens), pats.ampersands);
      var f := TamerMultiFname(h.list, pats.compoundFnames, reMatch);
      var r := ParseTokens(n, pats, reMatch);
      (r.Ok? <==> f.Ok?) &&
      (r.Ok? ==> r.value.list == f.value && r.value.list1 == h.list1 && r.value.list2 == h.list2)
  {
    var h := AmpersandSplit(Strings(n.tokens), pats.ampersands);
    assert MergeHalf(h.list1, pats, reMatch) == Ok(h.list1) by { MergeHalfQuiet(h.list1, pats, reMatch); }
    assert MergeHalf(h.list2, pats, reMatch) == Ok(h.list2) by { MergeHalfQuiet(h.list2, pats, reMatch); }
    var f := TamerMultiFname(h.list, pats.compoundFnames, reMatch);
    if f.Ok? {
      assert TamerMultiLname(f.value, pats.lnameParticles, reMatch) == Ok(f.value) by {
        NoParticleTokens(f.value, pats.lnameParticles, reMatch, true);
      }
    }
  }

  /** With no particle pattern matching any token, a half is left as it is. */
  lemma MergeHalfQuiet(half: Option<seq<string>>, pats: Patterns, reMatch: (string, string) -> bool)
    requires forall t :: !AnyPattern(pats.lnameParticles, reMatch, t)
    ensures MergeHalf(half, pats, reMatch) == Ok(half)
  {
    if Truthy(half) {
      NoParticleTokens(half.value, pats.lnameParticles, reMatch, true);
    }
  }

}

=== FILE: nametoken.dfy ===
/** The name given as separate columns (datagenius/names/nametoken.py):
    each entry of the list is a token, and two extra operations look at the
    space-separated words inside a token — a trailing middle initial on the
    first token, and an ampersand that starts a second name. */
module Nametokens {
  import opened Wrappers
  import opened Text
  import opened Values
  import opened Seqs
  import opened Names
  import opened Namestrings

  /** A word of one character, or of a character and a dot. */
  predicate InitialWord(w: string) {
    |w| == 1 || (|w| == 2 && w[1] == '.')
  }

  /** The trailing-initial step applies: the first token, at least two
      words, the last one an initial. */
  predicate HasTrailingInitial(s: string, index: nat) {
    var words := Split(s, ' ');
    index == 0 && |words| > 1 && InitialWord(words[|words| - 1])
  }

  // ---------------------------------------------------------------------
  // assign_trailing_middle_initial
  // ---------------------------------------------------------------------

  /** `assign_trailing_middle_initial` as written: the initial goes to
      `mname` and is taken out with `list.remove`, which drops its first
      occurrence among the words. */
  function TrailingInitialAsWritten(sl: Slots, s: string, index: nat): (r: (Slots, string))
    ensures !HasTrailingInitial(s, index) ==> r == (sl, s)
  {
    var words := Split(s, ' ');
    SplitJoin(s, ' ');
    if HasTrailingInitial(s, index) then
      var last := words[|words| - 1];
      (sl.(mname := Some(last)), Join(Remove(words, last).value, " "))
    else (sl, Join(words, " "))
  }

  /** `assign_trailing_middle_initial` with the last word dropped: the
      initial goes to `mname`, and the token with the initial put back after
      a space is the original token. */
  function TrailingInitial(sl: Slots, s: string, index: nat): (r: (Slots, string))
    ensures !HasTrailingInitial(s, index) ==> r == (sl, s)
    ensures HasTrailingInitial(s, index) ==>
      var words := Split(s, ' ');
      var last := words[|words| - 1];
      r.0 == sl.(mname := Some(last)) && InitialWord(last) && r.1 + " " + last == s
  {
    var words := Split(s, ' ');
    SplitJoin(s, ' ');
    if HasTrailingInitial(s, index) then
      var last := words[|words| - 1];
      JoinLast(words, " ");
      (sl.(mname := Some(last)), Join(words[..|words| - 1], " "))
    else (sl, Join(words, " "))
  }

  /** The words but the last, joined, then the last after a separator. */
  lemma JoinLast(words: seq<string>, sep: string)
    requires |words| > 1
    ensures Join(words[..|words| - 1], sep) + sep + words[|words| - 1] == Join(words, sep)
  {
    var last := words[|words| - 1];
    assert words == words[..|words| - 1] + [last];
    JoinAppend(words[..|words| - 1], [last], sep);
  }

  /** When the initial does not occur earlier in the token, removing its
      first occurrence is removing the last word. */
  lemma TrailingInitialAgrees(sl: Slots, s: string, index: nat)
    requires var words := Split(s, ' ');
      |words| > 0 && words[|words| - 1] !in words[..|words| - 1]
    ensures TrailingInitialAsWritten(sl, s, index) == TrailingInitial(sl, s, index)
  {
    var words := Split(s, ' ');
    if HasTrailingInitial(s, index) {
      RemoveAt(words, words[|words| - 1], |words| - 1);
      assert words[|words|..] == [];
      assert words[..|words| - 1] + words[|words|..] == words[..|words| - 1];
    }
  }

  /** "x y x" with a one-character `x`: the code as written drops the
      leading `x` and keeps the trailing one ("a b a" becomes "b a"); the
      corrected step gives "x y" ("a b"). */
  lemma RepeatedInitial(sl: Slots, x: string, y: string)
    requires |x| == 1 && ' ' !in x && ' ' !in y
    ensures TrailingInitialAsWritten(sl, x + " " + y + " " + x, 0) == (sl.(mname := Some(x)), y + " " + x)
    ensures TrailingInitial(sl, x + " " + y + " " + x, 0) == (sl.(mname := Some(x)), x + " " + y)
  {
    var s := x + " " + y + " " + x;
    assert Split(s, ' ') == [x, y, x] by { ThreeWords(x, y); }
    assert HasTrailingInitial(s, 0);
    assert TrailingInitialAsWritten(sl, s, 0) == (sl.(mname := Some(x)), y + " " + x) by {
      RepeatedRemoved(x, y);
      PairJoin(y, x);
    }
    assert TrailingInitial(sl, s, 0) == (sl.(mname := Some(x)), x + " " + y) by {
      PairJoin(x, y);
      assert [x, y, x][..2] == [x, y];
    }
  }

  lemma ThreeWords(x: string, y: string)
    requires ' ' !in x && ' ' !in y
    ensures Split(x + " " + y + " " + x, ' ') == [x, y, x]
  {
    var words := [x, y, x];
    assert Join(words, " ") == x + " " + y + " " + x by {
      assert words[1..] == [y, x] && words[1..][1..] == [x];
    }
    JoinSplit(words, ' ');
  }

  lemma RepeatedRemoved(x: string, y: string)
    ensures Remove([x, y, x], x) == Ok([y, x])
  {
    var words := [x, y, x];
    assert words[..0] == [];
    RemoveAt(words, x, 0);
    assert words[..0] + words[0 + 1..] == [y, x];
  }

  lemma PairJoin(a: string, b: string)
    ensures Join([a, b], " ") == a + " " + b
  {
    assert [a, b][1..] == [b];
  }

  /** The trailing-initial step as a name operation. */
  function TrailingOp(): Operation {
    (sl: Slots, s: string, i: nat) => TrailingInitial(sl, s, i)
  }

  // ---------------------------------------------------------------------
  // assign_ampersand_split
  // ---------------------------------------------------------------------

  /** The index of the first ampersand word. */
  function FirstAmpersand(words: seq<string>, amps: seq<string>): (r: Option<nat>)
    ensures r.Some? ==> (r.value < |words| && IsAmpersand(amps)(words[r.value]) &&
      forall k :: 0 <= k < r.value ==> !IsAmpersand(amps)(words[k]))
    ensures r.None? ==> forall k :: 0 <= k < |words| ==> !IsAmpersand(amps)(words[k])
  {
    if |words| == 0 then None
    else if IsAmpersand(amps)(words[0]) then Some(0)
    else match FirstAmpersand(words[1..], amps)
      case None => None
      case Some(i) => Some(i + 1)
  }

  /** Stores a second-name part in the slot the token's position selects. */
  function StoreName2(sl: Slots, index: nat, name2: string): (r: Slots)
    ensures index == 0 ==> r == sl.(fname2 := Some(name2))
    ensures index == 1 ==> r == sl.(mname2 := Some(name2))
    ensures index >= 2 ==> r == sl.(lname2 := Some(name2))
  {
    if index == 0 then sl.(fname2 := Some(name2))
    else if index == 1 then sl.(mname2 := Some(name2))
    else sl.(lname2 := Some(name2))
  }

  /** `assign_ampersand_split`: the words after the first ampersand word
      become the second name's part for this position, and the token keeps
      the words before it. A token without an ampersand word is unchanged. */
  function TokenAmpersand(sl: Slots, s: string, index: nat, amps: seq<string>): (r: (Slots, string))
    ensures FirstAmpersand(Split(s, ' '), amps).None? ==> r == (sl, s)
    ensures FirstAmpersand(Split(s, ' '), amps).Some? ==>
      var words := Split(s, ' ');
      var i := FirstAmpersand(words, amps).value;
      r.1 == Join(words[..i], " ") && r.0 == StoreName2(sl, index, Join(words[i + 1..], " "))
  {
    var words := Split(s, ' ');
    SplitJoin(s, ' ');
    match FirstAmpersand(words, amps)
    case None => (sl, Join(words, " "))
    case Some(i) => (StoreName2(sl, index, Join(words[i + 1..], " ")), Join(words[..i], " "))
  }

  /** With words on both sides of the ampersand, the kept words, the
      ampersand and the second-name part rebuild the token. */
  lemma AmpersandRebuilds(sl: Slots, s: string, index: nat, amps: seq<string>)
    requires var words := Split(s, ' ');
      FirstAmpersand(words, amps).Some? && 0 < FirstAmpersand(words, amps).value < |words| - 1
    ensures var words := Split(s, ' ');
      var i := FirstAmpersand(words, amps).value;
      TokenAmpersand(sl, s, index, amps).1 + " " + words[i] + " " + Join(words[i + 1..], " ") == s
  {
    var words := Split(s, ' ');
    SplitJoin(s, ' ');
    JoinAround(words, FirstAmpersand(words, amps).value, " ");
  }

  /** The ampersand step as a name operation. */
  function AmpersandOp(amps: seq<string>): Operation {
    (sl: Slots, s: string, i: nat) => TokenAmpersand(sl, s, i, amps)
  }

  // ---------------------------------------------------------------------
  // Construction and allocation
  // ---------------------------------------------------------------------

  /** `Nametoken(name_list)`: the base operations, then the trailing
      initial, then the ampersand split. */
  function NewNametoken(name: Value, cfg: NameConfig, amps: seq<string>): (r: Result<Name>)
    ensures r.Ok? <==> Intake(name).Ok?
    ensures r.Ok? ==> r.value.original == name
    ensures r.Ok? && r.value.valid ==> !AnyDigit(Intake(name).value) && |Intake(name).value| >= 2
  {
    NewName(name, cfg, [TrailingOp(), AmpersandOp(amps)], [], 1)
  }

  /** `_allocate`: `fname` from the first token; with three tokens `mname`
      (unless already set) and `lname` from the others, with two `lname`
      from the second; a second first name without a last name takes the
      first's. An empty list has no first token (IndexError). */
  function AllocateToken(n: Name): (r: Result<Slots>)
    ensures r.Err? <==> |n.tokens| == 0
    ensures r.Err? ==> r.error == IndexError
    ensures r.Ok? ==> r.value.fname == n.tokens[0]
    ensures r.Ok? && |n.tokens| == 3 ==>
      r.value.lname == n.tokens[2] && r.value.mname == (if n.slots.mname.None? then n.tokens[1] else n.slots.mname)
    ensures r.Ok? && |n.tokens| == 2 ==> r.value.lname == n.tokens[1] && r.value.mname == n.slots.mname
    ensures r.Ok? && |n.tokens| != 2 && |n.tokens| != 3 ==> r.value.lname == n.slots.lname && r.value.mname == n.slots.mname
    ensures r.Ok? ==> (r.value.lname2 ==
      if n.slots.fname2.Some? && n.slots.lname2.None? then r.value.lname else n.slots.lname2)
    ensures r.Ok? ==> r.value.(fname := n.slots.fname, mname := n.slots.mname, lname := n.slots.lname, lname2 := n.slots.lname2) == n.slots
  {
    if |n.tokens| == 0 then Err(IndexError)
    else
      var t := n.tokens;
      var sl := n.slots.(fname := t[0]);
      var sl := if |t| == 3 then sl.(mname := if sl.mname.None? then t[1] else sl.mname, lname := t[2])
                else if |t| == 2 then sl.(lname := t[1])
                else sl;
      Ok(if sl.fname2.Some? && sl.lname2.None? then sl.(lname2 := sl.lname) else sl)
  }

  /** With three tokens and no middle name yet, the columns allocate like
      the base name: first, middle and last in order. */
  lemma AllocateTokenAsBase(n: Name)
    requires |n.tokens| == 3 && n.slots.mname.None? && !(n.slots.fname2.Some? && n.slots.lname2.None?)
    ensures AllocateToken(n) == BaseAllocate(n)
  {
  }

  /** `to_list(force_name2)` for a column-wise name: allocation, the final
      validation (whose outcome is returned alongside), and the
      components. */
  function TokenToList(n: Name, force: bool): (r: Result<(seq<Option<string>>, bool)>)
    ensures r.Err? <==> |n.tokens| == 0
    ensures r.Ok? ==> r.value.0 == Components(AllocateToken(n).value, force)
    ensures r.Ok? ==> r.value.0[1] == n.tokens[0]
    ensures r.Ok? ==> (r.value.1 <==>
      n.valid && !AnyDigit(n.tokens) && |n.tokens| >= 2 && RequiredPresent(AllocateToken(n).value))
  {
    var sl :- AllocateToken(n);
    var checked := Validate(n.(slots := sl), true);
    Ok((Components(sl, force), checked.valid))
  }
}

=== FILE: patterns.dfy ===
/** tamer/config/patterns.py. Its `Patterns` keeps the datagenius lists,
    defaults, invalid characters and custom file checks unchanged (they are
    shared with the `GConfig` module); only `_update_patterns` differs:
    a keyword extends a list only when that list is already non-empty, and
    the extended list is passed through a set, so repeats disappear. */
module TamerPatterns {
  import opened Wrappers
  import opened Values
  import opened Seqs
  import opened GConfig

  /** No element appears twice. */
  predicate NoDup<T(==)>(xs: seq<T>) {
    forall i, j :: 0 <= i < j < |xs| ==> xs[i] != xs[j]
  }

  /** The elements of `xs`, each once, at its first appearance. */
  function Dedup(xs: seq<string>): (r: seq<string>)
    ensures forall x :: x in r <==> x in xs
    ensures NoDup(r) && |r| <= |xs|
    decreases |xs|
  {
    if |xs| == 0 then []
    else
      var init := xs[..|xs| - 1];
      var x := xs[|xs| - 1];
      var r := Dedup(init);
      assert xs == init + [x];
      if x in r then r else r + [x]
  }

  /** A list without repeats is its own deduplication. */
  lemma {:induction false} DedupNoDup(xs: seq<string>)
    requires NoDup(xs)
    ensures Dedup(xs) == xs
    decreases |xs|
  {
    if |xs| > 0 {
      var init := xs[..|xs| - 1];
      assert NoDup(init);
      DedupNoDup(init);
      assert xs[|xs| - 1] !in init;
      assert xs == init + [xs[|xs| - 1]];
    }
  }

  /** Some keyword of the list finds the list of `c`, under either name. */
  predicate Named(kw: seq<(string, seq<string>)>, c: Category) {
    exists i :: 0 <= i < |kw| && Hits(GetAttr(kw[i].0), c)
  }

  /** Keyword `k` finds the list of `c` through its property or through
      the attribute behind it. */
  predicate PublicHit(k: string, c: Category) { GetAttr(k) == AList(c, false) }
  predicate PrivateHit(k: string, c: Category) { GetAttr(k) == AList(c, true) }

  /** The last word on `c` is a deduplicating one: some keyword names the
      property of `c` and no later keyword extends `_c` in place. */
  predicate EndsDeduped(kw: seq<(string, seq<string>)>, c: Category) {
    exists i :: 0 <= i < |kw| && PublicHit(kw[i].0, c) && forall j :: i < j < |kw| ==> !PrivateHit(kw[j].0, c)
  }

  /** The exception a keyword runs into in the tamer loop. `getattr(self,
      k, None)` on the public method gives a bound method, which is truthy,
      so `+=` raises TypeError; what other names starting with `_` hold is
      not modelled. A name that finds nothing gives `None` and is skipped,
      so no private method can be shadowed here. */
  function TamerFault(k: string): (r: Option<Error>)
    ensures r == Some(TypeError) <==> k == "add_custom_pattern_file"
    ensures r == Some(Unmodelled) <==> |k| > 0 && k[0] == '_' && !exists c :: Reaches(k, c)
    ensures r.None? <==> GetAttr(k).AList? || GetAttr(k) == Nothing
  {
    GetAttrSpec(k);
    match GetAttr(k)
    case AMethod => Some(TypeError)
    case Unknown => Some(Unmodelled)
    case _ => None
  }

  /** One keyword: `prop = getattr(self, k, None)`; only a non-empty list
      goes on. `prop += v` extends that very list in place, and
      `setattr(self, "_" + k, list(set(prop)))` then replaces the list of a
      property name by a deduplicated copy; for a name `_c` it sets a new
      attribute `__c` that no property reads, so `_c` keeps the extended
      list with its repeats. Set order is not specified in Python; the list
      keeps first appearances, and no property below depends on that
      order. */
  function UpdateOne(p: Patterns, k: string, v: seq<string>): (r: Patterns)
    ensures forall c :: !Hits(GetAttr(k), c) || Get(p, c) == [] ==> Get(r, c) == Get(p, c)
    ensures forall c, x :: Hits(GetAttr(k), c) && Get(p, c) != [] ==> (x in Get(r, c) <==> x in Get(p, c) || x in v)
    ensures forall c :: PublicHit(k, c) && Get(p, c) != [] ==> NoDup(Get(r, c))
    ensures forall c :: PrivateHit(k, c) && Get(p, c) != [] ==> Get(r, c) == Get(p, c) + v
  {
    match GetAttr(k)
    case AList(c, private) =>
      if Get(p, c) == [] then p
      else if private then Put(p, c, Get(p, c) + v)
      else Put(p, c, Dedup(Get(p, c) + v))
    case _ => p
  }

  /** `_update_patterns(**pattern_lists)`. The loop stops at the first
      keyword with a fault. Without one, for every category: an empty list
      stays empty whatever the keywords say; a list no keyword names is
      unchanged; a non-empty list ends up holding exactly its old entries
      and the additions of the keywords naming it; and it holds each entry
      once when the last keyword to touch it used the property name. */
  function UpdatePatterns(p: Patterns, kw: seq<(string, seq<string>)>): (r: Result<Patterns>)
    ensures r.Ok? <==> NoFault(kw, TamerFault)
    ensures r.Err? ==> FirstFault(kw, TamerFault, r.error)
    ensures r.Ok? ==> forall c :: UpdatedList(Get(p, c), Get(r.value, c), kw, c)
    decreases |kw|
  {
    if |kw| == 0 then Ok(p)
    else
      FaultCons(kw, TamerFault);
      match TamerFault(kw[0].0)
      case Some(e) => Err(e)
      case None =>
        var q := UpdateOne(p, kw[0].0, kw[0].1);
        var r := UpdatePatterns(q, kw[1..]);
        assert r.Ok? ==> forall c :: UpdatedList(Get(p, c), Get(r.value, c), kw, c) by {
          if r.Ok? {
            forall c ensures UpdatedList(Get(p, c), Get(r.value, c), kw, c) {
              AdditionsCons(kw, c);
              StepList(Get(p, c), Get(q, c), Get(r.value, c), kw, c);
            }
          }
        }
        r
  }

  /** What `UpdatePatterns` promises of one category's list. */
  ghost predicate UpdatedList(before: seq<string>, after: seq<string>, kw: seq<(string, seq<string>)>, c: Category) {
    && (before == [] ==> after == [])
    && (!Named(kw, c) ==> after == before)
    && (before != [] ==> forall x :: x in after <==> x in before || x in Additions(kw, c))
    && (before != [] && EndsDeduped(kw, c) ==> NoDup(after))
  }

  lemma StepList(before: seq<string>, mid: seq<string>, after: seq<string>, kw: seq<(string, seq<string>)>, c: Category)
    requires |kw| > 0
    requires Additions(kw, c) == (if Hits(GetAttr(kw[0].0), c) then kw[0].1 else []) + Additions(kw[1..], c)
    requires !Hits(GetAttr(kw[0].0), c) || before == [] ==> mid == before
    requires Hits(GetAttr(kw[0].0), c) && before != [] ==> forall x :: x in mid <==> x in before || x in kw[0].1
    requires PublicHit(kw[0].0, c) && before != [] ==> NoDup(mid)
    requires UpdatedList(mid, after, kw[1..], c)
    ensures UpdatedList(before, after, kw, c)
  {
    assert forall i :: 1 <= i < |kw| ==> kw[i] == kw[1..][i - 1];
    if before != [] {
      assert before[0] in mid;
    }
    if !Named(kw, c) {
      assert !Hits(GetAttr(kw[0].0), c);
    }
    if before != [] && EndsDeduped(kw, c) {
      StepDeduped(kw, c);
    }
  }

  /** The last deduplicating keyword is either the first one, with no
      later keyword naming `c` at all or only public ones, or a later one. */
  lemma StepDeduped(kw: seq<(string, seq<string>)>, c: Category)
    requires |kw| > 0 && EndsDeduped(kw, c)
    ensures EndsDeduped(kw[1..], c) || (PublicHit(kw[0].0, c) && !Named(kw[1..], c))
  {
    var i :| 0 <= i < |kw| && PublicHit(kw[i].0, c) && forall j :: i < j < |kw| ==> !PrivateHit(kw[j].0, c);
    if i > 0 {
      assert PublicHit(kw[1..][i - 1].0, c);
    } else if Named(kw[1..], c) {
      var j :| 0 <= j < |kw[1..]| && Hits(GetAttr(kw[1..][j].0), c);
      assert !PrivateHit(kw[j + 1].0, c);
      assert PublicHit(kw[1..][j].0, c);
      forall m | j < m < |kw[1..]| ensures !PrivateHit(kw[1..][m].0, c) {
        assert kw[1..][m] == kw[m + 1];
      }
    }
  }

  /** Updating again with the same keywords adds nothing new: each list
      keeps the same entries. */
  lemma UpdateTwice(p: Patterns, kw: seq<(string, seq<string>)>, c: Category, x: string)
    requires UpdatePatterns(p, kw).Ok?
    ensures UpdatePatterns(UpdatePatterns(p, kw).value, kw).Ok?
    ensures x in Get(UpdatePatterns(UpdatePatterns(p, kw).value, kw).value, c) <==> x in Get(UpdatePatterns(p, kw).value, c)
  {
  }

  /** The two names of a category, on a non-empty list: the property name
      extends and deduplicates, the name of the attribute behind it extends
      in place and keeps repeats; on an empty list both do nothing. */
  lemma KeyKinds(p: Patterns, c: Category, v: seq<string>)
    ensures Get(p, c) != [] ==> UpdatePatterns(p, [("_" + Name(c), v)]) == Ok(Put(p, c, Get(p, c) + v))
    ensures Get(p, c) != [] ==> UpdatePatterns(p, [(Name(c), v)]) == Ok(Put(p, c, Dedup(Get(p, c) + v)))
    ensures Get(p, c) == [] ==> UpdatePatterns(p, [(Name(c), v)]) == Ok(p) && UpdatePatterns(p, [("_" + Name(c), v)]) == Ok(p)
  {
    GetAttrSpec("_" + Name(c));
    GetAttrSpec(Name(c));
    NameShape(c);
    assert GetAttr("_" + Name(c)) == AList(c, true) by {
      assert ("_" + Name(c))[0] == '_' && Reaches("_" + Name(c), c);
    }
    assert GetAttr(Name(c)) == AList(c, false) by {
      assert Reaches(Name(c), c);
    }
  }

  /** A name finding nothing is skipped, even one whose datagenius
      counterpart would shadow a method; the public method's name raises
      TypeError. */
  lemma OtherKeys(p: Patterns, v: seq<string>)
    ensures UpdatePatterns(p, [("load_patterns", v)]) == Ok(p)
    ensures UpdatePatterns(p, [("add_custom_pattern_file", v)]) == Err(TypeError)
  {
    assert GetAttr("load_patterns") == Nothing;
  }

  /** `Patterns.add_custom_pattern_file(p)`: load, check, then update. */
  function AddCustomPatternFile(p: Patterns, name: string, y: Value): (r: Result<Patterns>)
    ensures !YamlName(name) ==> r == Err(ValueError)
    ensures r.Ok? ==> y.Dict? && (forall i :: 0 <= i < |y.entries| ==> y.entries[i].1.List?)
    ensures r.Ok? ==> exists kw :: Keywords(y.entries) == Ok(kw) && UpdatePatterns(p, kw) == r
  {
    var loaded :- LoadCustomPattern(name, y);
    var kw :- Keywords(loaded.entries);
    UpdatePatterns(p, kw)
  }

  /** A custom file can only extend a list the defaults already fill: on a
      fresh `Patterns` whose files leave a category out, that category is
      still empty afterwards. */
  lemma CustomFileCannotStartList(raw: map<string, seq<string>>, name: string, y: Value, c: Category)
    requires c != InvalidChars && Name(c) !in raw
    requires AddCustomPatternFile(NewPatterns(raw), name, y).Ok?
    ensures Get(AddCustomPatternFile(NewPatterns(raw), name, y).value, c) == []
  {
  }
}

=== FILE: preprocessor.dfy ===
/** The two header steps of `Preprocessor` (tamer/resolvers/preprocessor.py):
    finding the header row and purging the rows above it. */
module Preprocessor {
  import opened Wrappers
  import opened Values
  import opened Frames
  import Header

  /** `count_true_str(row)`: the number of cells that are non-empty strings. */
  function CountTrueStr(row: seq<Value>): (n: nat)
    ensures n <= |row|
  {
    if |row| == 0 then 0
    else (if row[0].Str? && row[0].s != "" then 1 else 0) + CountTrueStr(row[1..])
  }

  /** A row whose every cell is a non-empty string. */
  predicate AllTrueStr(row: seq<Value>) {
    forall i :: 0 <= i < |row| ==> row[i].Str? && row[i].s != ""
  }

  /** The header test `count_true_str(x) == len(x)` holds exactly for rows of
      non-empty strings. */
  lemma {:induction false} CountTrueStrFull(row: seq<Value>)
    ensures CountTrueStr(row) == |row| <==> AllTrueStr(row)
    decreases |row|
  {
    if |row| > 0 {
      CountTrueStrFull(row[1..]);
      assert forall i :: 1 <= i < |row| ==> row[i] == row[1..][i - 1];
    }
  }

  /** The position of the first row passing the header test, if any. */
  function FirstHeaderRow(rows: seq<seq<Value>>): (r: Option<nat>)
    ensures r.Some? ==> r.value < |rows| && AllTrueStr(rows[r.value])
    ensures r.Some? ==> forall i :: 0 <= i < r.value ==> !AllTrueStr(rows[i])
    ensures r.None? <==> forall i :: 0 <= i < |rows| ==> !AllTrueStr(rows[i])
  {
    if |rows| == 0 then None
    else
      CountTrueStrFull(rows[0]);
      if CountTrueStr(rows[0]) == |rows[0]| then Some(0)
      else
        var rest := FirstHeaderRow(rows[1..]);
        assert forall i :: 1 <= i < |rows| ==> rows[i] == rows[1..][i - 1];
        match rest
        case None => None
        case Some(k) => Some(k + 1)
  }

  /** `_detect_header(df, manual_header)`. A non-empty manual header replaces
      the column labels (pandas raises ValueError on a length mismatch) and no
      row index is reported. Otherwise the first row of non-empty strings
      becomes the header, standardised, and is removed; its position is
      reported. Without such a row the frame is unchanged. */
  function DetectHeader(f: Frame, manual: Option<Header.Header>): (r: Result<(Frame, Option<nat>)>)
    requires Rectangular(f)
    ensures manual.Some? && |manual.value.labels| > 0 ==>
      r == if |manual.value.labels| == |f.labels| then Ok((Frame(Strs(manual.value.labels), f.rows), None))
           else Err(ValueError)
    ensures (manual.None? || |manual.value.labels| == 0) ==> r.Ok?
    ensures (manual.None? || |manual.value.labels| == 0) && FirstHeaderRow(f.rows).None? ==> r == Ok((f, None))
    ensures r.Ok? && r.value.1.Some? ==>
      var k := r.value.1.value;
      k < |f.rows| && AllTrueStr(f.rows[k]) &&
      (forall i :: 0 <= i < k ==> !AllTrueStr(f.rows[i])) &&
      r.value.0.rows == f.rows[..k] + f.rows[k + 1..] &&
      Header.Standardize(f.rows[k]).Ok? &&
      r.value.0.labels == Strs(Header.Standardize(f.rows[k]).value)
    ensures r.Ok? ==> Rectangular(r.value.0)
  {
    if manual.Some? && |manual.value.labels| > 0 then
      if |manual.value.labels| == |f.labels| then Ok((Frame(Strs(manual.value.labels), f.rows), None))
      else Err(ValueError)
    else
      match FirstHeaderRow(f.rows)
      case None => Ok((f, None))
      case Some(k) =>
        var row := f.rows[k];
        assert forall i :: 0 <= i < |row| ==> PyStr(row[i]).Some?;
        // `Header(row)` standardises the row's cells; iterating it yields
        // the standardised labels.
        var labels := Header.Standardize(row).value;
        var rows := Header.Without(f.rows, k);
        assert rows == f.rows[..k] + f.rows[k + 1..];
        Ok((Frame(Strs(labels), rows), Some(k)))
  }

  /** The rows above the header, with their per-column non-null counts (the
      `rejects` and `metadata` entries). */
  datatype Rejects = Rejects(frame: Frame, counts: seq<nat>)

  /** What `_purge_pre_header` returns: the frame alone, or the frame with a
      metadata dict (`None` for the empty dict). */
  datatype Purge = Kept(frame: Frame) | Purged(frame: Frame, metadata: Option<Rejects>)

  /** `_purge_pre_header(df, header_idx)`. A missing or zero index returns
      the frame alone. A positive index `h` drops the first `h` rows, which
      are returned as the rejects together with their non-null counts; an
      index past the last row raises KeyError when its label is dropped. A
      negative index drops nothing and returns an empty metadata dict. */
  function PurgePreHeader(f: Frame, headerIdx: Option<int>): (r: Result<Purge>)
    requires Rectangular(f)
    ensures headerIdx.None? || headerIdx == Some(0) ==> r == Ok(Kept(f))
    ensures headerIdx.Some? && headerIdx.value < 0 ==> r == Ok(Purged(f, None))
    ensures headerIdx.Some? && headerIdx.value > |f.rows| ==> r == Err(KeyError)
    ensures headerIdx.Some? && 0 < headerIdx.value <= |f.rows| ==>
      r.Ok? && r.value.Purged? && r.value.metadata.Some? &&
      var h := headerIdx.value;
      var rej := r.value.metadata.value;
      rej.frame.labels == f.labels && r.value.frame.labels == f.labels &&
      |rej.frame.rows| == h &&
      rej.frame.rows + r.value.frame.rows == f.rows &&
      Rectangular(rej.frame) && Rectangular(r.value.frame) &&
      |rej.counts| == |f.labels| &&
      forall j :: 0 <= j < |f.labels| ==> rej.counts[j] == NonNullCount(Column(rej.frame, j))
  {
    match headerIdx
    case None => Ok(Kept(f))
    case Some(h) =>
      if h == 0 then Ok(Kept(f))
      else if h < 0 then Ok(Purged(f, None))
      else if h > |f.rows| then Err(KeyError)
      else
        var rejects := Frame(f.labels, f.rows[..h]);
        assert f.rows[..h] + f.rows[h..] == f.rows;
        Ok(Purged(Frame(f.labels, f.rows[h..]), Some(Rejects(rejects, NonNullCounts(rejects)))))
  }

  /** Detection followed by a purge at the detected position leaves the rows
      below the header row, and (for a header below the first row) rejects
      exactly the rows above it. */
  lemma DetectThenPurge(f: Frame)
    requires Rectangular(f) && FirstHeaderRow(f.rows).Some?
    ensures var d := DetectHeader(f, None);
      var k := FirstHeaderRow(f.rows).value;
      d.Ok? && d.value.1 == Some(k) &&
      var p := PurgePreHeader(d.value.0, d.value.1);
      p.Ok? && p.value.frame.rows == f.rows[k + 1..] &&
      (k > 0 ==> p.value.Purged? && p.value.metadata.Some? && p.value.metadata.value.frame.rows == f.rows[..k])
  {
    var d := DetectHeader(f, None);
    var k := FirstHeaderRow(f.rows).value;
    var rows := d.value.0.rows;
    assert rows == f.rows[..k] + f.rows[k + 1..];
    if k > 0 {
      var p := PurgePreHeader(d.value.0, Some(k));
      assert p.value.metadata.value.frame.rows + p.value.frame.rows == rows;
      assert rows[..k] == f.rows[..k];
      assert rows[k..] == f.rows[k + 1..];
    }
  }
}

=== FILE: reformat.dfy ===
/** `reformat_df` and `fill_defaults` (datagenius/lib/reformat.py): moving a
    frame's columns into a template's layout, and filling defaults. */
module Reformat {
  import opened Wrappers
  import opened Text
  import opened Values
  import opened IterUtils
  import opened Frames
  import opened Resolutions
  import Guides
  import Seqs

  // ---------------------------------------------------------------------
  // reformat_df

  /** The columns a mapping value names: a string names one column, anything
      else is iterated (a dict yields its keys); a value that cannot be
      iterated raises TypeError. */
  function Targets(to: Value): (r: Result<seq<Value>>)
    ensures r.Ok? <==> IsCollection(to)
    ensures r.Err? ==> r.error == TypeError
  {
    if to.Str? then Ok([to]) else Iterate(to)
  }

  /** The named columns, or none when the value cannot be iterated. */
  function TargetsOf(to: Value): seq<Value> {
    match Targets(to)
    case Ok(ts) => ts
    case Err(_) => []
  }

  /** The texts of string targets: the metadata concatenates them, so any
      other target raises TypeError. */
  function TargetTexts(ts: seq<Value>): (r: Result<seq<string>>)
    ensures r.Ok? <==> forall i :: 0 <= i < |ts| ==> ts[i].Str?
    ensures r.Ok? ==> Strs(r.value) == ts
    ensures r.Err? ==> r.error == TypeError
  {
    if forall i :: 0 <= i < |ts| ==> ts[i].Str? then
      Ok(seq(|ts|, i requires 0 <= i < |ts| && ts[i].Str? => ts[i].s))
    else Err(TypeError)
  }

  /** The metadata text of a mapping value: its targets joined by commas. */
  function MetadataText(to: Value): string {
    match TargetTexts(TargetsOf(to))
    case Ok(texts) => Join(texts, ",")
    case Err(_) => ""
  }

  /** A mapping entry the loop gets through: its value names columns, and
      unless it names none, its source selects one column of `df` and every
      target is a string. */
  predicate EntryOk(labels: seq<Value>, e: (Value, Value)) {
    Targets(e.1).Ok? &&
    (TargetsOf(e.1) == [] ||
     (LabelIndex(labels, e.0).Ok? && TargetTexts(TargetsOf(e.1)).Ok?))
  }

  /** The loop gets through every entry. */
  predicate AllEntriesOk(labels: seq<Value>, m: Entries) {
    forall e :: 0 <= e < |m| ==> EntryOk(labels, m[e])
  }

  /** Every target of every entry, in mapping order. */
  function Flat(m: Entries): (r: seq<Value>)
    decreases |m|
  {
    if |m| == 0 then [] else Flat(m[..|m| - 1]) + TargetsOf(m[|m| - 1].1)
  }

  /** The result's labels before standardisation: the template, then every
      target the template lacks, once, in order of first assignment. */
  function PreLabels(template: seq<Value>, m: Entries): seq<Value> {
    template + Guides.FirstAppearances(Flat(m), template)
  }

  /** Reference reading of the loop: a column receives the source column of
      the last mapping entry that names it, if any. */
  function Source(labels: seq<Value>, m: Entries, t: Value): (r: Option<nat>)
    ensures r.Some? ==> r.value < |labels|
    decreases |m|
  {
    if |m| == 0 then None
    else if t in TargetsOf(m[|m| - 1].1) then
      match LabelIndex(labels, m[|m| - 1].0)
      case Ok(j) => Some(j)
      case Err(_) => None
    else Source(labels, m[..|m| - 1], t)
  }

  /** Reference reading of the metadata: a source's cell holds the text of
      the last mapping entry for it, if any. */
  function LastText(m: Entries, k: Value): Option<string>
    decreases |m|
  {
    if |m| == 0 then None
    else if m[|m| - 1].0 == k then Some(MetadataText(m[|m| - 1].1))
    else LastText(m[..|m| - 1], k)
  }

  /** The frame under construction: its labels, where each column's cells
      come from (a source column, or nowhere, giving NaN), and whether any
      column was assigned yet (the first assignment gives the empty frame
      the source's rows). */
  datatype Build = Build(labels: seq<Value>, src: seq<Option<nat>>, filled: bool)

  /** `result[t] = df[from_]`: every column labelled `t` takes source column
      `j`; a label the frame lacks is added at the end. */
  function Put(b: Build, t: Value, j: nat): (r: Build)
    requires |b.labels| == |b.src|
    ensures |r.labels| == |r.src| && r.filled
    ensures r.labels == if t in b.labels then b.labels else b.labels + [t]
    ensures forall k :: 0 <= k < |r.labels| ==> r.src[k] == if r.labels[k] == t then Some(j) else b.src[k]
  {
    if t in b.labels then
      Build(b.labels, seq(|b.src|, k requires 0 <= k < |b.src| && |b.labels| == |b.src| =>
        if b.labels[k] == t then Some(j) else b.src[k]), true)
    else Build(b.labels + [t], b.src + [Some(j)], true)
  }

  /** What the inner loop leaves: the targets not yet labels appended in
      order of first appearance, every column labelled with a target taking
      source column `j`, the others untouched. */
  predicate PutDone(b: Build, ts: seq<Value>, j: nat, r: Build)
    requires |b.labels| == |b.src|
  {
    |r.labels| == |r.src| &&
    r.labels == b.labels + Guides.FirstAppearances(ts, b.labels) &&
    r.filled == (b.filled || ts != []) &&
    (forall k :: 0 <= k < |b.labels| ==> r.src[k] == if b.labels[k] in ts then Some(j) else b.src[k]) &&
    (forall k :: |b.labels| <= k < |r.labels| ==> r.src[k] == Some(j))
  }

  /** The inner loop over the targets of one entry. */
  function PutAll(b: Build, ts: seq<Value>, j: nat): (r: Build)
    requires |b.labels| == |b.src|
    ensures PutDone(b, ts, j, r)
    decreases |ts|
  {
    if |ts| == 0 then b
    else
      var r := PutAll(Put(b, ts[0], j), ts[1..], j);
      PutAllStep(b, ts, j, r);
      r
  }

  /** One target, then the rest. */
  lemma PutAllStep(b: Build, ts: seq<Value>, j: nat, r: Build)
    requires |b.labels| == |b.src| && |ts| > 0
    requires PutDone(Put(b, ts[0], j), ts[1..], j, r)
    ensures PutDone(b, ts, j, r)
  {
    var b1 := Put(b, ts[0], j);
    assert r.labels == b.labels + Guides.FirstAppearances(ts, b.labels) by {
      PutAllLabels(b, b1, ts);
    }
    forall k | 0 <= k < |b.labels| ensures r.src[k] == if b.labels[k] in ts then Some(j) else b.src[k] {
      assert b1.labels[k] == b.labels[k];
      assert b.labels[k] in ts <==> b.labels[k] == ts[0] || b.labels[k] in ts[1..] by {
        assert ts == [ts[0]] + ts[1..];
      }
    }
    forall k | |b.labels| <= k < |r.labels| ensures r.src[k] == Some(j) {
      if k < |b1.labels| {
        assert b1.labels[k] == ts[0];
      }
    }
  }

  lemma {:induction false} PutAllLabels(b: Build, b1: Build, ts: seq<Value>)
    requires |ts| > 0 && b1.labels == if ts[0] in b.labels then b.labels else b.labels + [ts[0]]
    ensures b1.labels + Guides.FirstAppearances(ts[1..], b1.labels) == b.labels + Guides.FirstAppearances(ts, b.labels)
  {
    if ts[0] !in b.labels {
      var x := Guides.FirstAppearances(ts[1..], b1.labels);
      assert Guides.FirstAppearances(ts, b.labels) == [ts[0]] + x;
      assert b1.labels + x == b.labels + ([ts[0]] + x);
    } else {
      assert Guides.FirstAppearances(ts, b.labels) == Guides.FirstAppearances(ts[1..], b.labels);
    }
  }

  /** `md[k] = v` on the one-row metadata frame: every column labelled `k`
      is set, and a label it lacks is added at the end. */
  function MdSet(md: Entries, k: Value, v: Value): (r: Entries)
    ensures k in Keys(md) ==> |r| == |md| && forall i :: 0 <= i < |md| ==> r[i] == if md[i].0 == k then (k, v) else md[i]
    ensures k !in Keys(md) ==> r == md + [(k, v)]
  {
    if k in Keys(md) then seq(|md|, i requires 0 <= i < |md| => if md[i].0 == k then (k, v) else md[i])
    else md + [(k, v)]
  }

  /** `pd.DataFrame(df.count()).T`: each column's non-null count. */
  function InitialMd(f: Frame): (md: Entries)
    requires Rectangular(f)
    ensures Keys(md) == f.labels
    ensures forall j :: 0 <= j < |f.labels| ==> md[j].1 == Int(NonNullCount(Column(f, j)))
  {
    seq(|f.labels|, j requires 0 <= j < |f.labels| && Rectangular(f) => (f.labels[j], Int(NonNullCount(Column(f, j)))))
  }

  /** One pass of the mapping loop. */
  function Step(f: Frame, b: Build, md: Entries, e: (Value, Value)): (r: Result<(Build, Entries)>)
    requires |b.labels| == |b.src|
    ensures r.Ok? <==> EntryOk(f.labels, e)
    ensures r.Err? ==> r.error in {TypeError, KeyError, Unmodelled}
    ensures r.Ok? ==>
      r.value.0 == (if TargetsOf(e.1) == [] then b else PutAll(b, TargetsOf(e.1), LabelIndex(f.labels, e.0).value)) &&
      r.value.1 == MdSet(md, e.0, Str(MetadataText(e.1)))
  {
    var ts :- Targets(e.1);
    if ts == [] then Ok((b, MdSet(md, e.0, Str(""))))
    else
      var j :- LabelIndex(f.labels, e.0);
      var texts :- TargetTexts(ts);
      Ok((PutAll(b, ts, j), MdSet(md, e.0, Str(Join(texts, ",")))))
  }

  /** The state after the mapping's first |m| entries. */
  predicate Reached(f: Frame, template: seq<Value>, m: Entries, b: Build, md: Entries)
    requires Rectangular(f)
  {
    BuildReached(f, template, m, b) && MdReached(f, m, md)
  }

  /** The frame under construction after the mapping's first |m| entries. */
  predicate BuildReached(f: Frame, template: seq<Value>, m: Entries, b: Build) {
    |b.labels| == |b.src| &&
    b.labels == PreLabels(template, m) &&
    (forall k :: 0 <= k < |b.labels| ==> b.src[k] == Source(f.labels, m, b.labels[k])) &&
    b.filled == (Flat(m) != [])
  }

  /** The metadata row after the mapping's first |m| entries. */
  predicate MdReached(f: Frame, m: Entries, md: Entries)
    requires Rectangular(f)
  {
    |md| >= |f.labels| &&
    (forall j :: 0 <= j < |f.labels| ==> md[j].0 == f.labels[j] && md[j].1 == MdCell(f, m, j)) &&
    (forall k :: |f.labels| <= k < |md| ==> md[k].0 !in f.labels && md[k].1 == Str("")) &&
    ((forall e :: 0 <= e < |m| ==> m[e].0 in f.labels) ==> |md| == |f.labels|)
  }

  /** Reference reading of a metadata cell: a mapped source's text, else the
      column's non-null count. */
  function MdCell(f: Frame, m: Entries, j: nat): Value
    requires Rectangular(f) && j < |f.labels|
  {
    match LastText(m, f.labels[j])
    case Some(text) => Str(text)
    case None => Int(NonNullCount(Column(f, j)))
  }

  /** The mapping loop, entry by entry. */
  function Process(f: Frame, template: seq<Value>, m: Entries): (r: Result<(Build, Entries)>)
    requires Rectangular(f)
    ensures r.Ok? <==> AllEntriesOk(f.labels, m)
    ensures r.Err? ==> r.error in {TypeError, KeyError, Unmodelled}
    ensures r.Ok? ==> Reached(f, template, m, r.value.0, r.value.1)
    decreases |m|
  {
    if |m| == 0 then
      var b := Build(template, seq(|template|, _ => None), false);
      var md := InitialMd(f);
      assert Guides.FirstAppearances([], template) == [];
      assert template + [] == template;
      assert BuildReached(f, template, m, b);
      Ok((b, md))
    else
      var n := |m| - 1;
      AllEntriesOkStep(f.labels, m);
      var st :- Process(f, template, m[..n]);
      var r := Step(f, st.0, st.1, m[n]);
      if r.Err? then r
      else
        StepReached(f, template, m, st.0, st.1);
        r
  }

  lemma {:induction false} AllEntriesOkStep(labels: seq<Value>, m: Entries)
    requires |m| > 0
    ensures AllEntriesOk(labels, m) <==> AllEntriesOk(labels, m[..|m| - 1]) && EntryOk(labels, m[|m| - 1])
  {
    var p := m[..|m| - 1];
    assert forall e :: 0 <= e < |p| ==> p[e] == m[e];
  }

  /** One step of the loop keeps the state in line with the reference
      reading. */
  lemma {:induction false} StepReached(f: Frame, template: seq<Value>, m: Entries, b: Build, md: Entries)
    requires Rectangular(f) && |m| > 0
    requires Reached(f, template, m[..|m| - 1], b, md)
    requires Step(f, b, md, m[|m| - 1]).Ok?
    ensures var r := Step(f, b, md, m[|m| - 1]).value; Reached(f, template, m, r.0, r.1)
  {
    var n := |m| - 1;
    var e := m[n];
    var r := Step(f, b, md, e).value;
    assert BuildReached(f, template, m, r.0) by {
      assert Flat(m) == Flat(m[..n]) + TargetsOf(e.1);
      LabelsStep(template, m);
      SourceStep(f, m, b, r.0);
    }
    assert MdReached(f, m, r.1) by {
      MdStep(f, m, md, r.1);
    }
  }

  lemma {:induction false} LabelsStep(template: seq<Value>, m: Entries)
    requires |m| > 0
    ensures PreLabels(template, m) ==
      PreLabels(template, m[..|m| - 1]) +
      Guides.FirstAppearances(TargetsOf(m[|m| - 1].1), PreLabels(template, m[..|m| - 1]))
  {
    var n := |m| - 1;
    var t := TargetsOf(m[n].1);
    var x := Guides.FirstAppearances(Flat(m[..n]), template);
    var y := Guides.FirstAppearances(t, template + x);
    assert Flat(m) == Flat(m[..n]) + t;
    calc {
      PreLabels(template, m);
      template + Guides.FirstAppearances(Flat(m[..n]) + t, template);
      { FirstAppearancesAppend(Flat(m[..n]), t, template); }
      template + (x + y);
      { Seqs.AppendAssoc(template, x, y); }
      (template + x) + y;
    }
  }

  lemma {:induction false} SourceStep(f: Frame, m: Entries, b: Build, b': Build)
    requires Rectangular(f) && |m| > 0 && |b.labels| == |b.src|
    requires forall k :: 0 <= k < |b.labels| ==> b.src[k] == Source(f.labels, m[..|m| - 1], b.labels[k])
    requires EntryOk(f.labels, m[|m| - 1])
    requires TargetsOf(m[|m| - 1].1) == [] ==> b' == b
    requires TargetsOf(m[|m| - 1].1) != [] ==>
      b' == PutAll(b, TargetsOf(m[|m| - 1].1), LabelIndex(f.labels, m[|m| - 1].0).value)
    ensures |b'.labels| == |b'.src|
    ensures forall k :: 0 <= k < |b'.labels| ==> b'.src[k] == Source(f.labels, m, b'.labels[k])
  {
    var n := |m| - 1;
    var ts := TargetsOf(m[n].1);
    if ts != [] {
      var j := LabelIndex(f.labels, m[n].0).value;
      forall k | 0 <= k < |b'.labels| ensures b'.src[k] == Source(f.labels, m, b'.labels[k]) {
        var t := b'.labels[k];
        assert Source(f.labels, m, t) == if t in ts then Some(j) else Source(f.labels, m[..n], t);
        if k >= |b.labels| {
          assert t in Guides.FirstAppearances(ts, b.labels);
        }
      }
    }
  }

  lemma {:induction false} MdStep(f: Frame, m: Entries, md: Entries, md': Entries)
    requires Rectangular(f) && |m| > 0
    requires MdReached(f, m[..|m| - 1], md)
    requires EntryOk(f.labels, m[|m| - 1])
    requires md' == MdSet(md, m[|m| - 1].0, Str(MetadataText(m[|m| - 1].1)))
    ensures MdReached(f, m, md')
  {
    var n := |m| - 1;
    assert forall e :: 0 <= e < n ==> m[..n][e] == m[e];
    var key := m[n].0;
    var ts := TargetsOf(m[n].1);
    if key !in f.labels {
      assert ts == [];
      assert MetadataText(m[n].1) == "";
    }
    if forall e :: 0 <= e < |m| ==> m[e].0 in f.labels {
      assert key in Keys(md) by {
        assert md[FirstIndex(f.labels, key)].0 == key;
      }
    }
  }

  /** First appearances in a concatenation: those of the first part, then
      those of the second part not yet seen. */
  lemma {:induction false} FirstAppearancesAppend(a: seq<Value>, c: seq<Value>, seen: seq<Value>)
    ensures Guides.FirstAppearances(a + c, seen) ==
      Guides.FirstAppearances(a, seen) + Guides.FirstAppearances(c, seen + Guides.FirstAppearances(a, seen))
    decreases |a|
  {
    if |a| == 0 {
      assert a + c == c;
      assert seen + [] == seen;
    } else {
      assert (a + c)[0] == a[0] && (a + c)[1..] == a[1..] + c;
      if a[0] in seen {
        FirstAppearancesAppend(a[1..], c, seen);
        assert Guides.FirstAppearances(a + c, seen) == Guides.FirstAppearances(a[1..] + c, seen);
        assert Guides.FirstAppearances(a, seen) == Guides.FirstAppearances(a[1..], seen);
      } else {
        var seen' := seen + [a[0]];
        FirstAppearancesAppend(a[1..], c, seen');
        var x := Guides.FirstAppearances(a[1..], seen');
        calc {
          Guides.FirstAppearances(a + c, seen);
          [a[0]] + Guides.FirstAppearances(a[1..] + c, seen');
          [a[0]] + (x + Guides.FirstAppearances(c, seen' + x));
          { assert seen' + x == seen + ([a[0]] + x); }
          ([a[0]] + x) + Guides.FirstAppearances(c, seen + ([a[0]] + x));
          { assert Guides.FirstAppearances(a, seen) == [a[0]] + x; }
          Guides.FirstAppearances(a, seen) + Guides.FirstAppearances(c, seen + Guides.FirstAppearances(a, seen));
        }
      }
    }
  }

  /** What `reformat_df` returns: the reformatted frame and its metadata
      dict, whose `metadata` row and `orig_header` are kept apart. */
  datatype Reformatted = Reformatted(frame: Frame, metadata: Entries, origHeader: seq<Value>)

  /** One cell of the reformatted frame: the cell of the source column the
      label was last mapped from, or NaN. */
  function Cell(f: Frame, m: Entries, t: Value, i: nat): Value
    requires Rectangular(f) && i < |f.rows|
  {
    match Source(f.labels, m, t)
    case Some(j) => f.rows[i][j]
    case None => Nan
  }

  /** `reformat_df(df, template, mapping)`, with the header standardiser
      (`standardize_header`, not part of this model) as the parameter
      `standardize`. The result starts as an empty frame with the template's
      columns; each mapping entry copies its source column into every
      column it names (adding the ones the template lacks), and the last
      entry naming a column wins; columns nobody names are NaN. The result
      has the source's rows once some column was assigned, and none
      otherwise. The metadata row holds, for each source column, the text
      of its mapping entry (the target, or the targets joined by commas) or
      its non-null count if unmapped. */
  function ReformatDf(f: Frame, template: seq<Value>, m: Entries, standardize: seq<Value> -> seq<Value>)
    : (r: Result<Reformatted>)
    requires Rectangular(f)
    ensures r.Ok? <==>
      AllEntriesOk(f.labels, m) && |standardize(PreLabels(template, m))| == |PreLabels(template, m)|
    ensures r.Err? ==> r.error in {TypeError, KeyError, ValueError, Unmodelled}
    ensures r.Ok? ==>
      var g := r.value.frame;
      var pre := PreLabels(template, m);
      g.labels == standardize(pre) && Rectangular(g) &&
      |g.rows| == (if Flat(m) == [] then 0 else |f.rows|) &&
      (forall i, k :: 0 <= i < |g.rows| && 0 <= k < |pre| ==> g.rows[i][k] == Cell(f, m, pre[k], i))
    ensures r.Ok? ==>
      var md := r.value.metadata;
      |md| >= |f.labels| &&
      (forall j :: 0 <= j < |f.labels| ==> md[j].0 == f.labels[j] && md[j].1 == MdCell(f, m, j)) &&
      (forall k :: |f.labels| <= k < |md| ==> md[k].0 !in f.labels && md[k].1 == Str("")) &&
      ((forall e :: 0 <= e < |m| ==> m[e].0 in f.labels) ==> |md| == |f.labels|)
    ensures r.Ok? ==> r.value.origHeader == template
  {
    var st :- Process(f, template, m);
    var b := st.0;
    var labels := standardize(b.labels);
    if |labels| != |b.labels| then Err(ValueError)
    else
      var rows := if !b.filled then [] else Rows(f, b);
      Ok(Reformatted(Frame(labels, rows), st.1, template))
  }

  /** The source column positions a build refers to exist. */
  predicate InFrame(f: Frame, b: Build) {
    |b.labels| == |b.src| && forall k :: 0 <= k < |b.src| && b.src[k].Some? ==> b.src[k].value < |f.labels|
  }

  /** The rows of the result once some column has been assigned: every
      source row, read through the build's column sources. */
  function Rows(f: Frame, b: Build): (rows: seq<seq<Value>>)
    requires Rectangular(f) && InFrame(f, b)
    ensures |rows| == |f.rows|
    ensures forall i :: 0 <= i < |rows| ==> |rows[i]| == |b.labels|
    ensures forall i, k :: 0 <= i < |rows| && 0 <= k < |b.labels| ==>
      rows[i][k] == match b.src[k] case Some(j) => f.rows[i][j] case None => Nan
  {
    seq(|f.rows|, i requires 0 <= i < |f.rows| && Rectangular(f) && InFrame(f, b) =>
      seq(|b.labels|, k requires 0 <= k < |b.labels| && Rectangular(f) && InFrame(f, b) =>
        match b.src[k] case Some(j) => f.rows[i][j] case None => Nan))
  }

  /** The last entry naming a column decides its source. */
  lemma {:induction false} SourceLast(labels: seq<Value>, m: Entries, e: nat, t: Value)
    requires e < |m| && t in TargetsOf(m[e].1) && LabelIndex(labels, m[e].0).Ok?
    requires forall e' :: e < e' < |m| ==> t !in TargetsOf(m[e'].1)
    ensures Source(labels, m, t) == Some(LabelIndex(labels, m[e].0).value)
    decreases |m|
  {
    if e < |m| - 1 {
      var p := m[..|m| - 1];
      assert forall e' :: e < e' < |p| ==> p[e'] == m[e'];
      SourceLast(labels, p, e, t);
    }
  }

  /** No entry names the column: it is left NaN. */
  lemma {:induction false} SourceNone(labels: seq<Value>, m: Entries, t: Value)
    requires t !in Flat(m)
    ensures Source(labels, m, t) == None
    decreases |m|
  {
    if |m| > 0 {
      SourceNone(labels, m[..|m| - 1], t);
    }
  }

  /** A mapping entry copies its source column into each column it names,
      unless a later entry names that column too: for a string value, its
      one target; for a tuple or list, every element. */
  lemma MappedColumnCopied(f: Frame, template: seq<Value>, m: Entries, standardize: seq<Value> -> seq<Value>,
                           e: nat, k: nat)
    requires Rectangular(f)
    requires ReformatDf(f, template, m, standardize).Ok?
    requires e < |m| && k < |PreLabels(template, m)| && PreLabels(template, m)[k] in TargetsOf(m[e].1)
    requires forall e' :: e < e' < |m| ==> PreLabels(template, m)[k] !in TargetsOf(m[e'].1)
    ensures var g := ReformatDf(f, template, m, standardize).value.frame;
      m[e].0 in f.labels && k < |g.labels| &&
      Column(g, k) == Column(f, FirstIndex(f.labels, m[e].0))
  {
    var g := ReformatDf(f, template, m, standardize).value.frame;
    var t := PreLabels(template, m)[k];
    assert EntryOk(f.labels, m[e]);
    SourceLast(f.labels, m, e, t);
    assert Flat(m) != [] by {
      FlatHas(m, e, t);
    }
  }

  /** A target of an entry is among all the targets. */
  lemma {:induction false} FlatHas(m: Entries, e: nat, t: Value)
    requires e < |m| && t in TargetsOf(m[e].1)
    ensures t in Flat(m)
    decreases |m|
  {
    if e < |m| - 1 {
      FlatHas(m[..|m| - 1], e, t);
    }
  }

  /** A column no entry names holds NaN in every row. */
  lemma UnmappedColumnNaN(f: Frame, template: seq<Value>, m: Entries, standardize: seq<Value> -> seq<Value>, k: nat)
    requires Rectangular(f)
    requires ReformatDf(f, template, m, standardize).Ok?
    requires k < |PreLabels(template, m)| && PreLabels(template, m)[k] !in Flat(m)
    ensures var g := ReformatDf(f, template, m, standardize).value.frame;
      k < |g.labels| && forall i :: 0 <= i < |g.rows| ==> g.rows[i][k] == Nan
  {
    SourceNone(f.labels, m, PreLabels(template, m)[k]);
  }

  /** When every target is a template label, the result has exactly the
      template's columns, in order, before standardisation. */
  lemma TemplateColumns(template: seq<Value>, m: Entries)
    requires forall t :: t in Flat(m) ==> t in template
    ensures PreLabels(template, m) == template
  {
    FirstAppearancesWithin(Flat(m), template);
  }

  lemma {:induction false} FirstAppearancesWithin(ks: seq<Value>, seen: seq<Value>)
    requires forall t :: t in ks ==> t in seen
    ensures Guides.FirstAppearances(ks, seen) == []
    decreases |ks|
  {
    if |ks| > 0 {
      assert ks[0] in seen;
      FirstAppearancesWithin(ks[1..], seen);
    }
  }

  /** The metadata cell of a source is the text of the last entry for it. */
  lemma {:induction false} LastTextOf(m: Entries, e: nat)
    requires e < |m| && forall e' :: e < e' < |m| ==> m[e'].0 != m[e].0
    ensures LastText(m, m[e].0) == Some(MetadataText(m[e].1))
    decreases |m|
  {
    if e < |m| - 1 {
      var p := m[..|m| - 1];
      assert forall e' :: e < e' < |p| ==> p[e'] == m[e'];
      LastTextOf(p, e);
    }
  }

  lemma {:induction false} LastTextNone(m: Entries, k: Value)
    requires forall e :: 0 <= e < |m| ==> m[e].0 != k
    ensures LastText(m, k) == None
    decreases |m|
  {
    if |m| > 0 {
      var p := m[..|m| - 1];
      assert forall e :: 0 <= e < |p| ==> p[e] == m[e];
      LastTextNone(p, k);
    }
  }

  /** The metadata of a mapped source is the text of its (last) entry; an
      unmapped source reports its non-null count. */
  lemma MetadataOfSource(f: Frame, template: seq<Value>, m: Entries, standardize: seq<Value> -> seq<Value>, j: nat)
    requires Rectangular(f)
    requires ReformatDf(f, template, m, standardize).Ok? && j < |f.labels|
    ensures var md := ReformatDf(f, template, m, standardize).value.metadata;
      (forall e :: 0 <= e < |m| && m[e].0 == f.labels[j] && (forall e' :: e < e' < |m| ==> m[e'].0 != m[e].0) ==>
        md[j] == (f.labels[j], Str(MetadataText(m[e].1)))) &&
      ((forall e :: 0 <= e < |m| ==> m[e].0 != f.labels[j]) ==>
        md[j] == (f.labels[j], Int(NonNullCount(Column(f, j)))))
  {
    forall e | 0 <= e < |m| && m[e].0 == f.labels[j] && (forall e' :: e < e' < |m| ==> m[e'].0 != m[e].0) {
      LastTextOf(m, e);
    }
    if forall e :: 0 <= e < |m| ==> m[e].0 != f.labels[j] {
      LastTextNone(m, f.labels[j]);
    }
  }

  /** The metadata text of a string target is the target itself; that of a
      tuple or list of strings is the strings joined by commas. */
  lemma MetadataTexts(s: string, ts: seq<string>)
    ensures MetadataText(Str(s)) == s
    ensures MetadataText(Tuple(Strs(ts))) == Join(ts, ",")
    ensures MetadataText(List(Strs(ts))) == Join(ts, ",")
  {
    assert TargetTexts([Str(s)]).value == [s];
    var r := TargetTexts(Strs(ts));
    assert r.Ok?;
    assert Strs(r.value) == Strs(ts);
    StrsInjective(r.value, ts);
  }

  lemma StrsInjective(a: seq<string>, b: seq<string>)
    requires Strs(a) == Strs(b)
    ensures a == b
  {
    assert |a| == |b|;
    forall i | 0 <= i < |a| ensures a[i] == b[i] {
      assert Strs(a)[i] == Str(a[i]);
    }
  }

  // ---------------------------------------------------------------------
  // fill_defaults

  /** `Series.fillna(v)`: a scalar fills (NaN included); `None` raises
      ValueError, a list or tuple TypeError, and a dict fills by index
      label, which the model does not follow. */
  function FillCheck(v: Value): (r: Result<()>)
    ensures r.Ok? <==> !(v.NoneV? || v.Tuple? || v.List? || v.Dict?)
  {
    match v
    case NoneV => Err(ValueError)
    case Tuple(_) => Err(TypeError)
    case List(_) => Err(TypeError)
    case Dict(_) => Err(Unmodelled)
    case _ => Ok(())
  }

  /** `col.fillna(v)`. */
  function FillNulls(col: seq<Value>, v: Value): (r: seq<Value>)
    ensures |r| == |col|
    ensures forall i :: 0 <= i < |col| ==> r[i] == if IsNull(col[i]) then v else col[i]
  {
    seq(|col|, i requires 0 <= i < |col| => if IsNull(col[i]) then v else col[i])
  }

  /** `col.isna().sum()`. */
  function NullCount(col: seq<Value>): (n: nat)
    ensures n == 0 <==> forall i :: 0 <= i < |col| ==> !IsNull(col[i])
  {
    NonNullCountFull(col);
    |col| - NonNullCount(col)
  }

  /** A defaults entry the loop gets through: its key selects one column and
      its value can fill. */
  predicate DefaultOk(labels: seq<Value>, d: (Value, Value)) {
    LabelIndex(labels, d.0).Ok? && FillCheck(d.1).Ok?
  }

  predicate AllDefaultsOk(labels: seq<Value>, d: Entries) {
    forall e :: 0 <= e < |d| ==> DefaultOk(labels, d[e])
  }

  /** Reference reading of a filled cell: a listed column's null becomes the
      column's default; every other cell stays. */
  function FilledCell(f: Frame, d: Entries, i: nat, j: nat): Value
    requires Rectangular(f) && i < |f.rows| && j < |f.labels|
  {
    match Guides.Lookup(d, f.labels[j])
    case Some(v) => if IsNull(f.rows[i][j]) then v else f.rows[i][j]
    case None => f.rows[i][j]
  }

  /** Reference reading of a metadata cell: a listed column's null count
      before filling, else 0. */
  function NullsReported(f: Frame, d: Entries, j: nat): int
    requires Rectangular(f) && j < |f.labels|
  {
    if Guides.Lookup(d, f.labels[j]).Some? then NullCount(Column(f, j)) else 0
  }

  /** The frame and metadata after the defaults' first |d| entries. */
  predicate Filled(f: Frame, d: Entries, g: Frame, md: seq<(Value, int)>)
    requires Rectangular(f)
  {
    g.labels == f.labels && |g.rows| == |f.rows| && Rectangular(g) &&
    (forall i, j :: 0 <= i < |f.rows| && 0 <= j < |f.labels| ==> g.rows[i][j] == FilledCell(f, d, i, j)) &&
    |md| == |f.labels| &&
    forall j :: 0 <= j < |f.labels| ==> md[j] == (f.labels[j], NullsReported(f, d, j))
  }

  /** The defaults loop, entry by entry. */
  function FillAll(f: Frame, d: Entries): (r: Result<(Frame, seq<(Value, int)>)>)
    requires Rectangular(f) && Guides.DistinctKeys(d)
    ensures r.Ok? <==> AllDefaultsOk(f.labels, d)
    ensures r.Err? ==> r.error in {ValueError, TypeError, KeyError, Unmodelled}
    ensures r.Ok? ==> r.value.0.labels == f.labels && |r.value.0.rows| == |f.rows| && Rectangular(r.value.0)
    decreases |d|
  {
    if |d| == 0 then
      Ok((f, seq(|f.labels|, j requires 0 <= j < |f.labels| => (f.labels[j], 0))))
    else
      var n := |d| - 1;
      var p := d[..n];
      DefaultsOkStep(f.labels, d);
      assert Guides.DistinctKeys(p) by {
        assert forall e :: 0 <= e < n ==> p[e] == d[e];
      }
      var st :- FillAll(f, p);
      FillOne(st.0, st.1, d[n])
  }

  /** After the loop the frame and metadata are the reference reading. */
  lemma {:induction false} FillAllFilled(f: Frame, d: Entries)
    requires Rectangular(f) && Guides.DistinctKeys(d) && FillAll(f, d).Ok?
    ensures Filled(f, d, FillAll(f, d).value.0, FillAll(f, d).value.1)
    decreases |d|
  {
    if |d| == 0 {
      FillNothing(f, d, FillAll(f, d).value.1);
    } else {
      var n := |d| - 1;
      var p := d[..n];
      assert Guides.DistinctKeys(p) by {
        assert forall e :: 0 <= e < n ==> p[e] == d[e];
      }
      var st := FillAll(f, p).value;
      FillAllFilled(f, p);
      var j := LabelIndex(f.labels, d[n].0).value;
      assert FillAll(f, d).value == (SetColumn(st.0, j, FillNulls(Column(st.0, j), d[n].1)),
        Assign(st.1, d[n].0, NullCount(Column(st.0, j))));
      FillStep(f, d, st.0, st.1, j);
    }
  }

  /** Before any default: every cell as it was, every count 0. */
  lemma FillNothing(f: Frame, d: Entries, md: seq<(Value, int)>)
    requires Rectangular(f) && d == []
    requires md == seq(|f.labels|, j requires 0 <= j < |f.labels| => (f.labels[j], 0))
    ensures Filled(f, d, f, md)
  {
  }

  /** One pass of the defaults loop: `md[k] = df[k].isna().sum()`, then
      `df[k] = df[k].fillna(v)`. */
  function FillOne(g: Frame, md: seq<(Value, int)>, e: (Value, Value)): (r: Result<(Frame, seq<(Value, int)>)>)
    requires Rectangular(g)
    ensures r.Ok? <==> DefaultOk(g.labels, e)
    ensures r.Err? ==> r.error in {ValueError, TypeError, KeyError, Unmodelled}
    ensures r.Ok? ==> var j := LabelIndex(g.labels, e.0).value;
      r.value == (SetColumn(g, j, FillNulls(Column(g, j), e.1)), Assign(md, e.0, NullCount(Column(g, j))))
  {
    var j :- LabelIndex(g.labels, e.0);
    var md' := Assign(md, e.0, NullCount(Column(g, j)));
    var _ :- FillCheck(e.1);
    Ok((SetColumn(g, j, FillNulls(Column(g, j), e.1)), md'))
  }

  lemma {:induction false} DefaultsOkStep(labels: seq<Value>, d: Entries)
    requires |d| > 0
    ensures AllDefaultsOk(labels, d) <==> AllDefaultsOk(labels, d[..|d| - 1]) && DefaultOk(labels, d[|d| - 1])
  {
    var p := d[..|d| - 1];
    assert forall e :: 0 <= e < |p| ==> p[e] == d[e];
  }

  /** One step of the defaults loop keeps the frame and metadata in line
      with the reference reading. */
  lemma {:induction false} FillStep(f: Frame, d: Entries, g: Frame, md: seq<(Value, int)>, j: nat)
    requires Rectangular(f) && Guides.DistinctKeys(d) && |d| > 0
    requires Filled(f, d[..|d| - 1], g, md)
    requires LabelIndex(f.labels, d[|d| - 1].0) == Ok(j)
    ensures var n := |d| - 1;
      Filled(f, d, SetColumn(g, j, FillNulls(Column(g, j), d[n].1)),
        Assign(md, d[n].0, NullCount(Column(g, j))))
  {
    FillLookups(f, d, j);
    FillStepFrame(f, d, g, md, j);
    FillStepMd(f, d, g, md, j);
  }

  /** After one more default, the filled column looks up that default and
      every other column looks up what it did before. */
  lemma {:induction false} FillLookups(f: Frame, d: Entries, j: nat)
    requires Rectangular(f) && Guides.DistinctKeys(d) && |d| > 0
    requires LabelIndex(f.labels, d[|d| - 1].0) == Ok(j)
    ensures j < |f.labels|
    ensures Guides.Lookup(d, f.labels[j]) == Some(d[|d| - 1].1)
    ensures Guides.Lookup(d[..|d| - 1], f.labels[j]).None?
    ensures forall j' :: 0 <= j' < |f.labels| && j' != j ==>
      Guides.Lookup(d, f.labels[j']) == Guides.Lookup(d[..|d| - 1], f.labels[j'])
  {
    var n := |d| - 1;
    var p := d[..n];
    var k := d[n].0;
    assert forall e :: 0 <= e < |p| ==> p[e] == d[e];
    LookupSnoc(d);
    assert Guides.Lookup(p, k).None? by {
      forall e | 0 <= e < |p| ensures p[e].0 != k {
        assert d[e].0 != d[n].0;
      }
    }
    forall j' | 0 <= j' < |f.labels| && j' != j ensures f.labels[j'] != k {
      OnlyPosition(f.labels, k, j, j');
    }
  }

  /** The frame half of `FillStep`. */
  lemma {:induction false} FillStepFrame(f: Frame, d: Entries, g: Frame, md: seq<(Value, int)>, j: nat)
    requires Rectangular(f) && Guides.DistinctKeys(d) && |d| > 0
    requires Filled(f, d[..|d| - 1], g, md)
    requires j < |f.labels| && Guides.Lookup(d, f.labels[j]) == Some(d[|d| - 1].1)
    requires Guides.Lookup(d[..|d| - 1], f.labels[j]).None?
    requires forall j' :: 0 <= j' < |f.labels| && j' != j ==>
      Guides.Lookup(d, f.labels[j']) == Guides.Lookup(d[..|d| - 1], f.labels[j'])
    ensures var h := SetColumn(g, j, FillNulls(Column(g, j), d[|d| - 1].1));
      h.labels == f.labels && |h.rows| == |f.rows| && Rectangular(h) &&
      forall i, j' :: 0 <= i < |f.rows| && 0 <= j' < |f.labels| ==> h.rows[i][j'] == FilledCell(f, d, i, j')
  {
    var n := |d| - 1;
    assert Column(g, j) == Column(f, j);
    var h := SetColumn(g, j, FillNulls(Column(g, j), d[n].1));
    forall i, j' | 0 <= i < |f.rows| && 0 <= j' < |f.labels| ensures h.rows[i][j'] == FilledCell(f, d, i, j') {
      if j' == j {
        assert Column(g, j)[i] == f.rows[i][j];
      }
    }
  }

  /** The metadata half of `FillStep`. */
  lemma {:induction false} FillStepMd(f: Frame, d: Entries, g: Frame, md: seq<(Value, int)>, j: nat)
    requires Rectangular(f) && Guides.DistinctKeys(d) && |d| > 0
    requires Filled(f, d[..|d| - 1], g, md)
    requires LabelIndex(f.labels, d[|d| - 1].0) == Ok(j)
    requires j < |f.labels| && Guides.Lookup(d, f.labels[j]) == Some(d[|d| - 1].1)
    requires Guides.Lookup(d[..|d| - 1], f.labels[j]).None?
    requires forall j' :: 0 <= j' < |f.labels| && j' != j ==>
      Guides.Lookup(d, f.labels[j']) == Guides.Lookup(d[..|d| - 1], f.labels[j'])
    ensures var md' := Assign(md, d[|d| - 1].0, NullCount(Column(g, j)));
      |md'| == |f.labels| &&
      forall j' :: 0 <= j' < |f.labels| ==> md'[j'] == (f.labels[j'], NullsReported(f, d, j'))
  {
    var n := |d| - 1;
    var k := d[n].0;
    assert Column(g, j) == Column(f, j);
    forall j' | 0 <= j' < |f.labels| && j' != j ensures f.labels[j'] != k {
      OnlyPosition(f.labels, k, j, j');
    }
  }


  /** Looking up in a dict extended by one entry. */
  lemma {:induction false} LookupSnoc(d: Entries)
    requires |d| > 0
    ensures forall k :: Guides.Lookup(d[..|d| - 1], k).Some? ==> Guides.Lookup(d, k) == Guides.Lookup(d[..|d| - 1], k)
    ensures forall k :: Guides.Lookup(d[..|d| - 1], k).None? ==>
      Guides.Lookup(d, k) == (if d[|d| - 1].0 == k then Some(d[|d| - 1].1) else None)
    decreases |d|
  {
    if |d| > 1 {
      LookupSnoc(d[1..]);
      assert d[1..][..|d[1..]| - 1] == d[..|d| - 1][1..];
    }
  }

  /** `fill_defaults(df, defaults_mapping)`: each listed column's nulls take
      the column's default, every other cell is kept, and the metadata row
      holds each listed column's null count before filling and 0 for the
      other columns (`gen_empty_md_df`, tamer/metadata.py:29). A key that
      selects no column raises KeyError; a `None` default ValueError. The
      keys are distinct, as a dict's are. */
  function FillDefaults(f: Frame, d: Entries): (r: Result<(Frame, seq<(Value, int)>)>)
    requires Rectangular(f) && Guides.DistinctKeys(d)
    ensures r.Ok? <==> forall e :: 0 <= e < |d| ==> LabelIndex(f.labels, d[e].0).Ok? && FillCheck(d[e].1).Ok?
    ensures (exists e :: 0 <= e < |d| && d[e].0 !in f.labels) ==> r.Err?
    ensures r.Err? ==> r.error in {ValueError, TypeError, KeyError, Unmodelled}
    ensures r.Ok? ==>
      var g := r.value.0;
      g.labels == f.labels && |g.rows| == |f.rows| && Rectangular(g) &&
      forall i, j :: 0 <= i < |f.rows| && 0 <= j < |f.labels| ==> g.rows[i][j] == FilledCell(f, d, i, j)
    ensures r.Ok? ==>
      |r.value.1| == |f.labels| &&
      forall j :: 0 <= j < |f.labels| ==> r.value.1[j] == (f.labels[j], NullsReported(f, d, j))
  {
    var r := FillAll(f, d);
    if r.Ok? then
      FillAllFilled(f, d);
      r
    else r
  }

  /** A listed column with a non-null default has no null left. */
  lemma FillDefaultsNoNulls(f: Frame, d: Entries, j: nat)
    requires Rectangular(f) && Guides.DistinctKeys(d) && FillDefaults(f, d).Ok? && j < |f.labels|
    requires Guides.Lookup(d, f.labels[j]).Some? && !IsNull(Guides.Lookup(d, f.labels[j]).value)
    ensures var g := FillDefaults(f, d).value.0;
      NullCount(Column(g, j)) == 0
  {
  }

  /** Filling again with non-null defaults changes nothing and reports no
      nulls. */
  lemma FillDefaultsIdempotent(f: Frame, d: Entries)
    requires Rectangular(f) && Guides.DistinctKeys(d) && FillDefaults(f, d).Ok?
    requires forall e :: 0 <= e < |d| ==> !IsNull(d[e].1)
    ensures var g := FillDefaults(f, d).value.0;
      var again := FillDefaults(g, d);
      again.Ok? && again.value.0 == g &&
      forall j :: 0 <= j < |f.labels| ==> again.value.1[j].1 == 0
  {
    var g := FillDefaults(f, d).value.0;
    forall j | 0 <= j < |f.labels| && Guides.Lookup(d, f.labels[j]).Some?
      ensures NullCount(Column(g, j)) == 0
    {
      var e :| 0 <= e < |d| && d[e] == (f.labels[j], Guides.Lookup(d, f.labels[j]).value);
      FillDefaultsNoNulls(f, d, j);
    }
    NothingToFill(g, d);
  }

  /** A frame whose listed columns hold no null is its own filling. */
  lemma NothingToFill(g: Frame, d: Entries)
    requires Rectangular(g) && Guides.DistinctKeys(d) && FillDefaults(g, d).Ok?
    requires forall j :: 0 <= j < |g.labels| && Guides.Lookup(d, g.labels[j]).Some? ==> NullCount(Column(g, j)) == 0
    ensures FillDefaults(g, d).value.0 == g
    ensures forall j :: 0 <= j < |g.labels| ==> FillDefaults(g, d).value.1[j].1 == 0
  {
    var h := FillDefaults(g, d).value.0;
    forall i | 0 <= i < |g.rows| ensures h.rows[i] == g.rows[i] {
      forall j | 0 <= j < |g.labels| ensures h.rows[i][j] == g.rows[i][j] {
        if Guides.Lookup(d, g.labels[j]).Some? {
          assert Column(g, j)[i] == g.rows[i][j];
        }
      }
    }
  }
}

=== FILE: resolutions.dfy ===
/** `complete_clusters` (tamer/resolutions.py): forward-fill of clustered
    columns, reporting how many cells each column gained. */
module Resolutions {
  import opened Wrappers
  import opened Text
  import opened Values
  import opened Frames
  import Seqs

  /** The last non-null cell of `s`, if any: the value a forward fill carries
      past the end of `s`. */
  function LastNonNull(s: seq<Value>): (r: Option<Value>)
    ensures r.Some? ==> r.value in s && !IsNull(r.value)
    ensures r.None? <==> forall i :: 0 <= i < |s| ==> IsNull(s[i])
  {
    if |s| == 0 then None
    else if !IsNull(s[|s| - 1]) then Some(s[|s| - 1])
    else LastNonNull(s[..|s| - 1])
  }

  /** Left-to-right fill carrying the last valid value seen (`last`). */
  function Fill(col: seq<Value>, last: Option<Value>): (r: seq<Value>)
    ensures |r| == |col|
  {
    if |col| == 0 then []
    else if IsNull(col[0]) then [last.GetOr(col[0])] + Fill(col[1..], last)
    else [col[0]] + Fill(col[1..], Some(col[0]))
  }

  /** `Series.fillna(method="ffill")`. */
  function ForwardFill(col: seq<Value>): (r: seq<Value>)
    ensures |r| == |col|
  {
    Fill(col, None)
  }

  /** Position of the first non-null cell, or the length when there is none:
      the cells a forward fill cannot reach lie before it. */
  function LeadingNulls(col: seq<Value>): (k: nat)
    ensures k <= |col|
    ensures forall i :: 0 <= i < k ==> IsNull(col[i])
    ensures k < |col| ==> !IsNull(col[k])
  {
    if |col| == 0 || !IsNull(col[0]) then 0 else 1 + LeadingNulls(col[1..])
  }

  /** Each cell of the filled column is the cell itself when it is not null,
      else the nearest non-null cell above it, else (nothing above) the
      carried value, falling back to the null itself. */
  lemma {:induction false} FillSpec(col: seq<Value>, last: Option<Value>, i: nat)
    requires i < |col|
    ensures Fill(col, last)[i] ==
      if !IsNull(col[i]) then col[i]
      else match LastNonNull(col[..i])
        case Some(v) => v
        case None => last.GetOr(col[i])
    decreases |col|
  {
    if i > 0 {
      var next := if IsNull(col[0]) then last else Some(col[0]);
      FillSpec(col[1..], next, i - 1);
      assert col[1..][i - 1] == col[i];
      LastNonNullFront(col[..i]);
      assert col[..i][1..] == col[1..][..i - 1];
    }
  }

  /** Splitting off the first cell of a non-empty sequence. */
  lemma {:induction false} LastNonNullFront(s: seq<Value>)
    requires |s| > 0
    ensures LastNonNull(s) == match LastNonNull(s[1..])
      case Some(v) => Some(v)
      case None => if IsNull(s[0]) then None else Some(s[0])
    decreases |s|
  {
    if |s| > 1 && IsNull(s[|s| - 1]) {
      LastNonNullFront(s[..|s| - 1]);
      assert s[..|s| - 1][1..] == s[1..][..|s[1..]| - 1];
    }
  }

  /** The forward fill, cell by cell: a non-null cell never changes, a null
      cell becomes the nearest non-null cell above it, and a null with
      nothing above it stays as it is. */
  lemma ForwardFillCell(col: seq<Value>, i: nat)
    requires i < |col|
    ensures !IsNull(col[i]) ==> ForwardFill(col)[i] == col[i]
    ensures IsNull(col[i]) && LastNonNull(col[..i]).Some? ==>
      ForwardFill(col)[i] == LastNonNull(col[..i]).value
    ensures IsNull(col[i]) && LastNonNull(col[..i]).None? ==> ForwardFill(col)[i] == col[i]
  {
    FillSpec(col, None, i);
  }

  /** After a fill carrying a valid value, no cell is null. */
  lemma {:induction false} FillCarriedCount(col: seq<Value>, v: Value)
    requires !IsNull(v)
    ensures NonNullCount(Fill(col, Some(v))) == |col|
    decreases |col|
  {
    if |col| > 0 {
      if IsNull(col[0]) {
        FillCarriedCount(col[1..], v);
      } else {
        FillCarriedCount(col[1..], col[0]);
      }
    }
  }

  /** Exactly the leading nulls survive a forward fill. */
  lemma {:induction false} ForwardFillCount(col: seq<Value>)
    ensures NonNullCount(ForwardFill(col)) == |col| - LeadingNulls(col)
    decreases |col|
  {
    if |col| > 0 {
      if IsNull(col[0]) {
        ForwardFillCount(col[1..]);
      } else {
        FillCarriedCount(col[1..], col[0]);
      }
    }
  }

  /** The number of cells a forward fill supplies: the nulls after the first
      non-null cell. */
  function FillCount(col: seq<Value>): (n: int)
    ensures n == NonNullCount(ForwardFill(col)) - NonNullCount(col)
    ensures n == |col| - LeadingNulls(col) - NonNullCount(col)
    ensures n >= 0
  {
    ForwardFillCount(col);
    LeadingNonNull(col);
    |col| - LeadingNulls(col) - NonNullCount(col)
  }

  /** The non-null cells all lie at or after the first non-null one. */
  lemma {:induction false} LeadingNonNull(col: seq<Value>)
    ensures NonNullCount(col) <= |col| - LeadingNulls(col)
    decreases |col|
  {
    if |col| > 0 && IsNull(col[0]) {
      LeadingNonNull(col[1..]);
    }
  }

  /** Filling with a carried value that is null or valid twice changes
      nothing the second time. */
  lemma {:induction false} FillIdempotent(col: seq<Value>, last: Option<Value>)
    requires last.Some? ==> !IsNull(last.value)
    ensures Fill(Fill(col, last), last) == Fill(col, last)
    decreases |col|
  {
    if |col| > 0 {
      var once := Fill(col, last);
      if IsNull(col[0]) {
        FillIdempotent(col[1..], last);
        assert once[1..] == Fill(col[1..], last);
      } else {
        FillIdempotent(col[1..], Some(col[0]));
        assert once[1..] == Fill(col[1..], Some(col[0]));
      }
    }
  }

  /** A second forward fill supplies nothing. */
  lemma ForwardFillIdempotent(col: seq<Value>)
    ensures ForwardFill(ForwardFill(col)) == ForwardFill(col)
    ensures FillCount(ForwardFill(col)) == 0
  {
    FillIdempotent(col, None);
  }

  /** Where `df[c]` finds column `c`: KeyError when no column carries the
      label; a label carried by several columns selects a sub-frame, which
      the model does not follow. */
  function LabelIndex(labels: seq<Value>, c: Value): (r: Result<nat>)
    ensures r.Ok? <==> Occurrences(labels, c) == 1
    ensures r.Ok? ==> r.value < |labels| && labels[r.value] == c
    ensures Occurrences(labels, c) == 0 ==> r == Err(KeyError)
  {
    if Occurrences(labels, c) == 0 then Err(KeyError)
    else if Occurrences(labels, c) > 1 then Err(Unmodelled)
    else Ok(FirstIndex(labels, c))
  }

  function FirstIndex(labels: seq<Value>, c: Value): (j: nat)
    requires c in labels
    ensures j < |labels| && labels[j] == c && c !in labels[..j]
  {
    if labels[0] == c then 0
    else
      assert c in labels[1..] by {
        var k :| 0 <= k < |labels| && labels[k] == c;
        assert labels[1..][k - 1] == c;
      }
      var j := FirstIndex(labels[1..], c);
      assert labels[..j + 1] == [labels[0]] + labels[1..][..j];
      1 + j
  }

  /** `md_df[c] = v`: assignment to a metadata column sets every column of
      that label. */
  function Assign(md: seq<(Value, int)>, c: Value, v: int): (r: seq<(Value, int)>)
    ensures |r| == |md|
    ensures forall k :: 0 <= k < |md| ==> r[k] == if md[k].0 == c then (c, v) else md[k]
  {
    seq(|md|, k requires 0 <= k < |md| => if md[k].0 == c then (c, v) else md[k])
  }

  /** Every listed label names exactly one column. */
  predicate AllFound(labels: seq<Value>, cs: seq<Value>) {
    forall k :: 0 <= k < |cs| ==> Occurrences(labels, cs[k]) == 1
  }

  /** The first listed label that `df[c]` cannot select, as the error the
      loop stops at. */
  function CheckLabels(labels: seq<Value>, cs: seq<Value>): (r: Result<()>)
    ensures r.Ok? <==> AllFound(labels, cs)
    ensures r.Err? ==> exists k :: 0 <= k < |cs| && LabelIndex(labels, cs[k]) == Err(r.error)
    decreases |cs|
  {
    if |cs| == 0 then Ok(())
    else match LabelIndex(labels, cs[0])
      case Err(e) => Err(e)
      case Ok(_) =>
        var rest := CheckLabels(labels, cs[1..]);
        assert forall k :: 1 <= k < |cs| ==> cs[k] == cs[1..][k - 1];
        if rest.Err? then
          var k :| 0 <= k < |cs[1..]| && LabelIndex(labels, cs[1..][k]) == Err(rest.error);
          assert LabelIndex(labels, cs[k + 1]) == Err(rest.error);
          rest
        else rest
  }

  /** The frame `f` is `f0` with exactly the columns labelled in `done`
      forward-filled. */
  predicate FilledBy(f0: Frame, f: Frame, done: seq<Value>)
    requires Rectangular(f0)
  {
    f.labels == f0.labels && |f.rows| == |f0.rows| && Rectangular(f) &&
    forall j :: 0 <= j < |f0.labels| ==>
      Column(f, j) == if f0.labels[j] in done then ForwardFill(Column(f0, j)) else Column(f0, j)
  }

  /** The count the metadata row shows for label `c` once the labels in
      `done` are processed: the fill count for a label processed once, and 0
      for one processed twice or not at all. */
  function Reported(f0: Frame, done: seq<Value>, c: Value): int
    requires Rectangular(f0)
  {
    if Occurrences(done, c) == 1 && c in f0.labels then FillCount(Column(f0, FirstIndex(f0.labels, c))) else 0
  }

  /** The metadata row after the first `k` listed columns. */
  predicate MetadataAfter(f0: Frame, md: seq<(Value, int)>, cs: seq<Value>, k: nat)
    requires Rectangular(f0) && k <= |cs|
  {
    |md| == |cs| && forall i :: 0 <= i < |cs| ==> md[i] == (cs[i], Reported(f0, cs[..k], cs[i]))
  }

  /** The loop of `complete_clusters`, from the `k`-th listed column on. */
  function Complete(f0: Frame, f: Frame, cs: seq<Value>, k: nat, md: seq<(Value, int)>): (r: (Frame, seq<(Value, int)>))
    requires Rectangular(f0) && AllFound(f0.labels, cs) && k <= |cs|
    requires FilledBy(f0, f, cs[..k]) && MetadataAfter(f0, md, cs, k)
    ensures FilledBy(f0, r.0, cs) && MetadataAfter(f0, r.1, cs, |cs|)
    decreases |cs| - k
  {
    if k == |cs| then
      assert cs[..k] == cs;
      (f, md)
    else
      var j := FirstIndex(f.labels, cs[k]);
      var col := Column(f, j);
      var g := SetColumn(f, j, ForwardFill(col));
      var md' := Assign(md, cs[k], FillCount(col));
      StepFrame(f0, f, cs, k, j);
      StepMetadata(f0, f, md, cs, k, j);
      Complete(f0, g, cs, k + 1, md')
  }

  /** Filling the `k`-th listed column extends the filled set by its label. */
  lemma StepFrame(f0: Frame, f: Frame, cs: seq<Value>, k: nat, j: nat)
    requires Rectangular(f0) && AllFound(f0.labels, cs) && k < |cs|
    requires FilledBy(f0, f, cs[..k]) && j == FirstIndex(f.labels, cs[k])
    ensures FilledBy(f0, SetColumn(f, j, ForwardFill(Column(f, j))), cs[..k + 1])
  {
    var g := SetColumn(f, j, ForwardFill(Column(f, j)));
    Seqs.TakeSnoc(cs, k);
    forall i | 0 <= i < |f0.labels|
      ensures Column(g, i) == if f0.labels[i] in cs[..k + 1] then ForwardFill(Column(f0, i)) else Column(f0, i)
    {
      SetColumnRead(f, j, ForwardFill(Column(f, j)), i);
      if i == j {
        ForwardFillIdempotent(Column(f0, j));
      } else {
        OnlyPosition(f0.labels, cs[k], j, i);
      }
    }
  }

  /** The count recorded for the `k`-th listed column is its fill count the
      first time and 0 afterwards. */
  lemma StepMetadata(f0: Frame, f: Frame, md: seq<(Value, int)>, cs: seq<Value>, k: nat, j: nat)
    requires Rectangular(f0) && AllFound(f0.labels, cs) && k < |cs|
    requires FilledBy(f0, f, cs[..k]) && MetadataAfter(f0, md, cs, k)
    requires j == FirstIndex(f.labels, cs[k])
    ensures MetadataAfter(f0, Assign(md, cs[k], FillCount(Column(f, j))), cs, k + 1)
  {
    StepCount(f0, f, cs[..k], cs[k], j);
    RecordCount(f0, md, cs, k, FillCount(Column(f, j)));
  }

  lemma RecordCount(f0: Frame, md: seq<(Value, int)>, cs: seq<Value>, k: nat, n: int)
    requires Rectangular(f0) && k < |cs| && Occurrences(f0.labels, cs[k]) == 1
    requires MetadataAfter(f0, md, cs, k)
    requires n == if cs[k] in cs[..k] then 0 else FillCount(Column(f0, FirstIndex(f0.labels, cs[k])))
    ensures MetadataAfter(f0, Assign(md, cs[k], n), cs, k + 1)
  {
    var c := cs[k];
    assert cs[..k + 1] == cs[..k] + [c];
    var md' := Assign(md, c, n);
    forall i | 0 <= i < |cs| ensures md'[i] == (cs[i], Reported(f0, cs[..k + 1], cs[i])) {
      ReportedStep(f0, cs[..k], c, cs[i]);
      if cs[i] == c {
        assert md'[i] == (c, n);
      } else {
        assert md'[i] == md[i] == (cs[i], Reported(f0, cs[..k], cs[i]));
      }
    }
  }

  /** A column's fill count is 0 once it has been filled. */
  lemma StepCount(f0: Frame, f: Frame, done: seq<Value>, c: Value, j: nat)
    requires Rectangular(f0) && FilledBy(f0, f, done)
    requires Occurrences(f0.labels, c) == 1 && j == FirstIndex(f0.labels, c)
    ensures FillCount(Column(f, j)) == if c in done then 0 else FillCount(Column(f0, j))
  {
    assert Column(f, j) == if c in done then ForwardFill(Column(f0, j)) else Column(f0, j);
    if c in done {
      ForwardFillIdempotent(Column(f0, j));
    }
  }

  /** Processing one more label changes only that label's count. */
  lemma ReportedStep(f0: Frame, done: seq<Value>, c: Value, x: Value)
    requires Rectangular(f0) && Occurrences(f0.labels, c) == 1
    ensures Reported(f0, done + [c], x) ==
      if x == c then (if c in done then 0 else FillCount(Column(f0, FirstIndex(f0.labels, c))))
      else Reported(f0, done, x)
  {
    OccurrencesAppend(done, [c], x);
    assert Occurrences([c], x) == if x == c then 1 else 0 by {
      assert [c][1..] == [];
    }
  }

  /** A label found by `LabelIndex` sits at no other position. */
  lemma OnlyPosition(labels: seq<Value>, c: Value, j: nat, i: nat)
    requires Occurrences(labels, c) == 1 && j == FirstIndex(labels, c) && i < |labels| && i != j
    ensures labels[i] != c
  {
    if labels[i] == c {
      TwoOccurrences(labels, c, i, j);
    }
  }

  lemma {:induction false} TwoOccurrences(xs: seq<Value>, c: Value, i: nat, j: nat)
    requires i < |xs| && j < |xs| && i != j && xs[i] == c && xs[j] == c
    ensures Occurrences(xs, c) >= 2
    decreases |xs|
  {
    if i > 0 && j > 0 {
      TwoOccurrences(xs[1..], c, i - 1, j - 1);
    } else if i == 0 {
      assert xs[1..][j - 1] == c;
    } else {
      assert xs[1..][i - 1] == c;
    }
  }

  /** `complete_clusters(df, *clustered_columns)`: each listed column is
      forward-filled and every other column kept; the metadata row has one
      entry per listed column, holding the number of cells the fill
      supplied (0 for a column listed twice, whose second fill supplies
      nothing and overwrites the first count). A label that selects no
      column raises KeyError. */
  function CompleteClusters(f: Frame, cs: seq<Value>): (r: Result<(Frame, seq<(Value, int)>)>)
    requires Rectangular(f)
    ensures r.Ok? <==> AllFound(f.labels, cs)
    ensures (exists k :: 0 <= k < |cs| && cs[k] !in f.labels) ==> r.Err?
    ensures r.Ok? ==> FilledBy(f, r.value.0, cs)
    ensures r.Ok? ==> |r.value.1| == |cs| && forall k :: 0 <= k < |cs| ==>
      r.value.1[k] == (cs[k], if Occurrences(cs, cs[k]) == 1 then FillCount(Column(f, FirstIndex(f.labels, cs[k]))) else 0)
  {
    var _ :- CheckLabels(f.labels, cs);
    var md := seq(|cs|, k requires 0 <= k < |cs| => (cs[k], 0));
    assert cs[..0] == [];
    assert FilledBy(f, f, cs[..0]);
    var r := Complete(f, f, cs, 0, md);
    CompleteReported(f, cs, r.1);
    Ok(r)
  }

  lemma CompleteReported(f: Frame, cs: seq<Value>, md: seq<(Value, int)>)
    requires Rectangular(f) && AllFound(f.labels, cs) && MetadataAfter(f, md, cs, |cs|)
    ensures forall k :: 0 <= k < |cs| ==>
      md[k] == (cs[k], if Occurrences(cs, cs[k]) == 1 then FillCount(Column(f, FirstIndex(f.labels, cs[k]))) else 0)
  {
    assert cs[..|cs|] == cs;
  }

  /** Completing a completed frame changes nothing and reports 0 for every
      column. */
  lemma CompleteClustersTwice(f: Frame, cs: seq<Value>)
    requires Rectangular(f) && CompleteClusters(f, cs).Ok?
    ensures var g := CompleteClusters(f, cs).value.0;
      var r := CompleteClusters(g, cs);
      r.Ok? && r.value.0 == g && forall k :: 0 <= k < |cs| ==> r.value.1[k].1 == 0
  {
    var g := CompleteClusters(f, cs).value.0;
    assert FilledBy(f, g, cs);
    var r := CompleteClusters(g, cs);
    assert r.Ok? by {
      assert AllFound(g.labels, cs);
    }
    var h := r.value.0;
    assert FilledBy(g, h, cs);
    RefillSame(f, g, h, cs);
    forall k | 0 <= k < |cs| ensures r.value.1[k].1 == 0 {
      if Occurrences(cs, cs[k]) == 1 {
        var j := FirstIndex(f.labels, cs[k]);
        assert Column(g, j) == ForwardFill(Column(f, j));
        ForwardFillIdempotent(Column(f, j));
      }
    }
  }

  /** Filling the same labels a second time leaves the frame as it is. */
  lemma RefillSame(f: Frame, g: Frame, h: Frame, cs: seq<Value>)
    requires Rectangular(f) && FilledBy(f, g, cs) && FilledBy(g, h, cs)
    ensures h == g
  {
    forall j | 0 <= j < |f.labels| ensures Column(h, j) == Column(g, j) {
      if f.labels[j] in cs {
        ForwardFillIdempotent(Column(f, j));
      }
    }
    FrameByColumns(h, g);
  }

  /** Frames with the same labels, row count and columns are equal. */
  lemma FrameByColumns(a: Frame, b: Frame)
    requires Rectangular(a) && Rectangular(b) && a.labels == b.labels && |a.rows| == |b.rows|
    requires forall j :: 0 <= j < |a.labels| ==> Column(a, j) == Column(b, j)
    ensures a == b
  {
    forall i | 0 <= i < |a.rows| ensures a.rows[i] == b.rows[i] {
      forall j | 0 <= j < |a.labels| ensures a.rows[i][j] == b.rows[i][j] {
        assert Column(a, j)[i] == Column(b, j)[i];
      }
    }
  }
}

=== FILE: schema.dfy ===
/** Column constraints and their evaluation (tamer/schema.py). Python's `==`
    between dynamic values and `re.search` are parameters: `eq(a, b)` is
    `a == b` and `search(pattern, text)` is `re.search(pattern, text)`
    being truthy. */
module Schema {
  import opened Wrappers
  import opened Values

  /** A `Column`: the expected type, an optional label (`name`) and the constraint
      lists. */
  datatype Column = Column(
    name: Option<string>,
    dataType: PyType,
    required: bool,
    unique: bool,
    validValues: seq<Value>,
    invalidValues: seq<Value>,
    validPatterns: seq<string>,
    invalidPatterns: seq<string>)

  /** A list argument: `None` and `[]` are both falsy. */
  function OrEmpty<T>(xs: Option<seq<T>>): (r: seq<T>)
    ensures xs.None? ==> r == []
    ensures xs.Some? ==> r == xs.value
  {
    xs.GetOr([])
  }

  /** Valid constraints and invalid constraints never coexist. */
  predicate Exclusive(c: Column) {
    (|c.validValues| > 0 || |c.validPatterns| > 0) ==> c.invalidValues == [] && c.invalidPatterns == []
  }

  /** `Column(data_type, label, required, unique, valid_values, ...)`:
      omitted lists become empty, and any valid values or patterns clear both
      invalid lists. */
  function NewColumn(
    dataType: PyType, name: Option<string>, required: bool, unique: bool,
    validValues: Option<seq<Value>>, invalidValues: Option<seq<Value>>,
    validPatterns: Option<seq<string>>, invalidPatterns: Option<seq<string>>): (c: Column)
    ensures Exclusive(c)
    ensures c.name == name && c.dataType == dataType && c.required == required && c.unique == unique
    ensures c.validValues == OrEmpty(validValues) && c.validPatterns == OrEmpty(validPatterns)
    ensures OrEmpty(validValues) == [] && OrEmpty(validPatterns) == [] ==>
      c.invalidValues == OrEmpty(invalidValues) && c.invalidPatterns == OrEmpty(invalidPatterns)
  {
    var vv := OrEmpty(validValues);
    var vp := OrEmpty(validPatterns);
    var anyValid := vv != [] || vp != [];
    Column(name, dataType, required, unique, vv,
      if anyValid then [] else OrEmpty(invalidValues),
      vp,
      if anyValid then [] else OrEmpty(invalidPatterns))
  }

  /** The `label` setter: strings only. */
  function SetLabel(c: Column, v: Value): (r: Result<Column>)
    ensures r.Ok? <==> v.Str?
    ensures r.Err? ==> r.error == ValueError
    ensures r.Ok? ==> r.value.name == Some(v.s) && r.value.(name := c.name) == c
  {
    if v.Str? then Ok(c.(name := Some(v.s))) else Err(ValueError)
  }

  /** `isinstance(v, t)`: a bool is also an int. */
  predicate IsInstance(v: Value, t: PyType) {
    TypeOf(v) == t || (t == IntType && v.Bool?)
  }

  /** `x in xs` with `==` given by `eq`. */
  function AnyEqual(xs: seq<Value>, x: Value, eq: (Value, Value) -> bool): (b: bool)
    ensures b <==> exists i :: 0 <= i < |xs| && eq(xs[i], x)
  {
    if |xs| == 0 then false
    else
      assert forall i :: 1 <= i < |xs| ==> xs[i] == xs[1..][i - 1];
      eq(xs[0], x) || AnyEqual(xs[1..], x, eq)
  }

  /** Whether some pattern is found in the text. */
  function AnyMatch(patterns: seq<string>, text: string, search: (string, string) -> bool): (b: bool)
    ensures b <==> exists i :: 0 <= i < |patterns| && search(patterns[i], text)
  {
    if |patterns| == 0 then false
    else
      assert forall i :: 1 <= i < |patterns| ==> patterns[i] == patterns[1..][i - 1];
      search(patterns[0], text) || AnyMatch(patterns[1..], text, search)
  }

  /** The conditions under which a value is acceptable, stated as one
      conjunction; `text` stands for `str(value)`. */
  predicate Acceptable(c: Column, value: Value, text: string,
                       eq: (Value, Value) -> bool, search: (string, string) -> bool) {
    !(IsNull(value) && c.required) &&
    IsInstance(value, c.dataType) &&
    (forall i :: 0 <= i < |c.invalidValues| ==> !eq(c.invalidValues[i], value)) &&
    (forall i :: 0 <= i < |c.invalidPatterns| ==> !search(c.invalidPatterns[i], text)) &&
    (|c.validValues| > 0 ==> exists i :: 0 <= i < |c.validValues| && eq(c.validValues[i], value)) &&
    (|c.validValues| == 0 && |c.validPatterns| > 0 ==>
      exists i :: 0 <= i < |c.validPatterns| && search(c.validPatterns[i], text))
  }

  /** `evaluate(value)`: the checks run in the order null-and-required,
      type, invalid values, invalid patterns, valid values, valid patterns.
      A list value is rejected with Unmodelled, since pandas' null test runs
      elementwise on it; a container's `str()` (needed only when patterns are
      searched) is not modelled either. */
  function Evaluate(c: Column, value: Value, eq: (Value, Value) -> bool, search: (string, string) -> bool): (r: Result<bool>)
    ensures value.List? ==> r == Err(Unmodelled)
    ensures !value.List? && PyStr(value).Some? ==> r == Ok(Acceptable(c, value, PyStr(value).value, eq, search))
    ensures !value.List? && IsNull(value) && c.required ==> r == Ok(false)
    ensures !value.List? && !IsInstance(value, c.dataType) ==> r == Ok(false)
    ensures r == Ok(true) ==> IsInstance(value, c.dataType) && !(IsNull(value) && c.required)
    ensures r == Ok(true) ==> forall i :: 0 <= i < |c.invalidValues| ==> !eq(c.invalidValues[i], value)
  {
    if value.List? then Err(Unmodelled)
    else if IsNull(value) && c.required then Ok(false)
    else if !IsInstance(value, c.dataType) then Ok(false)
    else if AnyEqual(c.invalidValues, value, eq) then Ok(false)
    else
      var text := PyStr(value);
      if |c.invalidPatterns| > 0 && text.None? then Err(Unmodelled)
      else if |c.invalidPatterns| > 0 && AnyMatch(c.invalidPatterns, text.value, search) then Ok(false)
      else if |c.validValues| > 0 then Ok(AnyEqual(c.validValues, value, eq))
      else if |c.validPatterns| > 0 then
        if text.None? then Err(Unmodelled) else Ok(AnyMatch(c.validPatterns, text.value, search))
      else Ok(true)
  }

  /** Adding an invalid value can only turn an acceptance into a rejection. */
  lemma MoreInvalidValuesStricter(c: Column, extra: Value, value: Value,
                                  eq: (Value, Value) -> bool, search: (string, string) -> bool)
    requires Evaluate(c.(invalidValues := c.invalidValues + [extra]), value, eq, search) == Ok(true)
    ensures Evaluate(c, value, eq, search) == Ok(true)
  {
    var c' := c.(invalidValues := c.invalidValues + [extra]);
    assert forall i :: 0 <= i < |c.invalidValues| ==> c.invalidValues[i] == c'.invalidValues[i];
  }

  /** A column with no constraints beyond the type accepts exactly the
      instances of the type (and nulls only when not required). */
  lemma TypeOnly(dataType: PyType, value: Value, eq: (Value, Value) -> bool, search: (string, string) -> bool)
    requires !value.List?
    ensures var c := NewColumn(dataType, None, false, false, None, None, None, None);
      Evaluate(c, value, eq, search) == Ok(IsInstance(value, dataType))
  {
  }

  /** `Schema(**columns)`: each column takes its keyword as label. */
  function NewSchema(columns: seq<(string, Column)>): (r: seq<(string, Column)>)
    ensures |r| == |columns|
    ensures forall i :: 0 <= i < |columns| ==>
      r[i].0 == columns[i].0 && SetLabel(columns[i].1, Str(columns[i].0)) == Ok(r[i].1)
  {
    seq(|columns|, i requires 0 <= i < |columns| => (columns[i].0, columns[i].1.(name := Some(columns[i].0))))
  }

  /** Labelling a column does not change what it accepts. */
  lemma SchemaKeepsEvaluation(columns: seq<(string, Column)>, i: nat, value: Value,
                              eq: (Value, Value) -> bool, search: (string, string) -> bool)
    requires i < |columns|
    ensures Evaluate(NewSchema(columns)[i].1, value, eq, search) == Evaluate(columns[i].1, value, eq, search)
  {
  }
}

=== FILE: seqs.dfy ===
/** Python list operations the token-list code leans on: `list.remove`
    (which deletes the first equal element, or raises ValueError) and the
    loops that remove a batch of values one `remove` at a time. */
module Seqs {
  import opened Wrappers

  /** Concatenation is associative. */
  lemma AppendAssoc<T>(a: seq<T>, b: seq<T>, c: seq<T>)
    ensures a + (b + c) == (a + b) + c
  {
  }

  /** A prefix one longer is the prefix and the next element. */
  lemma TakeSnoc<T>(xs: seq<T>, k: nat)
    requires k < |xs|
    ensures xs[..k + 1] == xs[..k] + [xs[k]]
  {
  }

  /** The position of the first element equal to `x`. */
  function Find<T(==)>(xs: seq<T>, x: T): (i: nat)
    requires x in xs
    ensures i < |xs| && xs[i] == x && x !in xs[..i]
  {
    if xs[0] == x then 0
    else
      assert x in xs[1..] by {
        var k :| 0 <= k < |xs| && xs[k] == x;
        assert xs[1..][k - 1] == x;
      }
      var j := Find(xs[1..], x);
      assert xs[..j + 1] == [xs[0]] + xs[1..][..j];
      1 + j
  }

  /** `xs.remove(x)`. */
  function Remove<T(==)>(xs: seq<T>, x: T): (r: Result<seq<T>>)
    ensures r.Ok? <==> x in xs
    ensures r.Err? ==> r.error == ValueError
    ensures r.Ok? ==> var i := Find(xs, x); r.value == xs[..i] + xs[i + 1..]
  {
    if x !in xs then Err(ValueError)
    else
      var i := Find(xs, x);
      Ok(xs[..i] + xs[i + 1..])
  }

  /** A successful `remove` takes out exactly one copy of the value. */
  lemma RemoveOne<T>(xs: seq<T>, x: T)
    requires x in xs
    ensures Remove(xs, x).Ok?
    ensures |Remove(xs, x).value| == |xs| - 1
    ensures multiset(Remove(xs, x).value) + multiset{x} == multiset(xs)
  {
    var i := Find(xs, x);
    assert xs == xs[..i] + [x] + xs[i + 1..];
  }

  /** `for w in ws: xs.remove(w)`, stopping at the first ValueError. */
  function RemoveEach<T(==)>(xs: seq<T>, ws: seq<T>): (r: Result<seq<T>>)
    ensures r.Ok? ==> |r.value| == |xs| - |ws|
    ensures r.Err? ==> r.error == ValueError
    decreases |ws|
  {
    if |ws| == 0 then Ok(xs)
    else
      var ys :- Remove(xs, ws[0]);
      RemoveEach(ys, ws[1..])
  }

  /** The elements satisfying `p`, in order. */
  function Filter<T>(xs: seq<T>, p: T -> bool): (r: seq<T>)
    ensures |r| <= |xs|
    ensures forall y :: y in r ==> y in xs && p(y)
  {
    if |xs| == 0 then []
    else (if p(xs[0]) then [xs[0]] else []) + Filter(xs[1..], p)
  }

  lemma {:induction false} FilterAppend<T>(xs: seq<T>, ys: seq<T>, p: T -> bool)
    ensures Filter(xs + ys, p) == Filter(xs, p) + Filter(ys, p)
    decreases |xs|
  {
    if |xs| > 0 {
      assert (xs + ys)[1..] == xs[1..] + ys;
      FilterAppend(xs[1..], ys, p);
    } else {
      assert xs + ys == ys;
    }
  }

  /** Filtering with a predicate every element satisfies changes nothing. */
  lemma {:induction false} FilterAll<T>(xs: seq<T>, p: T -> bool)
    requires forall i :: 0 <= i < |xs| ==> p(xs[i])
    ensures Filter(xs, p) == xs
    decreases |xs|
  {
    if |xs| > 0 {
      FilterAll(xs[1..], p);
    }
  }

  /** The complement of a predicate. */
  function Not<T(!new)>(p: T -> bool): (q: T -> bool)
    ensures forall x :: q(x) == !p(x)
  {
    x => !p(x)
  }

  /** Removing values that differ from the head leaves the head in front. */
  lemma {:induction false} RemoveEachBehind<T>(x: T, ys: seq<T>, ws: seq<T>)
    requires forall k :: 0 <= k < |ws| ==> ws[k] != x
    ensures RemoveEach([x] + ys, ws) ==
      match RemoveEach(ys, ws)
      case Ok(zs) => Ok([x] + zs)
      case Err(e) => Err(e)
    decreases |ws|
  {
    if |ws| > 0 {
      var w := ws[0];
      if w in ys {
        var i := Find(ys, w);
        assert Find([x] + ys, w) == i + 1 by {
          assert ([x] + ys)[..i + 1] == [x] + ys[..i];
        }
        assert ([x] + ys)[..i + 1] + ([x] + ys)[i + 2..] == [x] + (ys[..i] + ys[i + 1..]);
        RemoveEachBehind(x, ys[..i] + ys[i + 1..], ws[1..]);
      } else {
        assert w !in [x] + ys;
      }
    }
  }

  /** Removing, one `remove` at a time, every element that satisfies `p`
      (listed in order) deletes exactly those elements: the loop equals a
      filter. */
  lemma {:induction false} RemoveFiltered<T(!new)>(xs: seq<T>, p: T -> bool)
    ensures RemoveEach(xs, Filter(xs, p)) == Ok(Filter(xs, Not(p)))
    decreases |xs|
  {
    if |xs| > 0 {
      var x := xs[0];
      var rest := xs[1..];
      assert xs == [x] + rest;
      RemoveFiltered(rest, p);
      if p(x) {
        assert Filter(xs, p) == [x] + Filter(rest, p);
        assert Filter(xs, Not(p)) == Filter(rest, Not(p));
        assert Find(xs, x) == 0;
        assert xs[..0] + xs[1..] == rest;
      } else {
        var ws := Filter(rest, p);
        assert Filter(xs, p) == ws;
        assert Filter(xs, Not(p)) == [x] + Filter(rest, Not(p));
        forall k | 0 <= k < |ws| ensures ws[k] != x {
          assert ws[k] in ws;
        }
        RemoveEachBehind(x, rest, ws);
      }
    }
  }

  /** The elements whose mark is set, in order. */
  function Pick<T>(xs: seq<T>, marks: seq<bool>): (r: seq<T>)
    requires |marks| == |xs|
    ensures |r| <= |xs|
  {
    if |xs| == 0 then []
    else (if marks[0] then [xs[0]] else []) + Pick(xs[1..], marks[1..])
  }

  /** Every picked element sits at a marked position. */
  lemma {:induction false} PickMembers<T>(xs: seq<T>, marks: seq<bool>, y: T)
    requires |marks| == |xs| && y in Pick(xs, marks)
    ensures exists j :: 0 <= j < |xs| && marks[j] && xs[j] == y
    decreases |xs|
  {
    var rest := Pick(xs[1..], marks[1..]);
    if marks[0] && y == xs[0] {
    } else {
      assert y in rest;
      PickMembers(xs[1..], marks[1..], y);
      var j :| 0 <= j < |xs| - 1 && marks[1..][j] && xs[1..][j] == y;
      assert marks[j + 1] && xs[j + 1] == y;
    }
  }

  /** Every mark inverted. */
  function Flip(marks: seq<bool>): (r: seq<bool>)
    ensures |r| == |marks| && forall k :: 0 <= k < |marks| ==> r[k] == !marks[k]
  {
    seq(|marks|, k requires 0 <= k < |marks| => !marks[k])
  }

  /** Every element that equals a marked element and stands in front of it
      is marked too: removing the marked values by value, first match
      first, then deletes exactly the marked positions. */
  predicate EarlierMarked<T(==)>(xs: seq<T>, marks: seq<bool>)
    requires |marks| == |xs|
  {
    forall j, k :: 0 <= j < k < |xs| && marks[k] && xs[j] == xs[k] ==> marks[j]
  }

  /** With an unmarked head, no marked element after it equals it. */
  lemma MarkedAfterHead<T>(xs: seq<T>, marks: seq<bool>)
    requires |marks| == |xs| > 0 && !marks[0]
    requires EarlierMarked(xs, marks)
    ensures forall y :: y in Pick(xs[1..], marks[1..]) ==> y != xs[0]
  {
    forall y | y in Pick(xs[1..], marks[1..]) ensures y != xs[0] {
      PickMembers(xs[1..], marks[1..], y);
      var j :| 0 <= j < |xs| - 1 && marks[1..][j] && xs[1..][j] == y;
      assert marks[j + 1] && xs[j + 1] == y;
    }
  }

  /** The condition survives dropping the head. */
  lemma MarkedTail<T>(xs: seq<T>, marks: seq<bool>)
    requires |marks| == |xs| > 0
    requires EarlierMarked(xs, marks)
    ensures EarlierMarked(xs[1..], marks[1..])
  {
    forall j, k | 0 <= j < k < |xs| - 1 && marks[1..][k] && xs[1..][j] == xs[1..][k] ensures marks[1..][j] {
      assert marks[k + 1] && xs[j + 1] == xs[k + 1];
    }
  }

  /** One step of `RemoveMarked` when the head is marked. */
  lemma RemoveMarkedHead<T>(x: T, ys: seq<T>, ms: seq<bool>)
    requires |ms| == |ys|
    requires RemoveEach(ys, Pick(ys, ms)) == Ok(Pick(ys, Flip(ms)))
    ensures RemoveEach([x] + ys, Pick([x] + ys, [true] + ms)) == Ok(Pick([x] + ys, Flip([true] + ms)))
  {
    var ws := Pick(ys, ms);
    assert ([x] + ys)[1..] == ys && ([true] + ms)[1..] == ms;
    assert Pick([x] + ys, [true] + ms) == [x] + ws;
    assert Flip([true] + ms) == [false] + Flip(ms);
    assert Pick([x] + ys, Flip([true] + ms)) == Pick(ys, Flip(ms)) by {
      assert ([false] + Flip(ms))[1..] == Flip(ms);
    }
    RemoveHead(x, ys, ws);
  }

  /** Removing the head value first removes the head itself. */
  lemma RemoveHead<T>(x: T, ys: seq<T>, ws: seq<T>)
    ensures RemoveEach([x] + ys, [x] + ws) == RemoveEach(ys, ws)
  {
    var xs := [x] + ys;
    assert Remove(xs, x) == Ok(ys) by {
      assert Find(xs, x) == 0;
      assert xs[..0] + xs[1..] == ys;
    }
    assert ([x] + ws)[0] == x && ([x] + ws)[1..] == ws;
  }

  /** One step of `RemoveMarked` when the head is not marked. */
  lemma RemoveMarkedKeep<T>(x: T, ys: seq<T>, ms: seq<bool>)
    requires |ms| == |ys|
    requires forall y :: y in Pick(ys, ms) ==> y != x
    requires RemoveEach(ys, Pick(ys, ms)) == Ok(Pick(ys, Flip(ms)))
    ensures RemoveEach([x] + ys, Pick([x] + ys, [false] + ms)) == Ok(Pick([x] + ys, Flip([false] + ms)))
  {
    var ws := Pick(ys, ms);
    assert ([x] + ys)[1..] == ys && ([false] + ms)[1..] == ms;
    assert Pick([x] + ys, [false] + ms) == ws;
    assert Flip([false] + ms) == [true] + Flip(ms);
    assert Pick([x] + ys, Flip([false] + ms)) == [x] + Pick(ys, Flip(ms)) by {
      assert ([true] + Flip(ms))[1..] == Flip(ms);
    }
    forall k | 0 <= k < |ws| ensures ws[k] != x {
      assert ws[k] in ws;
    }
    RemoveEachBehind(x, ys, ws);
  }

  /** Removing the marked elements by value, one `remove` at a time, deletes
      exactly the marked positions, provided every equal element in front of
      a marked one is marked as well (otherwise `remove` takes that earlier,
      unmarked one). */
  lemma {:induction false} RemoveMarked<T>(xs: seq<T>, marks: seq<bool>)
    requires |marks| == |xs|
    requires EarlierMarked(xs, marks)
    ensures RemoveEach(xs, Pick(xs, marks)) == Ok(Pick(xs, Flip(marks)))
    decreases |xs|
  {
    if |xs| > 0 {
      MarkedTail(xs, marks);
      RemoveMarked(xs[1..], marks[1..]);
      assert xs == [xs[0]] + xs[1..] && marks == [marks[0]] + marks[1..];
      if marks[0] {
        RemoveMarkedHead(xs[0], xs[1..], marks[1..]);
      } else {
        MarkedAfterHead(xs, marks);
        RemoveMarkedKeep(xs[0], xs[1..], marks[1..]);
      }
    }
  }

  /** Filtering with a predicate no element satisfies leaves nothing. */
  lemma {:induction false} FilterNone<T>(xs: seq<T>, p: T -> bool)
    requires forall i :: 0 <= i < |xs| ==> !p(xs[i])
    ensures Filter(xs, p) == []
    decreases |xs|
  {
    if |xs| > 0 {
      FilterNone(xs[1..], p);
    }
  }

  /** Sequences that agree at the marked positions pick the same elements. */
  lemma {:induction false} PickSame<T>(xs: seq<T>, ys: seq<T>, marks: seq<bool>)
    requires |xs| == |ys| == |marks|
    requires forall k :: 0 <= k < |xs| && marks[k] ==> xs[k] == ys[k]
    ensures Pick(xs, marks) == Pick(ys, marks)
    decreases |xs|
  {
    if |xs| > 0 {
      PickSame(xs[1..], ys[1..], marks[1..]);
    }
  }

  /** The marks of the block of positions `a` up to `b`. */
  function Block(n: nat, a: nat, b: nat): (m: seq<bool>)
    ensures |m| == n && forall k :: 0 <= k < n ==> (m[k] <==> a <= k < b)
  {
    seq(n, k => a <= k < b)
  }

  /** Dropping the first position shifts the block down by one. */
  lemma BlockTail(n: nat, a: nat, b: nat)
    requires n > 0
    ensures Block(n, a, b)[1..] == Block(n - 1, if a > 0 then a - 1 else 0, if b > 0 then b - 1 else 0)
    ensures Flip(Block(n, a, b))[1..] == Flip(Block(n - 1, if a > 0 then a - 1 else 0, if b > 0 then b - 1 else 0))
  {
  }

  /** Picking a block is slicing it out. */
  lemma {:induction false} PickBlock<T>(xs: seq<T>, a: nat, b: nat)
    requires a <= b <= |xs|
    ensures Pick(xs, Block(|xs|, a, b)) == xs[a..b]
    decreases |xs|
  {
    if |xs| > 0 {
      BlockTail(|xs|, a, b);
      var a' := if a > 0 then a - 1 else 0;
      var b' := if b > 0 then b - 1 else 0;
      PickBlock(xs[1..], a', b');
      if a == 0 && b > 0 {
        assert xs[a..b] == [xs[0]] + xs[1..][a'..b'];
      } else {
        assert xs[a..b] == xs[1..][a'..b'];
      }
    }
  }

  /** Picking everything outside a block cuts the block out. */
  lemma {:induction false} PickOutsideBlock<T>(xs: seq<T>, a: nat, b: nat)
    requires a <= b <= |xs|
    ensures Pick(xs, Flip(Block(|xs|, a, b))) == xs[..a] + xs[b..]
    decreases |xs|
  {
    if |xs| > 0 {
      BlockTail(|xs|, a, b);
      var a' := if a > 0 then a - 1 else 0;
      var b' := if b > 0 then b - 1 else 0;
      PickOutsideBlock(xs[1..], a', b');
      if a > 0 {
        assert xs[..a] + xs[b..] == [xs[0]] + (xs[1..][..a'] + xs[1..][b'..]);
      } else if b > 0 {
        assert xs[..a] + xs[b..] == xs[1..][..a'] + xs[1..][b'..];
      } else {
        assert xs[..a] + xs[b..] == [xs[0]] + (xs[1..][..a'] + xs[1..][b'..]);
      }
    }
  }

  /** `if x in xs: xs.remove(x)`. */
  function Discard<T(==)>(xs: seq<T>, x: T): (r: seq<T>)
    ensures x in xs ==> Ok(r) == Remove(xs, x)
    ensures x !in xs ==> r == xs
  {
    if x in xs then Remove(xs, x).value else xs
  }

  /** `for w in ws: if w in xs: xs.remove(w)`. */
  function DiscardEach<T(==)>(xs: seq<T>, ws: seq<T>): (r: seq<T>)
    decreases |ws|
  {
    if |ws| == 0 then xs else DiscardEach(Discard(xs, ws[0]), ws[1..])
  }

  /** When every `remove` finds its value, guarding it changes nothing. */
  lemma {:induction false} DiscardEachAgrees<T>(xs: seq<T>, ws: seq<T>)
    requires RemoveEach(xs, ws).Ok?
    ensures DiscardEach(xs, ws) == RemoveEach(xs, ws).value
    decreases |ws|
  {
    if |ws| > 0 {
      DiscardEachAgrees(Remove(xs, ws[0]).value, ws[1..]);
    }
  }

  /** Values absent from the list are not found. */
  lemma {:induction false} DiscardEachAbsent<T>(xs: seq<T>, ws: seq<T>)
    requires forall k :: 0 <= k < |ws| ==> ws[k] !in xs
    ensures DiscardEach(xs, ws) == xs
    decreases |ws|
  {
    if |ws| > 0 {
      DiscardEachAbsent(xs, ws[1..]);
    }
  }

  /** Discarding never lengthens the list. */
  lemma {:induction false} DiscardEachShorter<T>(xs: seq<T>, ws: seq<T>)
    ensures |DiscardEach(xs, ws)| <= |xs|
    decreases |ws|
  {
    if |ws| > 0 {
      DiscardEachShorter(Discard(xs, ws[0]), ws[1..]);
    }
  }

  /** Exactly one element satisfies `p`: filtering keeps just it. */
  lemma {:induction false} FilterOne<T>(xs: seq<T>, p: T -> bool, i: nat)
    requires i < |xs| && p(xs[i])
    requires forall k :: 0 <= k < |xs| && k != i ==> !p(xs[k])
    ensures Filter(xs, p) == [xs[i]]
    decreases |xs|
  {
    var rest := xs[1..];
    assert forall k :: 0 <= k < |rest| ==> rest[k] == xs[k + 1];
    if i == 0 {
      FilterNone(rest, p);
      assert Filter(xs, p) == [xs[0]] + [];
    } else {
      FilterOne(rest, p, i - 1);
      assert Filter(xs, p) == [] + [xs[i]];
    }
  }

  /** Exactly one element fails `q`: filtering cuts just it out. */
  lemma {:induction false} FilterAllBut<T>(xs: seq<T>, q: T -> bool, i: nat)
    requires i < |xs| && !q(xs[i])
    requires forall k :: 0 <= k < |xs| && k != i ==> q(xs[k])
    ensures Filter(xs, q) == xs[..i] + xs[i + 1..]
    decreases |xs|
  {
    var rest := xs[1..];
    assert forall k :: 0 <= k < |rest| ==> rest[k] == xs[k + 1];
    if i == 0 {
      FilterAll(rest, q);
      assert Filter(xs, q) == [] + rest;
    } else {
      FilterAllBut(rest, q, i - 1);
      calc {
        Filter(xs, q);
        [xs[0]] + Filter(rest, q);
        [xs[0]] + (rest[..i - 1] + rest[i..]);
        ([xs[0]] + rest[..i - 1]) + rest[i..];
        { assert [xs[0]] + rest[..i - 1] == xs[..i]; assert rest[i..] == xs[i + 1..]; }
        xs[..i] + xs[i + 1..];
      }
    }
  }

  /** Two steps of `Pick` at once. */
  lemma PickTwo<T>(xs: seq<T>, marks: seq<bool>)
    requires |marks| == |xs| >= 2
    ensures Pick(xs, marks) ==
      (if marks[0] then [xs[0]] else []) + (if marks[1] then [xs[1]] else []) + Pick(xs[2..], marks[2..])
  {
    assert xs[1..][1..] == xs[2..] && marks[1..][1..] == marks[2..];
  }

  /** Removing a block by value cuts it out, when no element in front of a
      block element equals it (or is in the block itself). */
  lemma RemoveBlock<T>(xs: seq<T>, a: nat, b: nat)
    requires a <= b <= |xs|
    requires EarlierMarked(xs, Block(|xs|, a, b))
    ensures RemoveEach(xs, xs[a..b]) == Ok(xs[..a] + xs[b..])
  {
    PickBlock(xs, a, b);
    PickOutsideBlock(xs, a, b);
    RemoveMarked(xs, Block(|xs|, a, b));
  }

  /** `remove` of a value whose first occurrence is at position k. */
  lemma RemoveAt<T>(xs: seq<T>, x: T, k: nat)
    requires k < |xs| && xs[k] == x && x !in xs[..k]
    ensures Remove(xs, x) == Ok(xs[..k] + xs[k + 1..])
  {
    var i := Find(xs, x);
    if i != k {
      assert false;
    }
  }

  /** Nothing marked, nothing picked. */
  lemma {:induction false} PickNone<T>(xs: seq<T>, marks: seq<bool>)
    requires |marks| == |xs| && forall k :: 0 <= k < |xs| ==> !marks[k]
    ensures Pick(xs, marks) == []
    decreases |xs|
  {
    if |xs| > 0 {
      PickNone(xs[1..], marks[1..]);
    }
  }

  /** `[x] * n`. */
  function Copies<T>(x: T, n: nat): (r: seq<T>)
    ensures |r| == n && forall k :: 0 <= k < n ==> r[k] == x
  {
    seq(n, k => x)
  }

  /** Python's `xs.insert(k, x)` for `k >= 0`: past the end it appends. */
  function Insert<T>(xs: seq<T>, k: nat, x: T): (r: seq<T>)
    ensures |r| == |xs| + 1
    ensures r[if k < |xs| then k else |xs|] == x
    ensures forall j :: 0 <= j < |xs| ==> r[if j < k then j else j + 1] == xs[j]
  {
    if k >= |xs| then xs + [x] else xs[..k] + [x] + xs[k..]
  }

  /** Filtering depends only on what the predicate says about the elements. */
  lemma {:induction false} FilterExt<T>(xs: seq<T>, p: T -> bool, q: T -> bool)
    requires forall i :: 0 <= i < |xs| ==> p(xs[i]) == q(xs[i])
    ensures Filter(xs, p) == Filter(xs, q)
    decreases |xs|
  {
    if |xs| > 0 {
      FilterExt(xs[1..], p, q);
    }
  }

  /** Filtering twice is filtering once by the conjunction. */
  lemma {:induction false} FilterFilter<T>(xs: seq<T>, p: T -> bool, q: T -> bool, pq: T -> bool)
    requires forall i :: 0 <= i < |xs| ==> pq(xs[i]) == (p(xs[i]) && q(xs[i]))
    ensures Filter(Filter(xs, p), q) == Filter(xs, pq)
    decreases |xs|
  {
    if |xs| > 0 {
      FilterFilter(xs[1..], p, q, pq);
      var rest := Filter(xs[1..], p);
      if p(xs[0]) {
        assert Filter(xs, p) == [xs[0]] + rest;
        FilterAppend([xs[0]], rest, q);
        assert [xs[0]][1..] == [];
        assert Filter([xs[0]], q) == if q(xs[0]) then [xs[0]] else [];
      } else {
        assert Filter(xs, p) == rest;
      }
    }
  }

  /** An element satisfying the predicate is in the filtered sequence. */
  lemma {:induction false} InFilter<T>(xs: seq<T>, p: T -> bool, i: nat)
    requires i < |xs| && p(xs[i])
    ensures xs[i] in Filter(xs, p)
    decreases |xs|
  {
    if i > 0 {
      InFilter(xs[1..], p, i - 1);
      assert xs[1..][i - 1] == xs[i];
    }
  }

  /** Splitting by a predicate and by its complement loses and invents
      nothing. */
  lemma {:induction false} FilterPartition<T(!new)>(xs: seq<T>, p: T -> bool)
    ensures multiset(Filter(xs, p)) + multiset(Filter(xs, Not(p))) == multiset(xs)
    ensures |Filter(xs, p)| + |Filter(xs, Not(p))| == |xs|
    decreases |xs|
  {
    if |xs| > 0 {
      FilterPartition(xs[1..], p);
      assert xs == [xs[0]] + xs[1..];
    }
  }
}

=== FILE: strings_util.dfy ===
/** Whitespace cleaning (tamer/strings/util.py). */
module StringsUtil {
  import opened Text
  import opened Values

  /** No two spaces in a row. */
  predicate NoDoubleSpace(s: string) {
    NoDoubleRun(' ', s)
  }

  /** Free of whitespace at both ends. */
  predicate Trimmed(s: string) {
    |s| > 0 ==> !IsWhitespace(s[0]) && !IsWhitespace(s[|s| - 1])
  }

  /** The text the cleaner produces for a string: trimmed, and every run of
      spaces shortened to one space. */
  function CleanText(s: string): string {
    SubRuns(' ', Strip(s), " ")
  }

  /** `clean_whitespace(x)`: a string comes back cleaned together with a flag
      telling whether cleaning changed it; any other value comes back as it
      is, with the flag False. */
  function CleanWhitespace(x: Value): (r: (bool, Value))
    ensures !x.Str? ==> r == (false, x)
    ensures x.Str? ==> r.1.Str? && Trimmed(r.1.s) && NoDoubleSpace(r.1.s)
    ensures x.Str? ==> (r.0 <==> r.1 != x)
  {
    match x
    case Str(s) =>
      var c := CleanText(s);
      CleanTextShape(s);
      (c != s, Str(c))
    case _ => (false, x)
  }

  lemma CleanTextShape(s: string)
    ensures Trimmed(CleanText(s)) && NoDoubleSpace(CleanText(s))
  {
    var t := Strip(s);
    var c := SubRuns(' ', t, " ");
    SubRunsSingle(' ', t);
    SubRunsLast(' ', t, " ");
  }

  /** Collapsing leaves a string with single spaces unchanged. */
  lemma {:induction false} CollapseFixpoint(s: string)
    requires NoDoubleSpace(s)
    ensures SubRuns(' ', s, " ") == s
    decreases |s|
  {
    if |s| > 0 {
      assert NoDoubleSpace(s[1..]) by {
        forall i | 0 <= i < |s[1..]| - 1 ensures !(s[1..][i] == ' ' && s[1..][i + 1] == ' ') {
          assert s[1..][i] == s[i + 1] && s[1..][i + 1] == s[i + 2];
        }
      }
      CollapseFixpoint(s[1..]);
      if s[0] == ' ' {
        assert |s| > 1 ==> s[1] != ' ';
        assert DropRun(' ', s) == s[1..];
        assert s == " " + s[1..];
      } else {
        assert s == [s[0]] + s[1..];
      }
    }
  }

  /** Cleaning a cleaned string changes nothing and reports no change. */
  lemma CleanIdempotent(x: Value)
    ensures var r := CleanWhitespace(x); CleanWhitespace(r.1) == (false, r.1)
  {
    if x.Str? {
      var c := CleanText(x.s);
      CleanTextShape(x.s);
      StripIdentity(c);
      CollapseFixpoint(c);
    }
  }

  /** Cleaning only touches whitespace: with all whitespace deleted, input
      and output agree. */
  lemma CleanOnlyWhitespace(s: string)
    ensures DeleteChars(CleanText(s), IsWhitespace) == DeleteChars(s, IsWhitespace)
  {
    StripDropsWhitespace(s);
    SubRunsKeepsOthers(' ', Strip(s), IsWhitespace);
  }

  lemma StripDropsWhitespace(s: string)
    ensures DeleteChars(Strip(s), IsWhitespace) == DeleteChars(s, IsWhitespace)
  {
    StripLeftDrops(s);
    StripRightDrops(StripLeft(s));
  }

  lemma StripLeftDrops(s: string)
    ensures DeleteChars(StripLeft(s), IsWhitespace) == DeleteChars(s, IsWhitespace)
  {
    var l := StripLeft(s);
    var w := s[..|s| - |l|];
    assert s == w + l;
    assert forall i :: 0 <= i < |w| ==> IsWhitespace(w[i]);
    DeleteCharsAppend(w, l, IsWhitespace);
    AllDeleted(w, IsWhitespace);
  }

  lemma StripRightDrops(s: string)
    ensures DeleteChars(StripRight(s), IsWhitespace) == DeleteChars(s, IsWhitespace)
  {
    var r := StripRight(s);
    var w := s[|r|..];
    assert s == r + w;
    assert forall i :: 0 <= i < |w| ==> IsWhitespace(w[i]);
    DeleteCharsAppend(r, w, IsWhitespace);
    AllDeleted(w, IsWhitespace);
  }
}

=== FILE: supplement.dfy ===
/** The chunking half of datagenius/lib/supplement.py: turning the `on`
    argument into a plan of `SupplementGuide`s, preparing ons and suffixes,
    slicing a frame by a guide's conditions and distributing the rows of
    several frames over the guides of a plan. `eq(a, b)` stands for the
    equality pandas' `isin` applies. Row index labels are taken to be
    distinct, so dropping the index labels of a slice drops exactly its
    rows. */
module Supplement {
  import opened Wrappers
  import opened Values
  import opened IterUtils
  import opened Seqs
  import opened Frames
  import opened Resolutions
  import opened Guides

  // ---------------------------------------------------------------------
  // build_plan

  /** An element of `on`: a ready-made guide or any other value. */
  datatype OnItem = GuideOn(guide: SupplementGuide) | ValueOn(v: Value)

  /** A plain column name. */
  predicate IsSimple(o: OnItem) { o.ValueOn? && o.v.Str? }

  /** A guide or a tuple, each of which becomes a guide of its own. */
  predicate IsComplex(o: OnItem) { o.GuideOn? || (o.ValueOn? && o.v.Tuple?) }

  /** Whether a tuple element is allowed: a dict, a string or a tuple. */
  predicate PairElement(v: Value) { v.Dict? || v.Str? || v.Tuple? }

  /** The (columns, conditions) pair a tuple `on` describes, scanning from
      the (columns, conditions) found so far: a dict becomes the
      conditions, a string or tuple (tuplified) the columns, and any other
      element raises ValueError. */
  function TuplePair(items: seq<Value>, cols: Value, conds: Value): (r: Result<(Value, Value)>)
    ensures r.Ok? <==> forall i :: 0 <= i < |items| ==> PairElement(items[i])
    ensures r.Err? ==> r.error == ValueError
    ensures r.Ok? && (cols.NoneV? || cols.Tuple?) ==> r.value.0.NoneV? || r.value.0.Tuple?
    ensures r.Ok? && (conds.NoneV? || conds.Dict?) ==> r.value.1.NoneV? || r.value.1.Dict?
    decreases |items|
  {
    if |items| == 0 then Ok((cols, conds))
    else
      assert forall i :: 1 <= i < |items| ==> items[i] == items[1..][i - 1];
      if items[0].Dict? then TuplePair(items[1..], cols, items[0])
      else if items[0].Str? || items[0].Tuple? then TuplePair(items[1..], DgTuplify(items[0]), conds)
      else Err(ValueError)
  }

  /** Without a dict, the conditions found so far stay. */
  lemma {:induction false} TuplePairNoDict(items: seq<Value>, cols: Value, conds: Value)
    requires TuplePair(items, cols, conds).Ok?
    requires forall j :: 0 <= j < |items| ==> !items[j].Dict?
    ensures TuplePair(items, cols, conds).value.1 == conds
    decreases |items|
  {
    if |items| > 0 {
      assert forall j :: 1 <= j < |items| ==> items[j] == items[1..][j - 1];
      TuplePairNoDict(items[1..], DgTuplify(items[0]), conds);
    }
  }

  /** The last dict of the tuple is the conditions. */
  lemma {:induction false} TuplePairLastDict(items: seq<Value>, cols: Value, conds: Value, i: nat)
    requires TuplePair(items, cols, conds).Ok?
    requires i < |items| && items[i].Dict?
    requires forall j :: i < j < |items| ==> !items[j].Dict?
    ensures TuplePair(items, cols, conds).value.1 == items[i]
    decreases |items|
  {
    assert forall j :: 1 <= j < |items| ==> items[j] == items[1..][j - 1];
    var cols', conds' := if items[0].Dict? then cols else DgTuplify(items[0]), if items[0].Dict? then items[0] else conds;
    assert TuplePair(items, cols, conds) == TuplePair(items[1..], cols', conds');
    if i == 0 {
      TuplePairNoDict(items[1..], cols', conds');
    } else {
      TuplePairLastDict(items[1..], cols', conds', i - 1);
    }
  }

  /** Without a string or tuple, the columns found so far stay. */
  lemma {:induction false} TuplePairNoCols(items: seq<Value>, cols: Value, conds: Value)
    requires TuplePair(items, cols, conds).Ok?
    requires forall j :: 0 <= j < |items| ==> items[j].Dict?
    ensures TuplePair(items, cols, conds).value.0 == cols
    decreases |items|
  {
    if |items| > 0 {
      assert forall j :: 1 <= j < |items| ==> items[j] == items[1..][j - 1];
      TuplePairNoCols(items[1..], cols, items[0]);
    }
  }

  /** The last string or tuple of the tuple, tuplified, is the columns. */
  lemma {:induction false} TuplePairLastCols(items: seq<Value>, cols: Value, conds: Value, i: nat)
    requires TuplePair(items, cols, conds).Ok?
    requires i < |items| && !items[i].Dict?
    requires forall j :: i < j < |items| ==> items[j].Dict?
    ensures TuplePair(items, cols, conds).value.0 == DgTuplify(items[i])
    decreases |items|
  {
    assert forall j :: 1 <= j < |items| ==> items[j] == items[1..][j - 1];
    var cols', conds' := if items[0].Dict? then cols else DgTuplify(items[0]), if items[0].Dict? then items[0] else conds;
    assert TuplePair(items, cols, conds) == TuplePair(items[1..], cols', conds');
    if i == 0 {
      TuplePairNoCols(items[1..], cols', conds');
    } else {
      TuplePairLastCols(items[1..], cols', conds', i - 1);
    }
  }

  /** The guide a tuple `on` becomes: `SupplementGuide(*columns,
      conditions=conditions)`. A tuple without a string or tuple element
      unpacks None and raises TypeError. */
  function TupleGuide(items: seq<Value>): (r: Result<SupplementGuide>)
    ensures r.Err? ==> r.error == ValueError || r.error == TypeError
    ensures r.Ok? <==> TuplePair(items, NoneV, NoneV).Ok? && TuplePair(items, NoneV, NoneV).value.0.Tuple?
    ensures r.Ok? ==> var pair := TuplePair(items, NoneV, NoneV).value;
      r == NewSupplementGuide(pair.0.items, pair.1, NoneV, NoneV, false)
  {
    var pair :- TuplePair(items, NoneV, NoneV);
    if pair.0.NoneV? then Err(TypeError)
    else NewSupplementGuide(pair.0.items, pair.1, NoneV, NoneV, false)
  }

  /** A valid tuple `on` becomes a guide on its last string or tuple, with
      its last dict as conditions (the default ones when it has none). */
  lemma TupleGuideLast(items: seq<Value>, k: nat)
    requires forall i :: 0 <= i < |items| ==> PairElement(items[i])
    requires k < |items| && !items[k].Dict? && forall j :: k < j < |items| ==> items[j].Dict?
    ensures forall i :: (0 <= i < |items| && items[i].Dict? && (forall j :: i < j < |items| ==> !items[j].Dict?)) ==>
      TupleGuide(items) == NewSupplementGuide(Tuplify(items[k]).items, items[i], NoneV, NoneV, false)
    ensures (forall i :: 0 <= i < |items| ==> !items[i].Dict?) ==>
      TupleGuide(items) == NewSupplementGuide(Tuplify(items[k]).items, NoneV, NoneV, NoneV, false)
  {
    TuplePairLastCols(items, NoneV, NoneV, k);
    forall i | 0 <= i < |items| && items[i].Dict? && (forall j :: i < j < |items| ==> !items[j].Dict?)
      ensures TupleGuide(items) == NewSupplementGuide(Tuplify(items[k]).items, items[i], NoneV, NoneV, false)
    {
      TuplePairLastDict(items, NoneV, NoneV, i);
    }
    if forall i :: 0 <= i < |items| ==> !items[i].Dict? {
      TuplePairNoDict(items, NoneV, NoneV);
    }
  }

  /** In a two-element tuple `on`, the order of the dict and the columns
      does not matter. */
  lemma PairOrder(d: Value, c: Value)
    requires d.Dict? && (c.Str? || c.Tuple?)
    ensures TupleGuide([d, c]) == TupleGuide([c, d])
    ensures TupleGuide([d, c]) == NewSupplementGuide(Tuplify(c).items, d, NoneV, NoneV, false)
    ensures TupleGuide([d, c]).Ok?
  {
    assert [d, c][1..] == [c] && [c][1..] == [];
    assert [c, d][1..] == [d] && [d][1..] == [];
    assert TuplePair([d, c], NoneV, NoneV) == TuplePair([c], NoneV, d) == Ok((Tuplify(c), d));
    assert TuplePair([c, d], NoneV, NoneV) == TuplePair([d], Tuplify(c), NoneV) == Ok((Tuplify(c), d));
  }

  /** The guide each complex element becomes. */
  function ItemGuide(o: OnItem): (r: Result<SupplementGuide>)
    requires IsComplex(o)
    ensures o.GuideOn? ==> r == Ok(o.guide)
    ensures o.ValueOn? ==> r == TupleGuide(o.v.items)
  {
    if o.GuideOn? then Ok(o.guide) else TupleGuide(o.v.items)
  }

  /** Whether every complex element of `on` makes a guide. */
  predicate AllBuild(on: seq<OnItem>) {
    forall i :: 0 <= i < |on| && IsComplex(on[i]) ==> ItemGuide(on[i]).Ok?
  }

  /** The plain column names, in order. */
  function SimpleOns(on: seq<OnItem>): (r: seq<Value>)
    ensures |r| == |Filter(on, IsSimple)|
    ensures forall i :: 0 <= i < |r| ==> r[i].Str? && ValueOn(r[i]) in on
    decreases |on|
  {
    if |on| == 0 then []
    else (if IsSimple(on[0]) then [on[0].v] else []) + SimpleOns(on[1..])
  }

  /** The guide that collects the plain column names. */
  function SimpleGuide(names: seq<Value>): (g: SupplementGuide)
    ensures NewSupplementGuide(names, NoneV, NoneV, NoneV, false) == Ok(g)
  {
    SupplementGuide(names, [(NoneV, Tuple([NoneV]))], NoneV, NoneV, false, [])
  }

  /** `gs` are the guides the complex elements `cs` become, in order. */
  predicate GuidesOf(cs: seq<OnItem>, gs: seq<SupplementGuide>) {
    |gs| == |cs| && forall i :: 0 <= i < |cs| ==> IsComplex(cs[i]) && ItemGuide(cs[i]) == Ok(gs[i])
  }

  lemma GuidesOfCons(c: OnItem, cs: seq<OnItem>, g: SupplementGuide, gs: seq<SupplementGuide>)
    requires IsComplex(c) && ItemGuide(c) == Ok(g) && GuidesOf(cs, gs)
    ensures GuidesOf([c] + cs, [g] + gs)
  {
    assert forall i :: 1 <= i < |cs| + 1 ==> ([c] + cs)[i] == cs[i - 1] && ([g] + gs)[i] == gs[i - 1];
  }

  /** The loop of `build_plan` over `on`: the plain names and the guides of
      the complex elements, each in order. */
  function Collect(on: seq<OnItem>): (r: Result<(seq<Value>, seq<SupplementGuide>)>)
    ensures r.Ok? <==> AllBuild(on)
    ensures r.Err? ==> r.error == ValueError || r.error == TypeError
    ensures r.Ok? ==> r.value.0 == SimpleOns(on) && GuidesOf(Filter(on, IsComplex), r.value.1)
    decreases |on|
  {
    if |on| == 0 then Ok(([], []))
    else
      var o := on[0];
      assert forall i :: 1 <= i < |on| ==> on[i] == on[1..][i - 1];
      assert AllBuild(on) <==> (IsComplex(o) ==> ItemGuide(o).Ok?) && AllBuild(on[1..]);
      var cs := Filter(on, IsComplex);
      assert cs == (if IsComplex(o) then [o] else []) + Filter(on[1..], IsComplex);
      if IsComplex(o) then
        var g :- ItemGuide(o);
        var rest :- Collect(on[1..]);
        GuidesOfCons(o, Filter(on[1..], IsComplex), g, rest.1);
        Ok((rest.0, [g] + rest.1))
      else
        var rest :- Collect(on[1..]);
        if IsSimple(o) then Ok(([o.v] + rest.0, rest.1)) else Ok(rest)
  }

  /** `build_plan(on)`: a guide per complex element, in input order, and one
      guide for all plain names at the end when there are any. */
  function BuildPlan(on: seq<OnItem>): (r: Result<seq<SupplementGuide>>)
    ensures r.Ok? <==> AllBuild(on)
    ensures r.Err? ==> r.error == ValueError || r.error == TypeError
    ensures r.Ok? ==> (
      var n := |Filter(on, IsComplex)|;
      |r.value| == n + (if SimpleOns(on) == [] then 0 else 1) &&
      GuidesOf(Filter(on, IsComplex), r.value[..n]) &&
      (SimpleOns(on) != [] ==> NewSupplementGuide(SimpleOns(on), NoneV, NoneV, NoneV, false) == Ok(r.value[n])))
  {
    var c :- Collect(on);
    if |c.0| > 0 then
      assert (c.1 + [SimpleGuide(c.0)])[..|c.1|] == c.1;
      Ok(c.1 + [SimpleGuide(c.0)])
    else
      assert c.1[..|c.1|] == c.1;
      Ok(c.1)
  }

  /** An `on` made only of plain names. */
  function NameOns(names: seq<string>): (on: seq<OnItem>)
    ensures |on| == |names| && forall i :: 0 <= i < |names| ==> on[i] == ValueOn(Str(names[i]))
  {
    seq(|names|, i requires 0 <= i < |names| => ValueOn(Str(names[i])))
  }

  /** The plain names of an `on` made only of plain names are all of them. */
  lemma {:induction false} SimpleOnsAll(names: seq<string>)
    ensures SimpleOns(NameOns(names)) == Strs(names) && Filter(NameOns(names), IsComplex) == []
    decreases |names|
  {
    if |names| > 0 {
      var on := NameOns(names);
      assert on[1..] == NameOns(names[1..]);
      SimpleOnsAll(names[1..]);
      assert Strs(names) == [Str(names[0])] + Strs(names[1..]);
    }
  }

  /** A plan from plain names only is a single guide over all of them. */
  lemma SimplePlan(names: seq<string>)
    requires |names| > 0
    ensures BuildPlan(NameOns(names)) == Ok([SimpleGuide(Strs(names))])
  {
    SimpleOnsAll(names);
    assert AllBuild(NameOns(names));
  }

  // ---------------------------------------------------------------------
  // prep_ons, prep_suffixes

  /** `prep_ons(ons)`: a string becomes a 1-tuple, a list the tuple of its
      elements, a tuple whose first element is a tuple stays as it is, and
      anything else is wrapped in a 1-tuple. An empty tuple has no first
      element and raises IndexError. */
  function PrepOns(ons: Value): (r: Result<Value>)
    ensures r.Ok? <==> ons != Tuple([])
    ensures r.Err? ==> r.error == IndexError
    ensures r.Ok? ==> r.value.Tuple?
    ensures ons.Str? ==> r == Ok(Tuple([ons]))
    ensures ons.List? ==> r == Ok(Tuple(ons.items))
    ensures ons.Tuple? && |ons.items| > 0 && ons.items[0].Tuple? ==> r == Ok(ons)
    ensures ons.Tuple? && |ons.items| > 0 && !ons.items[0].Tuple? ==> r == Ok(Tuple([ons]))
    ensures !ons.Str? && !ons.List? && !ons.Tuple? ==> r == Ok(Tuple([ons]))
  {
    if ons.Str? then Ok(DgTuplify(ons))
    else if ons.List? then Ok(Tuple(ons.items))
    else if ons.Tuple? && |ons.items| == 0 then Err(IndexError)
    else if ons.Tuple? && ons.items[0].Tuple? then Ok(ons)
    else Ok(Tuple([ons]))
  }

  /** Preparing prepared ons whose first element is a tuple changes
      nothing more. */
  lemma PrepOnsStable(ons: Value)
    requires PrepOns(ons).Ok? && |PrepOns(ons).value.items| > 0 && PrepOns(ons).value.items[0].Tuple?
    ensures PrepOns(PrepOns(ons).value) == PrepOns(ons)
  {
  }

  /** A single column name prepared and planned gives one guide on that
      column with the default conditions. */
  lemma PrepThenPlan(name: string)
    ensures PrepOns(Str(name)) == Ok(Tuple([Str(name)]))
    ensures BuildPlan([ValueOn(Str(name))]) == Ok([SimpleGuide([Str(name)])])
  {
    SimplePlan([name]);
    assert NameOns([name]) == [ValueOn(Str(name))];
    assert Strs([name]) == [Str(name)];
  }

  /** The default suffixes: `"_" + key` for each alpha key. */
  function DefaultSuffixes(keys: seq<string>): (r: seq<Value>)
    ensures |r| == |keys| && forall i :: 0 <= i < |keys| ==> r[i] == Str("_" + keys[i])
  {
    seq(|keys|, i requires 0 <= i < |keys| => Str("_" + keys[i]))
  }

  /** `prep_suffixes(suffixes, frame_ct)`: without suffixes, `"_A"`, `"_B"`,
      ... one per frame; given ones are tuplified. A count that does not
      match `frame_ct` raises ValueError. */
  function PrepSuffixes(suffixes: Value, frameCt: int): (r: Result<seq<Value>>)
    ensures r.Ok? ==> |r.value| == frameCt
    ensures suffixes.NoneV? && 0 <= frameCt < 702 ==>
      r.Ok? && forall i :: 0 <= i < frameCt ==> r.value[i] == Str("_" + Key(i))
    ensures suffixes.NoneV? && frameCt >= 702 ==> r == Err(IndexError)
    ensures suffixes.NoneV? && frameCt < 0 ==> r == Err(ValueError)
    ensures !suffixes.NoneV? ==> (r.Ok? <==> |Tuplify(suffixes).items| == frameCt)
    ensures !suffixes.NoneV? && r.Ok? ==> r.value == Tuplify(suffixes).items
    ensures r.Err? ==> r.error == ValueError || r.error == IndexError
  {
    var s :- if suffixes.NoneV? then
        match GenAlphaKeys(frameCt)
        case Ok(keys) => Ok(DefaultSuffixes(keys))
        case Err(e) => Err(e)
      else Ok(DgTuplify(suffixes).items);
    if |s| != frameCt then Err(ValueError) else Ok(s)
  }

  /** The default suffixes are distinct, so no two supplementary frames
      share one. */
  lemma DefaultSuffixesDistinct(frameCt: nat, i: nat, j: nat)
    requires i < j < frameCt < 702
    ensures PrepSuffixes(NoneV, frameCt).value[i] != PrepSuffixes(NoneV, frameCt).value[j]
  {
    var r := PrepSuffixes(NoneV, frameCt).value;
    KeysDistinct(i, j);
    if r[i] == r[j] {
      assert ("_" + Key(i))[1..] == Key(i);
      assert ("_" + Key(j))[1..] == Key(j);
    }
  }

  // ---------------------------------------------------------------------
  // slice_dframe

  /** Whether a row meets one condition: a None key admits every row; any
      other key selects its column, whose cell must equal one of the
      listed values. */
  predicate Meets(labels: seq<Value>, cond: (Value, Value), row: seq<Value>, eq: (Value, Value) -> bool) {
    cond.0.NoneV? ||
    (LabelIndex(labels, cond.0).Ok? && (cond.1.Tuple? || cond.1.List?) &&
     LabelIndex(labels, cond.0).value < |row| &&
     exists i :: 0 <= i < |cond.1.items| && eq(cond.1.items[i], row[LabelIndex(labels, cond.0).value]))
  }

  /** Whether a row meets every condition. */
  predicate MeetsAll(labels: seq<Value>, conds: Entries, row: seq<Value>, eq: (Value, Value) -> bool) {
    forall c :: 0 <= c < |conds| ==> Meets(labels, conds[c], row, eq)
  }

  /** Whether a condition can be evaluated: its column must exist (KeyError)
      and its values must be list-like (TypeError). */
  function CheckCondition(labels: seq<Value>, cond: (Value, Value)): (r: Result<()>)
    ensures r.Ok? <==> cond.0.NoneV? || (LabelIndex(labels, cond.0).Ok? && (cond.1.Tuple? || cond.1.List?))
  {
    if cond.0.NoneV? then Ok(())
    else
      var _ :- LabelIndex(labels, cond.0);
      if cond.1.Tuple? || cond.1.List? then Ok(())
      else if cond.1.Dict? then Err(Unmodelled)
      else Err(TypeError)
  }

  predicate AllCheck(labels: seq<Value>, conds: Entries) {
    forall c :: 0 <= c < |conds| ==> CheckCondition(labels, conds[c]).Ok?
  }

  /** The rows meeting every condition, as a predicate on rows. */
  function MeetsP(labels: seq<Value>, conds: Entries, eq: (Value, Value) -> bool): (p: seq<Value> -> bool)
    ensures forall row :: p(row) == MeetsAll(labels, conds, row, eq)
  {
    row => MeetsAll(labels, conds, row, eq)
  }

  /** The loop `df = df[df[k].isin(v)]` over the conditions. */
  function SliceRows(labels: seq<Value>, rows: seq<seq<Value>>, conds: Entries, eq: (Value, Value) -> bool)
    : (r: Result<seq<seq<Value>>>)
    ensures r.Ok? <==> AllCheck(labels, conds)
    ensures r.Ok? ==> r.value == Filter(rows, MeetsP(labels, conds, eq))
    decreases |conds|
  {
    if |conds| == 0 then
      FilterAll(rows, MeetsP(labels, conds, eq));
      Ok(rows)
    else
      var _ :- CheckCondition(labels, conds[0]);
      var kept := Filter(rows, MeetsP(labels, conds[..1], eq));
      var r := SliceRows(labels, kept, conds[1..], eq);
      SliceStep(labels, rows, conds, eq);
      r
  }

  /** Slicing by the first condition and then by the rest is slicing by
      all of them. */
  lemma SliceStep(labels: seq<Value>, rows: seq<seq<Value>>, conds: Entries, eq: (Value, Value) -> bool)
    requires |conds| > 0
    ensures AllCheck(labels, conds) <==> CheckCondition(labels, conds[0]).Ok? && AllCheck(labels, conds[1..])
    ensures Filter(Filter(rows, MeetsP(labels, conds[..1], eq)), MeetsP(labels, conds[1..], eq)) ==
      Filter(rows, MeetsP(labels, conds, eq))
  {
    assert forall c :: 1 <= c < |conds| ==> conds[c] == conds[1..][c - 1];
    forall i | 0 <= i < |rows|
      ensures MeetsAll(labels, conds, rows[i], eq) ==
        (MeetsAll(labels, conds[..1], rows[i], eq) && MeetsAll(labels, conds[1..], rows[i], eq))
    {
      MeetsAllCons(labels, conds, rows[i], eq);
    }
    FilterFilter(rows, MeetsP(labels, conds[..1], eq), MeetsP(labels, conds[1..], eq), MeetsP(labels, conds, eq));
  }

  lemma MeetsAllCons(labels: seq<Value>, conds: Entries, row: seq<Value>, eq: (Value, Value) -> bool)
    requires |conds| > 0
    ensures MeetsAll(labels, conds, row, eq) ==
      (MeetsAll(labels, conds[..1], row, eq) && MeetsAll(labels, conds[1..], row, eq))
  {
    assert forall c :: 1 <= c < |conds| ==> conds[c] == conds[1..][c - 1];
    assert conds[..1] == [conds[0]];
  }

  /** Whether every condition key is None. */
  predicate NoConditions(conds: Entries) {
    forall c :: 0 <= c < |conds| ==> conds[c].0.NoneV?
  }

  /** `slice_dframe(df, conditions)`: the rows meeting every condition, and
      a flag that is true when some row remains or there was no real
      condition. The input frame is not changed. */
  function SliceFrame(f: Frame, conds: Entries, eq: (Value, Value) -> bool): (r: Result<(Frame, bool)>)
    ensures r.Ok? <==> AllCheck(f.labels, conds)
    ensures r.Ok? ==> r.value.0 == Frame(f.labels, Filter(f.rows, MeetsP(f.labels, conds, eq)))
    ensures r.Ok? ==> (r.value.1 <==> |r.value.0.rows| != 0 || NoConditions(conds))
  {
    var rows :- SliceRows(f.labels, f.rows, conds, eq);
    Ok((Frame(f.labels, rows), |rows| != 0 || NoConditions(conds)))
  }

  /** Without real conditions, the slice is the whole frame. */
  lemma NoConditionsSlice(f: Frame, conds: Entries, eq: (Value, Value) -> bool)
    requires NoConditions(conds)
    ensures SliceFrame(f, conds, eq) == Ok((f, true))
  {
    FilterAll(f.rows, MeetsP(f.labels, conds, eq));
  }

  // ---------------------------------------------------------------------
  // chunk_dframes

  /** The guides' conditions, in plan order. */
  function CondsOf(plan: seq<SupplementGuide>): (cs: seq<Entries>)
    ensures |cs| == |plan| && forall j :: 0 <= j < |plan| ==> cs[j] == plan[j].conditions
  {
    seq(|plan|, j requires 0 <= j < |plan| => plan[j].conditions)
  }

  /** The first guide whose conditions a row meets. */
  function FirstMatch(cs: seq<Entries>, labels: seq<Value>, row: seq<Value>, eq: (Value, Value) -> bool)
    : (r: Option<nat>)
    ensures r.Some? ==> r.value < |cs| && MeetsAll(labels, cs[r.value], row, eq)
    ensures r.Some? ==> forall j :: 0 <= j < r.value ==> !MeetsAll(labels, cs[j], row, eq)
    ensures r.None? ==> forall j :: 0 <= j < |cs| ==> !MeetsAll(labels, cs[j], row, eq)
    decreases |cs|
  {
    if |cs| == 0 then None
    else if MeetsAll(labels, cs[0], row, eq) then Some(0)
    else
      assert forall j :: 1 <= j < |cs| ==> cs[j] == cs[1..][j - 1];
      match FirstMatch(cs[1..], labels, row, eq)
      case Some(k) => Some(k + 1)
      case None => None
  }

  /** The rows whose first matching guide is guide `j`. */
  function FirstIs(cs: seq<Entries>, labels: seq<Value>, eq: (Value, Value) -> bool, j: nat): (p: seq<Value> -> bool)
    ensures forall row :: p(row) == (FirstMatch(cs, labels, row, eq) == Some(j))
  {
    row => FirstMatch(cs, labels, row, eq) == Some(j)
  }

  /** The rows no guide matches. */
  function NoneMatch(cs: seq<Entries>, labels: seq<Value>, eq: (Value, Value) -> bool): (p: seq<Value> -> bool)
    ensures forall row :: p(row) == FirstMatch(cs, labels, row, eq).None?
  {
    row => FirstMatch(cs, labels, row, eq).None?
  }

  /** The rows of `f` that the `j`-th guide of a plan with conditions `cs`
      collects. */
  function Chunk(cs: seq<Entries>, f: Frame, j: nat, eq: (Value, Value) -> bool): Frame {
    Frame(f.labels, Filter(f.rows, FirstIs(cs, f.labels, eq, j)))
  }

  /** The rows of `f` no guide collects. */
  function Leftover(cs: seq<Entries>, f: Frame, eq: (Value, Value) -> bool): Frame {
    Frame(f.labels, Filter(f.rows, NoneMatch(cs, f.labels, eq)))
  }

  /** The rows of `f` the first guide of `cs` leaves behind. */
  function Rest(cs: seq<Entries>, f: Frame, eq: (Value, Value) -> bool): Frame
    requires |cs| > 0
  {
    Frame(f.labels, Filter(f.rows, Not(MeetsP(f.labels, cs[0], eq))))
  }

  predicate AllCheckPlan(cs: seq<Entries>, labels: seq<Value>) {
    forall j :: 0 <= j < |cs| ==> AllCheck(labels, cs[j])
  }

  /** The inner loop of `chunk_dframes` for one frame: every guide appends
      its slice, and a successful slice is dropped from the frame before
      the next guide sees it. */
  function ChunkFrame(plan: seq<SupplementGuide>, f: Frame, eq: (Value, Value) -> bool)
    : (r: Result<(seq<SupplementGuide>, Frame)>)
    ensures r.Ok? <==> AllCheckPlan(CondsOf(plan), f.labels)
    ensures r.Ok? ==> Gained(plan, r.value.0, OneChunk(CondsOf(plan), f, eq))
    ensures r.Ok? ==> r.value.1 == Leftover(CondsOf(plan), f, eq)
    decreases |plan|
  {
    if |plan| == 0 then
      FilterAll(f.rows, NoneMatch([], f.labels, eq));
      Ok(([], f))
    else
      var cs := CondsOf(plan);
      assert CondsOf(plan[1..]) == cs[1..];
      assert forall j :: 1 <= j < |cs| ==> cs[j] == cs[1..][j - 1];
      assert AllCheckPlan(cs, f.labels) <==> AllCheck(f.labels, cs[0]) && AllCheckPlan(cs[1..], f.labels);
      var sl :- SliceFrame(f, plan[0].conditions, eq);
      var g := AppendChunk(plan[0], sl.0);
      var f' := if sl.1 then Rest(cs, f, eq) else f;
      DropSlice(f, cs[0], sl.1, eq);
      var rest :- ChunkFrame(plan[1..], f', eq);
      ChunkFrameStep(cs, f, eq);
      OneChunkStep(cs, f, eq);
      GainedCons(plan, g, rest.0, OneChunk(cs, f, eq));
      Ok(([g] + rest.0, rest.1))
  }

  /** Dropping an unsuccessful slice changes nothing, so the frame after the
      step always holds the rows the slice did not take. */
  lemma DropSlice(f: Frame, conds: Entries, ok: bool, eq: (Value, Value) -> bool)
    requires ok <==> |Filter(f.rows, MeetsP(f.labels, conds, eq))| != 0 || NoConditions(conds)
    ensures (if ok then Rest([conds], f, eq) else f) == Rest([conds], f, eq)
  {
    if !ok {
      forall i | 0 <= i < |f.rows| ensures Not(MeetsP(f.labels, conds, eq))(f.rows[i]) {
        if MeetsAll(f.labels, conds, f.rows[i], eq) {
          InFilter(f.rows, MeetsP(f.labels, conds, eq), i);
        }
      }
      FilterAll(f.rows, Not(MeetsP(f.labels, conds, eq)));
    }
  }

  /** The chunks and leftover after the first guide are those of the rest
      of the plan applied to the rows the first guide did not take. */
  lemma ChunkFrameStep(cs: seq<Entries>, f: Frame, eq: (Value, Value) -> bool)
    requires |cs| > 0
    ensures Leftover(cs[1..], Rest(cs, f, eq), eq) == Leftover(cs, f, eq)
    ensures Chunk(cs, f, 0, eq) == Frame(f.labels, Filter(f.rows, MeetsP(f.labels, cs[0], eq)))
    ensures forall j :: 0 <= j < |cs| - 1 ==> Chunk(cs[1..], Rest(cs, f, eq), j, eq) == Chunk(cs, f, j + 1, eq)
  {
    LeftoverStep(cs, f, eq);
    ChunkHead(cs, f, eq);
    forall j | 0 <= j < |cs| - 1
      ensures Chunk(cs[1..], Rest(cs, f, eq), j, eq) == Chunk(cs, f, j + 1, eq)
    {
      ChunkStep(cs, f, eq, j);
    }
  }

  /** A row no guide matches is one the first guide does not take and no
      later guide matches. */
  lemma LeftoverStep(cs: seq<Entries>, f: Frame, eq: (Value, Value) -> bool)
    requires |cs| > 0
    ensures Leftover(cs[1..], Rest(cs, f, eq), eq) == Leftover(cs, f, eq)
  {
    var p, q, pq := Not(MeetsP(f.labels, cs[0], eq)), NoneMatch(cs[1..], f.labels, eq), NoneMatch(cs, f.labels, eq);
    forall i | 0 <= i < |f.rows| ensures pq(f.rows[i]) == (p(f.rows[i]) && q(f.rows[i])) {
      FirstMatchCons(cs, f.labels, f.rows[i], eq);
    }
    FilterFilter(f.rows, p, q, pq);
  }

  /** The first guide's chunk is its slice. */
  lemma ChunkHead(cs: seq<Entries>, f: Frame, eq: (Value, Value) -> bool)
    requires |cs| > 0
    ensures Chunk(cs, f, 0, eq) == Frame(f.labels, Filter(f.rows, MeetsP(f.labels, cs[0], eq)))
  {
    var p, q := MeetsP(f.labels, cs[0], eq), FirstIs(cs, f.labels, eq, 0);
    forall i | 0 <= i < |f.rows| ensures p(f.rows[i]) == q(f.rows[i]) {
      FirstMatchCons(cs, f.labels, f.rows[i], eq);
    }
    FilterExt(f.rows, p, q);
  }

  /** Guide `j + 1` takes from the whole frame what guide `j` of the rest
      of the plan takes from the rows the first guide left. */
  lemma ChunkStep(cs: seq<Entries>, f: Frame, eq: (Value, Value) -> bool, j: nat)
    requires j < |cs| - 1
    ensures Chunk(cs[1..], Rest(cs, f, eq), j, eq) == Chunk(cs, f, j + 1, eq)
  {
    var p, q, pq := Not(MeetsP(f.labels, cs[0], eq)), FirstIs(cs[1..], f.labels, eq, j), FirstIs(cs, f.labels, eq, j + 1);
    forall i | 0 <= i < |f.rows| ensures pq(f.rows[i]) == (p(f.rows[i]) && q(f.rows[i])) {
      FirstMatchCons(cs, f.labels, f.rows[i], eq);
    }
    FilterFilter(f.rows, p, q, pq);
  }

  /** `FirstMatch` at the first guide. */
  lemma FirstMatchCons(cs: seq<Entries>, labels: seq<Value>, row: seq<Value>, eq: (Value, Value) -> bool)
    requires |cs| > 0
    ensures MeetsAll(labels, cs[0], row, eq) ==> FirstMatch(cs, labels, row, eq) == Some(0)
    ensures !MeetsAll(labels, cs[0], row, eq) ==> FirstMatch(cs, labels, row, eq).None? == FirstMatch(cs[1..], labels, row, eq).None?
    ensures forall j :: !MeetsAll(labels, cs[0], row, eq) ==>
      (FirstMatch(cs, labels, row, eq) == Some(j + 1) <==> FirstMatch(cs[1..], labels, row, eq) == Some(j))
  {
  }

  /** Guide `j` of `after` is guide `j` of `before` with `extra[j]` appended
      to its chunks. */
  predicate Gained(before: seq<SupplementGuide>, after: seq<SupplementGuide>, extra: seq<seq<Frame>>) {
    |after| == |before| == |extra| &&
    forall j :: 0 <= j < |before| ==> after[j] == before[j].(chunks := before[j].chunks + extra[j])
  }

  /** Gaining at the front and in the rest of a plan. */
  lemma GainedCons(plan: seq<SupplementGuide>, g: SupplementGuide, rest: seq<SupplementGuide>, extra: seq<seq<Frame>>)
    requires |plan| > 0 && |extra| == |plan|
    requires g == plan[0].(chunks := plan[0].chunks + extra[0])
    requires Gained(plan[1..], rest, extra[1..])
    ensures Gained(plan, [g] + rest, extra)
  {
    forall j | 1 <= j < |plan|
      ensures ([g] + rest)[j] == plan[j].(chunks := plan[j].chunks + extra[j])
    {
      assert plan[1..][j - 1] == plan[j] && extra[1..][j - 1] == extra[j];
    }
  }

  /** Gaining twice is gaining both in turn. */
  lemma GainedTwice(plan: seq<SupplementGuide>, mid: seq<SupplementGuide>, after: seq<SupplementGuide>,
                    a: seq<seq<Frame>>, b: seq<seq<Frame>>, ab: seq<seq<Frame>>)
    requires Gained(plan, mid, a) && Gained(mid, after, b)
    requires |ab| == |plan| && forall j :: 0 <= j < |plan| ==> ab[j] == a[j] + b[j]
    ensures Gained(plan, after, ab)
  {
    forall j | 0 <= j < |plan|
      ensures after[j] == plan[j].(chunks := plan[j].chunks + ab[j])
    {
      assert (plan[j].chunks + a[j]) + b[j] == plan[j].chunks + ab[j];
    }
  }

  /** A plan's guides with their conditions unchanged. */
  lemma GainedConds(before: seq<SupplementGuide>, after: seq<SupplementGuide>, extra: seq<seq<Frame>>)
    requires Gained(before, after, extra)
    ensures CondsOf(after) == CondsOf(before)
  {
  }

  /** The chunk each guide of the plan takes from one frame. */
  function OneChunk(cs: seq<Entries>, f: Frame, eq: (Value, Value) -> bool): (r: seq<seq<Frame>>)
    ensures |r| == |cs| && forall j :: 0 <= j < |cs| ==> r[j] == [Chunk(cs, f, j, eq)]
  {
    seq(|cs|, j requires 0 <= j < |cs| => [Chunk(cs, f, j, eq)])
  }

  /** The chunks of the rest of the plan from the rows the first guide left
      are the chunks of the whole plan after the first. */
  lemma OneChunkStep(cs: seq<Entries>, f: Frame, eq: (Value, Value) -> bool)
    requires |cs| > 0
    ensures OneChunk(cs[1..], Rest(cs, f, eq), eq) == OneChunk(cs, f, eq)[1..]
  {
    ChunkFrameStep(cs, f, eq);
  }

  /** The chunks guide `j` collects from each frame, in frame order. */
  function Chunks(cs: seq<Entries>, frames: seq<Frame>, j: nat, eq: (Value, Value) -> bool): (r: seq<Frame>)
    ensures |r| == |frames| && forall i :: 0 <= i < |frames| ==> r[i] == Chunk(cs, frames[i], j, eq)
  {
    seq(|frames|, i requires 0 <= i < |frames| => Chunk(cs, frames[i], j, eq))
  }

  /** The chunks every guide of the plan collects from the frames. */
  function AllChunks(cs: seq<Entries>, frames: seq<Frame>, eq: (Value, Value) -> bool): (r: seq<seq<Frame>>)
    ensures |r| == |cs| && forall j :: 0 <= j < |cs| ==> r[j] == Chunks(cs, frames, j, eq)
  {
    seq(|cs|, j requires 0 <= j < |cs| => Chunks(cs, frames, j, eq))
  }

  /** The chunks from the first frame come before those from the rest. */
  lemma AllChunksCons(cs: seq<Entries>, frames: seq<Frame>, eq: (Value, Value) -> bool)
    requires |frames| > 0
    ensures forall j :: 0 <= j < |cs| ==>
      AllChunks(cs, frames, eq)[j] == OneChunk(cs, frames[0], eq)[j] + AllChunks(cs, frames[1..], eq)[j]
  {
    forall j | 0 <= j < |cs|
      ensures AllChunks(cs, frames, eq)[j] == OneChunk(cs, frames[0], eq)[j] + AllChunks(cs, frames[1..], eq)[j]
    {
      assert Chunks(cs, frames, j, eq) == [Chunk(cs, frames[0], j, eq)] + Chunks(cs, frames[1..], j, eq);
    }
  }

  /** Whether every frame has what every guide's conditions need. */
  predicate FramesCheck(cs: seq<Entries>, frames: seq<Frame>) {
    forall i :: 0 <= i < |frames| ==> AllCheckPlan(cs, frames[i].labels)
  }

  /** What no guide collects from each frame. */
  function Leftovers(cs: seq<Entries>, frames: seq<Frame>, eq: (Value, Value) -> bool): (r: seq<Frame>)
    ensures |r| == |frames| && forall i :: 0 <= i < |frames| ==> r[i] == Leftover(cs, frames[i], eq)
  {
    seq(|frames|, i requires 0 <= i < |frames| => Leftover(cs, frames[i], eq))
  }

  lemma FramesStep(cs: seq<Entries>, frames: seq<Frame>, eq: (Value, Value) -> bool)
    requires |frames| > 0
    ensures FramesCheck(cs, frames) <==> AllCheckPlan(cs, frames[0].labels) && FramesCheck(cs, frames[1..])
    ensures Leftovers(cs, frames, eq) == [Leftover(cs, frames[0], eq)] + Leftovers(cs, frames[1..], eq)
  {
    assert forall i :: 1 <= i < |frames| ==> frames[i] == frames[1..][i - 1];
    var l, l' := Leftovers(cs, frames, eq), [Leftover(cs, frames[0], eq)] + Leftovers(cs, frames[1..], eq);
    forall i | 0 <= i < |frames| ensures l[i] == l'[i] {
      if i > 0 {
        assert l'[i] == Leftovers(cs, frames[1..], eq)[i - 1];
      }
    }
  }

  /** The outer loop of `chunk_dframes`: every frame in turn, each guide
      keeping its chunks from the earlier frames; the leftovers are
      returned in frame order. */
  function ChunkAll(plan: seq<SupplementGuide>, frames: seq<Frame>, eq: (Value, Value) -> bool)
    : (r: Result<(seq<SupplementGuide>, seq<Frame>)>)
    ensures r.Ok? <==> FramesCheck(CondsOf(plan), frames)
    ensures r.Ok? ==> Gained(plan, r.value.0, AllChunks(CondsOf(plan), frames, eq))
    ensures r.Ok? ==> r.value.1 == Leftovers(CondsOf(plan), frames, eq)
    decreases |frames|
  {
    if |frames| == 0 then
      GainedNothing(plan, AllChunks(CondsOf(plan), frames, eq));
      Ok((plan, []))
    else
      var cs := CondsOf(plan);
      var step :- ChunkFrame(plan, frames[0], eq);
      GainedConds(plan, step.0, OneChunk(cs, frames[0], eq));
      var rest :- ChunkAll(step.0, frames[1..], eq);
      FramesStep(cs, frames, eq);
      AllChunksCons(cs, frames, eq);
      GainedTwice(plan, step.0, rest.0, OneChunk(cs, frames[0], eq), AllChunks(cs, frames[1..], eq),
        AllChunks(cs, frames, eq));
      Ok((rest.0, [step.1] + rest.1))
  }

  /** Gaining only empty chunk lists changes nothing. */
  lemma GainedNothing(plan: seq<SupplementGuide>, extra: seq<seq<Frame>>)
    requires |extra| == |plan| && forall j :: 0 <= j < |plan| ==> extra[j] == []
    ensures Gained(plan, plan, extra)
  {
    forall j | 0 <= j < |plan| ensures plan[j] == plan[j].(chunks := plan[j].chunks + extra[j]) {
      assert plan[j].chunks + [] == plan[j].chunks;
    }
  }

  /** `chunk_dframes(plan, *frames)`: each guide gains one chunk per frame,
      holding the rows of that frame whose first matching guide it is; the
      first frame comes back holding the rows no guide took. */
  function ChunkDframes(plan: seq<SupplementGuide>, frames: seq<Frame>, eq: (Value, Value) -> bool)
    : (r: Result<(seq<SupplementGuide>, Frame)>)
    ensures |frames| == 0 ==> r == Err(IndexError)
    ensures |frames| > 0 ==> (r.Ok? <==> FramesCheck(CondsOf(plan), frames))
    ensures r.Ok? ==> Gained(plan, r.value.0, AllChunks(CondsOf(plan), frames, eq))
    ensures r.Ok? ==> r.value.1 == Leftover(CondsOf(plan), frames[0], eq)
  {
    if |frames| == 0 then Err(IndexError)
    else
      var done :- ChunkAll(plan, frames, eq);
      Ok((done.0, done.1[0]))
  }

  /** A row of a frame lands in exactly one place: the chunk of its first
      matching guide, or the leftover when no guide matches. */
  lemma RowPlacement(cs: seq<Entries>, f: Frame, row: seq<Value>, eq: (Value, Value) -> bool)
    requires row in f.rows
    ensures FirstMatch(cs, f.labels, row, eq).None? <==> row in Leftover(cs, f, eq).rows
    ensures forall j :: 0 <= j < |cs| ==> (row in Chunk(cs, f, j, eq).rows <==> FirstMatch(cs, f.labels, row, eq) == Some(j))
  {
    var i :| 0 <= i < |f.rows| && f.rows[i] == row;
    if FirstMatch(cs, f.labels, row, eq).None? {
      InFilter(f.rows, NoneMatch(cs, f.labels, eq), i);
    }
    forall j | 0 <= j < |cs| && FirstMatch(cs, f.labels, row, eq) == Some(j)
      ensures row in Chunk(cs, f, j, eq).rows
    {
      InFilter(f.rows, FirstIs(cs, f.labels, eq, j), i);
    }
  }
}

=== FILE: text.dfy ===
/** Character classes and the Python `str` methods the modelled code uses
    (`strip`, `split`, `join`, `replace`, `lower`, `upper`), restricted to
    ASCII case mapping. */
module Text {

  predicate IsDigit(c: char) { '0' <= c <= '9' }
  predicate IsUpper(c: char) { 'A' <= c <= 'Z' }
  predicate IsLower(c: char) { 'a' <= c <= 'z' }
  predicate IsLetter(c: char) { IsUpper(c) || IsLower(c) }

  /** The characters Python's `str.isspace` accepts in the ASCII range. */
  predicate IsWhitespace(c: char) {
    c == ' ' || c == '\t' || c == '\n' || c == '\r' || c == '\U{B}' || c == '\U{C}'
    || ('\U{1C}' <= c <= '\U{1F}')
  }

  function Lower(c: char): (r: char)
    ensures IsUpper(c) ==> IsLower(r)
    ensures !IsUpper(c) ==> r == c
  {
    if IsUpper(c) then (c as int + 32) as char else c
  }

  function Upper(c: char): (r: char)
    ensures IsLower(c) ==> IsUpper(r)
    ensures !IsLower(c) ==> r == c
  {
    if IsLower(c) then (c as int - 32) as char else c
  }

  function LowerStr(s: string): (r: string)
    ensures |r| == |s|
    ensures forall i :: 0 <= i < |s| ==> r[i] == Lower(s[i])
  {
    if |s| == 0 then "" else [Lower(s[0])] + LowerStr(s[1..])
  }

  function UpperStr(s: string): (r: string)
    ensures |r| == |s|
    ensures forall i :: 0 <= i < |s| ==> r[i] == Upper(s[i])
  {
    if |s| == 0 then "" else [Upper(s[0])] + UpperStr(s[1..])
  }

  lemma LowerStrIdentity(s: string)
    requires forall i :: 0 <= i < |s| ==> !IsUpper(s[i])
    ensures LowerStr(s) == s
  {
  }

  predicate HasDigit(s: string) { exists i :: 0 <= i < |s| && IsDigit(s[i]) }
  predicate HasLetter(s: string) { exists i :: 0 <= i < |s| && IsLetter(s[i]) }
  predicate AllDigits(s: string) { forall i :: 0 <= i < |s| ==> IsDigit(s[i]) }

  /** Removes the characters satisfying `drop`. */
  function DeleteChars(s: string, drop: char -> bool): (r: string)
    ensures |r| <= |s|
    ensures forall c :: c in r ==> c in s && !drop(c)
  {
    if |s| == 0 then ""
    else if drop(s[0]) then DeleteChars(s[1..], drop)
    else [s[0]] + DeleteChars(s[1..], drop)
  }

  /** Two filters that agree on every character of `s` delete the same ones. */
  lemma {:induction false} DeleteCharsAgree(s: string, p: char -> bool, q: char -> bool)
    ensures (forall i :: 0 <= i < |s| ==> p(s[i]) == q(s[i])) ==> DeleteChars(s, p) == DeleteChars(s, q)
    decreases |s|
  {
    if |s| > 0 && forall i :: 0 <= i < |s| ==> p(s[i]) == q(s[i]) {
      assert forall i :: 0 <= i < |s[1..]| ==> s[1..][i] == s[i + 1];
      DeleteCharsAgree(s[1..], p, q);
    }
  }

  lemma DeleteCharsAppend(a: string, b: string, drop: char -> bool)
    ensures DeleteChars(a + b, drop) == DeleteChars(a, drop) + DeleteChars(b, drop)
  {
    if |a| > 0 {
      assert (a + b)[1..] == a[1..] + b;
      DeleteCharsAppend(a[1..], b, drop);
    } else {
      assert a + b == b;
    }
  }

  lemma DeleteCharsNothing(s: string, drop: char -> bool)
    requires forall c :: c in s ==> !drop(c)
    ensures DeleteChars(s, drop) == s
  {
    if |s| > 0 {
      DeleteCharsNothing(s[1..], drop);
    }
  }

  function StripLeft(s: string): (r: string)
    ensures |r| <= |s| && r == s[|s| - |r|..]
    ensures |r| > 0 ==> !IsWhitespace(r[0])
    ensures forall i :: 0 <= i < |s| - |r| ==> IsWhitespace(s[i])
  {
    if |s| > 0 && IsWhitespace(s[0]) then StripLeft(s[1..]) else s
  }

  function StripRight(s: string): (r: string)
    ensures |r| <= |s| && r == s[..|r|]
    ensures |r| > 0 ==> !IsWhitespace(r[|r| - 1])
    ensures forall i :: |r| <= i < |s| ==> IsWhitespace(s[i])
  {
    if |s| > 0 && IsWhitespace(s[|s| - 1]) then StripRight(s[..|s| - 1]) else s
  }

  /** Python's `str.strip()`. */
  function Strip(s: string): (r: string)
    ensures |r| <= |s|
    ensures |r| > 0 ==> !IsWhitespace(r[0]) && !IsWhitespace(r[|r| - 1])
    ensures exists a :: OccursAt(s, r, a)
  {
    var l := StripLeft(s);
    var r := StripRight(l);
    assert OccursAt(s, r, |s| - |l|);
    r
  }

  /** `t` occurs in `s` starting at index `i`. */
  predicate OccursAt(s: string, t: string, i: int) {
    0 <= i <= |s| - |t| && s[i..i + |t|] == t
  }

  lemma StripIdentity(s: string)
    requires |s| > 0 ==> !IsWhitespace(s[0]) && !IsWhitespace(s[|s| - 1])
    ensures Strip(s) == s
  {
  }

  /** The index of the first occurrence of `c` in `s`. */
  function IndexOf(s: string, c: char): (i: nat)
    requires c in s
    ensures i < |s| && s[i] == c && c !in s[..i]
  {
    if s[0] == c then 0 else 1 + IndexOf(s[1..], c)
  }

  /** Python's `s.split(sep)` for a one-character separator. */
  function Split(s: string, sep: char): (r: seq<string>)
    ensures |r| > 0
    ensures forall k :: 0 <= k < |r| ==> sep !in r[k]
    decreases |s|
  {
    if sep !in s then [s]
    else
      var i := IndexOf(s, sep);
      [s[..i]] + Split(s[i + 1..], sep)
  }

  /** Python's `sep.join(parts)`. */
  function Join(parts: seq<string>, sep: string): (r: string)
    ensures |parts| == 0 ==> r == ""
    ensures |parts| == 1 ==> r == parts[0]
  {
    if |parts| == 0 then ""
    else if |parts| == 1 then parts[0]
    else parts[0] + sep + Join(parts[1..], sep)
  }

  lemma {:induction false} SplitJoin(s: string, sep: char)
    ensures Join(Split(s, sep), [sep]) == s
    decreases |s|
  {
    if sep in s {
      var i := IndexOf(s, sep);
      var rest := Split(s[i + 1..], sep);
      SplitJoin(s[i + 1..], sep);
      assert Split(s, sep) == [s[..i]] + rest;
      assert s == s[..i] + [sep] + s[i + 1..];
    }
  }

  lemma {:induction false} JoinSplit(parts: seq<string>, sep: char)
    requires |parts| > 0
    requires forall k :: 0 <= k < |parts| ==> sep !in parts[k]
    ensures Split(Join(parts, [sep]), sep) == parts
  {
    if |parts| > 1 {
      var rest := Join(parts[1..], [sep]);
      var s := parts[0] + [sep] + rest;
      assert s[..|parts[0]|] == parts[0];
      assert sep in s by { assert s[|parts[0]|] == sep; }
      assert IndexOf(s, sep) == |parts[0]| by {
        assert s[|parts[0]|] == sep;
        assert sep !in s[..|parts[0]|];
        IndexOfUnique(s, sep, |parts[0]|);
      }
      assert s[|parts[0]| + 1..] == rest;
      assert Split(s, sep) == [parts[0]] + Split(rest, sep);
      JoinSplit(parts[1..], sep);
      assert parts == [parts[0]] + parts[1..];
    }
  }

  /** Joining a concatenation puts one separator between the two joins. */
  lemma {:induction false} JoinAppend(a: seq<string>, b: seq<string>, sep: string)
    requires |a| > 0 && |b| > 0
    ensures Join(a + b, sep) == Join(a, sep) + sep + Join(b, sep)
    decreases |a|
  {
    if |a| == 1 {
      assert (a + b)[1..] == b;
    } else {
      assert (a + b)[1..] == a[1..] + b;
      JoinAppend(a[1..], b, sep);
    }
  }

  /** Joining the parts before `i`, the part at `i` and the parts after
      it is joining them all. */
  lemma JoinAround(parts: seq<string>, i: nat, sep: string)
    requires 0 < i < |parts| - 1
    ensures Join(parts[..i], sep) + sep + parts[i] + sep + Join(parts[i + 1..], sep) == Join(parts, sep)
  {
    var a, w, b := parts[..i], parts[i], parts[i + 1..];
    assert parts == a + ([w] + b);
    JoinAppend(a, [w] + b, sep);
    JoinAppend([w], b, sep);
    var ja, jb := Join(a, sep), Join(b, sep);
    assert Join([w] + b, sep) == w + sep + jb;
    assert ja + sep + (w + sep + jb) == ja + sep + w + sep + jb;
  }

  lemma IndexOfUnique(s: string, c: char, i: nat)
    requires i < |s| && s[i] == c && c !in s[..i]
    ensures IndexOf(s, c) == i
  {
    if i > 0 {
      assert s[0] == s[..i][0];
      assert s[1..][..i - 1] == s[..i][1..];
      IndexOfUnique(s[1..], c, i - 1);
    }
  }

  lemma JoinLength(parts: seq<string>, sep: string)
    requires |parts| > 0
    ensures |Join(parts, sep)| == SumLengths(parts) + (|parts| - 1) * |sep|
  {
    if |parts| > 1 {
      JoinLength(parts[1..], sep);
    }
  }

  function SumLengths(parts: seq<string>): nat {
    if |parts| == 0 then 0 else |parts[0]| + SumLengths(parts[1..])
  }

  /** Python's `s.replace(pat, rep)`: non-overlapping, left to right. */
  function ReplaceAll(s: string, pat: string, rep: string): (r: string)
    requires |pat| > 0
    decreases |s|
  {
    if |s| < |pat| then s
    else if s[..|pat|] == pat then rep + ReplaceAll(s[|pat|..], pat, rep)
    else [s[0]] + ReplaceAll(s[1..], pat, rep)
  }

  lemma {:induction false} ReplaceAbsent(s: string, pat: string, rep: string)
    requires |pat| > 0
    requires forall i :: !OccursAt(s, pat, i)
    ensures ReplaceAll(s, pat, rep) == s
    decreases |s|
  {
    if |s| >= |pat| {
      assert !OccursAt(s, pat, 0);
      forall i | 0 <= i <= |s[1..]| - |pat|
        ensures !OccursAt(s[1..], pat, i)
      {
        assert s[1..][i..i + |pat|] == s[i + 1..i + 1 + |pat|];
        assert !OccursAt(s, pat, i + 1);
      }
      ReplaceAbsent(s[1..], pat, rep);
    }
  }

  /** Replacing `pat` by a replacement no longer than it never lengthens the
      string. */
  lemma {:induction false} ReplaceAllShorter(s: string, pat: string, rep: string)
    requires |pat| > 0 && |rep| <= |pat|
    ensures |ReplaceAll(s, pat, rep)| <= |s|
    decreases |s|
  {
    if |s| >= |pat| {
      if s[..|pat|] == pat {
        ReplaceAllShorter(s[|pat|..], pat, rep);
      } else {
        ReplaceAllShorter(s[1..], pat, rep);
      }
    }
  }

  /** When `pat` and `rep` agree once the `drop` characters are deleted,
      replacing changes nothing but `drop` characters. */
  lemma {:induction false} ReplaceKeepsOthers(s: string, pat: string, rep: string, drop: char -> bool)
    requires |pat| > 0 && DeleteChars(pat, drop) == DeleteChars(rep, drop)
    ensures DeleteChars(ReplaceAll(s, pat, rep), drop) == DeleteChars(s, drop)
    decreases |s|
  {
    if |s| >= |pat| {
      if s[..|pat|] == pat {
        var rest := s[|pat|..];
        ReplaceKeepsOthers(rest, pat, rep, drop);
        DeleteCharsAppend(rep, ReplaceAll(rest, pat, rep), drop);
        DeleteCharsAppend(pat, rest, drop);
        assert s == pat + rest;
      } else {
        var rest := s[1..];
        ReplaceKeepsOthers(rest, pat, rep, drop);
        DeleteCharsAppend([s[0]], ReplaceAll(rest, pat, rep), drop);
        DeleteCharsAppend([s[0]], rest, drop);
        assert s == [s[0]] + rest;
      }
    }
  }

  /** `re.sub(c + "+", rep, s)` for a single character `c`: every maximal
      run of `c` becomes `rep`. */
  function SubRuns(c: char, s: string, rep: string): (r: string)
    decreases |s|
  {
    if |s| == 0 then ""
    else if s[0] == c then rep + SubRuns(c, DropRun(c, s), rep)
    else [s[0]] + SubRuns(c, s[1..], rep)
  }

  /** The length of the leading run of `c`. */
  function LeadingRun(c: char, s: string): (k: nat)
    ensures k <= |s|
    ensures forall i :: 0 <= i < k ==> s[i] == c
    ensures k < |s| ==> s[k] != c
  {
    if |s| > 0 && s[0] == c then 1 + LeadingRun(c, s[1..]) else 0
  }

  /** Drops the leading run of `c`. */
  function DropRun(c: char, s: string): (r: string)
    ensures |r| <= |s| && r == s[|s| - |r|..]
    ensures |r| > 0 ==> r[0] != c
    ensures |s| > 0 && s[0] == c ==> |r| < |s|
    ensures forall i :: 0 <= i < |s| - |r| ==> s[i] == c
  {
    s[LeadingRun(c, s)..]
  }

  lemma {:induction false} SubRunsChars(c: char, s: string, rep: string)
    ensures forall x :: x in SubRuns(c, s, rep) ==> (x in s && x != c) || x in rep
    decreases |s|
  {
    if |s| > 0 {
      if s[0] == c {
        var d := DropRun(c, s);
        SubRunsChars(c, d, rep);
        forall x | x in d ensures x in s {
          var k :| 0 <= k < |d| && d[k] == x;
          assert s[|s| - |d| + k] == x;
        }
      } else {
        SubRunsChars(c, s[1..], rep);
      }
    }
  }

  lemma {:induction false} SubRunsAbsent(c: char, s: string, rep: string)
    requires c !in s
    ensures SubRuns(c, s, rep) == s
    decreases |s|
  {
    if |s| > 0 {
      assert s[0] != c;
      SubRunsAbsent(c, s[1..], rep);
      assert s == [s[0]] + s[1..];
    }
  }

  lemma {:induction false} SubRunsLast(c: char, s: string, rep: string)
    ensures |s| > 0 && s[|s| - 1] != c ==>
      var r := SubRuns(c, s, rep); |r| > 0 && r[|r| - 1] == s[|s| - 1]
    decreases |s|
  {
    if |s| == 0 || s[|s| - 1] == c {
    } else if s[0] == c {
      var d := DropRun(c, s);
      assert d[|d| - 1] == s[|s| - 1];
      SubRunsLast(c, d, rep);
      var t := SubRuns(c, d, rep);
      assert SubRuns(c, s, rep) == rep + t;
    } else if |s| > 1 {
      SubRunsLast(c, s[1..], rep);
      var t := SubRuns(c, s[1..], rep);
      assert SubRuns(c, s, rep) == [s[0]] + t;
    } else {
      assert SubRuns(c, s, rep) == [s[0]] + SubRuns(c, s[1..], rep);
    }
  }

  /** No two copies of `c` are adjacent. */
  predicate NoDoubleRun(c: char, s: string) {
    forall i :: 0 <= i < |s| - 1 ==> !(s[i] == c && s[i + 1] == c)
  }

  /** Replacing every run of `c` by one `c` leaves no two adjacent. */
  lemma {:induction false} SubRunsSingle(c: char, s: string)
    ensures NoDoubleRun(c, SubRuns(c, s, [c]))
    decreases |s|
  {
    if |s| > 0 {
      if s[0] == c {
        var d := DropRun(c, s);
        SubRunsSingle(c, d);
        var rest := SubRuns(c, d, [c]);
        assert |d| > 0 ==> rest[0] == d[0] != c;
        assert SubRuns(c, s, [c]) == [c] + rest;
      } else {
        SubRunsSingle(c, s[1..]);
        var rest := SubRuns(c, s[1..], [c]);
        assert SubRuns(c, s, [c]) == [s[0]] + rest;
      }
    }
  }

  /** Deleting every character of a string made only of deleted characters
      leaves nothing. */
  lemma AllDeleted(w: string, drop: char -> bool)
    requires forall i :: 0 <= i < |w| ==> drop(w[i])
    ensures DeleteChars(w, drop) == ""
  {
    if |w| > 0 {
      AllDeleted(w[1..], drop);
    }
  }

  /** Collapsing runs of a deleted character changes nothing once those
      characters are deleted. */
  lemma {:induction false} SubRunsKeepsOthers(c: char, s: string, drop: char -> bool)
    requires drop(c)
    ensures DeleteChars(SubRuns(c, s, [c]), drop) == DeleteChars(s, drop)
    decreases |s|
  {
    if |s| > 0 {
      if s[0] == c {
        var k := LeadingRun(c, s);
        var d := DropRun(c, s);
        SubRunsKeepsOthers(c, d, drop);
        DeleteCharsAppend([c], SubRuns(c, d, [c]), drop);
        assert s == s[..k] + d;
        DeleteCharsAppend(s[..k], d, drop);
        AllDeleted(s[..k], drop);
        AllDeleted([c], drop);
      } else {
        SubRunsKeepsOthers(c, s[1..], drop);
        DeleteCharsAppend([s[0]], SubRuns(c, s[1..], [c]), drop);
        DeleteCharsAppend([s[0]], s[1..], drop);
        assert s == [s[0]] + s[1..];
      }
    }
  }

  /** The decimal text of a natural number, without leading zeros. */
  function NatToString(n: nat): (r: string)
    ensures |r| > 0 && AllDigits(r)
    ensures |r| > 1 ==> r[0] != '0'
    ensures r[0] == '0' <==> n == 0
    decreases n
  {
    if n < 10 then [DigitChar(n)]
    else NatToString(n / 10) + [DigitChar(n % 10)]
  }

  function DigitChar(d: nat): (c: char)
    requires d < 10
    ensures IsDigit(c) && (c == '0' <==> d == 0)
  {
    ('0' as int + d) as char
  }

  function DigitValue(c: char): (d: nat)
    requires IsDigit(c)
    ensures d < 10 && DigitChar(d) == c
  {
    c as int - '0' as int
  }

  /** Python's `str(i)` for an int. */
  function IntToString(i: int): (r: string)
    ensures |r| > 0
    ensures i >= 0 ==> AllDigits(r)
    ensures i < 0 ==> r[0] == '-'
  {
    if i >= 0 then NatToString(i) else "-" + NatToString(-i)
  }

  /** Python's `int(s)` for a string of ASCII digits. */
  function ParseNat(s: string): nat
    requires AllDigits(s)
    decreases |s|
  {
    if |s| == 0 then 0 else ParseNat(s[..|s| - 1]) * 10 + DigitValue(s[|s| - 1])
  }

  lemma {:induction false} ParseNatToString(n: nat)
    ensures ParseNat(NatToString(n)) == n
    decreases n
  {
    if n >= 10 {
      var s := NatToString(n);
      assert s[..|s| - 1] == NatToString(n / 10);
      ParseNatToString(n / 10);
    }
  }

  /** Decimal text without leading zeros is the text of the number it denotes. */
  lemma {:induction false} NatToStringParse(s: string)
    requires |s| > 0 && AllDigits(s)
    requires |s| > 1 ==> s[0] != '0'
    ensures NatToString(ParseNat(s)) == s
    decreases |s|
  {
    if |s| > 1 {
      var p := s[..|s| - 1];
      NatToStringParse(p);
      ParsePositive(p);
      var n := ParseNat(s);
      assert n / 10 == ParseNat(p);
      assert n % 10 == DigitValue(s[|s| - 1]);
      assert n >= 10;
    } else {
      assert ParseNat(s) == DigitValue(s[0]) by {
        assert s[..0] == "";
      }
    }
  }

  lemma {:induction false} ParsePositive(s: string)
    requires |s| > 0 && AllDigits(s) && s[0] != '0'
    ensures ParseNat(s) >= 1
    decreases |s|
  {
    if |s| > 1 {
      ParsePositive(s[..|s| - 1]);
    } else {
      assert s[..0] == "";
    }
  }

  function Repeat(c: char, n: nat): (r: string)
    ensures |r| == n && forall i :: 0 <= i < n ==> r[i] == c
  {
    seq(n, _ => c)
  }

  /** The number of occurrences of `x` in `xs`. */
  function Occurrences<T(==)>(xs: seq<T>, x: T): (k: nat)
    ensures k <= |xs|
    ensures k == 0 <==> x !in xs
  {
    if |xs| == 0 then 0
    else (if xs[0] == x then 1 else 0) + Occurrences(xs[1..], x)
  }

  lemma OccurrencesAppend<T>(xs: seq<T>, ys: seq<T>, x: T)
    ensures Occurrences(xs + ys, x) == Occurrences(xs, x) + Occurrences(ys, x)
  {
    if |xs| > 0 {
      assert (xs + ys)[1..] == xs[1..] + ys;
      OccurrencesAppend(xs[1..], ys, x);
    } else {
      assert xs + ys == ys;
    }
  }
}

=== FILE: type_handling.dfy ===
/** Numeric-string classification and conversion helpers
    (tamer/type_handling.py). The two regular expressions of `isnumericplus`
    are written out as scanners over the string; since each character class
    in them is disjoint from the next, the greedy scan is the only way they
    can match. */
module TypeHandling {
  import opened Wrappers
  import opened Text
  import opened Values
  import opened Decorators

  predicate IsMinus(c: char) { c == '-' }
  predicate IsDot(c: char) { c == '.' }

  /** The length of the longest prefix of `s` whose characters satisfy `p`. */
  function Span(s: string, p: char -> bool): (k: nat)
    ensures k <= |s|
    ensures forall i :: 0 <= i < k ==> p(s[i])
    ensures k < |s| ==> !p(s[k])
  {
    if |s| > 0 && p(s[0]) then 1 + Span(s[1..], p) else 0
  }

  /** The span is determined by where `p` first fails. */
  lemma SpanOf(a: string, b: string, p: char -> bool)
    requires forall i :: 0 <= i < |a| ==> p(a[i])
    requires |b| > 0 ==> !p(b[0])
    ensures Span(a + b, p) == |a|
  {
    assert forall i :: 0 <= i < |a| ==> (a + b)[i] == a[i];
    assert |b| > 0 ==> (a + b)[|a|] == b[0];
  }

  /** In a search, `$` matches at the very end or just before a final
      newline; matching the remaining text against an anchored pattern is
      therefore matching `s` without that newline. */
  function DropFinalNewline(s: string): (t: string)
    ensures t == s || (s == t + "\n")
  {
    if |s| > 0 && s[|s| - 1] == '\n' then s[..|s| - 1] else s
  }

  /** `-*\d+` over the whole text. */
  predicate IntBody(t: string) {
    var m := Span(t, IsMinus);
    var d := Span(t[m..], IsDigit);
    d > 0 && m + d == |t|
  }

  /** `\.+\d*` over the whole text. */
  predicate FloatTail(u: string) {
    var p := Span(u, IsDot);
    p > 0 && AllDigits(u[p..])
  }

  /** `-*\d+\.+\d*` over the whole text. */
  predicate FloatBody(t: string) {
    var m := Span(t, IsMinus);
    var d := Span(t[m..], IsDigit);
    d > 0 && FloatTail(t[m + d..])
  }

  /** `re.search(r"^-*\d+$", s)` succeeds. */
  predicate MatchesInt(s: string) { IntBody(DropFinalNewline(s)) }

  /** `re.search(r"^-*\d+\.+\d*$", s)` succeeds. */
  predicate MatchesFloat(s: string) { FloatBody(DropFinalNewline(s)) }

  /** Minus signs followed by digits are an integer body. */
  lemma IntBodyOf(a: string, ds: string)
    requires forall i :: 0 <= i < |a| ==> a[i] == '-'
    requires |ds| > 0 && AllDigits(ds)
    ensures IntBody(a + ds)
  {
    var t := a + ds;
    SpanOf(a, ds, IsMinus);
    assert t[|a|..] == ds + "";
    SpanOf(ds, "", IsDigit);
  }

  /** A text without dots is no float body. */
  lemma NoDotNoFloat(t: string)
    requires '.' !in t
    ensures !FloatBody(t)
  {
    var m := Span(t, IsMinus);
    var d := Span(t[m..], IsDigit);
    if m + d < |t| {
      assert t[m + d..][0] == t[m + d];
    }
  }

  /** Minus signs followed by digits match the integer pattern, not the
      float one. */
  lemma IntTextMatches(m: nat, ds: string)
    requires |ds| > 0 && AllDigits(ds)
    ensures MatchesInt(Repeat('-', m) + ds)
    ensures !MatchesFloat(Repeat('-', m) + ds)
  {
    var s := Repeat('-', m) + ds;
    assert s[|s| - 1] == ds[|ds| - 1];
    assert DropFinalNewline(s) == s;
    IntBodyOf(Repeat('-', m), ds);
    assert '.' !in s;
    NoDotNoFloat(s);
  }

  /** Every match of the integer pattern is minus signs followed by digits. */
  lemma IntMatchShape(s: string)
    requires MatchesInt(s)
    ensures var t := DropFinalNewline(s); var m := Span(t, IsMinus);
      t == Repeat('-', m) + t[m..] && |t[m..]| > 0 && AllDigits(t[m..])
  {
    var t := DropFinalNewline(s);
    var m := Span(t, IsMinus);
    assert t[..m] == Repeat('-', m);
    assert t == t[..m] + t[m..];
  }

  /** Minus signs, digits, dots and digits are a float body. */
  lemma FloatBodyOf(a: string, ds: string, dots: string, es: string)
    requires forall i :: 0 <= i < |a| ==> a[i] == '-'
    requires |ds| > 0 && AllDigits(ds)
    requires |dots| > 0 && forall i :: 0 <= i < |dots| ==> dots[i] == '.'
    requires AllDigits(es)
    ensures FloatBody(a + ds + dots + es)
  {
    var tail := dots + es;
    FloatTailOf(dots, es);
    assert a + ds + dots + es == a + (ds + tail);
    NumberPrefix(a, ds, tail);
  }

  lemma FloatTailOf(dots: string, es: string)
    requires |dots| > 0 && forall i :: 0 <= i < |dots| ==> dots[i] == '.'
    requires AllDigits(es)
    ensures FloatTail(dots + es)
  {
    SpanOf(dots, es, IsDot);
    assert (dots + es)[|dots|..] == es;
  }

  /** Signs, then digits, then a text starting with neither: the scans of
      both bodies stop where the digits end. */
  lemma NumberPrefix(a: string, ds: string, tail: string)
    requires forall i :: 0 <= i < |a| ==> a[i] == '-'
    requires |ds| > 0 && AllDigits(ds)
    requires |tail| > 0 ==> tail[0] != '-' && !IsDigit(tail[0])
    ensures var t := a + (ds + tail); var m := Span(t, IsMinus);
      m == |a| && t[m..] == ds + tail && Span(t[m..], IsDigit) == |ds| && t[m + |ds|..] == tail
  {
    var t := a + (ds + tail);
    assert (ds + tail)[0] == ds[0];
    SpanOf(a, ds + tail, IsMinus);
    assert t[|a|..] == ds + tail;
    SpanOf(ds, tail, IsDigit);
    assert t[|a| + |ds|..] == tail;
  }

  /** Minus signs, digits, dots and digits match the float pattern. */
  lemma FloatTextMatches(m: nat, ds: string, p: nat, es: string)
    requires |ds| > 0 && AllDigits(ds) && p > 0 && AllDigits(es)
    ensures MatchesFloat(Repeat('-', m) + ds + Repeat('.', p) + es)
  {
    var s := Repeat('-', m) + ds + Repeat('.', p) + es;
    assert s[|s| - 1] == if |es| > 0 then es[|es| - 1] else '.';
    assert DropFinalNewline(s) == s;
    FloatBodyOf(Repeat('-', m), ds, Repeat('.', p), es);
  }

  /** A match of the float pattern contains a dot. */
  lemma FloatHasDot(s: string)
    requires MatchesFloat(s)
    ensures '.' in s
  {
    var t := DropFinalNewline(s);
    var m := Span(t, IsMinus);
    var d := Span(t[m..], IsDigit);
    assert t[m + d..][0] == t[m + d] == '.';
    assert t[m + d] == s[m + d];
  }

  /** A match of either pattern contains only signs, digits, dots and a final
      newline. */
  lemma MatchChars(s: string, i: nat)
    requires MatchesInt(s) || MatchesFloat(s)
    requires i < |s|
    ensures s[i] == '-' || IsDigit(s[i]) || s[i] == '.' || (i == |s| - 1 && s[i] == '\n')
  {
    var t := DropFinalNewline(s);
    if i < |t| {
      assert s[i] == t[i];
      var m := Span(t, IsMinus);
      var d := Span(t[m..], IsDigit);
      if i >= m + d && MatchesFloat(s) {
        var p := Span(t[m + d..], IsDot);
        if i >= m + d + p {
          assert t[m + d + p..][i - m - d - p] == t[i];
        } else {
          assert t[m + d..][i - m - d] == t[i];
        }
      } else if i >= m {
        assert t[m..][i - m] == t[i];
      }
    }
  }

  /** The type `isnumericplus` settles on for a non-empty string: int for the
      integer pattern, then ZeroNumeric whenever the first character is `0`
      (other than "0" and "0.00"), then float for the float pattern. */
  function TextType(s: string): (v: PyType)
    requires |s| > 0
    ensures v == StrType || v == IntType || v == ZeroNumericType || v == FloatType
  {
    var v1 := if MatchesInt(s) then IntType else StrType;
    var v2 := if s[0] == '0' && s != "0" && s != "0.00" then ZeroNumericType else v1;
    if MatchesFloat(s) then FloatType else v2
  }

  predicate IsNumericType(t: PyType) {
    t == IntType || t == FloatType || t == ZeroNumericType
  }

  /** The pair `isnumericplus(x, return_type=True)` computes. */
  datatype Classification = Classification(numeric: bool, typ: PyType)

  /** `isnumericplus`. Indexing the first character of "" raises IndexError.
      Booleans are ints in Python, so they count as numeric. */
  function IsNumericPlus(x: Value): (r: Result<Classification>)
    ensures r.Err? <==> x == Str("")
    ensures r.Err? ==> r.error == IndexError
    ensures x.Int? || x.Bool? || x.Float? || x.Nan? || x.Zn? ==>
      r == Ok(Classification(true, TypeOf(x)))
    ensures x.NoneV? || x.Tuple? || x.List? || x.Dict? ==>
      r == Ok(Classification(false, TypeOf(x)))
    ensures x.Str? && r.Ok? ==> (r.value.numeric <==> IsNumericType(r.value.typ))
    ensures x.Str? && r.Ok? ==> r.value.typ == StrType || IsNumericType(r.value.typ)
  {
    match x
    case Int(_) => Ok(Classification(true, TypeOf(x)))
    case Bool(_) => Ok(Classification(true, TypeOf(x)))
    case Float(_) => Ok(Classification(true, TypeOf(x)))
    case Nan => Ok(Classification(true, TypeOf(x)))
    case Zn(_) => Ok(Classification(true, TypeOf(x)))
    case Str(s) =>
      if |s| == 0 then Err(IndexError)
      else
        var v := TextType(s);
        Ok(Classification(IsNumericType(v), v))
    case _ => Ok(Classification(false, TypeOf(x)))
  }

  /** Minus signs and digits classify as int, unless the text is a
      zero-led number other than "0". */
  lemma ClassifyInt(m: nat, ds: string)
    requires |ds| > 0 && AllDigits(ds)
    requires m > 0 || ds[0] != '0' || ds == "0"
    ensures IsNumericPlus(Str(Repeat('-', m) + ds)) == Ok(Classification(true, IntType))
  {
    var s := Repeat('-', m) + ds;
    IntTextMatches(m, ds);
    if m > 0 {
      assert s[0] == '-';
    } else {
      assert s == ds;
    }
    IntTextType(s);
  }

  lemma IntTextType(s: string)
    requires |s| > 0 && MatchesInt(s) && !MatchesFloat(s) && (s[0] != '0' || s == "0")
    ensures TextType(s) == IntType
  {
  }

  /** Any dot-free text starting with `0`, other than "0", classifies as
      ZeroNumeric: only the first character is looked at, so "0abc" counts
      as numeric too. */
  lemma ClassifyZero(s: string)
    requires |s| > 0 && s[0] == '0' && s != "0" && '.' !in s
    ensures IsNumericPlus(Str(s)) == Ok(Classification(true, ZeroNumericType))
  {
    if MatchesFloat(s) {
      FloatHasDot(s);
    }
  }

  /** Signs, digits, dots and digits classify as float, overriding the other
      two rules. */
  lemma ClassifyFloat(m: nat, ds: string, p: nat, es: string)
    requires |ds| > 0 && AllDigits(ds) && p > 0 && AllDigits(es)
    ensures IsNumericPlus(Str(Repeat('-', m) + ds + Repeat('.', p) + es))
      == Ok(Classification(true, FloatType))
  {
    FloatTextMatches(m, ds, p, es);
  }

  /** Text containing a letter, and not starting with `0`, is not numeric. */
  lemma ClassifyWord(s: string, i: nat)
    requires i < |s| && IsLetter(s[i]) && s[0] != '0'
    ensures IsNumericPlus(Str(s)) == Ok(Classification(false, StrType))
  {
    if MatchesInt(s) || MatchesFloat(s) {
      MatchChars(s, i);
    }
  }

  /** The value `isnumericplus` returns: the bare flag, or the pair when the
      type is asked for. */
  datatype Answer = Flag(b: bool) | Pair(b: bool, typ: PyType)

  function IsNumericPlusAnswer(x: Value, returnType: bool): (r: Result<Answer>)
    ensures r.Err? <==> IsNumericPlus(x).Err?
    ensures r.Ok? ==> (r.value.Pair? <==> returnType)
    ensures r.Ok? ==> r.value.b == IsNumericPlus(x).value.numeric
    ensures r.Ok? && returnType ==> r.value.typ == IsNumericPlus(x).value.typ
  {
    var c :- IsNumericPlus(x);
    if returnType then Ok(Pair(c.numeric, c.typ)) else Ok(Flag(c.numeric))
  }

  /** The length of the first run of dots, 0 when there is none
      (`re.search(r"\.+", s)`). */
  function FirstDotRun(s: string): (k: nat)
    ensures k <= |s|
    ensures k == 0 <==> '.' !in s
  {
    if '.' in s then
      var i := IndexOf(s, '.');
      LeadingRun('.', s[i..])
    else 0
  }

  /** The dot-collapsing step of `convertplus`: when the first run of dots
      has two or more, every run of dots becomes one dot. */
  function CollapseDots(s: string): (r: string)
    ensures FirstDotRun(s) <= 1 ==> r == s
    ensures FirstDotRun(s) > 1 ==> NoDoubleRun('.', r)
    ensures DeleteChars(r, IsDot) == DeleteChars(s, IsDot)
  {
    if FirstDotRun(s) > 1 then
      SubRunsSingle('.', s);
      SubRunsKeepsOthers('.', s, IsDot);
      SubRuns('.', s, ".")
    else s
  }

  /** What a `convertplus` call comes to: the missing-value result, or a call
      of the target type's constructor on `arg`. Python's conversions
      themselves are outside the model. */
  datatype Conversion = NanReturned | Converts(arg: Value)

  function ConvertArgument(obj: Value, target: PyType): (r: Result<Conversion>)
    ensures r.Ok? ==> r.value.Converts?
    ensures !(obj.Str? && target == FloatType) ==> r == Ok(Converts(obj))
    ensures obj.Str? && target == FloatType ==> (r.Ok? <==> IsNumericPlus(obj).Ok?)
    ensures obj.Str? && target == FloatType && r.Ok? ==>
      r.value.arg.Str? && DeleteChars(r.value.arg.s, IsDot) == DeleteChars(obj.s, IsDot)
  {
    if obj.Str? && target == FloatType then
      var c :- IsNumericPlus(obj);
      if c.numeric then Ok(Converts(Str(CollapseDots(obj.s)))) else Ok(Converts(obj))
    else Ok(Converts(obj))
  }

  /** `convertplus(obj, target_type)`, which is `nullable`. */
  function ConvertPlus(obj: Value, target: PyType): (r: Result<Conversion>)
    ensures IsNull(obj) ==> r == Ok(NanReturned)
    ensures !IsNull(obj) && !(obj.Str? && target == FloatType) ==> r == Ok(Converts(obj))
    ensures obj == Str("") && target == FloatType ==> r == Err(IndexError)
    ensures obj.Str? && target == FloatType && r.Ok? ==>
      r.value.Converts? && r.value.arg.Str? &&
      DeleteChars(r.value.arg.s, IsDot) == DeleteChars(obj.s, IsDot)
  {
    Nullable(args => if |args| > 0 then ConvertArgument(args[0], target) else Err(IndexError),
             NanReturned, [obj])
  }

  /** A numeric string whose first run of dots is long is handed to `float`
      with every run of dots shortened to one. */
  lemma ConvertPlusCollapses(s: string)
    requires s != "" && IsNumericPlus(Str(s)).value.numeric && FirstDotRun(s) > 1
    ensures ConvertPlus(Str(s), FloatType) == Ok(Converts(Str(CollapseDots(s))))
    ensures NoDoubleRun('.', CollapseDots(s))
  {
  }

  lemma CollapseDotsExample()
    ensures FirstDotRun("1..23") == 2
    ensures CollapseDots("1..23") == "1.23"
  {
    var s := "1..23";
    assert s[0] == '1' && s[1] == '.';
    assert IndexOf(s, '.') == 1;
    var t := s[1..];
    assert t == "..23";
    assert LeadingRun('.', t[2..]) == 0;
    assert LeadingRun('.', t) == 2;
    assert DropRun('.', t) == "23";
    assert SubRuns('.', "3", ".") == "3";
    assert SubRuns('.', "23", ".") == "23";
    assert SubRuns('.', t, ".") == ".23";
    assert SubRuns('.', s, ".") == "1.23";
  }

  /** The example "1..23" is handed to `float` as "1.23". */
  lemma ConvertPlusExample()
    ensures ConvertPlus(Str("1..23"), FloatType) == Ok(Converts(Str("1.23")))
  {
    var w := Repeat('-', 0) + "1" + Repeat('.', 2) + "23";
    assert w == "1..23" by {
      assert Repeat('-', 0) == "";
      assert Repeat('.', 2) == "..";
    }
    assert IsNumericPlus(Str("1..23")) == Ok(Classification(true, FloatType)) by {
      ClassifyFloat(0, "1", 2, "23");
    }
    CollapseDotsExample();
    ConvertPlusCollapses("1..23");
  }

  /** `type_plus(obj)`: the type of `obj`, with `None` standing for the NaN
      that `nullable` returns for a missing value. */
  function TypePlus(obj: Value): (r: Result<Option<PyType>>)
    ensures r == Ok(None) <==> IsNull(obj)
    ensures !IsNull(obj) ==> r == Ok(Some(TypeOf(obj)))
  {
    Nullable(args => if |args| > 0 then Ok(Some(TypeOf(args[0]))) else Err(IndexError),
             None, [obj])
  }
}

=== FILE: values.dfy ===
/** The dynamically typed Python values that flow through the library:
    spreadsheet cells, column labels, arguments of the generic utilities. */
module Values {
  import opened Wrappers
  import opened Text

  /** A number that remembers its leading zeros (tamer/numerics/zero_numeric.py).
      `value` is the text without apostrophes, `zeros` its leading run of '0'
      and `numeric` the number the rest denotes (integers only). */
  datatype ZeroNumeric = ZeroNumeric(zeros: string, value: string, numeric: int)

  /** A Python value. A float is represented by its `str()` text, since float
      arithmetic is outside the model; `Nan` is the float NaN pandas uses for
      missing cells. */
  datatype Value =
    | NoneV
    | Nan
    | Bool(b: bool)
    | Int(i: int)
    | Float(text: string)
    | Str(s: string)
    | Zn(zn: ZeroNumeric)
    | Tuple(items: seq<Value>)
    | List(items: seq<Value>)
    | Dict(entries: seq<(Value, Value)>)

  /** The classes `type()` reports for the modelled values. */
  datatype PyType =
    | NoneType | FloatType | BoolType | IntType | StrType | ZeroNumericType
    | TupleType | ListType | DictType

  function TypeOf(v: Value): PyType {
    match v
    case NoneV => NoneType
    case Nan => FloatType
    case Bool(_) => BoolType
    case Int(_) => IntType
    case Float(_) => FloatType
    case Str(_) => StrType
    case Zn(_) => ZeroNumericType
    case Tuple(_) => TupleType
    case List(_) => ListType
    case Dict(_) => DictType
  }

  /** `pd.isna` on a scalar: None and NaN are the missing values. */
  predicate IsNull(v: Value) { v.NoneV? || v.Nan? }

  /** `isinstance(v, collections.abc.Collection)`. */
  predicate IsCollection(v: Value) { v.Str? || v.Tuple? || v.List? || v.Dict? }

  /** Python truthiness; a ZeroNumeric is truthy through its `__len__`. */
  predicate Truthy(v: Value) {
    match v
    case NoneV => false
    case Nan => true
    case Bool(b) => b
    case Int(i) => i != 0
    case Float(t) => t != "0.0" && t != "-0.0"
    case Str(s) => s != ""
    case Zn(z) => z.value != ""
    case Tuple(items) => items != []
    case List(items) => items != []
    case Dict(entries) => entries != []
  }

  /** The keys of a dict, in insertion order. */
  function Keys(entries: seq<(Value, Value)>): (ks: seq<Value>)
    ensures |ks| == |entries|
    ensures forall i :: 0 <= i < |entries| ==> ks[i] == entries[i].0
  {
    seq(|entries|, i requires 0 <= i < |entries| => entries[i].0)
  }

  /** What `iter(v)` yields: characters of a string, elements of a tuple or
      list, keys of a dict; anything else is not iterable. */
  function Iterate(v: Value): (r: Result<seq<Value>>)
    ensures r.Ok? <==> IsCollection(v)
    ensures v.Tuple? || v.List? ==> r == Ok(v.items)
    ensures v.Str? ==>
      r.Ok? && |r.value| == |v.s| && forall i :: 0 <= i < |v.s| ==> r.value[i] == Str([v.s[i]])
  {
    match v
    case Str(s) => Ok(seq(|s|, i requires 0 <= i < |s| => Str([s[i]])))
    case Tuple(items) => Ok(items)
    case List(items) => Ok(items)
    case Dict(entries) => Ok(Keys(entries))
    case _ => Err(TypeError)
  }

  /** `str(v)` for the scalar values; the text of a container involves `repr`
      escaping, which the model does not follow. */
  function PyStr(v: Value): (r: Option<string>)
    ensures r.None? <==> v.Tuple? || v.List? || v.Dict?
    ensures v.Str? ==> r == Some(v.s)
  {
    match v
    case NoneV => Some("None")
    case Nan => Some("nan")
    case Bool(b) => Some(if b then "True" else "False")
    case Int(i) => Some(IntToString(i))
    case Float(t) => Some(t)
    case Str(s) => Some(s)
    case Zn(z) => Some("'" + z.value)
    case _ => None
  }

  /** Wraps every string as a `Str` value. */
  function Strs(xs: seq<string>): (r: seq<Value>)
    ensures |r| == |xs| && forall i :: 0 <= i < |xs| ==> r[i] == Str(xs[i])
  {
    seq(|xs|, i requires 0 <= i < |xs| => Str(xs[i]))
  }

  /** `len(v)`: strings, tuples, lists, dicts and ZeroNumerics (the length
      of their text) have a length; asking for the length of anything else
      raises TypeError. */
  function Len(v: Value): (r: Result<nat>)
    ensures r.Ok? <==> IsCollection(v) || v.Zn?
    ensures r.Err? ==> r.error == TypeError
    ensures v.List? || v.Tuple? ==> r == Ok(|v.items|)
    ensures v.Str? ==> r == Ok(|v.s|)
    ensures v.Dict? ==> r == Ok(|v.entries|)
  {
    match v
    case Str(s) => Ok(|s|)
    case Tuple(items) => Ok(|items|)
    case List(items) => Ok(|items|)
    case Dict(entries) => Ok(|entries|)
    case Zn(z) => Ok(|z.value|)
    case _ => Err(TypeError)
  }
}

=== FILE: wrappers.dfy ===
/** Failure-carrying datatypes shared by every module of the model.

    Python signals errors by raising exceptions; the model returns them as
    values. `Error` names the exception class the source raises.
 */
module Wrappers {

  datatype Option<+T> = None | Some(value: T) {
    predicate IsFailure() { None? }

    function PropagateFailure<U>(): Option<U>
      requires None?
    {
      None
    }

    function Extract(): T
      requires Some?
    {
      value
    }

    function GetOr(default: T): T {
      match this
      case Some(v) => v
      case None => default
    }
  }

  /** The exception classes raised by the modelled code. */
  datatype Error =
    | ValueError
    | IndexError
    | KeyError
    | TypeError
    | AttributeError
    | ZeroDivisionError
      /** A path the model deliberately does not follow (floating point). */
    | Unmodelled

  datatype Result<+T> = Ok(value: T) | Err(error: Error) {
    predicate IsFailure() { Err? }

    function PropagateFailure<U>(): Result<U>
      requires Err?
    {
      Err(error)
    }

    function Extract(): T
      requires Ok?
    {
      value
    }
  }

  /** Python's normalisation of a possibly negative list index; None means
      the access raises IndexError. */
  function PyIndex(k: int, n: nat): (r: Option<nat>)
    ensures r.Some? <==> -(n as int) <= k < n
    ensures r.Some? ==> r.value < n && (r.value == k || r.value == n + k)
  {
    if 0 <= k < n then Some(k)
    else if -(n as int) <= k < 0 then Some(n + k)
    else None
  }
}

=== FILE: zero_numeric.dfy ===
/** `ZeroNumeric` (tamer/numerics/zero_numeric.py): a number that keeps the
    zeros on its left. Only the integer paths are modelled; where the source
    would produce a float the model answers `Err(Unmodelled)`. */
module ZeroNumerics {
  import opened Wrappers
  import opened Text
  import opened Values
  import opened TypeHandling
  import IterUtils

  predicate IsZeroChar(c: char) { c == '0' }
  predicate IsNonzeroDigit(c: char) { '1' <= c <= '9' }
  predicate IsApostrophe(c: char) { c == '\'' }

  predicate AllZeros(s: string) { forall i :: 0 <= i < |s| ==> s[i] == '0' }

  /** A ZeroNumeric whose text is its zeros followed by the decimal text of
      its (positive) number: what construction from such a string gives. */
  predicate Canonical(z: ZeroNumeric) {
    AllZeros(z.zeros) && z.numeric >= 1 && z.value == z.zeros + NatToString(z.numeric)
  }

  /** The match of `(^0*)([1-9]+\d*\.*\d*)` at the start of `value`, as the
      pair of groups: the leading zeros, then the longest run of digits
      (starting with a nonzero one), dots and digits after them. */
  function SplitMatch(value: string): (r: Option<(string, string)>)
    ensures r.None? <==>
      var z := Span(value, IsZeroChar); z == |value| || !IsNonzeroDigit(value[z])
    ensures r.Some? ==>
      var (zs, piece) := r.value;
      AllZeros(zs) && |piece| > 0 && IsNonzeroDigit(piece[0]) &&
      OccursAt(value, zs + piece, 0)
  {
    var z := Span(value, IsZeroChar);
    if z < |value| && IsNonzeroDigit(value[z]) then
      var rest := value[z..];
      var d := Span(rest, IsDigit);
      var p := Span(rest[d..], IsDot);
      var e := Span(rest[d + p..], IsDigit);
      assert value[..z + d + p + e] == value[..z] + rest[..d + p + e];
      Some((value[..z], rest[..d + p + e]))
    else None
  }

  /** `split_zeros(value)`. Without a match, taking the first element of the
      empty list of matches raises IndexError; a number part containing a
      dot is a float, outside the model. */
  function SplitZeros(value: string): (r: Result<(string, int)>)
    ensures r == Err(IndexError) <==> SplitMatch(value).None?
    ensures r.Ok? ==>
      var (zs, n) := r.value;
      AllZeros(zs) && n >= 1 && OccursAt(value, zs + NatToString(n), 0) &&
      (|zs| < |value| && value[|zs|] != '0')
  {
    match SplitMatch(value)
    case None => Err(IndexError)
    case Some((zs, piece)) =>
      if AllDigits(piece) then
        NatToStringParse(piece);
        ParsePositive(piece);
        Ok((zs, ParseNat(piece)))
      else Err(Unmodelled)
  }

  /** Zeros followed by the decimal text of a positive number split back
      into the two. */
  lemma SplitZerosOf(zs: string, n: int)
    requires AllZeros(zs) && n >= 1
    ensures SplitZeros(zs + NatToString(n)) == Ok((zs, n))
  {
    var d := NatToString(n);
    var value := zs + d;
    SpanOf(zs, d, IsZeroChar);
    assert value[|zs|..] == d + "";
    SpanOf(d, "", IsDigit);
    assert d[|d|..] == "";
    assert value[..|zs|] == zs;
    assert d[..|d|] == d;
    ParseNatToString(n);
  }

  /** The text `ZeroNumeric(text)` works on: every apostrophe removed. */
  function Unquote(text: string): string {
    DeleteChars(text, IsApostrophe)
  }

  /** `ZeroNumeric(value)` for a string `value`. The empty text fails at the
      first-character test of `isnumericplus` with IndexError. */
  function FromText(text: string): (r: Result<ZeroNumeric>)
    ensures r.Ok? ==> r.value.value == Unquote(text)
    ensures Unquote(text) == "" ==> r == Err(IndexError)
    ensures r == Err(ValueError) <==>
      Unquote(text) != "" && !IsNumericPlus(Str(Unquote(text))).value.numeric
    ensures r.Ok? ==>
      AllZeros(r.value.zeros) && r.value.numeric >= 1 &&
      OccursAt(r.value.value, r.value.zeros + NatToString(r.value.numeric), 0)
  {
    var value := Unquote(text);
    var c :- IsNumericPlus(Str(value));
    if !c.numeric then Err(ValueError)
    else
      var (zs, n) :- SplitZeros(value);
      Ok(ZeroNumeric(zs, value, n))
  }

  /** `ZeroNumeric(v)` for any value. NaN and None raise ValueError; an int
      or a bool is kept as the number, with its `str` as the text; anything
      else goes through `str`. Floats and containers are outside the model. */
  function FromValue(v: Value): (r: Result<ZeroNumeric>)
    ensures IsNull(v) ==> r == Err(ValueError)
    ensures v.Int? ==> r == Ok(ZeroNumeric("", IntToString(v.i), v.i))
    ensures v.Str? ==> r == FromText(v.s)
    ensures v.Zn? ==> r == FromText("'" + v.zn.value)
  {
    match v
    case NoneV => Err(ValueError)
    case Nan => Err(ValueError)
    case Int(i) => Ok(ZeroNumeric("", IntToString(i), i))
    case Bool(b) => Ok(ZeroNumeric("", if b then "True" else "False", if b then 1 else 0))
    case Str(s) => FromText(s)
    case Zn(z) => FromText("'" + z.value)
    case _ => Err(Unmodelled)
  }

  lemma UnquoteLeading(j: nat, s: string)
    requires '\'' !in s
    ensures Unquote(Repeat('\'', j) + s) == s
  {
    DeleteCharsAppend(Repeat('\'', j), s, IsApostrophe);
    AllDeleted(Repeat('\'', j), IsApostrophe);
    DeleteCharsNothing(s, IsApostrophe);
  }

  /** Construction succeeds when the unquoted text is numeric and splits. */
  lemma FromTextIs(text: string, value: string, zs: string, n: int)
    requires Unquote(text) == value && value != ""
    requires IsNumericPlus(Str(value)).value.numeric
    requires SplitZeros(value) == Ok((zs, n))
    ensures FromText(text) == Ok(ZeroNumeric(zs, value, n))
  {
  }

  /** Zeros followed by a positive decimal number are a numeric text. */
  lemma ZerosNumberNumeric(zs: string, n: int)
    requires AllZeros(zs) && n >= 1
    ensures var value := zs + NatToString(n);
      value != "" && '\'' !in value && IsNumericPlus(Str(value)).value.numeric
  {
    var d := NatToString(n);
    var value := zs + d;
    assert forall i :: 0 <= i < |value| ==> value[i] == '0' || IsDigit(value[i]);
    if |zs| > 0 {
      assert value[0] == '0' && |value| > 1;
      ClassifyZero(value);
    } else {
      assert Repeat('-', 0) + d == value;
      ClassifyInt(0, d);
    }
  }

  /** Leading apostrophes, zeros and a positive decimal number construct the
      ZeroNumeric with exactly those zeros and that number. */
  lemma FromTextOf(j: nat, zs: string, n: int)
    requires AllZeros(zs) && n >= 1
    ensures FromText(Repeat('\'', j) + (zs + NatToString(n)))
      == Ok(ZeroNumeric(zs, zs + NatToString(n), n))
  {
    var value := zs + NatToString(n);
    ZerosNumberNumeric(zs, n);
    UnquoteLeading(j, value);
    SplitZerosOf(zs, n);
    FromTextIs(Repeat('\'', j) + value, value, zs, n);
  }

  /** Zeros and a positive decimal number, without apostrophes. */
  lemma FromTextPlain(zs: string, n: int)
    requires AllZeros(zs) && n >= 1
    ensures FromText(zs + NatToString(n)) == Ok(ZeroNumeric(zs, zs + NatToString(n), n))
  {
    var value := zs + NatToString(n);
    ZerosNumberNumeric(zs, n);
    DeleteCharsNothing(value, IsApostrophe);
    SplitZerosOf(zs, n);
    FromTextIs(value, value, zs, n);
  }

  /** A canonical ZeroNumeric is rebuilt unchanged from its text, with or
      without the apostrophe `str` puts in front. */
  lemma CanonicalRoundTrip(z: ZeroNumeric, j: nat)
    requires Canonical(z)
    ensures FromText(Repeat('\'', j) + z.value) == Ok(z)
  {
    FromTextOf(j, z.zeros, z.numeric);
  }

  /** `str(zn)`. */
  function StrOf(z: ZeroNumeric): (r: string)
    ensures |r| == Len(z) + 1 && r[0] == '\'' && r[1..] == Repr(z)
    ensures PyStr(Zn(z)) == Some(r)
  {
    "'" + z.value
  }

  /** `repr(zn)`. */
  function Repr(z: ZeroNumeric): string { z.value }

  /** `len(zn)`. */
  function Len(z: ZeroNumeric): nat { |z.value| }

  /** `str` followed by construction gives back a canonical ZeroNumeric. */
  lemma StrRoundTrip(z: ZeroNumeric)
    requires Canonical(z)
    ensures FromValue(Str(StrOf(z))) == Ok(z)
    ensures FromValue(Zn(z)) == Ok(z)
  {
    CanonicalRoundTrip(z, 1);
    assert Repeat('\'', 1) == "'";
  }

  /** A ZeroNumeric built from a bool: its number is the bool itself, and
      its text is the bool's name. No numeric text is a bool's name, so the
      text tells the two apart. */
  predicate FromBool(z: ZeroNumeric) {
    z.value == "True" || z.value == "False"
  }

  /** `str(self._numeric)`: the bool's name, or the decimal text. */
  function NumericText(z: ZeroNumeric): string {
    if FromBool(z) then z.value else IntToString(z.numeric)
  }

  /** Exactly the bools give a ZeroNumeric whose number is a bool. */
  lemma FromBoolExactly(v: Value)
    requires FromValue(v).Ok?
    ensures FromBool(FromValue(v).value) <==> v.Bool?
  {
  }

  /** Padding a bool's ZeroNumeric, as written: zeros followed by "True" or
      "False". Without zeros the text is not numeric (ValueError); with
      zeros it passes as a zero-led numeric but has no digit after the
      zeros, so `split_zeros` raises IndexError. */
  lemma BoolPadFails(k: nat, name: string)
    requires name == "True" || name == "False"
    ensures FromText(Repeat('0', k) + name) == (if k == 0 then Err(ValueError) else Err(IndexError))
  {
    if k == 0 {
      assert Repeat('0', k) + name == name;
      BoolNameFails(name);
    } else {
      ZeroLedFails(k, name);
    }
  }

  lemma BoolNameFails(name: string)
    requires name == "True" || name == "False"
    ensures FromText(name) == Err(ValueError)
  {
    BoolPadUnquoted(0, name);
    assert Repeat('0', 0) + name == name;
    ClassifyWord(name, 0);
  }

  lemma ZeroLedFails(k: nat, name: string)
    requires k > 0 && (name == "True" || name == "False")
    ensures FromText(Repeat('0', k) + name) == Err(IndexError)
  {
    BoolPadUnquoted(k, name);
    ZeroLedSplitFails(k, name);
  }

  lemma BoolPadUnquoted(k: nat, name: string)
    requires name == "True" || name == "False"
    ensures Unquote(Repeat('0', k) + name) == Repeat('0', k) + name
  {
    var t := Repeat('0', k) + name;
    forall i | 0 <= i < |t| ensures !IsApostrophe(t[i]) {
      if i >= k { assert t[i] == name[i - k]; }
    }
    DeleteCharsNothing(t, IsApostrophe);
  }

  /** Zeros followed by a letter: `isnumericplus` takes the text as a
      zero-led numeric, and `split_zeros` finds no digit after the zeros. */
  lemma ZeroLedSplitFails(k: nat, name: string)
    requires k > 0 && (name == "True" || name == "False")
    ensures IsNumericPlus(Str(Repeat('0', k) + name)) == Ok(Classification(true, ZeroNumericType))
    ensures SplitZeros(Repeat('0', k) + name) == Err(IndexError)
  {
    var t := Repeat('0', k) + name;
    assert t[0] == '0' && t[k] == name[0];
    assert '.' !in t by {
      forall i | 0 <= i < |t| ensures t[i] != '.' {
        if i >= k { assert t[i] == name[i - k]; }
      }
    }
    ClassifyZero(t);
    SpanOf(Repeat('0', k), name, IsZeroChar);
  }

  /** `pad(length)` as written: the number of zeros is computed from the
      length of the whole text, zeros included, but the zeros already
      present are then dropped, and the number is written out with `str`. */
  function PadAsWritten(z: ZeroNumeric, length: int): (r: Result<ZeroNumeric>)
    ensures Canonical(z) ==> r.Ok? && r.value.numeric == z.numeric
    ensures Canonical(z) ==> Len(r.value) == IterUtils.Max(length - Len(z), 0) + Len(z) - |z.zeros|
    ensures Canonical(z) ==>
      Canonical(r.value) && r.value.value == Repeat('0', IterUtils.Max(length - Len(z), 0)) + IntToString(z.numeric)
    ensures FromBool(z) ==>
      r == (if length <= Len(z) then Err(ValueError) else Err(IndexError))
  {
    var k := IterUtils.Max(length - Len(z), 0);
    if Canonical(z) then
      assert !FromBool(z) by { assert z.value[0] == (z.zeros + NatToString(z.numeric))[0]; }
      FromTextPlain(Repeat('0', k), z.numeric);
      FromText(Repeat('0', k) + NumericText(z))
    else if FromBool(z) then
      BoolPadFails(k, z.value);
      FromText(Repeat('0', k) + NumericText(z))
    else FromText(Repeat('0', k) + NumericText(z))
  }

  /** `ZeroNumeric(True).pad()` raises ValueError and
      `ZeroNumeric(True).pad(5)` raises IndexError. */
  lemma BoolPadExample()
    ensures FromValue(Bool(true)).Ok?
    ensures PadAsWritten(FromValue(Bool(true)).value, 0) == Err(ValueError)
    ensures PadAsWritten(FromValue(Bool(true)).value, 5) == Err(IndexError)
  {
  }

  /** `pad(length)` as documented: zeros are added on the left of the text
      until it is `length` long. */
  function Pad(z: ZeroNumeric, length: int): (r: Result<ZeroNumeric>)
    ensures Canonical(z) ==> r.Ok? && r.value.numeric == z.numeric
    ensures Canonical(z) ==>
      r.value.value == Repeat('0', IterUtils.Max(length - Len(z), 0)) + z.value
    ensures Canonical(z) ==> Len(r.value) == IterUtils.Max(length, Len(z))
    ensures Canonical(z) && length <= Len(z) ==> r == Ok(z)
  {
    var k := IterUtils.Max(length - Len(z), 0);
    var t := Repeat('0', k) + z.value;
    if Canonical(z) then
      PadOf(z, k);
      if k == 0 then
        PadNothing(z);
        FromText(t)
      else FromText(t)
    else FromText(t)
  }

  lemma PadOf(z: ZeroNumeric, k: nat)
    requires Canonical(z)
    ensures FromText(Repeat('0', k) + z.value)
      == Ok(ZeroNumeric(Repeat('0', k) + z.zeros, Repeat('0', k) + z.value, z.numeric))
  {
    var zs := Repeat('0', k) + z.zeros;
    assert AllZeros(zs) by {
      forall i | 0 <= i < |zs| ensures zs[i] == '0' {
        if i >= k { assert zs[i] == z.zeros[i - k]; }
      }
    }
    assert zs + NatToString(z.numeric) == Repeat('0', k) + z.value;
    FromTextPlain(zs, z.numeric);
  }

  lemma PadNothing(z: ZeroNumeric)
    requires Canonical(z)
    ensures FromText(Repeat('0', 0) + z.value) == Ok(z)
  {
    assert Repeat('0', 0) + z.value == z.value;
    FromTextPlain(z.zeros, z.numeric);
  }

  /** With zeros present and a longer target, the written `pad` comes out
      shorter than asked for: by exactly the number of zeros it dropped. */
  lemma PadAsWrittenShort(z: ZeroNumeric, length: int)
    requires Canonical(z) && length > Len(z)
    ensures PadAsWritten(z, length).Ok?
    ensures Len(PadAsWritten(z, length).value) == length - |z.zeros|
  {
    var k := length - Len(z);
    var zs := Repeat('0', k);
    FromTextPlain(zs, z.numeric);
    assert IntToString(z.numeric) == NatToString(z.numeric);
  }

  /** The example of the finding: "00123" padded to 6 gives "0123". */
  lemma PadAsWrittenExample()
    ensures var z := ZeroNumeric("00", "00123", 123);
      Canonical(z) && PadAsWritten(z, 6).Ok? && Len(PadAsWritten(z, 6).value) == 4 &&
      Len(Pad(z, 6).value) == 6
  {
    var z := ZeroNumeric("00", "00123", 123);
    Decimal123();
    assert z.value == z.zeros + NatToString(123);
    PadAsWrittenShort(z, 6);
  }

  lemma Decimal123()
    ensures NatToString(123) == "123"
  {
    assert NatToString(1) == "1";
    assert NatToString(12) == "12";
  }

  /** The arithmetic result handling `_mod`: a zero result is the plain int
      0, anything else is rebuilt from the zeros and the result's text. */
  function Rebuild(z: ZeroNumeric, result: int): (r: Result<Value>)
    ensures result == 0 ==> r == Ok(Int(0))
  {
    if result == 0 then Ok(Int(0))
    else
      var zn :- FromText(z.zeros + IntToString(result));
      Ok(Zn(zn))
  }

  /** A positive result keeps the zeros. */
  lemma RebuildPositive(z: ZeroNumeric, result: int)
    requires AllZeros(z.zeros) && result > 0
    ensures Rebuild(z, result) == Ok(Zn(ZeroNumeric(z.zeros, z.zeros + NatToString(result), result)))
  {
    assert IntToString(result) == NatToString(result);
    FromTextPlain(z.zeros, result);
  }

  /** A negative result cannot be split and raises IndexError. */
  lemma RebuildNegative(z: ZeroNumeric, result: int)
    requires AllZeros(z.zeros) && result < 0
    ensures Rebuild(z, result) == Err(IndexError)
  {
    var n: nat := -result;
    var t := z.zeros + IntToString(result);
    assert t == z.zeros + "-" + NatToString(n);
    NegativeText(z.zeros, n);
  }

  /** Zeros, a minus sign and digits: numeric, but with no number to split. */
  lemma NegativeText(zs: string, n: nat)
    requires AllZeros(zs) && n >= 1
    ensures FromText(zs + "-" + NatToString(n)) == Err(IndexError)
  {
    var d := NatToString(n);
    var s := zs + "-" + d;
    NegativeNumeric(zs, d);
    DeleteCharsNothing(s, IsApostrophe);
    NegativeNoSplit(zs, d);
  }

  lemma NegativeNumeric(zs: string, d: string)
    requires AllZeros(zs) && |d| > 0 && AllDigits(d)
    ensures IsNumericPlus(Str(zs + "-" + d)).value.numeric
    ensures '\'' !in zs + "-" + d
  {
    var s := zs + "-" + d;
    assert forall i :: 0 <= i < |s| ==> s[i] == '0' || s[i] == '-' || IsDigit(s[i]);
    if |zs| > 0 {
      assert s[0] == '0' && s != "0";
      ClassifyZero(s);
    } else {
      assert s == Repeat('-', 1) + d;
      ClassifyInt(1, d);
    }
  }

  lemma NegativeNoSplit(zs: string, d: string)
    requires AllZeros(zs)
    ensures SplitMatch(zs + "-" + d).None?
  {
    var s := zs + "-" + d;
    assert s == zs + ("-" + d);
    SpanOf(zs, "-" + d, IsZeroChar);
    assert s[|zs|] == '-';
  }

  /** Python's `%` on ints: the result takes the sign of the divisor. */
  function PyMod(a: int, b: int): (r: int)
    requires b != 0
    ensures b > 0 ==> 0 <= r < b
    ensures b < 0 ==> b < r <= 0
  {
    var m := a % b;
    if b < 0 && m != 0 then m + b else m
  }

  datatype ArithOp = Add | Sub | Mul | Mod

  /** The integer operation itself; `%` rounds toward negative infinity. */
  function IntOp(op: ArithOp, a: int, b: int): int
    requires op == Mod ==> b != 0
  {
    match op
    case Add => a + b
    case Sub => a - b
    case Mul => a * b
    case Mod => PyMod(a, b)
  }

  /** `zn + other`, `zn - other`, `zn * other`, `zn % other` for an int
      operand (a bool is one). Other operands (strings, floats) are outside
      the model; `%` by zero raises ZeroDivisionError. */
  function Arith(z: ZeroNumeric, op: ArithOp, other: Value): (r: Result<Value>)
    ensures op == Mod && other == Int(0) ==> r == Err(ZeroDivisionError)
    ensures other.Int? && (op == Mod ==> other.i != 0) ==>
      r == Rebuild(z, IntOp(op, z.numeric, other.i))
    ensures !other.Int? && !other.Bool? ==> r == Err(Unmodelled)
  {
    match other
    case Int(i) => ApplyInt(z, op, i)
    case Bool(b) => ApplyInt(z, op, if b then 1 else 0)
    case _ => Err(Unmodelled)
  }

  function ApplyInt(z: ZeroNumeric, op: ArithOp, i: int): Result<Value> {
    if op == Mod && i == 0 then Err(ZeroDivisionError)
    else Rebuild(z, IntOp(op, z.numeric, i))
  }

  /** What an integer operation returns: the plain int 0 for a zero result,
      a ZeroNumeric with the same zeros for a positive one, and IndexError
      for a negative one. */
  lemma ArithResult(z: ZeroNumeric, op: ArithOp, i: int)
    requires AllZeros(z.zeros) && (op == Mod ==> i != 0)
    ensures var v := IntOp(op, z.numeric, i);
      && (v == 0 ==> Arith(z, op, Int(i)) == Ok(Int(0)))
      && (v > 0 ==>
            Arith(z, op, Int(i)) == Ok(Zn(ZeroNumeric(z.zeros, z.zeros + NatToString(v), v))))
      && (v < 0 ==> Arith(z, op, Int(i)) == Err(IndexError))
  {
    var v := IntOp(op, z.numeric, i);
    if v > 0 {
      RebuildPositive(z, v);
    } else if v < 0 {
      RebuildNegative(z, v);
    }
  }

  /** `zn == other`: against a string the text is compared, against anything
      else the number (another ZeroNumeric compares by its number too).
      Comparison with a float is outside the model. */
  function Eq(z: ZeroNumeric, other: Value): (r: Result<bool>)
    ensures other.Str? ==> r == Ok(z.value == other.s)
    ensures other.Int? ==> r == Ok(z.numeric == other.i)
    ensures IsNull(other) || other.Tuple? || other.List? || other.Dict? ==> r == Ok(false)
  {
    match other
    case Str(s) => Ok(z.value == s)
    case Int(i) => Ok(z.numeric == i)
    case Bool(b) => Ok(z.numeric == if b then 1 else 0)
    case Zn(o) => Ok(z.numeric == o.numeric)
    case Float(_) => Err(Unmodelled)
    case _ => Ok(false)
  }

  /** `zn != other`, written separately in the source; it is exactly the
      negation of `==`. */
  function Ne(z: ZeroNumeric, other: Value): (r: Result<bool>)
    ensures r.Ok? <==> Eq(z, other).Ok?
    ensures r.Ok? ==> r.value == !Eq(z, other).value
  {
    match other
    case Str(s) => Ok(z.value != s)
    case Int(i) => Ok(z.numeric != i)
    case Bool(b) => Ok(z.numeric != if b then 1 else 0)
    case Zn(o) => Ok(z.numeric != o.numeric)
    case Float(_) => Err(Unmodelled)
    case _ => Ok(true)
  }

  datatype CmpOp = Gt | Ge | Le | Lt

  /** `zn > other`, `zn >= other`, `zn <= other`, `zn < other`: the number
      is compared with an int operand (a bool is one). Ordering an int
      against a string, None or a container raises TypeError; floats and
      another ZeroNumeric (answered through Python's reflected operators)
      are outside the model. */
  function Compare(z: ZeroNumeric, op: CmpOp, other: Value): (r: Result<bool>)
    ensures r.Ok? <==> other.Int? || other.Bool?
    ensures other.Str? || other.NoneV? || other.Tuple? || other.List? || other.Dict? ==> r == Err(TypeError)
    ensures other.Int? && op == Gt ==> r == Ok(z.numeric > other.i)
    ensures other.Int? && op == Lt ==> r == Ok(z.numeric < other.i)
  {
    match other
    case Int(i) => Ok(IntCmp(op, z.numeric, i))
    case Bool(b) => Ok(IntCmp(op, z.numeric, if b then 1 else 0))
    case Str(_) => Err(TypeError)
    case NoneV => Err(TypeError)
    case Tuple(_) => Err(TypeError)
    case List(_) => Err(TypeError)
    case Dict(_) => Err(TypeError)
    case _ => Err(Unmodelled)
  }

  function IntCmp(op: CmpOp, a: int, b: int): bool {
    match op
    case Gt => a > b
    case Ge => a >= b
    case Le => a <= b
    case Lt => a < b
  }

  /** The four comparisons agree with each other and with `==`: `>=` is
      `>` or equal, `<=` is the negation of `>`, and `<` of `>=`. */
  lemma CompareConsistent(z: ZeroNumeric, i: int)
    ensures Compare(z, Ge, Int(i)).value <==> Compare(z, Gt, Int(i)).value || Eq(z, Int(i)).value
    ensures Compare(z, Le, Int(i)).value <==> !Compare(z, Gt, Int(i)).value
    ensures Compare(z, Lt, Int(i)).value <==> !Compare(z, Ge, Int(i)).value
  {
  }

  /** The example ZeroNumeric("00124") equals 124 and "00124"; 124 - 124 is
      the plain int 0 and 124 + 1 keeps the zeros. */
  lemma OperationsExample()
    ensures var z := ZeroNumeric("00", "00124", 124);
      Eq(z, Int(124)) == Ok(true) && Eq(z, Str("00124")) == Ok(true) &&
      Arith(z, Sub, Int(124)) == Ok(Int(0)) &&
      Arith(z, Add, Int(1)) == Ok(Zn(ZeroNumeric("00", "00" + NatToString(125), 125)))
  {
    var z := ZeroNumeric("00", "00124", 124);
    ArithResult(z, Add, 1);
    ArithResult(z, Sub, 124);
  }
}
